=== FILE: README.md ===
# Guitar arpeggiator: a Dafny model of its core

This project models the signal-level core of a guitar arpeggiator. A
guitar chord is detected from the input. An arpeggio is generated from
the chord's notes and rendered by a small synthesiser. Delay and
distortion effects and a stand-alone guitar synth process the audio.

The model covers these parts, each in its own module:

- **Arpeggio** (`arpeggio.dfy`): the arpeggio engine. It holds the
  pattern table, the pitch sort and the eight deterministic patterns.
  The shared loop structure becomes one schedule: event k plays slot
  k mod |cycle| of a per-pattern cycle.
- **Synth** (`synth.dfy`): the synth engine. It covers the oscillator
  table, note frequencies, the ADSR envelope, note rendering, mixing
  and normalisation.
- **ArpeggiatorApp** (`arpeggiator_app.dfy`): the application object.
  It covers the settings, start and stop, and the accept rule of the
  audio callback.
- **Chord detectors**, one module each:
  - `ChordDetector`: the FFT detector.
  - `SimpleChord`: the simple detector.
  - `EnhancedChord`: the enhanced detector.
  - `Chordino`: the Chordino-style detector.
  - `Polyphonic`: the polyphonic detector.
  - `EnhancedGuitar`: the enhanced single-note detector.
  - `GuitarTuner`: the windowed tuner.

  In all of them the spectral front end (FFT, peak picking, chroma
  extraction) is an input. What is modelled is the symbolic analysis:
  - nearest-note lookup;
  - grouping;
  - deduplication;
  - chord-quality matching;
  - confidence;
  - result assembly.
- **Delay effects**, one module each:
  - `BaseDelay`: the circular delay line.
  - `BasicDelay`: the basic delay.
  - `StereoDelay`: the stereo and ping-pong delay.
  - `MultiTap`: the multi-tap delay.
  - `TempoSynced`: the tempo-synced delay.
  - `Distortion`: the distortion and cross-feedback effects.
- **GuitarSynth** (`guitar_synth.dfy`): the guitar synth. It covers the
  ring modulator, bit crusher, sample-rate reducer, wave shaper,
  filter, envelope follower, parameter handling and reset.

Helper modules hold shared definitions:

- `Base`: options, outcomes, clipping, peaks and arithmetic facts.
- `Pitch`: the chromatic scale.
- `Sorting`: stable sorts, as Python's `sorted`.
- `Select`: first arg-min and arg-max, as numpy's.
- `RingBuffer`: circular buffers.

Numbers are modelled as mathematical reals and integers. Transcendental
functions are passed in as parameters or inputs: sine, tanh, exp, log,
sqrt, and the results of the FFT. Randomness is an input as well.

## Model

| member | source | states |
|---|---|---|
| Arpeggio.PatternOf | arpeggiator/arpeggio_engine.py:10-22 | a pattern is found exactly for the eleven registered names, and the pattern found is registered under that name |
| Arpeggio.PatternNameRoundTrip | arpeggiator/arpeggio_engine.py:10-22 | every pattern is registered under its own name, so looking up a pattern's name gives the pattern back |
| Arpeggio.SortNotesByPitch | arpeggiator/arpeggio_engine.py:357-365 | the result is a permutation of the notes, ordered by chromatic index; an unknown name ranks as C |
| Arpeggio.SortNotesByPitchIsStable | arpeggiator/arpeggio_engine.py:357-365 | notes of equal rank keep their input order, as Python's stable `sorted` does |
| Arpeggio.PatternOrUp | arpeggiator/arpeggio_engine.py:30 | an unknown pattern name falls back to 'up'; a known one is used as named |
| Arpeggio.Play | arpeggiator/arpeggio_engine.py:59-72 | the nested while/for loop emits exactly the events of the schedule: event k is slot k mod the cycle length, started k steps in; every event starts before the duration; their number is the least n with n steps reaching the duration |
| Arpeggio.PlayPass | arpeggiator/arpeggio_engine.py:60-70 | one pass of the inner loop extends the events on schedule; it stops mid-cycle only when the clock reaches the duration |
| Arpeggio.ScheduleIsUnique | arpeggiator/arpeggio_engine.py:59-72 | any event list with the schedule's length and per-event law is the schedule |
| Arpeggio.EventCountIsFirstNotBefore | arpeggiator/arpeggio_engine.py:59-61 | the number of events is the least n whose n-th step reaches the duration |
| Arpeggio.EventCountBounds | arpeggiator/arpeggio_engine.py:59-61 | the events just cover the duration: n steps reach it and n − 1 do not |
| Arpeggio.ScheduleFitsDuration | arpeggiator/arpeggio_engine.py:59-72 | every event starts before the duration, and the events together span it |
| Arpeggio.RunPattern | arpeggiator/arpeggio_engine.py:48-152 | a deterministic pattern gives no events for no notes; otherwise a tempo of 0 raises ZeroDivisionError, a negative tempo gives no events for a duration of at most 0 and never ends for a positive one, and a positive tempo plays the cycle over the pitch-sorted notes at its step |
| Arpeggio.FallingTimeNeverReaches | arpeggiator/arpeggio_engine.py:53-70 | at a negative tempo the running time after any number of events stays below a positive duration, so the pattern loop never exits |
| Arpeggio.GenerateArpeggio | arpeggiator/arpeggio_engine.py:24-46 | a missing, invalid or note-less chord gives the empty arpeggio; a deterministic pattern raises ZeroDivisionError at tempo 0 and never ends at a negative tempo and positive duration; a positive tempo always returns; a returned arpeggio records the chord, pattern name, tempo, duration, note count and chord timestamp, a deterministic pattern's notes follow the schedule and a random one's are the drawn notes |
| Arpeggio.UpAndDownEvents | arpeggiator/arpeggio_engine.py:48-98 | 'up' event k plays the (k mod n)-th sorted note in octave 4 at velocity 0.8, an eighth note long, k eighth notes in; 'down' plays the (k mod n)-th from the top |
| Arpeggio.UpDownPeriod | arpeggiator/arpeggio_engine.py:100-152 | 'up_down' climbs the sorted notes and comes back without repeating either end, a period of 2n − 2 (1 for a single note); 'down_up' mirrors it |
| Arpeggio.OctaveSweepAt | arpeggiator/arpeggio_engine.py:187-199 | slot j of an octave sweep plays note j mod n in the (j div n)-th octave of the list |
| Arpeggio.OctaveUpEvent | arpeggiator/arpeggio_engine.py:176-201 | 'octave_up' event k plays the (k mod n)-th sorted note in octave 3, 4 or 5 as (k div n) mod 3 is 0, 1 or 2, with velocity 0.7 + 0.1 per octave above 3, sixteenth notes apart |
| Arpeggio.OctaveDownEvent | arpeggiator/arpeggio_engine.py:203-228 | 'octave_down' plays the reversed notes through octaves 5, 4, 3 with velocity 0.9 − 0.1 per octave below 5 |
| Arpeggio.TranceEvent | arpeggiator/arpeggio_engine.py:230-260 | 'trance_16th' event k plays the (k mod n)-th note in octave 4, sixteenth notes apart, with velocity 0.8 times the accent [1.0, 0.6, 0.8, 0.7] at the note's position mod 4 |
| Arpeggio.RockEvent | arpeggiator/arpeggio_engine.py:325-355 | 'rock_eighth' event k plays eighth notes held for 0.9 of a step, with velocity 0.8 times the accent [1.0, 0.7, 0.9, 0.7] at the note's position mod 4 |
| Synth.OscillatorOf | synth_engine.py:17-27 | a synth is found exactly for the nine registered names, and the oscillator found is registered under that name |
| Synth.NineSynths | synth_engine.py:17-27 | the nine registered names are distinct and each oscillator's name looks it up |
| Synth.OscillatorFor | synth_engine.py:72 | an unknown synth type plays sawtooth; a known one plays its own oscillator |
| Synth.BaseFrequency | synth_engine.py:10-16 | the octave-4 table frequency of a note, 440 Hz for an unknown name; always positive |
| Synth.NoteFrequencyLaws | synth_engine.py:67-69 | each octave up doubles a note's frequency, octave 4 sounds the table frequency, and every frequency is positive |
| Synth.Linspace | synth_engine.py:217 | numpy's `linspace`: n values, the first the start |
| Synth.LinspaceEnds | synth_engine.py:217 | a linspace of two or more values ends exactly at its stop value |
| Synth.LinspaceBetween | synth_engine.py:217-235 | every value of a linspace lies between bounds holding both ends |
| Synth.AdsrEnvelope | synth_engine.py:199-237 | the envelope has one value per sample; it cannot be built (`None`) exactly when a slice assignment raises: an attack of two or more samples longer than the note, or a decay of two or more samples that the attack and decay together push past the note's end |
| Synth.OverrunIsAttackOnly | synth_engine.py:208-223 | when the attack and decay overrun the note without raising, the decay has at most one sample, which numpy broadcasts into an empty slice, and the envelope is the attack ramp stretched over the whole note |
| Synth.BroadcastRamps | synth_engine.py:216-223 | a three-sample note with a three-sample attack and a one-sample decay gets the attack ramp, a one-sample attack on an empty note gives an empty envelope, and a two-sample decay after a full attack raises |
| Synth.EnvelopeTiles | synth_engine.py:208-235 | the four phase writes tile the note: attack ramp, decay ramp, sustain level and release ramp laid end to end, with the release shortened when the note is short |
| Synth.EnvelopeBounded | synth_engine.py:199-237 | for a non-negative velocity and a sustain level in [0, 1], every value of an envelope that can be built lies in [0, velocity] |
| Synth.EnvelopeStartsSilent | synth_engine.py:216-217 | a note with an attack phase starts at 0 |
| Synth.EnvelopeEndsSilent | synth_engine.py:232-235 | a release of two or more samples ends the note at exactly 0 |
| Synth.DefaultEnvelope | synth_engine.py:199-224 | the engine's default envelope has int(duration × rate) samples; it cannot be built exactly when the default attack (0.05 s) and decay (0.1 s) make a slice assignment raise, which at 20 Hz and above is exactly when they are longer than the note |
| Synth.SixteenthsAt120CannotBeEnveloped | synth_engine.py:199-217 | at 48 kHz the default attack and decay (0.15 s) do not fit a sixteenth note at 120 BPM (0.125 s), so its envelope cannot be built |
| Synth.RenderNote | synth_engine.py:60-197 | a rendered note is the oscillator's samples times the default envelope, sample by sample; it fails exactly when the pad, lead or bass oscillator's own envelope (attack 0.1/0.01/0.05 s, release 0.3/0.1/0.4 s) or the default envelope cannot be built |
| Synth.RenderNoteFails | synth_engine.py:153-197 | at 20 samples per second or more, a note fails exactly when it has fewer samples than its attack and decay together: int(0.1 × rate) + int(0.1 × rate) for the pad, int(0.05 × rate) + int(0.1 × rate) for every other oscillator |
| Synth.PadEighthsAt160CannotBeRendered | synth_engine.py:153-167 | an eighth note at 160 bpm (0.1875 s, 48 kHz) renders with the saw oscillator but not with the pad, whose own envelope cannot be built |
| Synth.MixDown | synth_engine.py:39-53 | the mixing loop adds each note, clipped to the output length, into a zero buffer starting at its start sample; the output is the sum of the notes' contributions |
| Synth.Normalize | synth_engine.py:55-56 | the output has the input's length, and a silent buffer is left alone |
| Synth.NormalizeIsDivideThenScale | synth_engine.py:55-56 | each sample of a non-silent buffer becomes the sample divided by the peak, times 0.8 |
| Synth.NormalizedPeak | synth_engine.py:55-56 | a non-silent buffer peaks at exactly 0.8 after normalisation |
| Synth.RenderAll | synth_engine.py:39-40 | the notes rendered in order with the one synth type fail exactly when one of them fails; otherwise each is that note's `render_note` output |
| Synth.RenderArpeggio | synth_engine.py:29-58 | a missing arpeggio or one without notes renders to nothing; otherwise it raises `ValueError` exactly when some note's envelope, the synth type's own or the default one, cannot be built or the output has no sample at all (the peak search of an empty buffer), and else the output, int(duration × rate) samples long, is the normalised mix of the rendered notes at their start samples |
| ArpeggiatorApp.New | main.py:11-31 | the application starts stopped, with no chord, no last-chord time, and settings within the setters' ranges (120 BPM, 'up', 'saw', 2 s) |
| ArpeggiatorApp.SetTempo | main.py:319-322 | the tempo is clamped to [60, 200]; nothing else changes |
| ArpeggiatorApp.SetDuration | main.py:342-345 | the duration is clamped to [0.5, 10]; nothing else changes |
| ArpeggiatorApp.ClampingSettersIdempotent | main.py:319-345 | setting the same tempo or duration twice is setting it once |
| ArpeggiatorApp.SetPattern | main.py:324-331 | a registered pattern name is taken, and any other leaves the application unchanged |
| ArpeggiatorApp.SetSynth | main.py:333-340 | a registered synth name is taken, and any other leaves the application unchanged |
| ArpeggiatorApp.Start | main.py:119-139 | starting marks the application running; starting a running one changes nothing |
| ArpeggiatorApp.Stop | main.py:141-150 | stopping clears the running flag and nothing else |
| ArpeggiatorApp.StartStop | main.py:119-150 | starting twice is starting once, and stopping undoes a start from a stopped state |
| ArpeggiatorApp.AudioCallback | main.py:152-230 | a chord is accepted only when the block is non-empty, its peak is above 0.01, more than a second has passed since the last accepted chord, and the detection is valid with confidence above 0.6; then the chord, its time and a new arpeggio with the current settings are recorded; otherwise nothing changes; the output is always silence |
| ArpeggiatorApp.CooldownAfterAcceptance | main.py:188-197 | after a chord is accepted at time t, no detection is attempted until after t + 1 s, however loud the input |
| ArpeggiatorApp.QuietBlockIsIgnored | main.py:188 | a block whose samples all lie within the 0.01 threshold never triggers detection |
| ArpeggiatorApp.AudioCallbackAsWritten | main.py:152-230 | as written, the callback raises `AttributeError` exactly when the block is loud enough to be looked at; otherwise it returns silence with nothing changed |
| ArpeggiatorApp.AsWrittenNeverAccepts | main.py:152-197 | as written, every block that would be analysed raises first, so the chord, the arpeggio and the cooldown never change |
| ChordDetector.ColumnOrdered | chord_detector.py:13-26 | within each octave column of the reference table the pitches rise from C to B |
| ChordDetector.BandsOrdered | chord_detector.py:13-26 | every pitch of a lower octave column lies below every pitch of a higher one |
| ChordDetector.TableInjective | chord_detector.py:13-26 | no pitch appears twice in the reference table |
| ChordDetector.Octave4Agrees | chord_detector.py:13-26 | the octave-4 column of the detector's table is the synth's octave-4 pitch table |
| ChordDetector.ClosestEntry | chord_detector.py:151-176 | the search returns a table entry nearest to the frequency; on a tie the first entry visited wins, because only a strictly smaller difference replaces the match |
| ChordDetector.FindClosestNote | chord_detector.py:151-176 | the nearest note is a chromatic name in octave 2 to 6 with a non-negative frequency difference |
| ChordDetector.ClosestNoteNamesItsPitch | chord_detector.py:151-176 | the reported note and octave name the table pitch whose distance is the reported difference, and the cents are measured against that pitch |
| ChordDetector.ClosestNoteIsNearest | chord_detector.py:151-176 | no table pitch is nearer to the frequency than the reported one |
| ChordDetector.TablePitchNamedBack | chord_detector.py:151-176 | a table pitch is named back as its own note and octave, with no difference |
| ChordDetector.NoteOfPeak | chord_detector.py:127-140 | a peak becomes a note exactly when its nearest note is within 100 cents; the note keeps the peak's frequency |
| ChordDetector.InTune | chord_detector.py:127-140 | a note is kept exactly when some peak names to it within the tolerance; at most one per peak; every kept note is a chromatic name |
| ChordDetector.InTuneInOrder | chord_detector.py:127-140 | the kept notes of two runs of peaks are those of the first then those of the second, and one peak gives its note or nothing, so each peak contributes once, in input order |
| ChordDetector.FrequenciesToNotes | chord_detector.py:123-149 | the named notes carry distinct chromatic names |
| ChordDetector.KeepStrongestDistinct | chord_detector.py:142-149 | the de-duplication keeps at most one entry per note name |
| ChordDetector.KeepStrongestCovers | chord_detector.py:142-149 | every name heard keeps an entry |
| ChordDetector.KeepStrongestSources | chord_detector.py:142-149 | each kept entry is the first of the strongest entries bearing its name, since only a strictly stronger entry replaces it, and the names stay in order of first hearing |
| ChordDetector.KeepStrongestSummarises | chord_detector.py:142-149 | the de-duplication keeps exactly one entry per name heard, and that entry is the name's first strongest one |
| ChordDetector.GetChordNotes | chord_detector.py:204-216 | an unknown root gives no notes; a known root gives one chromatic name per interval |
| ChordDetector.ChordNotesAt | chord_detector.py:211-214 | note k of the chord on a root is the name the k-th interval above the root reaches, modulo the octave |
| ChordDetector.GetChordNotesTransposes | chord_detector.py:204-216 | building a chord on a root moved by s semitones moves each of its notes by s semitones, and an interval of 0 gives the root itself |
| ChordDetector.ChordConfidence | chord_detector.py:218-239 | the confidence lies in [0, 1]; it is 0 when either side is empty; it never exceeds the share of the chord's notes heard |
| ChordDetector.ScoreOf | chord_detector.py:224-239 | the score from the counts lies in [0, 1], never exceeds the share of matches, and is 1 for an exact fit |
| ChordDetector.ExactChordScoresOne | chord_detector.py:234-236 | hearing exactly a chord's distinct notes, once each, scores 1 |
| ChordDetector.ExtraNoteNeverHelps | chord_detector.py:229-232 | hearing one more note that is not in the chord never raises the confidence |
| ChordDetector.CandidateScores | chord_detector.py:187-190 | one score per (root, pattern) pair, in the root-then-pattern order of the nested loops |
| ChordDetector.AnalyzeChord | chord_detector.py:178-202 | fewer than two notes give no chord; a root is reported exactly when a quality is, it is one of the notes heard, and its confidence lies in (0, 1] |
| ChordDetector.AnalyzeChordIsBest | chord_detector.py:184-202 | the reported chord is a best-scoring candidate: no pair scores higher, every pair tried before it scores strictly lower, and nothing is named exactly when every pair scores 0 |
| ChordDetector.DetectChord | chord_detector.py:45-69 | the result is valid exactly when its confidence exceeds the configured minimum; its notes are the names of the de-duplicated peaks; its root, quality and confidence are the analysis of those names; a reported root is among them; a valid result has a root and at least two notes |
| ChordDetector.ValidDetectionIsBest | chord_detector.py:45-69 | a valid detection reports the first best-scoring (root, template) pair over the distinct names, and no pair scores above its confidence |
| SimpleChord.KeySplits | simple_chord_detector.py:29-39 | each key of the 49-entry table from E2 to E6 is a chromatic name followed by one octave digit from 2 to 6, so dropping the last character leaves the name |
| SimpleChord.TableOrdered | simple_chord_detector.py:29-39 | the table pitches rise strictly from E2 to E6 |
| SimpleChord.ClosestIndex | simple_chord_detector.py:221-241 | the entry found is nearest to the frequency, and on a tie the first entry visited wins |
| SimpleChord.FindClosestNote | simple_chord_detector.py:215-243 | no note is found exactly for a frequency that is not positive; otherwise the note is a chromatic name in octave 2 to 6 whose reference pitch is a table pitch |
| SimpleChord.ClosestNoteIsNearest | simple_chord_detector.py:215-243 | the reported note, octave and reference pitch are those of the nearest table entry, and the difference and cents are measured against it |
| SimpleChord.TablePitchNamedBack | simple_chord_detector.py:215-243 | a table pitch is named back as its own note and octave, with no difference |
| SimpleChord.StringsAreTablePitches | simple_chord_detector.py:42-49 | every open string is a pitch of the note table, under the same key |
| SimpleChord.IdentifyGuitarString | simple_chord_detector.py:245-257 | a string is reported exactly when one lies within 100 cents; the first such string, thickest first, is reported, with the difference measured from its pitch |
| SimpleChord.StringWithin | simple_chord_detector.py:245-257 | the first string within the tolerance is reported, with its name and pitch, and nothing is reported exactly when no string is within it |
| SimpleChord.WiderToleranceFinds | simple_chord_detector.py:245-257 | a wider tolerance never loses a string a narrower one finds |
| SimpleChord.TuningStatus | simple_chord_detector.py:259-266 | 'in tune' below 20 cents, 'slightly off' from 20 to below 50, 'out of tune' from 50 on, each exactly |
| SimpleChord.TuningMonotone | simple_chord_detector.py:259-266 | a note further off pitch never gets a better tuning grade |
| SimpleChord.NoteOfPeak | simple_chord_detector.py:186-203 | a peak becomes a note exactly when its frequency is positive and its nearest note is within 100 cents; the note keeps the peak's frequency and strength |
| SimpleChord.Named | simple_chord_detector.py:183-203 | a note is kept exactly when some peak names to it within 100 cents; at most one per peak; each kept note is chromatic |
| SimpleChord.NamedInOrder | simple_chord_detector.py:183-203 | the kept notes of two runs of peaks are those of the first then those of the second, and one peak gives its note or nothing, so each peak contributes once, in input order |
| SimpleChord.FrequenciesToNotes | simple_chord_detector.py:180-213 | the notes carry distinct chromatic names, each within 100 cents, with non-negative strengths when the magnitudes are |
| SimpleChord.FrequenciesToNotesKeepsStrongest | simple_chord_detector.py:205-213 | every in-tune name survives the de-duplication, as the first of the strongest notes bearing it |
| SimpleChord.Details | simple_chord_detector.py:193-202 | each note is reported with its tuning status |
| SimpleChord.DetermineChordQuality | simple_chord_detector.py:304-334 | no intervals give 'unknown' |
| SimpleChord.QualityIgnoresOrder | simple_chord_detector.py:309-310 | the quality depends on the intervals only as a collection, since they are sorted first |
| SimpleChord.QualityInMeans | simple_chord_detector.py:304-334 | for any table of sorted, distinct rows, the quality is 'unknown' exactly when there are no intervals or they match no row; otherwise it is the matching row's quality |
| SimpleChord.DetermineChordQualityMeans | simple_chord_detector.py:304-334 | each quality's intervals, in any order, are recognised as that quality, and any other list is 'unknown' |
| SimpleChord.ChordNotation | simple_chord_detector.py:336-362 | the notation starts with the root, and is the bare root exactly for qualities without a suffix |
| SimpleChord.NotationTellsQualities | simple_chord_detector.py:336-362 | different suffixed qualities are written differently |
| SimpleChord.ByFrequency | simple_chord_detector.py:275 | the notes are sorted from lowest to highest, as a permutation |
| SimpleChord.AnalyzeChordStructure | simple_chord_detector.py:268-302 | no notes give the 'Unknown' structure; otherwise every note is named and the notation starts with the root |
| SimpleChord.StructureFromLowest | simple_chord_detector.py:274-293 | the root is the name of a lowest note; the quality is the one spelled by the rounded intervals above it; the names are exactly the names heard |
| SimpleChord.CalculateConfidence | simple_chord_detector.py:364-382 | the confidence never exceeds 1, and is non-negative for a non-negative level and strengths |
| SimpleChord.FullConfidence | simple_chord_detector.py:364-382 | a level of at least 0.02, six or more notes and a mean strength of at least 0.5 give full confidence |
| SimpleChord.ConfidenceRisesWithLevel | simple_chord_detector.py:366-367 | a louder input never lowers the confidence |
| SimpleChord.Report | simple_chord_detector.py:98-114 | a report on the named notes is valid; its root is the name of a lowest note; its quality is the one the rounded intervals above that note spell; its names are exactly the names heard; its confidence is the peak level and strengths' grade; its notation starts with the root |
| SimpleChord.DetectChordFromAudio | simple_chord_detector.py:70-118 | a chord is reported exactly when the input peak is at least 0.005 and at least three distinct notes are named; otherwise the empty result; a reported chord is the report on the named peaks at the input's peak level; its root is chromatic and the confidence is at most 1 |
| EnhancedChord.PatternsShape | enhanced_chord_detector.py:37-79 | the table holds 28 templates, each with at least one interval beyond the root |
| EnhancedChord.AllCloseMeans | enhanced_chord_detector.py:251-256 | the early-exit loop accepts exactly when every pair is within one semitone |
| EnhancedChord.IntervalsMatch | enhanced_chord_detector.py:242-245 | lists of different lengths never match |
| EnhancedChord.IntervalsMatchMeans | enhanced_chord_detector.py:242-256 | two lists match exactly when they are equally long and their sorted pairs are all within a semitone |
| EnhancedChord.ScoreFromTotal | enhanced_chord_detector.py:269-277 | the score lies in [0, 1]; it is 1 when the total distance is 0 and at least one half when the mean distance is at most one |
| EnhancedChord.MatchScore | enhanced_chord_detector.py:258-277 | lists of different lengths score 0; every score lies in [0, 1] |
| EnhancedChord.MatchScoreLaws | enhanced_chord_detector.py:242-277 | matching intervals score at least one half, and the same intervals in any order score 1 |
| EnhancedChord.ChordSymbol | enhanced_chord_detector.py:279-288 | an unknown quality prints as the bare root; every symbol starts with the root |
| EnhancedChord.MajorMinorSymbols | enhanced_chord_detector.py:39-40 | major chords print as the bare root and minor ones with an 'm' |
| EnhancedChord.Without | enhanced_chord_detector.py:396 | the notes other than the one removed, in their order |
| EnhancedChord.CandidateScore | enhanced_chord_detector.py:220-229 | a (root, template) candidate scores in [0, 1], and any non-zero score is at least one half |
| EnhancedChord.CandidateMatches | enhanced_chord_detector.py:220-229 | a candidate scores above 0 exactly when its template matches the intervals from its root |
| EnhancedChord.BestCandidate | enhanced_chord_detector.py:203-240 | the scan settles on nothing exactly when every candidate scores 0; otherwise on a highest-scoring candidate, with every earlier candidate scoring strictly lower |
| EnhancedChord.AnalyzeStructure | enhanced_chord_detector.py:191-240 | no match gives the 'Unknown' structure; otherwise the root is one of the notes, the score lies in [0.5, 1], and the symbol is the root's symbol for the quality |
| EnhancedChord.AnalyzeIsBest | enhanced_chord_detector.py:203-240 | no chord is found exactly when no template matches from any root; otherwise the first highest-scoring pair is reported and no pair scores higher |
| EnhancedChord.TuningPenalty | enhanced_chord_detector.py:301-305 | the penalty is non-negative and is 0 when every note is within 50 cents |
| EnhancedChord.Blend | enhanced_chord_detector.py:307-321 | the weighted blend lies in [0, 1], and full scores with six or more notes give 1 |
| EnhancedChord.ChordConfidence | enhanced_chord_detector.py:290-321 | no notes or no root give 0; every confidence lies in [0, 1] |
| EnhancedChord.FullConfidence | enhanced_chord_detector.py:290-321 | six or more fully confident notes within 50 cents, under an exact match, give confidence 1 |
| EnhancedChord.DetectChord | enhanced_chord_detector.py:99-147 | quiet input (peak below 0.005), fewer than two notes, or no match give the empty result; a result with a match carries the analysis's root, quality, symbol and intervals and the confidence of the notes for that analysis; it is valid exactly when its confidence exceeds 0.4, and a valid one names one of the notes as root |
| EnhancedChord.ReportedChordIsBest | enhanced_chord_detector.py:99-147 | a reported chord is the first highest-scoring (root, template) pair over the 28 templates, and no pair scores higher than the analysis |
| EnhancedChord.ReadingWithout | enhanced_chord_detector.py:395-404 | the reading without note i records that note as removed and lists the others |
| EnhancedChord.AllReadings | enhanced_chord_detector.py:394-404 | one reading per note left out, in order |
| EnhancedChord.ChordSuggestions | enhanced_chord_detector.py:386-409 | at most three useful readings, highest score first; each leaves two or more notes and finds a root; the first is at least as good as every useful reading; none are given exactly when no reading is useful |
| EnhancedChord.SuggestionsAreBest | enhanced_chord_detector.py:386-409 | fewer than three suggestions means every useful reading is suggested, and a useful reading left out scores no better than the last suggestion |
| Chordino.ParseRoot | chordino_chord_detector.py:166-169 | the root is the label's first character, with a following '#' or 'b' kept exactly when there is one |
| Chordino.ParseQualityAsWritten | chordino_chord_detector.py:171-179 | as written, the label is read as minor exactly when it holds an 'm', checked first, so the quality is never 'diminished' |
| Chordino.ParseQuality | chordino_chord_detector.py:171-179 | with 'dim', 'aug' and 'maj' checked before the minor 'm': one of the five known qualities, diminished exactly when the label holds 'dim', major for a 'maj' label without 'dim' or 'aug', minor only with an 'm' outside 'maj', dominant7 only with a '7' |
| Chordino.DiminishedReadAsMinor | chordino_chord_detector.py:171-179 | the labels 'Cdim' and 'Cmaj7' are read as minor as written, and as diminished and major once corrected |
| Chordino.ReadingsAgree | chordino_chord_detector.py:171-179 | the program's reading and the corrected one agree on every label without an 'm', and on every label without 'dim', 'aug' or 'maj' |
| Chordino.GenerateChordNotes | chordino_chord_detector.py:190-220 | the notes start at the root; an unknown root is the root alone; a chromatic root gives one chromatic note per interval of the quality |
| Chordino.GenerateChordNotesTransposes | chordino_chord_detector.py:214-218 | the chord on a transposed root is the chord transposed note by note |
| Chordino.ParseChordNotation | chordino_chord_detector.py:156-188 | an empty label or 'N' gives no chord; any other label gives a root it starts with, the quality of the chosen reading and the notes generated from them, starting at the root |
| Chordino.ParseSpellRoundTrip | chordino_chord_detector.py:156-220 | spelling a chromatic root and a known quality as a label and parsing it gives back the root, the quality and the chord's notes |
| Chordino.NoteToFrequency | chordino_chord_detector.py:244-258 | an unknown name gives 0 Hz, a chromatic one a positive pitch |
| Chordino.NoteToFrequencyLaws | chordino_chord_detector.py:244-258 | each octave up doubles the pitch, and octave 4 is the table pitch |
| Chordino.GuitarStringFor | chordino_chord_detector.py:260-272 | a pitch of 0 (an unknown name) gives no string, as its cents distance is infinite |
| Chordino.CreateNoteDetails | chordino_chord_detector.py:222-242 | one entry per chord note, in octave 3, in tune, with strength the level less a tenth of it per position |
| Chordino.StrengthsFade | chordino_chord_detector.py:235 | for a positive level the strengths fall note by note and stay non-negative for the first eleven notes |
| Chordino.CalculateConfidence | chordino_chord_detector.py:274-285 | the confidence never exceeds 0.9, is at least 0.4 for a non-negative level, and is 0.9 from a level of 0.01 on |
| Chordino.ConfidenceRisesWithLevel | chordino_chord_detector.py:274-285 | a louder input never lowers the confidence |
| Chordino.AnalyzeChordinoResult | chordino_chord_detector.py:125-154 | the result is valid, carries the label and the change's timestamp, the parsed root, quality and notes of the chosen reading, their note details, and the level's confidence |
| Chordino.DetectChordFromAudio | chordino_chord_detector.py:56-102 | a chord is reported exactly when the extractor is available, the input peak is at least 0.005 and at least one change is extracted; it is the analysis of the last change at the input's peak level, with confidence in [0.65, 0.9]; otherwise the empty result |
| Chordino.DetectionsAgree | chordino_chord_detector.py:56-188 | the program's detection and the corrected one are the same result unless the latest label holds 'dim', 'aug' or 'maj' together with an 'm' |
| Chordino.DiminishedLabelNotes | chordino_chord_detector.py:156-220 | the program parses 'Cdim' as C minor with notes C, D#, G; the corrected reading as C diminished with C, D#, F# |
| Polyphonic.NearestEntry | polyphonic_chord_detector.py:145-156 | the entry found is nearest in cents among the 108 table pitches, and on a tie the first visited wins |
| Polyphonic.FrequencyToNote | polyphonic_chord_detector.py:139-182 | nothing is found exactly for a frequency that is not positive; otherwise a chromatic note in octave 0 to 8, graded in tune below 15 cents and slightly off below 35, with the first open string within 75 cents |
| Polyphonic.NearestNoteIsNearest | polyphonic_chord_detector.py:145-156 | the reported note and octave name the table pitch the cents are measured against, and no table pitch is nearer in cents |
| Polyphonic.Readings | polyphonic_chord_detector.py:127-132 | a reading is kept exactly when some peak strictly between 80 and 1200 Hz gives it; at most one per peak; each is a chromatic name in that band |
| Polyphonic.ReadingsInOrder | polyphonic_chord_detector.py:127-132 | the readings of two runs of peaks are those of the first then those of the second, and one peak gives its reading exactly when it is in the band, so each peak contributes once, in input order |
| Polyphonic.GroupsPartition | polyphonic_chord_detector.py:208-225 | the groups cut the sorted notes into consecutive pieces: nothing is lost, reordered or repeated |
| Polyphonic.GroupsAreTight | polyphonic_chord_detector.py:210-220 | a note joins the current group exactly when it lies under 25 cents above the group's first note |
| Polyphonic.Strongest | polyphonic_chord_detector.py:218 | the kept member is a member of the group, and none is stronger |
| Polyphonic.Deduplicate | polyphonic_chord_detector.py:198-227 | no notes give no notes; otherwise at least one and at most as many notes as given, each taken from the input |
| Polyphonic.DeduplicateKeepsStrongest | polyphonic_chord_detector.py:198-227 | one note per group, its strongest member; the groups together are the input sorted by frequency, each tight around its first note and separated from the one before |
| Polyphonic.StrongestSix | polyphonic_chord_detector.py:137 | six notes, or all when there are fewer, strongest first, each from the input, and none left out is stronger than the last kept |
| Polyphonic.ExtractPolyphonicNotes | polyphonic_chord_detector.py:101-137 | the six strongest of the merged readings, strongest first, each a named peak in the guitar range; none exactly when no peak is in range |
| Polyphonic.NoteAtInterval | polyphonic_chord_detector.py:283-288 | a root outside the chromatic scale raises; otherwise the note the interval above it reaches, modulo the octave |
| Polyphonic.DetermineChordQuality | polyphonic_chord_detector.py:259-281 | fewer than three names read as 'power'; three or more raise exactly when the root is not chromatic |
| Polyphonic.CMajorIsMajor | polyphonic_chord_detector.py:272-275 | C, E, G reads as major |
| Polyphonic.TransposeMembership | polyphonic_chord_detector.py:272-281 | a note is among the transposed names exactly when the note it came from is among the originals |
| Polyphonic.QualityIgnoresKey | polyphonic_chord_detector.py:259-281 | the quality does not depend on the key: moving every name by the same interval keeps it |
| Polyphonic.MajorTriadsAreMajor | polyphonic_chord_detector.py:259-281 | every root-position major triad, in any key, reads as major |
| Polyphonic.NotePenalty | polyphonic_chord_detector.py:299-305 | each note costs between 0 and 0.1, and nothing exactly when it is within 25 cents |
| Polyphonic.InTuneNoPenalty | polyphonic_chord_detector.py:299-305 | notes all within 25 cents cost nothing |
| Polyphonic.ChordConfidence | polyphonic_chord_detector.py:290-308 | no notes give 0; otherwise the confidence lies in [0.1, 1], and above the 0.1 floor it never exceeds the count grade min(n / 4, 1) |
| Polyphonic.InTuneConfidence | polyphonic_chord_detector.py:290-308 | with every note within 25 cents the confidence is the count grade |
| Polyphonic.AnalyzeChordStructure | polyphonic_chord_detector.py:229-257 | a failing clock makes the analysis raise; no notes give the empty result; otherwise it raises exactly when the quality lookup fails, and a result has the lowest note's name as root, the names from low to high, their quality and the notes' confidence; chromatic notes give a valid result carrying the notes and the clock reading |
| Polyphonic.RootIsLowest | polyphonic_chord_detector.py:234-243 | the root is the name of a lowest note, and the names run from low to high |
| Polyphonic.DetectChordPolyphonic | polyphonic_chord_detector.py:50-99 | with a working clock the detection returns a result stamped with its reading, valid exactly when some peak is named; a returned analysis of the extracted notes is the result, and a failing analysis falls back to the empty result; a failing clock raises from the fallback too |
| Polyphonic.ValidDetectionIsOfStrongest | polyphonic_chord_detector.py:50-99 | a valid detection reports the six strongest merged readings as details, a lowest of them as root, the quality of their names from low to high, and their confidence |
| Polyphonic.DetectAsWrittenAlwaysRaises | polyphonic_chord_detector.py:256 | as written, every detection raises `NameError`, whatever the input |
| EnhancedGuitar.KeysDistinct | enhanced_guitar_detector.py:67-92 | the 60 keys from C2 to B6 are distinct, so no key overwrites another |
| EnhancedGuitar.OffsetCountsFromA4 | enhanced_guitar_detector.py:77-85 | the semitone offset of a key counts from A4, and is zero exactly at 'A4' |
| EnhancedGuitar.ClosestKey | enhanced_guitar_detector.py:382-390 | the key found is nearest in cents, and on a tie the first key in table order wins |
| EnhancedGuitar.FrequencyToNote | enhanced_guitar_detector.py:375-404 | nothing is found exactly for a frequency that is not positive; otherwise a chromatic note in octave 2 to 6 |
| EnhancedGuitar.ReadingLocatesKey | enhanced_guitar_detector.py:375-404 | the name and octave read back from the key locate it again: the expected frequency is the one tempered from A4 by the reading's own note and octave, the cents are measured against it, and no key is nearer |
| EnhancedGuitar.TuningFeedback | enhanced_guitar_detector.py:499-510 | the five verdicts split the cents distance at 10, 25, 50 and 100, each exactly |
| EnhancedGuitar.FeedbackMonotone | enhanced_guitar_detector.py:499-510 | a note further off pitch never gets better feedback |
| EnhancedGuitar.EstimatorResult | enhanced_guitar_detector.py:193-203 | an estimate yields a result exactly when it can be named; the result keeps the estimate, the method and its confidence, with the first open string within 100 cents |
| EnhancedGuitar.Weight | enhanced_guitar_detector.py:451-459 | each method's weight lies in [0.5, 1], unknown methods weighing 0.5 |
| EnhancedGuitar.Winner | enhanced_guitar_detector.py:462-469 | the winner is one of the results |
| EnhancedGuitar.WinnerIsFirstBest | enhanced_guitar_detector.py:458-469 | the winner is the first result of highest weighted score, since the sort is stable, and it agrees with itself |
| EnhancedGuitar.CombineDetectionResults | enhanced_guitar_detector.py:442-485 | no results give the empty result and one is returned as is; otherwise the winner is returned, its confidence raised by a fifth (capped at 1) and its method relabelled exactly when another result lies within 10 Hz of it |
| EnhancedGuitar.Confident | enhanced_guitar_detector.py:113-126 | exactly the present results with confidence above 0.3 are kept |
| EnhancedGuitar.DetectNoteFromAudio | enhanced_guitar_detector.py:94-137 | quiet input (peak below 0.005) or no confident estimator gives the empty result; otherwise the result is the vote among the estimators above 0.3 confidence, in the order FFT, autocorrelation, YIN, and has confidence above 0.3 |
| EnhancedGuitar.PyRound | enhanced_guitar_detector.py:432 | Python's `round` lands within one half of its argument |
| EnhancedGuitar.HarmonicRatioMeans | enhanced_guitar_detector.py:432 | a ratio within 0.1 of a whole number from 1 up passes the harmonic test, and rounds to that number |
| EnhancedGuitar.HarmonicMagnitudes | enhanced_guitar_detector.py:428-434 | at most one magnitude per peak, and a non-negative total for positive magnitudes |
| EnhancedGuitar.HarmonicConfidence | enhanced_guitar_detector.py:420-440 | fewer than two peaks give 0.5; every confidence lies in [0, 1], and is 1 exactly when four or more harmonics are found and their magnitudes add up to the largest peak |
| EnhancedGuitar.CappedMean | enhanced_guitar_detector.py:437-440 | the mean of two capped scores lies in [0, 1] and is 1 exactly when both reach 1 |
| GuitarTuner.TunerSampleRate | guitar_tuner.py:13-18 | a requested rate above 44100 Hz is lowered to 44100; any other is kept |
| GuitarTuner.TunerSampleRateIdempotent | guitar_tuner.py:13-18 | lowering the rate a second time changes nothing |
| GuitarTuner.CreateAnalysisWindows | guitar_tuner.py:88-107 | the call fails exactly for inputs shorter than 4 samples (a zero step); otherwise every window is the input's slice of one window length starting at a multiple of a quarter window, and there are (length − window) / step + 1 of them |
| GuitarTuner.WindowStarts | guitar_tuner.py:102-105 | every multiple of the step that leaves room for a whole window starts a window, and no window starts beyond that room |
| GuitarTuner.WindowsOverlap | guitar_tuner.py:102-105 | consecutive windows share three quarters of their samples |
| GuitarTuner.AnyStringFrom | guitar_tuner.py:186-200 | true exactly when some string from the given one on has a harmonic from 1 to 6 within 50 Hz of the frequency |
| GuitarTuner.IsGuitarFrequency | guitar_tuner.py:186-200 | true exactly when some open string has a harmonic from 1 to 6 within 50 Hz of the frequency |
| GuitarTuner.GuitarFrequencyPositive | guitar_tuner.py:186-200 | every accepted frequency is above 32 Hz, so the later logarithm and ratios are defined |
| GuitarTuner.FindGuitarPeaks | guitar_tuner.py:166-184 | at most 8 peaks, all drawn from the input and at guitar frequencies, strongest first; the first is the strongest guitar peak and fewer than 8 means none was dropped |
| GuitarTuner.HarmonicGroup | guitar_tuner.py:208-222 | a group opens with its fundamental |
| GuitarTuner.HarmonicGroupMembers | guitar_tuner.py:208-222 | the rest of a group is exactly the later peaks whose ratio to the fundamental is within 0.05 of 1 to 6 |
| GuitarTuner.BestGroup | guitar_tuner.py:224-235 | nothing exactly when no peak has a harmonic partner; otherwise a qualifying group of greatest strength, the first such on ties |
| GuitarTuner.IdentifyNoteFromFundamental | guitar_tuner.py:250-275 | a chromatic note in octave 2 to 6, confidence in [0, 1] and equal to 1 exactly when the estimate is in tune |
| GuitarTuner.GuessIsBest | guitar_tuner.py:250-275 | the estimate is a table entry of least score (cents off plus 50 per octave from octave 4) and the first such entry in table order |
| GuitarTuner.AnalyzeHarmonics | guitar_tuner.py:202-248 | nothing exactly for fewer than two peaks or no qualifying group; otherwise the reading of the best group's fundamental, with its member count (at least 2) and strength |
| GuitarTuner.GroupByKeyGroups | guitar_tuner.py:283-288 | grouping by note and octave partitions the readings, groups in order of first appearance, each holding exactly the readings of its key in order |
| GuitarTuner.CombineWindowResults | guitar_tuner.py:277-307 | nothing exactly when no window gave a reading |
| GuitarTuner.CombineMeansMostFrequentKey | guitar_tuner.py:277-307 | the result is the first reading of a most frequent key, every key first seen earlier being strictly rarer, with the mean confidence and mean cents of all readings of that key |
| GuitarTuner.LargestGroupWins | guitar_tuner.py:291-297 | the largest group, earliest on ties, belongs to a key at least as frequent as any other and strictly more frequent than every key first seen before it |
| GuitarTuner.Readings | guitar_tuner.py:69-74 | at most one reading per window; every window's reading is kept and every kept reading is some window's; none exactly when no window gives one |
| GuitarTuner.ReadingsInOrder | guitar_tuner.py:69-74 | the readings of two runs of windows are those of the first then those of the second, and one window gives its reading or nothing, so each window votes once, in window order |
| GuitarTuner.DetectNote | guitar_tuner.py:63-86 | an input shorter than 4 samples gives no note (the failed windowing is caught); a longer one gives the combination of the windows' readings, so no note exactly when no window gives a reading |
| RingBuffer.Silent | delay/base_delay.py:41-43 | a buffer of the given size holding silence, written from slot 0 |
| RingBuffer.ReadIndex | delay/base_delay.py:95-98 | the slot read lies inside the buffer for any delay, Python's remainder being non-negative |
| RingBuffer.Write | delay/base_delay.py:100-103 | a write keeps the buffer's length and its write position inside it |
| RingBuffer.WriteChangesOneSlot | delay/base_delay.py:100-103 | a write changes exactly the slot at the write position, and the position moves one step forward, wrapping to 0 at the end |
| RingBuffer.ReadAfterWrite | delay/base_delay.py:95-103 | after one write, reading d back is reading d − 1 back before it: the value just written for d = 1, an untouched slot otherwise |
| RingBuffer.ChainReads | delay/base_delay.py:95-103 | after t writes, reading d back (1 ≤ d ≤ length) gives the value written d writes earlier, or what the buffer held d − t back when fewer than d writes have happened |
| BaseDelay.WholeSeconds | delay/base_delay.py:41 | a whole number of seconds is that many times the rate in samples |
| BaseDelay.New | delay/base_delay.py:20-52 | feedback and wet mix are clamped (kept when in range), the buffer holds silence from slot 0, the delay is 0.5 s and modulation is off |
| BaseDelay.MaxDelayPositive | delay/base_delay.py:41 | a buffer of at least one slot at a positive rate means a positive maximum delay |
| BaseDelay.DelayFits | delay/base_delay.py:56-57 | a delay no longer than the maximum never needs more samples than the buffer holds |
| BaseDelay.SetDelayTime | delay/base_delay.py:54-57 | the time is clamped to [0.001, maximum] and kept when in range; its sample count never exceeds the buffer; nothing else changes |
| BaseDelay.SetFeedback | delay/base_delay.py:59-61 | feedback is clamped to [0, 0.9]: kept inside, the nearer bound outside; nothing else changes |
| BaseDelay.SetWetMix | delay/base_delay.py:63-66 | the wet mix is clamped to [0, 1] and kept when in range, wet and dry always add up to 1, nothing else changes |
| BaseDelay.SetModulation | delay/base_delay.py:68-77 | a non-negative rate or depth is kept and a non-positive one becomes 0; nothing else changes |
| BaseDelay.ModulatedDelay | delay/base_delay.py:79-86 | unmodulated, the delay in samples; modulated, a delay within [1, size − 1] (0 for a one-slot buffer, as numpy clips to the upper bound) |
| BaseDelay.NextPhase | delay/base_delay.py:88-93 | a zero rate leaves the phase alone; a phase in [0, 1) stays there while the rate is below the sample rate |
| BaseDelay.ProcessSample | delay/base_delay.py:105-130 | both channels carry the dry/wet mix of the input and the sample read, and the buffer gains the input plus feedback times that sample |
| BaseDelay.MixBetween | delay/base_delay.py:119-120 | the output lies between the input and the delayed sample, is the input at wet 0 and the delayed sample at wet 1 |
| BaseDelay.After | delay/base_delay.py:145-148 | processing keeps the settings and the validity of the state |
| BaseDelay.ProcessBuffer | delay/base_delay.py:132-150 | both channels are as long as the input and equal, each sample being the output of the state reached by the samples before it |
| BaseDelay.StepWrites | delay/base_delay.py:122-124 | each step of a run writes its input fed back with the sample it read |
| BaseDelay.WriteAt | delay/base_delay.py:122-124 | the value written at step i is that step's input plus feedback times what it read |
| BaseDelay.RunIsChain | delay/base_delay.py:145-148 | the buffer states of a run are successive writes of its fed-back inputs |
| BaseDelay.EchoReadsDelay | delay/base_delay.py:95-98 | unmodulated, every step reads exactly the delay in samples back |
| BaseDelay.OutputMixesEcho | delay/base_delay.py:116-120 | every output of a buffer mixes that step's input with the sample read at that step |
| BaseDelay.EchoLaw | delay/base_delay.py:95-150 | unmodulated with a delay of D samples, the sample read at step t is the input of step t − D plus feedback times what step t − D read, and before D steps what the buffer held before the run |
| BaseDelay.DrySilence | delay/base_delay.py:119-120 | with nothing delayed, the output is the dry part of the input alone |
| BaseDelay.Reset | delay/base_delay.py:152-156 | silence in every slot, the write position and the phase at 0, the settings unchanged |
| BaseDelay.ResetEchoesSilence | delay/base_delay.py:152-156 | after a reset, an unmodulated delay of D samples reads silence for its first D steps |
| BaseDelay.ResetIsSilentForDelay | delay/base_delay.py:116-156 | after a reset, the first D outputs of an unmodulated delay of D samples mix the input with silence |
| BasicDelay.New | delay/basic_delay.py:22-37 | a 2-second buffer and a delay clamped to [0.001, 2] s, kept when in range, with in-range feedback and wet mix kept and a silent buffer |
| BasicDelay.SetParameters | delay/basic_delay.py:43-59 | each present argument goes through its clamping setter and each absent one leaves its parameter unchanged; buffer, rate and modulation are never touched |
| BasicDelay.NoArgumentsNoChange | delay/basic_delay.py:43-59 | a call with no arguments changes nothing |
| BasicDelay.SettersCommute | delay/basic_delay.py:54-59 | applying the three setters in the opposite order gives the same state |
| BasicDelay.GetParameters | delay/basic_delay.py:61-68 | the reported delay time, feedback, wet mix and dry mix are the current ones; the mixes add up to 1 and feedback and wet lie in their ranges |
| BasicDelay.SetThenGet | delay/basic_delay.py:43-68 | in-range values set together are read back unchanged |
| StereoDelay.Cleared | delay/stereo_delay.py:60-64 | a buffer of the given size holding silence, written from slot 0 |
| StereoDelay.New | delay/stereo_delay.py:25-67 | the channel delays and ping-pong are taken as given, width and cross-feedback clamped (kept in range), mid-side on exactly for a positive width, both buffers silent and as long as their delays |
| StereoDelay.ClampedLength | delay/stereo_delay.py:73-89 | a non-negative delay never asks for a buffer of negative length |
| StereoDelay.Retime | delay/stereo_delay.py:73-89 | the delay is clamped to [0.001, 4] and kept in range; the buffer is replaced by silence exactly when its length changes and kept otherwise |
| StereoDelay.SetLeftDelay | delay/stereo_delay.py:73-80 | only the left delay and buffer change; the delay lands in [0.001, 4] and is kept in range |
| StereoDelay.SetRightDelay | delay/stereo_delay.py:82-89 | only the right delay and buffer change; the delay lands in [0.001, 4] and is kept in range |
| StereoDelay.SameLengthKeepsEchoes | delay/stereo_delay.py:73-80 | a new delay of the same buffer length keeps what the buffer holds |
| StereoDelay.SetStereoParameters | delay/stereo_delay.py:91-108 | each present argument is set (width and cross-feedback clamped, kept in range), each absent one left alone, and mid-side follows the width |
| StereoDelay.TapsReadOldest | delay/stereo_delay.py:110-120 | each channel reads its whole buffer length back: the slot about to be overwritten |
| StereoDelay.PingPong | delay/stereo_delay.py:122-127 | the channels are swapped exactly when ping-pong is on |
| StereoDelay.PingPongInvolution | delay/stereo_delay.py:122-127 | swapping twice gives the channels back |
| StereoDelay.EnhanceKeepsMid | delay/stereo_delay.py:129-145 | enhancement keeps the sum of the channels and scales their difference by 1 + width; off, it changes nothing |
| StereoDelay.EnhanceMono | delay/stereo_delay.py:129-145 | a pair of equal samples is unchanged by enhancement |
| StereoDelay.ProcessSample | delay/stereo_delay.py:110-193 | `ZeroDivisionError` exactly when a buffer has no slot; otherwise each channel outputs the dry/wet mix of its input and its shaped delayed sample, and each buffer receives its cross-fed write; nothing else changes |
| StereoDelay.Step | delay/stereo_delay.py:161-193 | one call on two non-empty buffers: the dry/wet outputs, the cross-fed writes, and only the two buffers change |
| StereoDelay.ZeroDelayRaises | delay/stereo_delay.py:60-117 | a zero-second left delay, which the constructor accepts, makes the first sample raise `ZeroDivisionError` |
| StereoDelay.NoCrossFeedback | delay/stereo_delay.py:147-159 | with cross-feedback 0, each buffer stores only its own input plus feedback times its delayed sample |
| StereoDelay.After | delay/stereo_delay.py:212-213 | processing keeps every setting and the validity of the state |
| StereoDelay.StepWrites | delay/stereo_delay.py:147-159 | each step of a run writes its cross-fed value into each channel's buffer |
| StereoDelay.RunIsChain | delay/stereo_delay.py:212-213 | each channel's buffer states over a run are successive writes of its cross-fed values |
| StereoDelay.TapReadsWholeLane | delay/stereo_delay.py:110-120 | a channel's delay in samples is exactly its buffer length |
| StereoDelay.EchoLaw | delay/stereo_delay.py:110-213 | a channel reads back what was written into its buffer exactly its delay in samples earlier, or before that many steps what the buffer held before the run |
| StereoDelay.ProcessBuffer | delay/stereo_delay.py:195-215 | inputs of different lengths raise `ValueError`; otherwise a non-empty run raises `ZeroDivisionError` exactly when a buffer has no slot; otherwise both outputs are as long as the input and the state stays valid |
| StereoDelay.BufferIsSamples | delay/stereo_delay.py:195-215 | output pair t of a buffer is the `process_sample` output in the state the first t pairs reached, and the state left is the one after every pair |
| StereoDelay.BufferEchoes | delay/stereo_delay.py:110-215 | with ping-pong and mid/side off, each output channel of a buffer is the dry/wet mix of its input with what was written into its buffer one delay earlier |
| StereoDelay.ProcessMonoToStereo | delay/stereo_delay.py:217-233 | a non-empty input raises `ZeroDivisionError` exactly when a buffer has no slot; otherwise both outputs are as long as the mono input |
| StereoDelay.MonoIsStereoOfCopies | delay/stereo_delay.py:217-233 | mono processing is stereo processing of two copies of the input: the same outputs and the same raise, never the length mismatch |
| StereoDelay.MonoIsSamples | delay/stereo_delay.py:217-233 | mono output sample t is `process_sample` on two copies of input sample t, in the state the samples before it reached |
| StereoDelay.Reset | delay/stereo_delay.py:235-241 | the base delay reset, both buffers silent at their old lengths, both write positions 0, nothing else changed |
| MultiTap.Gains | delay/multi_tap_delay.py:29-31 | the pan law: the gains add up to √2, are equal at the centre, are non-negative over the pan range, and the right one is the larger exactly when the pan leans right |
| MultiTap.NewTap | delay/multi_tap_delay.py:16-31 | level and pan are clamped (kept in range), the delay kept, and the gains follow the pan |
| MultiTap.SetTapFields | delay/multi_tap_delay.py:33-44 | only supplied fields change, level and pan clamped; the gains change only with a new pan and always follow it |
| MultiTap.SetAllFieldsIsNew | delay/multi_tap_delay.py:16-44 | supplying every field gives the tap the constructor would build, and supplying none changes nothing |
| MultiTap.FreshSlot | delay/multi_tap_delay.py:111-121 | a new tap with a silent buffer of its delay's length in samples and both positions 0 |
| MultiTap.AddTap | delay/multi_tap_delay.py:102-121 | the new tap, a silent buffer and two zero positions are appended to the four lists; nothing else changes |
| MultiTap.RemoveTap | delay/multi_tap_delay.py:123-129 | an index outside the list changes nothing; otherwise that position leaves all four lists and later taps move down one place |
| MultiTap.RemoveUndoesAdd | delay/multi_tap_delay.py:102-129 | removing the tap just added gives back the state before |
| MultiTap.ClearTaps | delay/multi_tap_delay.py:131-136 | all four lists are empty and nothing else changes |
| MultiTap.RetapSlot | delay/multi_tap_delay.py:151-161 | the tap gets the supplied fields; the buffer becomes silence with both positions 0 exactly when a new delay changes its length, and is kept otherwise |
| MultiTap.SetTapParameters | delay/multi_tap_delay.py:138-161 | an index outside the list changes nothing; otherwise only that position changes, as for one slot |
| MultiTap.New | delay/multi_tap_delay.py:59-100 | a base delay, stereo output on, and the three default taps in order, each with a silent buffer |
| MultiTap.Multiplier | delay/multi_tap_delay.py:180-184 | every known note division has a positive length in beats |
| MultiTap.SyncSlot | delay/multi_tap_delay.py:187-192 | a recognised division gives a fresh tap of the beat times its multiplier, level 1 − 0.2 i and the alternating pan |
| MultiTap.SyncSlots | delay/multi_tap_delay.py:186-192 | the loop adds one valid tap per recognised division name |
| MultiTap.SyncSlotsExtend | delay/multi_tap_delay.py:186-192 | one more division name keeps every tap already added, in front |
| MultiTap.SyncKeepsEarlierSlots | delay/multi_tap_delay.py:186-192 | the loop only appends: taps added for earlier names stay in front |
| MultiTap.SyncTapsToTempo | delay/multi_tap_delay.py:163-192 | the old taps are all removed and there is one tap per recognised division name (the default names when none are given) |
| MultiTap.SyncedSlot | delay/multi_tap_delay.py:186-192 | the slot for the j-th name sits at the place counted by the recognised names before it |
| MultiTap.SyncedTap | delay/multi_tap_delay.py:163-192 | the tap made from the j-th recognised name sits after those of the earlier recognised names, with delay 60 / bpm times its multiplier, level 1 − 0.2 j clamped at 0, pan −0.3 or 0.3 as j is even or odd, and a silent buffer |
| MultiTap.ContributionBalance | delay/multi_tap_delay.py:212-214 | a tap's two channel contributions add up to √2 times its levelled delayed sample |
| MultiTap.WetBalance | delay/multi_tap_delay.py:205-218 | panning loses nothing: the two wet sums add up to √2 times the level-weighted sum of the delayed samples, whatever the pans |
| MultiTap.CentredIsMono | delay/multi_tap_delay.py:205-218 | with every tap centred, both channels carry the same wet sum |
| MultiTap.SlotEcho | delay/multi_tap_delay.py:220-222 | reading a tap's delay back from the current write position reads the slot about to be overwritten |
| MultiTap.StepSlot | delay/multi_tap_delay.py:220-229 | one call writes the feedback sample at the write position and advances it, and stores as read position the old write position |
| MultiTap.Echoes | delay/multi_tap_delay.py:205-222 | one delayed sample per tap, each read its delay back from the tap's write position |
| MultiTap.SlotEchoAsWritten | delay/multi_tap_delay.py:209-210 | as written, a tap reads its buffer at the stored read position |
| MultiTap.EchoesAsWritten | delay/multi_tap_delay.py:205-210 | as written, one delayed sample per tap, each at its stored read position |
| MultiTap.Step | delay/multi_tap_delay.py:194-241 | every tap buffer gets the same feedback sample (input plus feedback times the mean of the wet sums), the taps are unchanged, and each channel outputs the dry input plus the wet mix of its wet sum |
| MultiTap.ProcessSample | delay/multi_tap_delay.py:194-241 | as intended: `IndexError` exactly when a tap buffer has no slot; otherwise both channels mix the input with the wet sums of the intended reads, and the taps and the base delay are kept |
| MultiTap.ProcessSampleAsWritten | delay/multi_tap_delay.py:194-241 | as written: `IndexError` exactly when a tap buffer has no slot; otherwise both channels mix the input with the wet sums of the reads at the stored positions, and the taps and the base delay are kept |
| MultiTap.AsWrittenEchoesPreviousSample | delay/multi_tap_delay.py:207-222 | as written, the next call reads in every tap the sample just written, whatever the tap's delay |
| MultiTap.EchoReadsOldest | delay/multi_tap_delay.py:207-229 | as intended, after one call a tap of n slots reads the sample written n calls earlier, which is the one just written only when n is 1 |
| MultiTap.ProcessSampleBy | delay/multi_tap_delay.py:194-241 | on non-empty tap buffers, either reading is what `ProcessSample` or `ProcessSampleAsWritten` returns, and keeps the taps, the base delay and the validity of the state |
| MultiTap.ZeroDelayTapRaises | delay/multi_tap_delay.py:102-261 | a zero-second tap, which `add_tap` accepts, makes the next sample and any non-empty buffer raise `IndexError` |
| MultiTap.AfterKeepsValid | delay/multi_tap_delay.py:253-257 | processing samples one by one keeps the taps, the base delay and the validity of the state, and the state after t > 0 samples is one `process_sample` call on the state after t − 1 |
| Runs.OutputAt | delay/multi_tap_delay.py:253-257 | sample t of a run over a buffer is the output read in the state the first t samples reached, however long the run |
| MultiTap.ProcessBuffer | delay/multi_tap_delay.py:243-261 | a non-empty buffer raises `IndexError` exactly when a tap buffer has no slot; otherwise both channels are as long as the input, and the final state is valid with the same taps and base delay (an empty buffer leaves the state as it was) |
| MultiTap.BufferIsSamples | delay/multi_tap_delay.py:243-261 | sample t of each channel is the `process_sample` output in the state the first t samples reached |
| MultiTap.NoTapsIsDry | delay/multi_tap_delay.py:194-241 | with no taps either reading gives the dry input on both channels and leaves the state unchanged |
| MultiTap.NoTapsBufferIsDry | delay/multi_tap_delay.py:243-261 | with no taps every sample of both channels of a buffer is the dry input |
| TempoSynced.Division | delay/tempo_synced_delay.py:54-59 | every known note division has a positive length in beats |
| TempoSynced.AvailableDivisions | delay/tempo_synced_delay.py:147-149 | the listed divisions are exactly the fourteen names the map knows, each once |
| TempoSynced.SwingFactor | delay/tempo_synced_delay.py:98-103 | no stretch on triplets or without swing; for swing in [0, 1] a stretch between 1 and 1.45 |
| TempoSynced.DoubleTempoHalvesDelay | delay/tempo_synced_delay.py:94-96 | doubling the tempo halves the note delay |
| TempoSynced.UpdateDelay | delay/tempo_synced_delay.py:91-105 | an unknown division changes nothing; a known one sets the base delay to the beat times the division times the swing stretch, clamped to [0.001, 4] and kept in range |
| TempoSynced.New | delay/tempo_synced_delay.py:25-66 | raises exactly for tempo 0 with a known division; otherwise tempo and division as given, swing clamped, phase 0, and an unknown division keeps the 0.5 s delay |
| TempoSynced.SetTempo | delay/tempo_synced_delay.py:72-75 | the tempo is clamped to [20, 300] (kept inside, the nearer bound outside) and the delay recomputed from it |
| TempoSynced.SetTempoIdempotent | delay/tempo_synced_delay.py:72-75 | setting the same tempo twice is setting it once |
| TempoSynced.SetNoteDivision | delay/tempo_synced_delay.py:77-81 | an unknown name changes nothing; a known one is taken and the delay recomputed |
| TempoSynced.SetSwing | delay/tempo_synced_delay.py:83-85 | the swing is clamped to [0, 1], kept in range, and nothing else changes (the delay is not recomputed) |
| TempoSynced.SetHumanize | delay/tempo_synced_delay.py:87-89 | the humanise amount is clamped to [0, 1], kept in range, and nothing else changes |
| TempoSynced.SortedElement | delay/tempo_synced_delay.py:143 | every element of the sorted copy the median reads is one of the values |
| TempoSynced.MedianWithin | delay/tempo_synced_delay.py:143 | the median lies inside any open bounds all the values lie inside |
| TempoSynced.MedianOfConstant | delay/tempo_synced_delay.py:143 | the median of equal values is that value |
| TempoSynced.Gaps | delay/tempo_synced_delay.py:135-137 | one gap per consecutive pair of taps: the later time minus the earlier |
| TempoSynced.PlausibleGaps | delay/tempo_synced_delay.py:135-139 | every kept gap lies strictly between 0.1 s and 4 s |
| TempoSynced.KeptIffPlausiblePair | delay/tempo_synced_delay.py:135-141 | some gap is kept exactly when some consecutive pair of taps is plausibly spaced |
| TempoSynced.TapTempo | delay/tempo_synced_delay.py:124-145 | fewer than two taps or no plausible gap change nothing; otherwise the tempo is set to 60 over the median kept gap, which lies in (0.1, 4) |
| TempoSynced.SteadyTapsGiveTheirTempo | delay/tempo_synced_delay.py:124-145 | taps evenly spaced by a plausible gap p set the tempo to 60 / p, clamped |
| TempoSynced.ProcessSample | delay/tempo_synced_delay.py:160-176 | a call changes only the buffer and the humanisation phase: settings and modulation phase are kept |
| TempoSynced.FollowsBaseDelay | delay/tempo_synced_delay.py:160-176 | the output and the buffer write are the base delay's; without modulation the whole base state is the base delay's next state |
| TempoSynced.SyncToExternalClock | delay/tempo_synced_delay.py:200-211 | a clock reading above the threshold resets the humanisation phase; anything else changes nothing |
| TempoSynced.ClockPulseIsInaudible | delay/tempo_synced_delay.py:200-211 | a clock pulse changes neither the next output nor the next buffer write |
| TempoSynced.HumanizeIsInaudible | delay/tempo_synced_delay.py:107-122 | the humanise amount and phase change neither the output nor the buffer: the humanised delay is never read |
| Distortion.New | delay/distortion.py:33-58 | drive and mix are clamped to [0, 1] (kept in range), with an 8-bit crusher, a reduction of 0.5 and nothing held |
| Distortion.SetKind | delay/distortion.py:67-69 | only the kind changes |
| Distortion.SetDrive | delay/distortion.py:71-73 | the drive is clamped to [0, 1], kept in range, and nothing else changes |
| Distortion.SetMix | delay/distortion.py:75-77 | the mix is clamped to [0, 1], kept in range, and nothing else changes |
| Distortion.SetBitCrushParameters | delay/distortion.py:79-88 | the bit depth is clamped to 1..16 (kept inside, the nearer bound outside) and the reduction to [0, 1]; nothing else changes |
| Distortion.SettersIdempotent | delay/distortion.py:71-88 | applying a clamping setter twice with the same value is applying it once |
| Distortion.Sign | delay/distortion.py:100 | numpy's sign is 1, 0 or −1, and times its argument gives its magnitude |
| Distortion.HardClipLaws | delay/distortion.py:96-101 | the hard clip never exceeds 1 − drive, leaves exactly the samples within it alone, never flips a sign, and clipping twice is clipping once |
| Distortion.CubicLaws | delay/distortion.py:60-65 | the cubic curve is odd and maps [−2, 2] into [−2/3, 2/3] |
| Distortion.BlendBetween | delay/distortion.py:175 | a blend lies between dry and wet, all dry at weight 0 and all wet at weight 1 |
| Distortion.ProcessSample | delay/distortion.py:139-175 | no distortion passes the sample through and changes nothing; otherwise the driven sample is shaped by the kind's curve, remembered as the last sample, and blended with the input by the mix |
| Distortion.MixExtremes | delay/distortion.py:96-175 | a fully wet hard clip never leaves [−(1 − drive), 1 − drive], and a fully dry effect returns its input |
| Distortion.WaveshaperBounded | delay/distortion.py:135-175 | a fully wet waveshaper whose shaped argument lies in [−2, 2] outputs within [−2/3, 2/3] |
| Distortion.ProcessBuffer | delay/distortion.py:177-190 | the output is as long as the input |
| Distortion.Before | delay/distortion.py:188-189 | processing changes only the held sample |
| Distortion.BufferIsSamples | delay/distortion.py:177-190 | output t of a buffer is the single-sample output in the state left by the samples before it |
| Distortion.HardClipBufferBounded | delay/distortion.py:96-190 | every sample of a fully wet hard-clipped buffer lies within the threshold |
| Distortion.NoDistortionBuffer | delay/distortion.py:149-150 | with no distortion a buffer comes back unchanged, and so does the state |
| Distortion.NewCross | delay/distortion.py:208-229 | the switch as given, an intensity of 0.5, and the effect the distortion constructor builds |
| Distortion.SetEnabled | delay/distortion.py:231-233 | only the switch changes |
| Distortion.SetFeedbackIntensity | delay/distortion.py:247-249 | the intensity is clamped to [0, 1], kept in range, and nothing else changes |
| Distortion.ProcessCrossFeedback | delay/distortion.py:251-273 | disabled, the pair passes and nothing changes; enabled, left then right go through the effect and each output blends its input with its distorted value by the intensity |
| Distortion.CrossFeedbackLaws | delay/distortion.py:251-273 | the pair comes back unchanged when off, at intensity 0 or when fully dry; a fully wet, full-intensity hard clip keeps both channels within its threshold |
| GuitarSynth.New | guitar_synth/guitar_synth.py:25-81 | every argument is clamped to its range with dry = 1 − wet, the LFO runs at 2 Hz and depth 0.1, the envelope decays by 0.99, and all running state is zero |
| GuitarSynth.AttrNamed | guitar_synth/guitar_synth.py:313-314 | a name that finds an attribute finds the one of that name |
| GuitarSynth.AttrNamesRoundTrip | guitar_synth/guitar_synth.py:313-314 | every numeric attribute is found under its own name |
| GuitarSynth.GetPut | guitar_synth/guitar_synth.py:313-314 | reading back an attribute just assigned gives the value assigned, and every other attribute is unchanged |
| GuitarSynth.Bounds | guitar_synth/guitar_synth.py:83-122 | every setter clamps to a non-empty range |
| GuitarSynth.CallSetter | guitar_synth/guitar_synth.py:83-122 | a setter clamps its own attribute into its range (the wet mix also sets dry = 1 − wet) and changes no other attribute |
| GuitarSynth.SetterIdempotent | guitar_synth/guitar_synth.py:83-122 | calling a setter twice with one value is calling it once, and an in-range value is kept |
| GuitarSynth.SetParameter | guitar_synth/guitar_synth.py:310-314 | one keyword: a setter's name calls that setter, clamping its attribute; another attribute's name assigns the value as given and changes nothing else; `parameters` raises and changes nothing; any other name changes nothing |
| GuitarSynth.SetParameters | guitar_synth/guitar_synth.py:308-314 | no keywords change nothing |
| GuitarSynth.SettersKeepValid | guitar_synth/guitar_synth.py:308-312 | keywords that all name setters keep every attribute in range and never raise |
| GuitarSynth.RawAssignmentBypassesClamps | guitar_synth/guitar_synth.py:308-314 | the keyword ring_freq has no setter and is assigned unclamped, so 5 Hz is accepted and breaks the range; dry_mix can likewise part from 1 − wet |
| GuitarSynth.SetParametersDispatch | guitar_synth/guitar_synth.py:308-314 | for every first keyword and every remainder: a setter's name calls the setter and goes on, another attribute's name assigns it and goes on, any other name is skipped, and `parameters` raises before anything after it is applied |
| GuitarSynth.Reset | guitar_synth/guitar_synth.py:316-326 | the running state is cleared except the ring oscillator, which keeps its last value, and the parameters are kept |
| GuitarSynth.ResetLaws | guitar_synth/guitar_synth.py:316-326 | after a reset the eight attributes `reset` assigns read 0, and every other attribute (the parameters and the ring oscillator) reads as before; resetting twice is resetting once |
| GuitarSynth.PhaseStaysInTurn | guitar_synth/guitar_synth.py:124-135 | a phase inside a turn stays inside it after a step of at most a turn |
| GuitarSynth.RingPhases | guitar_synth/guitar_synth.py:140-142 | one phase per sample, the first one step on from the starting phase |
| GuitarSynth.RingPhasesInTurn | guitar_synth/guitar_synth.py:124-143 | every ring-oscillator phase stays inside a turn while each step is at most a turn |
| GuitarSynth.RingModulate | guitar_synth/guitar_synth.py:137-143 | each sample is multiplied by the sine of the phase the oscillator advanced to for it |
| GuitarSynth.CrushScale | guitar_synth/guitar_synth.py:150-153 | the quantising scale is positive and bounds every sample's magnitude |
| GuitarSynth.BitCrush | guitar_synth/guitar_synth.py:145-159 | 16 bits leave the block alone; fewer quantise every sample against the block's scale |
| GuitarSynth.HoldStep | guitar_synth/guitar_synth.py:167 | the hold period for a factor in [0.1, 1) is between 1 and 10 samples |
| GuitarSynth.HeldIndex | guitar_synth/guitar_synth.py:169-172 | the sample shown at position i is the one at the start of i's period |
| GuitarSynth.ReduceSampleRate | guitar_synth/guitar_synth.py:161-174 | every output is the sample at the start of its period, and the hold ends on the last sample taken (unchanged for an empty block) |
| GuitarSynth.StepWithinPeriod | guitar_synth/guitar_synth.py:169-172 | inside a period the held position does not move |
| GuitarSynth.HoldingTwice | guitar_synth/guitar_synth.py:161-174 | holding a held signal changes nothing, and only input samples appear in it |
| GuitarSynth.ShapeWaves | guitar_synth/guitar_synth.py:176-183 | amount 0 leaves the block alone; otherwise each sample is tanh of itself times 1 + 3 amount |
| GuitarSynth.LowPass | guitar_synth/guitar_synth.py:185-217 | one output per filtered sample |
| GuitarSynth.LowPassCausal | guitar_synth/guitar_synth.py:213-215 | the filter's first outputs do not depend on later samples, and each output follows the recurrence over the last three inputs and two outputs, zero before the start |
| GuitarSynth.PassThroughFilter | guitar_synth/guitar_synth.py:213-215 | a filter whose only coefficient is a direct 1 passes the block through |
| GuitarSynth.Scale | guitar_synth/guitar_synth.py:276-283 | each sample multiplied by the gain |
| GuitarSynth.NextEnvelope | guitar_synth/guitar_synth.py:219-233 | a block louder than the envelope sets it to its level; otherwise the envelope decays |
| GuitarSynth.EnvelopeBounds | guitar_synth/guitar_synth.py:219-233 | the envelope never goes negative or grows on a quieter block, and never exceeds the louder of itself and the block |
| GuitarSynth.WetChain | guitar_synth/guitar_synth.py:248-283 | the chain gives one sample per input and changes only the phases, oscillator, envelope and hold |
| GuitarSynth.BypassedChainIsRingModulation | guitar_synth/guitar_synth.py:251-283 | with every optional stage off the chain is ring modulation alone, which always runs since the ring frequency is at least 20 Hz |
| GuitarSynth.OutputSample | guitar_synth/guitar_synth.py:285-289 | every output sample lies in [−1, 1] |
| GuitarSynth.Output | guitar_synth/guitar_synth.py:285-289 | one output per input sample, each in [−1, 1] |
| GuitarSynth.ProcessAudio | guitar_synth/guitar_synth.py:235-291 | an empty block comes back as it is and changes nothing; otherwise the output is the clipped mix of input and chain, within [−1, 1], and the parameters are kept |
| GuitarSynth.DrySynthIsTransparent | guitar_synth/guitar_synth.py:285-289 | at wet mix 0, input within [−1, 1] comes back unchanged |
| GuitarSynth.OutputIsBlend | guitar_synth/guitar_synth.py:285-289 | each output sample is the dry/wet blend of input and chain when that lies in [−1, 1], and the nearer bound otherwise |
| Pitch.Octave4Frequency | synth_engine.py:10-14 | a note has an octave-4 frequency exactly when it is one of the twelve sharp-spelled names, and it is that name's positive table value |
| Pitch.IndexOf | chord_detector.py:207 | a name's position in the chromatic scale is found exactly when the name is in the scale, and the scale holds the name at that position |
| Pitch.IndexOfAt | chord_detector.py:207 | looking up the name at a position gives that position back, since the twelve names are distinct |
| Pitch.IndexOfNoteAbove | chord_detector.py:207-214 | the note a number of semitones above a root sits at the root's position plus those semitones, modulo 12 |

## Left out

- Audio streams, threads, devices, sleeping, printing, callback counters and level meters: they are I/O; the values they would deliver (the input block, the clock reading, a detector's result) are parameters.
- Random patterns (`dubstep`, `ambient`, `random`) and the bit crusher's random hold: the random draws are parameters.
- Arpeggio.GenerateArpeggio: a random pattern's events are the parameter `randomNotes` whatever the tempo, so its `ZeroDivisionError` at tempo 0 and its endless loop at a negative tempo are not modelled.
- Floating point: every sample and frequency is a real, so rounding, the float32 conversion and the floating accumulation of `current_time` (modelled as k·step exactly) are not modelled.
- The dtype of `np.zeros_like` outputs: an integer input array would truncate; inputs are modelled as real samples.
- Sine, tanh, square roots, logarithms, the quantiser's rounding and the biquad coefficients are passed in as functions or values, because they are transcendental or floating-point operations.
- FFT, `find_peaks` and the peak-picking front of `find_guitar_peaks`, CQT/HPSS, autocorrelation and YIN, `_find_fundamental_frequency`, `_extract_frequencies`, `_detect_multiple_notes` and the tuner's `analyze_window`: spectral front ends whose results are passed in as parameters (`analyze` in the tuner).
- Enhanced chord `_determine_chord_voicing` (enhanced_chord_detector.py:323-355) and `_get_overall_tuning_status` (enhanced_chord_detector.py:357-384): descriptive strings derived from already-modelled results.
- The in-place mutation of `best_result` in `combine_detection_results`: the model builds a new record with the same fields.
- StereoDelay and MultiTap `get_parameters` (delay/stereo_delay.py:250-261, delay/multi_tap_delay.py:272-280): they call a base-class `get_parameters` that BaseDelay does not define, so they always raise `AttributeError`; there is nothing else to model.
- Distortion soft clip, tube and fuzz curves are a `curve` parameter, and the `get_info` strings are omitted.
- Humanize offsets in the tempo-synced delay (delay/tempo_synced_delay.py:107-122) are computed but never read; HumanizeIsInaudible states exactly that.
- `filter_state` in the guitar synth is assigned but never read.
- BaseDelay.New: a zero-length buffer is excluded by its requires, because every read and write would take an index modulo zero.
- StereoDelay.New: a negative buffer length is excluded, because `np.zeros` raises on it.
- MultiTap.AddTap: a negative buffer length is excluded, because `np.zeros` raises on it.
- MultiTap.SetTapParameters: a negative buffer length is excluded, because `np.zeros` raises on it.
- MultiTap.SyncTapsToTempo: requires a positive tempo; zero divides by zero and a negative tempo gives negative buffer lengths.
- MultiTap.HalfRoot2: √2/2 is written as its double-precision value 0.7071067811865476, so the equal-power sums are stated for that value.
- TempoSynced.UpdateDelay: requires a non-zero tempo, where the program raises `ZeroDivisionError`.
- TempoSynced.SetNoteDivision: requires a non-zero tempo, where the program raises `ZeroDivisionError`.
- Synth.RenderArpeggio: a negative arpeggio duration or note start time is excluded by its requires; the arpeggio engine never produces one, and `np.zeros` would raise on a negative length. Each note's oscillator samples are the parameter `waves`; the pad, lead and bass oscillators' own envelopes enter only through the condition under which they raise, and their shaping of the samples is part of `waves`.
- Synth.RenderAll: a negative note duration is excluded by its requires, for the same reason.
- GuitarSynth.New: a sample rate of 0 is excluded, because the phase step divides by it.
- GuitarSynth.BitCrush: at bit depth 1 the quantiser divides by zero (guitar_synth/guitar_synth.py:156-157); the quantiser is a parameter, and bit depth is a real.
- GuitarSynth.SetParameters: a keyword that names a method is not modelled (assigning it would replace the method).
- EnhancedGuitar.HarmonicConfidence: requires positive magnitudes, because the program divides by the largest one.
- EnhancedGuitar: the detector's note table takes its equal-tempered frequencies as a parameter, since they are powers of 2^(1/12).
- GuitarTuner.DetectNote: an exception raised inside `analyze_window` is not modelled; `analyze` is total.
- MultiTap.ProcessSample: when a later tap's buffer has no slot, the program has already moved the read positions of the taps before it when `IndexError` is raised; the raised outcome carries no state, so that partial update is not modelled. The same holds for MultiTap.ProcessSampleAsWritten and MultiTap.ProcessBuffer.
- Synth.RenderNote: the event record always has its octave, duration and velocity, so the program's defaults for a missing key (octave 4, duration 0.5, velocity 0.8, synth_engine.py:63-65) are not modelled; the arpeggio engine always fills these keys.

## Findings

| source | as written | input that shows it | evidently intended | confidence | as-written member | corrected member |
|---|---|---|---|---|---|---|
| chordino_chord_detector.py:171-179 | any `m` in the quality is read as minor before the other qualities are tried | "Cdim" (and "Cmaj7") read as minor | `m` means minor only when it is not part of `dim` or `maj` | not executed | Chordino.ParseQualityAsWritten, Chordino.DiminishedReadAsMinor, Chordino.DiminishedLabelNotes | Chordino.ParseQuality, Chordino.ParseSpellRoundTrip, Chordino.DetectionsAgree |
| polyphonic_chord_detector.py:256 | `time.time()` is called but `time` is never imported (also lines 319 and 331) | any block of audio: every detection raises `NameError` | import `time` so a detection returns its result | not executed | Polyphonic.DetectAsWrittenAlwaysRaises | Polyphonic.DetectChordPolyphonic |
| delay/multi_tap_delay.py:207-222 | each tap reads at the read index stored by the previous call, which is the previous write position | any tap whose delay is longer than one sample echoes the previous sample | each tap reads the sample written its own delay earlier | not executed | MultiTap.ProcessSampleAsWritten, MultiTap.AsWrittenEchoesPreviousSample, MultiTap.ProcessBuffer (reading `AsWritten`) | MultiTap.ProcessSample, MultiTap.EchoReadsOldest, MultiTap.BufferIsSamples (reading `Intended`) |
| main.py:152 | the callback's `time` parameter hides the `time` module, so `time.time()` at line 190 raises `AttributeError` | any block whose peak exceeds 0.01 | read the clock from the `time` module so loud blocks are analysed | not executed | ArpeggiatorApp.AudioCallbackAsWritten, ArpeggiatorApp.AsWrittenNeverAccepts | ArpeggiatorApp.AudioCallback, ArpeggiatorApp.CooldownAfterAcceptance |

=== FILE: arpeggiator_app.dfy ===
/** `GuitarArpeggiator`, the application object: its settings and their
    setters, the start guard, and the rule its audio callback applies to
    decide when a detected chord replaces the current one and a new
    arpeggio is generated. Streams, threads, devices, printing and
    playback are not modelled; the chord detector's result and the clock
    reading are inputs. */
module ArpeggiatorApp {
  import opened Base
  import Arpeggio
  import Synth
  import ChordDetector

  datatype App = App(running: bool, currentChord: Option<ChordDetector.ChordResult>,
                     currentArpeggio: Option<Arpeggio.Arpeggio>, tempo: real, pattern: string,
                     synthType: string, duration: real, lastChordTime: Option<real>)

  /** What the constructor and the setters keep: tempo in [60, 200],
      duration in [0.5, 10], a registered pattern and synth. */
  predicate Valid(a: App)
  {
    && 60.0 <= a.tempo <= 200.0
    && 0.5 <= a.duration <= 10.0
    && a.pattern in Arpeggio.PatternNames
    && a.synthType in Synth.SynthNames
  }

  /** The constructor's state: stopped, no chord, the configured defaults
      (120 BPM, 'up', 'saw') and a 2 s arpeggio. */
  function New(): (a: App)
    ensures Valid(a) && !a.running && a.currentChord.None? && a.lastChordTime.None?
  {
    App(false, None, None, 120.0, "up", "saw", 2.0, None)
  }

  /** `set_tempo`: clamped to [60, 200] rather than rejected. */
  function SetTempo(a: App, tempo: real): (r: App)
    requires Valid(a)
    ensures Valid(r) && r == a.(tempo := r.tempo)
    ensures 60.0 <= tempo <= 200.0 ==> r.tempo == tempo
    ensures tempo < 60.0 ==> r.tempo == 60.0
    ensures tempo > 200.0 ==> r.tempo == 200.0
  {
    a.(tempo := Max(60.0, Min(200.0, tempo)))
  }

  /** `set_duration`: clamped to [0.5, 10]. */
  function SetDuration(a: App, duration: real): (r: App)
    requires Valid(a)
    ensures Valid(r) && r == a.(duration := r.duration)
    ensures 0.5 <= duration <= 10.0 ==> r.duration == duration
    ensures duration < 0.5 ==> r.duration == 0.5
    ensures duration > 10.0 ==> r.duration == 10.0
  {
    a.(duration := Max(0.5, Min(10.0, duration)))
  }

  /** Setting the same tempo or duration twice is setting it once. */
  lemma ClampingSettersIdempotent(a: App, tempo: real, duration: real)
    requires Valid(a)
    ensures SetTempo(SetTempo(a, tempo), tempo) == SetTempo(a, tempo)
    ensures SetDuration(SetDuration(a, duration), duration) == SetDuration(a, duration)
  {
  }

  /** `set_pattern`: a name in the engine's pattern table is taken; any
      other leaves the pattern as it was. */
  function SetPattern(a: App, name: string): (r: App)
    requires Valid(a)
    ensures Valid(r) && r == a.(pattern := r.pattern)
    ensures name in Arpeggio.PatternNames <==> r.pattern == name
    ensures name !in Arpeggio.PatternNames ==> r == a
  {
    if Arpeggio.PatternOf(name).Some? then a.(pattern := name) else a
  }

  /** `set_synth`: a name in the synth table is taken; any other leaves the
      synth as it was. */
  function SetSynth(a: App, name: string): (r: App)
    requires Valid(a)
    ensures Valid(r) && r == a.(synthType := r.synthType)
    ensures name in Synth.SynthNames <==> r.synthType == name
    ensures name !in Synth.SynthNames ==> r == a
  {
    if Synth.OscillatorOf(name).Some? then a.(synthType := name) else a
  }

  /** `start`: already running, nothing happens; otherwise the application
      is marked running (the streams and the thread it opens are not
      modelled). */
  function Start(a: App): (r: App)
    ensures r.running && r == a.(running := true)
    ensures a.running ==> r == a
  {
    if a.running then a else a.(running := true)
  }

  /** `stop`: the running flag cleared. */
  function Stop(a: App): (r: App)
    ensures !r.running && r == a.(running := false)
  {
    a.(running := false)
  }

  /** Starting twice is starting once; stopping undoes a start from a
      stopped state. */
  lemma StartStop(a: App)
    ensures Start(Start(a)) == Start(a)
    ensures !a.running ==> Stop(Start(a)) == a
  {
  }

  /** The input level above which a chord is looked for. */
  const DetectionThreshold: real := 0.01

  /** The confidence a valid chord needs to be accepted. */
  const AcceptConfidence: real := 0.6

  /** The time that must pass after an accepted chord before the next
      detection, in seconds. */
  const Cooldown: real := 1.0

  /** Enough time has passed since the last accepted chord (or none has
      been accepted yet). */
  predicate CooledDown(a: App, now: real)
  {
    a.lastChordTime.None? || now - a.lastChordTime.value > Cooldown
  }

  /** The callback runs the detector: the block is non-empty, its peak is
      above the threshold, and the cooldown has passed. */
  predicate Attempts(a: App, input: seq<real>, now: real)
  {
    |input| > 0 && PeakAbs(input) > DetectionThreshold && CooledDown(a, now)
  }

  /** A detection is accepted when valid and confident enough. */
  predicate Accepts(d: ChordDetector.ChordResult)
  {
    d.valid && d.confidence > AcceptConfidence
  }

  /** The fields of a detection the arpeggio engine reads. */
  function ChordOf(d: ChordDetector.ChordResult): (c: Arpeggio.Chord)
    ensures c.valid == d.valid && c.notes == d.notes && c.timestamp == d.timestamp
  {
    Arpeggio.Chord(d.valid, d.notes, d.timestamp)
  }

  /** `audio_callback`, with the clock reading `now` as an input and the
      detector's result `detected` standing for `detect_chord` on the
      block. When a detection is attempted and accepted, the chord and its
      time are recorded and a new arpeggio is generated with the current
      pattern, tempo and duration (`randomNotes` is what a random pattern
      would draw); otherwise, including a rejected detection, the state is
      unchanged, so a rejection does not restart the cooldown. The output
      block is always silence. */
  method AudioCallback(a: App, input: seq<real>, frames: nat, now: real, detected: ChordDetector.ChordResult,
                       randomNotes: seq<Arpeggio.NoteEvent>) returns (r: App, out: seq<real>)
    requires Valid(a)
    ensures Valid(r) && out == Zeros(frames)
    ensures !(Attempts(a, input, now) && Accepts(detected)) ==> r == a
    ensures Attempts(a, input, now) && Accepts(detected) ==>
              && r == a.(currentChord := Some(detected), lastChordTime := Some(now), currentArpeggio := r.currentArpeggio)
              && r.currentArpeggio.Some?
              && (|detected.notes| > 0 ==>
                    && r.currentArpeggio.value.chord == Some(ChordOf(detected))
                    && r.currentArpeggio.value.pattern == Some(a.pattern)
                    && r.currentArpeggio.value.tempo == a.tempo
                    && r.currentArpeggio.value.duration == a.duration)
              && (|detected.notes| == 0 ==> r.currentArpeggio == Some(Arpeggio.EmptyArpeggio))
  {
    r := a;
    if |input| > 0 && PeakAbs(input) > DetectionThreshold {
      if a.lastChordTime.None? || now - a.lastChordTime.value > Cooldown {
        if detected.valid && detected.confidence > AcceptConfidence {
          var arpeggio := Arpeggio.GenerateArpeggio(Some(ChordOf(detected)), a.pattern, a.tempo, a.duration, randomNotes);
          r := a.(currentChord := Some(detected), lastChordTime := Some(now), currentArpeggio := Some(arpeggio.value));
        }
      }
    }
    out := Zeros(frames);
  }

  /** Once a chord is accepted at `now`, no detection is attempted again
      until more than a second later, however loud the input. */
  lemma CooldownAfterAcceptance(a: App, now: real, detected: ChordDetector.ChordResult, later: real,
                                arpeggio: Option<Arpeggio.Arpeggio>, input: seq<real>)
    ensures var r := a.(currentChord := Some(detected), lastChordTime := Some(now), currentArpeggio := arpeggio);
            Attempts(r, input, later) <==> |input| > 0 && PeakAbs(input) > DetectionThreshold && later > now + Cooldown
  {
  }

  /** A quiet block never triggers detection: every sample within the
      threshold means no attempt. */
  lemma QuietBlockIsIgnored(a: App, input: seq<real>, now: real)
    requires forall i :: 0 <= i < |input| ==> Abs(input[i]) <= DetectionThreshold
    ensures !Attempts(a, input, now)
  {
    if |input| > 0 {
      var k :| 0 <= k < |input| && Abs(input[k]) == PeakAbs(input);
    }
  }

  /** The callback as written: its fourth parameter is named `time`, which
      hides the `time` module, so `time.time()` asks the stream's timing
      record for a `time` attribute it does not have and raises
      `AttributeError` whenever the block is loud enough to be looked at.
      Quieter blocks and missing input return silence with nothing
      changed. */
  function AudioCallbackAsWritten(a: App, input: seq<real>, frames: nat): (r: Outcome<(App, seq<real>)>)
    ensures r.Raised? <==> |input| > 0 && PeakAbs(input) > DetectionThreshold
    ensures r.Returned? ==> r.value == (a, Zeros(frames))
  {
    if |input| > 0 && PeakAbs(input) > DetectionThreshold then Raised("AttributeError")
    else Returned((a, Zeros(frames)))
  }

  /** As written, the callback never accepts a chord: every block it could
      detect one in raises first, so the chord, the arpeggio and the
      cooldown never change. */
  lemma AsWrittenNeverAccepts(a: App, input: seq<real>, frames: nat, now: real)
    ensures Attempts(a, input, now) ==> AudioCallbackAsWritten(a, input, frames).Raised?
    ensures AudioCallbackAsWritten(a, input, frames).Returned? ==>
              AudioCallbackAsWritten(a, input, frames).value.0 == a
  {
  }
}

=== FILE: arpeggio.dfy ===
/** The arpeggio engine: a chord's note names, a tempo and a duration become a
    timed list of note events. Every deterministic pattern repeats one cycle
    of "slots" (note, octave, length factor, velocity); event k plays slot
    k mod |cycle| and starts at k steps. Time is exact: the running
    `current_time += note_duration` of the engine is k * step here. */
module Arpeggio {
  import opened Base
  import Pitch
  import Sorting

  /** The tempo reported by an empty arpeggio (the configuration default). */
  const DefaultTempo: real := 120.0

  datatype NoteEvent = NoteEvent(note: string, octave: int, startTime: real, duration: real, velocity: real)

  /** The fields of a detected chord that the engine reads. */
  datatype Chord = Chord(valid: bool, notes: seq<string>, timestamp: real)

  datatype Pattern =
    | Up | Down | UpDown | DownUp | RandomOrder | OctaveUp | OctaveDown
    | Trance16th | DubstepChop | AmbientFlow | RockEighth

  /** The registered pattern names, in table order. */
  const PatternNames: seq<string> := ["up", "down", "up_down", "down_up", "random", "octave_up",
                                      "octave_down", "trance_16th", "dubstep_chop", "ambient_flow",
                                      "rock_eighth"]

  function Name(p: Pattern): string {
    match p
    case Up => "up"
    case Down => "down"
    case UpDown => "up_down"
    case DownUp => "down_up"
    case RandomOrder => "random"
    case OctaveUp => "octave_up"
    case OctaveDown => "octave_down"
    case Trance16th => "trance_16th"
    case DubstepChop => "dubstep_chop"
    case AmbientFlow => "ambient_flow"
    case RockEighth => "rock_eighth"
  }

  /** The pattern table lookup. */
  function PatternOf(name: string): (r: Option<Pattern>)
    ensures r.Some? <==> name in PatternNames
    ensures r.Some? ==> Name(r.value) == name
  {
    if name == "up" then Some(Up)
    else if name == "down" then Some(Down)
    else if name == "up_down" then Some(UpDown)
    else if name == "down_up" then Some(DownUp)
    else if name == "random" then Some(RandomOrder)
    else if name == "octave_up" then Some(OctaveUp)
    else if name == "octave_down" then Some(OctaveDown)
    else if name == "trance_16th" then Some(Trance16th)
    else if name == "dubstep_chop" then Some(DubstepChop)
    else if name == "ambient_flow" then Some(AmbientFlow)
    else if name == "rock_eighth" then Some(RockEighth)
    else None
  }

  lemma PatternNameRoundTrip(p: Pattern)
    ensures PatternOf(Name(p)) == Some(p)
    ensures Name(p) in PatternNames
  {
  }

  /** Patterns that draw on a random number generator. */
  predicate IsRandom(p: Pattern) {
    p == RandomOrder || p == DubstepChop || p == AmbientFlow
  }

  /** Pitch rank of a name: its chromatic index, 0 for an unknown name. */
  function PitchRank(note: string): real {
    match Pitch.IndexOf(note)
    case Some(i) => i as real
    case None => 0.0
  }

  function SortNotesByPitch(notes: seq<string>): (r: seq<string>)
    ensures |r| == |notes| && multiset(r) == multiset(notes)
    ensures forall i, j :: 0 <= i < j < |r| ==> PitchRank(r[i]) <= PitchRank(r[j])
  {
    Sorting.SortBy(notes, PitchRank)
  }

  /** Notes of equal pitch rank (repeated names, or unknown names next to
      'C') keep the order they were given in. */
  lemma SortNotesByPitchIsStable(notes: seq<string>, rank: real)
    ensures Sorting.WithKey(SortNotesByPitch(notes), PitchRank, rank) == Sorting.WithKey(notes, PitchRank, rank)
  {
    Sorting.SortIsStable(notes, PitchRank, rank);
  }

  function Reverse<T>(s: seq<T>): (r: seq<T>)
    ensures |r| == |s|
    ensures forall i :: 0 <= i < |s| ==> r[i] == s[|s| - 1 - i]
  {
    if |s| == 0 then [] else Reverse(s[1..]) + [s[0]]
  }

  /** Python's `s[1:-1]`: everything but the two ends, empty below length 2. */
  function Inner<T>(s: seq<T>): (r: seq<T>)
    ensures |s| >= 2 ==> r == s[1..|s| - 1]
    ensures |s| < 2 ==> r == []
  {
    if |s| >= 2 then s[1..|s| - 1] else []
  }

  /** One position of a pattern's cycle. */
  datatype Slot = Slot(note: string, octave: int, lengthFactor: real, velocity: real) {
    /** This slot played as the event with index k. */
    function At(k: int, step: real): NoteEvent {
      NoteEvent(note, octave, k as real * step, step * lengthFactor, velocity)
    }
  }

  function Plain(notes: seq<string>): (r: seq<Slot>)
    ensures |r| == |notes|
  {
    seq(|notes|, i requires 0 <= i < |notes| => Slot(notes[i], 4, 1.0, 0.8))
  }

  const TranceEmphasis: seq<real> := [1.0, 0.6, 0.8, 0.7]
  const RockEmphasis: seq<real> := [1.0, 0.7, 0.9, 0.7]

  function OctaveUpVelocity(octave: int): real { 0.7 + (octave - 3) as real * 0.1 }
  function OctaveDownVelocity(octave: int): real { 0.9 - (5 - octave) as real * 0.1 }

  /** All notes in the first octave, then all in the second, then the third. */
  function OctaveSweep(octaves: seq<int>, notes: seq<string>, up: bool): (r: seq<Slot>)
    ensures |r| == |octaves| * |notes|
  {
    if |octaves| == 0 then []
    else
      var o := octaves[0];
      var v := if up then OctaveUpVelocity(o) else OctaveDownVelocity(o);
      seq(|notes|, i requires 0 <= i < |notes| => Slot(notes[i], o, 1.0, v))
        + OctaveSweep(octaves[1..], notes, up)
  }

  /** The cycle a deterministic pattern repeats, built from the pitch-sorted notes. */
  function Cycle(p: Pattern, sorted: seq<string>): (r: seq<Slot>)
    requires !IsRandom(p)
    ensures |sorted| > 0 ==> |r| > 0
  {
    var n := |sorted|;
    match p
    case Up => Plain(sorted)
    case Down => Plain(Reverse(sorted))
    case UpDown => Plain(sorted + Reverse(Inner(sorted)))
    case DownUp => Plain(Reverse(sorted) + Inner(sorted))
    case OctaveUp => OctaveSweep([3, 4, 5], sorted, true)
    case OctaveDown => OctaveSweep([5, 4, 3], Reverse(sorted), false)
    case Trance16th =>
      seq(n, i requires 0 <= i < n => Slot(sorted[i], 4, 1.0, TranceEmphasis[i % 4] * 0.8))
    case RockEighth =>
      seq(n, i requires 0 <= i < n => Slot(sorted[i], 4, 0.9, RockEmphasis[i % 4] * 0.8))
  }

  /** Seconds between event starts: an eighth note, or a sixteenth for the
      octave and trance patterns. */
  function Step(p: Pattern, tempo: real): (r: real)
    requires tempo > 0.0
    ensures r > 0.0
  {
    if p == OctaveUp || p == OctaveDown || p == Trance16th then 60.0 / (tempo * 4.0)
    else 60.0 / (tempo * 2.0)
  }

  /** Number of k >= 0 with k * step < duration: the ceiling of
      duration / step, and 0 for a non-positive duration. */
  function EventCount(step: real, duration: real): (n: nat)
    requires step > 0.0
  {
    if duration <= 0.0 then 0
    else
      var q := duration / step;
      if q.Floor as real == q then q.Floor else q.Floor + 1
  }

  lemma EventCountIsFirstNotBefore(step: real, duration: real, n: nat)
    requires step > 0.0
    requires n as real * step >= duration
    requires n == 0 || (n - 1) as real * step < duration
    ensures n == EventCount(step, duration)
  {
    if duration > 0.0 {
      BelowQuotient(n as real, duration, step);
      BelowQuotient((n - 1) as real, duration, step);
    }
  }

  /** The reference schedule: event k is slot k mod |cycle| started at k steps. */
  function Schedule(cycle: seq<Slot>, step: real, duration: real): (r: seq<NoteEvent>)
    requires |cycle| > 0 && step > 0.0
  {
    seq(EventCount(step, duration), k requires 0 <= k => cycle[k % |cycle|].At(k, step))
  }

  /** Events `events` are the first |events| events of the schedule, all
      starting before the duration. */
  predicate OnSchedule(cycle: seq<Slot>, step: real, duration: real, events: seq<NoteEvent>)
    requires |cycle| > 0
  {
    forall k :: 0 <= k < |events| ==>
      events[k] == cycle[k % |cycle|].At(k, step) && events[k].startTime < duration
  }

  /** The engine's loop: keep running through the cycle, stopping as soon as
      the running time reaches the duration. */
  method Play(cycle: seq<Slot>, step: real, duration: real) returns (events: seq<NoteEvent>)
    requires |cycle| > 0 && step > 0.0
    ensures forall k :: 0 <= k < |events| ==> events[k] == cycle[k % |cycle|].At(k, step)
    ensures forall k :: 0 <= k < |events| ==> events[k].startTime < duration
    ensures |events| == EventCount(step, duration)
    ensures events == Schedule(cycle, step, duration)
  {
    events := [];
    var time := 0.0;
    while time < duration
      invariant time == |events| as real * step
      invariant |events| == 0 || (|events| - 1) as real * step < duration
      invariant time < duration ==> |events| % |cycle| == 0
      invariant OnSchedule(cycle, step, duration, events)
      decreases (duration / step).Floor + 1 - |events|
    {
      ghost var before := |events|;
      BelowQuotient(before as real, duration, step);
      events, time := PlayPass(cycle, step, duration, events, time);
    }
    EventCountIsFirstNotBefore(step, duration, |events|);
    ScheduleIsUnique(cycle, step, duration, events);
  }

  lemma ScheduleIsUnique(cycle: seq<Slot>, step: real, duration: real, events: seq<NoteEvent>)
    requires |cycle| > 0 && step > 0.0
    requires |events| == EventCount(step, duration)
    requires forall k :: 0 <= k < |events| ==> events[k] == cycle[k % |cycle|].At(k, step)
    ensures events == Schedule(cycle, step, duration)
  {
  }

  lemma ScheduleAt(cycle: seq<Slot>, step: real, duration: real, k: nat)
    requires |cycle| > 0 && step > 0.0 && k < EventCount(step, duration)
    ensures Schedule(cycle, step, duration)[k] == cycle[k % |cycle|].At(k, step)
  {
  }

  /** One pass of the inner `for note in pattern` loop. */
  method PlayPass(cycle: seq<Slot>, step: real, duration: real, events0: seq<NoteEvent>, time0: real)
    returns (events: seq<NoteEvent>, time: real)
    requires |cycle| > 0 && step > 0.0
    requires time0 == |events0| as real * step && time0 < duration
    requires |events0| % |cycle| == 0
    requires OnSchedule(cycle, step, duration, events0)
    ensures |events| > |events0|
    ensures time == |events| as real * step
    ensures (|events| - 1) as real * step < duration
    ensures time < duration ==> |events| % |cycle| == 0
    ensures OnSchedule(cycle, step, duration, events)
  {
    events, time := events0, time0;
    for i := 0 to |cycle|
      invariant |events| == |events0| + i
      invariant time == |events| as real * step
      invariant |events| == 0 || (|events| - 1) as real * step < duration
      invariant OnSchedule(cycle, step, duration, events)
    {
      if time >= duration {
        break;
      }
      ShiftWithinCycle(|events0|, i, |cycle|);
      ExtendSchedule(cycle, step, duration, events, cycle[i].At(|events|, step));
      events := events + [cycle[i].At(|events|, step)];
      time := time + step;
    }
    if time < duration {
      Base.DivModUnique(|events0| + |cycle|, |cycle|, |events0| / |cycle| + 1, 0);
    }
  }

  lemma ExtendSchedule(cycle: seq<Slot>, step: real, duration: real, events: seq<NoteEvent>, e: NoteEvent)
    requires |cycle| > 0
    requires OnSchedule(cycle, step, duration, events)
    requires e == cycle[|events| % |cycle|].At(|events|, step)
    requires e.startTime < duration
    ensures OnSchedule(cycle, step, duration, events + [e])
  {
    var s := events + [e];
    forall k | 0 <= k < |s|
      ensures s[k] == cycle[k % |cycle|].At(k, step) && s[k].startTime < duration
    {
      if k < |events| {
        assert s[k] == events[k];
      }
    }
  }

  lemma ShiftWithinCycle(before: nat, i: nat, n: nat)
    requires n > 0 && i < n && before % n == 0
    ensures (before + i) % n == i
  {
    Base.DivModUnique(before + i, n, before / n, i);
  }

  /** What `generate_arpeggio` returns. `chord` and `pattern` are `None`
      exactly in the empty arpeggio. */
  datatype Arpeggio = Arpeggio(chord: Option<Chord>, pattern: Option<string>, tempo: real,
                               duration: real, notes: seq<NoteEvent>, totalNotes: nat, timestamp: real)

  const EmptyArpeggio: Arpeggio := Arpeggio(None, None, DefaultTempo, 0.0, [], 0, 0.0)

  /** The table lookup with its fallback: an unknown name plays 'up'. */
  function PatternOrUp(name: string): (p: Pattern)
    ensures name in PatternNames ==> Name(p) == name
    ensures name !in PatternNames ==> p == Up
  {
    match PatternOf(name)
    case Some(p) => p
    case None => Up
  }

  /** How a pattern function or `generate_arpeggio` ends: with a value,
      by raising, or never. */
  datatype Run<T> = Ends(value: T) | Fails(error: string) | Loops

  /** A deterministic pattern function applied to a chord's notes. No
      notes give no events. Otherwise the step is 60 / (tempo * 2) or
      60 / (tempo * 4): a tempo of 0 raises `ZeroDivisionError`; a negative
      tempo gives a negative step, so the running time never climbs to a
      positive duration and the loop never ends (it is never entered for
      a duration of at most 0). */
  method RunPattern(p: Pattern, notes: seq<string>, duration: real, tempo: real) returns (r: Run<seq<NoteEvent>>)
    requires !IsRandom(p)
    ensures |notes| == 0 ==> r == Ends([])
    ensures |notes| > 0 && tempo == 0.0 ==> r == Fails("ZeroDivisionError")
    ensures |notes| > 0 && tempo < 0.0 ==> (duration <= 0.0 ==> r == Ends([])) && (duration > 0.0 ==> r == Loops)
    ensures |notes| > 0 && tempo > 0.0 ==> r == Ends(Schedule(Cycle(p, SortNotesByPitch(notes)), Step(p, tempo), duration))
  {
    if |notes| == 0 {
      return Ends([]);
    }
    if tempo == 0.0 {
      return Fails("ZeroDivisionError");
    }
    if tempo < 0.0 {
      return if duration <= 0.0 then Ends([]) else Loops;
    }
    var sorted := SortNotesByPitch(notes);
    var events := Play(Cycle(p, sorted), Step(p, tempo), duration);
    r := Ends(events);
  }

  /** With a negative step the running time after any number of events is
      at most 0, so it stays below a positive duration: the pattern loop
      of a negative tempo never ends. */
  lemma FallingTimeNeverReaches(tempo: real, duration: real, perBeat: real, k: nat)
    requires tempo < 0.0 && duration > 0.0 && perBeat > 0.0
    ensures k as real * (60.0 / (tempo * perBeat)) < duration
  {
    assert tempo * perBeat < 0.0 by { MulMonoStrict(tempo, 0.0, perBeat); }
    assert 60.0 / (tempo * perBeat) < 0.0;
    MulNonneg(k as real, -(60.0 / (tempo * perBeat)));
  }

  /** `generate_arpeggio`. The random patterns' output is not modelled: it
      is passed in as `randomNotes`. A deterministic pattern's failure or
      endless loop is the whole call's. */
  method GenerateArpeggio(chord: Option<Chord>, patternName: string, tempo: real, duration: real,
                          randomNotes: seq<NoteEvent>) returns (r: Run<Arpeggio>)
    ensures chord.None? || !chord.value.valid || |chord.value.notes| == 0 ==> r == Ends(EmptyArpeggio)
    ensures tempo > 0.0 ==> r.Ends?
    ensures chord.Some? && chord.value.valid && |chord.value.notes| > 0 && !IsRandom(PatternOrUp(patternName)) ==>
              && (tempo == 0.0 ==> r == Fails("ZeroDivisionError"))
              && (tempo < 0.0 && duration > 0.0 ==> r == Loops)
    ensures r.Ends? && chord.Some? && chord.value.valid && |chord.value.notes| > 0 ==>
              var a := r.value;
              && a.chord == chord && a.pattern == Some(patternName)
              && a.tempo == tempo && a.duration == duration
              && a.totalNotes == |a.notes| && a.timestamp == chord.value.timestamp
              && (IsRandom(PatternOrUp(patternName)) ==> a.notes == randomNotes)
              && (!IsRandom(PatternOrUp(patternName)) && tempo < 0.0 ==> a.notes == [])
              && (!IsRandom(PatternOrUp(patternName)) && tempo > 0.0 ==>
                    var p := PatternOrUp(patternName);
                    a.notes == Schedule(Cycle(p, SortNotesByPitch(chord.value.notes)), Step(p, tempo), duration))
  {
    if chord.None? || !chord.value.valid || |chord.value.notes| == 0 {
      return Ends(EmptyArpeggio);
    }
    var p := PatternOrUp(patternName);
    var notes := randomNotes;
    if !IsRandom(p) {
      var run := RunPattern(p, chord.value.notes, duration, tempo);
      match run
      case Fails(e) => return Fails(e);
      case Loops => return Loops;
      case Ends(events) => notes := events;
    }
    r := Ends(Arpeggio(chord, Some(patternName), tempo, duration, notes, |notes|, chord.value.timestamp));
  }

  /** 'up': event k plays the k mod n-th note of the sorted chord at octave 4
      with velocity 0.8, an eighth note long, starting k eighth notes in;
      'down' does the same over the reversed order. */
  lemma UpAndDownEvents(sorted: seq<string>, tempo: real, duration: real, k: nat)
    requires |sorted| > 0 && tempo > 0.0
    requires k < EventCount(60.0 / (tempo * 2.0), duration)
    ensures var d := 60.0 / (tempo * 2.0);
            var n := |sorted|;
            && Schedule(Cycle(Up, sorted), Step(Up, tempo), duration)[k]
                 == NoteEvent(sorted[k % n], 4, k as real * d, d, 0.8)
            && Schedule(Cycle(Down, sorted), Step(Down, tempo), duration)[k]
                 == NoteEvent(sorted[n - 1 - k % n], 4, k as real * d, d, 0.8)
  {
  }

  /** 'up_down' climbs the sorted notes and comes back down without
      repeating either end, so its period is 2n - 2 (and 1 for a single
      note); 'down_up' is its mirror image. */
  lemma UpDownPeriod(sorted: seq<string>)
    requires |sorted| > 0
    ensures var n := |sorted|;
            |Cycle(UpDown, sorted)| == |Cycle(DownUp, sorted)| == (if n >= 2 then 2 * n - 2 else 1)
    ensures forall i :: 0 <= i < |sorted| ==> Cycle(UpDown, sorted)[i].note == sorted[i]
    ensures forall i :: |sorted| <= i < |Cycle(UpDown, sorted)| ==>
              Cycle(UpDown, sorted)[i].note == sorted[2 * |sorted| - 2 - i]
    ensures forall i :: 0 <= i < |Cycle(DownUp, sorted)| ==>
              Cycle(DownUp, sorted)[i].note == (if i < |sorted| then sorted[|sorted| - 1 - i] else sorted[i - |sorted| + 1])
  {
  }

  /** Slot j of an octave sweep: note j mod n in the (j div n)-th octave. */
  lemma {:induction false} OctaveSweepAt(octaves: seq<int>, notes: seq<string>, up: bool, j: nat)
    requires |notes| > 0 && j < |octaves| * |notes|
    ensures j / |notes| < |octaves|
    ensures var o := octaves[j / |notes|];
            OctaveSweep(octaves, notes, up)[j]
              == Slot(notes[j % |notes|], o, 1.0, if up then OctaveUpVelocity(o) else OctaveDownVelocity(o))
  {
    var n := |notes|;
    if j < n {
      Base.DivModUnique(j, n, 0, j);
    } else {
      var m := j - n;
      SweepTail(octaves, notes, up, j);
      OctaveSweepAt(octaves[1..], notes, up, m);
      ShiftByDivisor(j, n);
      assert octaves[1..][m / n] == octaves[j / n];
    }
  }

  /** Past the first octave, a sweep continues as the sweep of the
      remaining octaves. */
  lemma SweepTail(octaves: seq<int>, notes: seq<string>, up: bool, j: nat)
    requires |notes| <= j < |octaves| * |notes|
    ensures |octaves| >= 1 && j - |notes| < |octaves[1..]| * |notes|
    ensures OctaveSweep(octaves, notes, up)[j] == OctaveSweep(octaves[1..], notes, up)[j - |notes|]
  {
    var n := |notes|;
    assert |octaves[1..]| * n == |octaves| * n - n;
  }

  /** Stepping back by the divisor lowers the quotient by one and keeps the
      remainder. */
  lemma ShiftByDivisor(j: nat, n: nat)
    requires 0 < n <= j
    ensures j / n == (j - n) / n + 1 && j % n == (j - n) % n
  {
    var q, r := (j - n) / n, (j - n) % n;
    assert j == n * (q + 1) + r;
    Base.DivModUnique(j, n, q + 1, r);
  }

  lemma OctaveOfStep(k: nat, n: nat)
    requires n > 0
    ensures (k % (3 * n)) % n == k % n
    ensures (k % (3 * n)) / n == (k / n) % 3
  {
    var q, j := k / (3 * n), k % (3 * n);
    var a, b := j / n, j % n;
    assert j == n * a + b;
    assert a < 3 by {
      if a >= 3 {
        Base.MulAtLeast(n, a - 2);
      }
    }
    assert k == n * (3 * q + a) + b;
    Base.DivModUnique(k, n, 3 * q + a, b);
    Base.DivModUnique(3 * q + a, 3, q, a);
  }

  /** 'octave_up': event k plays the k mod n-th sorted note in octave
      3, 4 or 5 as (k div n) mod 3 is 0, 1 or 2, with velocity rising by 0.1
      per octave from 0.7, sixteenth notes apart. */
  lemma OctaveUpEvent(sorted: seq<string>, tempo: real, duration: real, k: nat)
    requires |sorted| > 0 && tempo > 0.0
    requires k < EventCount(60.0 / (tempo * 4.0), duration)
    ensures var d := 60.0 / (tempo * 4.0);
            var n := |sorted|;
            var octave := [3, 4, 5][(k / n) % 3];
            Schedule(Cycle(OctaveUp, sorted), Step(OctaveUp, tempo), duration)[k]
              == NoteEvent(sorted[k % n], octave, k as real * d, d, 0.7 + (octave - 3) as real * 0.1)
  {
    var n := |sorted|;
    var cycle := OctaveSweep([3, 4, 5], sorted, true);
    assert Cycle(OctaveUp, sorted) == cycle;
    assert |cycle| == 3 * n;
    var j := k % (3 * n);
    OctaveOfStep(k, n);
    ScheduleAt(cycle, 60.0 / (tempo * 4.0), duration, k);
    OctaveSweepAt([3, 4, 5], sorted, true, j);
    var o := [3, 4, 5][j / n];
    assert cycle[j] == Slot(sorted[j % n], o, 1.0, OctaveUpVelocity(o));
  }

  /** 'octave_down' mirrors 'octave_up': the reversed notes through octaves
      5, 4, 3, with velocity falling by 0.1 per octave from 0.9. */
  lemma OctaveDownEvent(sorted: seq<string>, tempo: real, duration: real, k: nat)
    requires |sorted| > 0 && tempo > 0.0
    requires k < EventCount(60.0 / (tempo * 4.0), duration)
    ensures var d := 60.0 / (tempo * 4.0);
            var n := |sorted|;
            var octave := [5, 4, 3][(k / n) % 3];
            Schedule(Cycle(OctaveDown, sorted), Step(OctaveDown, tempo), duration)[k]
              == NoteEvent(sorted[n - 1 - k % n], octave, k as real * d, d, 0.9 - (5 - octave) as real * 0.1)
  {
    var n := |sorted|;
    var cycle := OctaveSweep([5, 4, 3], Reverse(sorted), false);
    assert Cycle(OctaveDown, sorted) == cycle;
    assert |cycle| == 3 * n;
    var j := k % (3 * n);
    OctaveOfStep(k, n);
    ScheduleAt(cycle, 60.0 / (tempo * 4.0), duration, k);
    OctaveSweepAt([5, 4, 3], Reverse(sorted), false, j);
    var o := [5, 4, 3][j / n];
    assert cycle[j] == Slot(Reverse(sorted)[j % n], o, 1.0, OctaveDownVelocity(o));
  }

  /** 'trance_16th' accents by the note's position in the sorted chord. */
  lemma TranceEvent(sorted: seq<string>, tempo: real, duration: real, k: nat)
    requires |sorted| > 0 && tempo > 0.0
    requires k < EventCount(60.0 / (tempo * 4.0), duration)
    ensures var n := |sorted|;
            var d := 60.0 / (tempo * 4.0);
            Schedule(Cycle(Trance16th, sorted), Step(Trance16th, tempo), duration)[k]
              == NoteEvent(sorted[k % n], 4, k as real * d, d, [1.0, 0.6, 0.8, 0.7][(k % n) % 4] * 0.8)
  {
    ScheduleAt(Cycle(Trance16th, sorted), 60.0 / (tempo * 4.0), duration, k);
  }

  /** 'rock_eighth' accents likewise and plays each note for 0.9 of a step. */
  lemma RockEvent(sorted: seq<string>, tempo: real, duration: real, k: nat)
    requires |sorted| > 0 && tempo > 0.0
    requires k < EventCount(60.0 / (tempo * 2.0), duration)
    ensures var n := |sorted|;
            var d := 60.0 / (tempo * 2.0);
            Schedule(Cycle(RockEighth, sorted), Step(RockEighth, tempo), duration)[k]
              == NoteEvent(sorted[k % n], 4, k as real * d, d * 0.9, [1.0, 0.7, 0.9, 0.7][(k % n) % 4] * 0.8)
  {
    ScheduleAt(Cycle(RockEighth, sorted), 60.0 / (tempo * 2.0), duration, k);
  }

  /** The count of events is the least n with n steps reaching the duration. */
  lemma EventCountBounds(step: real, duration: real)
    requires step > 0.0
    ensures var n := EventCount(step, duration);
            n as real * step >= duration && (n == 0 || (n - 1) as real * step < duration)
  {
    var n := EventCount(step, duration);
    if duration > 0.0 {
      BelowQuotient(n as real, duration, step);
      BelowQuotient((n - 1) as real, duration, step);
    }
  }

  /** Every event starts before the duration, and one more step would reach it. */
  lemma ScheduleFitsDuration(cycle: seq<Slot>, step: real, duration: real)
    requires |cycle| > 0 && step > 0.0
    ensures var s := Schedule(cycle, step, duration);
            && (forall k :: 0 <= k < |s| ==> s[k].startTime < duration)
            && |s| as real * step >= duration
  {
    var s := Schedule(cycle, step, duration);
    EventCountBounds(step, duration);
    forall k | 0 <= k < |s| ensures s[k].startTime < duration {
      ScheduleAt(cycle, step, duration, k);
      MulMono(k as real, (|s| - 1) as real, step);
    }
  }
}

=== FILE: base.dfy ===
/** Small numeric helpers shared by every model module: optional values,
    Python's conversions between reals and integers, and numpy's clip. */
module Base {

  /** A value that may be missing (Python's `None`). */
  datatype Option<T> = None | Some(value: T)

  /** The result of a call that may raise: the value returned, or the name
      of the exception raised. */
  datatype Outcome<T> = Returned(value: T) | Raised(error: string)

  function Abs(x: real): (r: real)
    ensures r >= 0.0 && (r == x || r == -x)
  {
    if x < 0.0 then -x else x
  }

  function Min(a: real, b: real): (r: real)
    ensures r <= a && r <= b && (r == a || r == b)
  {
    if a <= b then a else b
  }

  function Max(a: real, b: real): (r: real)
    ensures r >= a && r >= b && (r == a || r == b)
  {
    if a >= b then a else b
  }

  /** numpy's clip: the lower bound is applied first, then the upper one,
      so an empty range (`lo > hi`) yields `hi`. */
  function Clip(x: real, lo: real, hi: real): (r: real)
    ensures lo <= hi ==> lo <= r <= hi
    ensures lo <= x <= hi ==> r == x
    ensures x < lo && lo <= hi ==> r == lo
    ensures x > hi ==> r == hi
  {
    Min(Max(x, lo), hi)
  }

  function ClipInt(x: int, lo: int, hi: int): (r: int)
    ensures lo <= hi ==> lo <= r <= hi
    ensures lo <= x <= hi ==> r == x
  {
    if x < lo then (if lo <= hi then lo else hi) else if x > hi then hi else x
  }

  /** Python's `int()` applied to a float: truncation toward zero. */
  function Trunc(x: real): (r: int)
    ensures x >= 0.0 ==> r as real <= x < r as real + 1.0
    ensures x < 0.0 ==> r as real - 1.0 < x <= r as real
  {
    if x >= 0.0 then x.Floor else -((-x).Floor)
  }

  /** Truncation of non-negative values keeps their order. */
  lemma TruncMono(x: real, y: real)
    requires 0.0 <= x <= y
    ensures 0 <= Trunc(x) <= Trunc(y)
  {
  }

  function Sum(s: seq<real>): (r: real)
    ensures (forall i :: 0 <= i < |s| ==> s[i] >= 0.0) ==> r >= 0.0
  {
    if |s| == 0 then 0.0 else Sum(s[..|s| - 1]) + s[|s| - 1]
  }

  function Mean(s: seq<real>): (r: real)
    requires |s| > 0
  {
    Sum(s) / |s| as real
  }

  /** Exact power of two, for octave shifts. */
  function Pow2(e: int): (r: real)
    ensures r > 0.0
    ensures e >= 0 ==> r >= 1.0
    decreases if e < 0 then -e else e
  {
    if e == 0 then 1.0
    else if e > 0 then 2.0 * Pow2(e - 1)
    else Pow2(e + 1) / 2.0
  }

  /** Position of a largest-magnitude sample of a non-empty signal. */
  function LoudestIndex(s: seq<real>): (k: nat)
    requires |s| > 0
    ensures k < |s|
    ensures forall i :: 0 <= i < |s| ==> Abs(s[i]) <= Abs(s[k])
  {
    if |s| == 1 then 0
    else
      var k := LoudestIndex(s[..|s| - 1]);
      assert forall i :: 0 <= i < |s| - 1 ==> s[..|s| - 1][i] == s[i];
      if Abs(s[|s| - 1]) > Abs(s[k]) then |s| - 1 else k
  }

  /** A signal of `n` zero samples (numpy's `zeros(n)`). */
  function Zeros(n: nat): (z: seq<real>)
    ensures |z| == n && forall i :: 0 <= i < n ==> z[i] == 0.0
  {
    seq(n, _ => 0.0)
  }

  /** Largest magnitude in a signal (numpy's `max(abs(x))`), 0 when empty. */
  function PeakAbs(s: seq<real>): (r: real)
    ensures r >= 0.0
    ensures forall i :: 0 <= i < |s| ==> Abs(s[i]) <= r
    ensures |s| > 0 ==> exists i :: 0 <= i < |s| && Abs(s[i]) == r
    ensures |s| == 0 ==> r == 0.0
  {
    if |s| == 0 then 0.0 else Abs(s[LoudestIndex(s)])
  }

  /** Number of elements of `s` that satisfy `p`. */
  function Count<T>(s: seq<T>, p: T -> bool): (r: nat)
    ensures r <= |s|
  {
    if |s| == 0 then 0 else Count(s[..|s| - 1], p) + (if p(s[|s| - 1]) then 1 else 0)
  }

  /** An element that satisfies `p` is counted. */
  lemma {:induction false} CountsWitness<T>(s: seq<T>, p: T -> bool, i: nat)
    requires i < |s| && p(s[i])
    ensures Count(s, p) >= 1
  {
    if i < |s| - 1 {
      CountsWitness(s[..|s| - 1], p, i);
    }
  }

  /** The elements of `s` that satisfy `keep`, in order. */
  function Filter<T(!new)>(s: seq<T>, keep: T -> bool): (r: seq<T>)
    ensures |r| <= |s|
    ensures forall x :: x in r <==> x in s && keep(x)
  {
    if |s| == 0 then []
    else
      var front := Filter(s[..|s| - 1], keep);
      assert forall x :: x in s <==> x in s[..|s| - 1] || x == s[|s| - 1];
      if keep(s[|s| - 1]) then front + [s[|s| - 1]] else front
  }

  /** Counting the elements that satisfy `p` is measuring what a filter
      by `p` keeps. */
  lemma {:induction false} CountIsFilterLength<T(!new)>(s: seq<T>, p: T -> bool)
    ensures Count(s, p) == |Filter(s, p)|
    decreases |s|
  {
    if |s| > 0 {
      CountIsFilterLength(s[..|s| - 1], p);
    }
  }

  /** A filter that keeps every element changes nothing. */
  lemma {:induction false} FilterKeepsAll<T(!new)>(s: seq<T>, keep: T -> bool)
    requires forall i :: 0 <= i < |s| ==> keep(s[i])
    ensures Filter(s, keep) == s
    decreases |s|
  {
    if |s| > 0 {
      FilterKeepsAll(s[..|s| - 1], keep);
      assert s[..|s| - 1] + [s[|s| - 1]] == s;
    }
  }

  /** The values `f` gives on the elements of `xs`, skipping those it gives
      nothing for, in order: `[f(x) for x in xs if f(x) is not None]`. */
  function FilterMap<A, B(!new)>(xs: seq<A>, f: A -> Option<B>): (r: seq<B>)
    ensures |r| <= |xs|
    ensures |xs| == 1 ==> r == Kept(xs[0], f)
  {
    if |xs| == 0 then []
    else
      var front := FilterMap(xs[..|xs| - 1], f);
      match f(xs[|xs| - 1])
      case Some(y) => front + [y]
      case None => front
  }

  /** What one element contributes: its value, or nothing. */
  function Kept<A, B>(x: A, f: A -> Option<B>): (r: seq<B>)
  {
    match f(x)
    case Some(y) => [y]
    case None => []
  }

  /** Filtering a concatenation concatenates the filtered parts. With the
      one-element case of `FilterMap`'s contract this fixes which values are
      kept, how often and in what order. */
  lemma {:induction false} FilterMapAppend<A, B(!new)>(xs: seq<A>, ys: seq<A>, f: A -> Option<B>)
    ensures FilterMap(xs + ys, f) == FilterMap(xs, f) + FilterMap(ys, f)
    decreases |ys|
  {
    if |ys| == 0 {
      assert xs + ys == xs;
    } else {
      var front := ys[..|ys| - 1];
      var last := ys[|ys| - 1];
      var zs := xs + ys;
      assert zs[..|zs| - 1] == xs + front;
      assert zs[|zs| - 1] == last;
      FilterMapAppend(xs, front, f);
      calc {
        FilterMap(zs, f);
        FilterMap(xs + front, f) + Kept(last, f);
        FilterMap(xs, f) + FilterMap(front, f) + Kept(last, f);
        FilterMap(xs, f) + FilterMap(ys, f);
      }
    }
  }

  /** A value is kept exactly when `f` gives it for some element. */
  lemma {:induction false} FilterMapMembers<A, B(!new)>(xs: seq<A>, f: A -> Option<B>)
    ensures forall y :: y in FilterMap(xs, f) <==> exists i :: 0 <= i < |xs| && f(xs[i]) == Some(y)
    decreases |xs|
  {
    if |xs| > 0 {
      var front := xs[..|xs| - 1];
      FilterMapMembers(front, f);
      assert forall i :: 0 <= i < |xs| - 1 ==> front[i] == xs[i];
      assert FilterMap(xs, f) == FilterMap(front, f) + Kept(xs[|xs| - 1], f);
    }
  }

  /** Python's `str()` of a natural number. */
  function NatToString(n: nat): (r: string)
    ensures |r| > 0
    ensures forall i :: 0 <= i < |r| ==> '0' <= r[i] <= '9'
  {
    var d := ['0' + (n % 10) as char];
    if n < 10 then d else NatToString(n / 10) + d
  }

  lemma MulAtLeast(n: int, x: int)
    requires n > 0 && x >= 1
    ensures n * x >= n
  {
    assert n * x == n * (x - 1) + n;
    assert n * (x - 1) >= 0;
  }

  /** A non-positive number times a positive one is non-positive. */
  lemma NonposProduct(a: int, b: int)
    requires b > 0
    ensures a <= 0 ==> a * b <= 0
  {
    assert a * b == -((-a) * b);
  }

  /** Quotient and remainder are the only pair that rebuilds `k`. */
  lemma DivModUnique(k: int, n: int, q: int, r: int)
    requires n > 0 && k == n * q + r && 0 <= r < n
    ensures k / n == q && k % n == r
  {
    var q0, r0 := k / n, k % n;
    assert k == n * q0 + r0;
    var d := q - q0;
    assert n * q - n * q0 == n * d;
    assert n * d == r0 - r;
    if d >= 1 {
      MulAtLeast(n, d);
    } else if d <= -1 {
      MulAtLeast(n, -d);
    }
  }

  lemma DivMul(x: real, c: real)
    requires c > 0.0
    ensures (x / c) * c == x
  {
  }

  /** Dividing then scaling is scaling by the quotient. */
  lemma DivThenMul(a: real, p: real, k: real)
    requires p != 0.0
    ensures a / p * k == a * (k / p)
  {
    var q, c := a / p, k / p;
    assert q * p == a;
    assert c * p == k;
    calc {
      q * k;
      q * (c * p);
      (q * p) * c;
      a * c;
    }
  }

  lemma MulMono(a: real, b: real, c: real)
    requires a <= b && c > 0.0
    ensures a * c <= b * c
  {
  }

  lemma MulMonoStrict(a: real, b: real, c: real)
    requires a < b && c > 0.0
    ensures a * c < b * c
  {
  }

  /** m < x / c exactly when m * c < x (for c > 0). */
  lemma BelowQuotient(m: real, x: real, c: real)
    requires c > 0.0
    ensures m < x / c <==> m * c < x
  {
    DivMul(x, c);
    if m < x / c {
      MulMonoStrict(m, x / c, c);
    } else {
      MulMono(x / c, m, c);
    }
  }

  lemma MulNonneg(a: real, b: real)
    requires a >= 0.0 && b >= 0.0
    ensures a * b >= 0.0
  {
  }

  lemma AbsScale(a: real, c: real)
    requires c >= 0.0
    ensures Abs(a * c) == Abs(a) * c
  {
    if a < 0.0 {
      assert a * c == -((-a) * c);
      MulNonneg(-a, c);
    } else {
      MulNonneg(a, c);
    }
  }

  /** Scaling by a positive factor scales a magnitude bound with it. */
  lemma ScaledBound(a: real, p: real, c: real)
    requires Abs(a) <= p && c > 0.0
    ensures Abs(a * c) <= p * c
  {
    AbsScale(a, c);
    MulMono(Abs(a), p, c);
  }

  /** A blend `(1 - w) * x + w * e` with `w` in [0, 1] lies between its two
      ends, and is each end at `w` = 0 and `w` = 1. */
  lemma MixBounds(w: real, x: real, e: real)
    requires 0.0 <= w <= 1.0
    ensures Min(x, e) <= (1.0 - w) * x + w * e <= Max(x, e)
    ensures w == 0.0 ==> (1.0 - w) * x + w * e == x
    ensures w == 1.0 ==> (1.0 - w) * x + w * e == e
  {
    var g, m := e - x, (1.0 - w) * x + w * e;
    assert m == x + w * g;
    if g > 0.0 {
      MulMono(w, 1.0, g);
      MulNonneg(w, g);
      assert 0.0 <= w * g <= g;
      assert x <= m <= e;
      assert Min(x, e) == x && Max(x, e) == e;
    } else if g < 0.0 {
      MulMono(w, 1.0, -g);
      MulNonneg(w, -g);
      assert w * (-g) == -(w * g);
      assert g <= w * g <= 0.0;
      assert e <= m <= x;
      assert Min(x, e) == e && Max(x, e) == x;
    } else {
      assert w * g == 0.0;
      assert m == x && x == e;
    }
  }

  lemma Pow2Succ(e: int)
    ensures Pow2(e + 1) == 2.0 * Pow2(e)
  {
  }
}

=== FILE: base_delay.dfy ===
/** `BaseDelay`: one circular delay line with feedback, a wet/dry mix and an
    optional modulation of the read position. The effect is a value; every
    operation returns the new state. `sine(p)` stands for sin(2*pi*p), the
    modulation oscillator at phase `p`. */
module BaseDelay {
  import opened Base
  import RingBuffer

  /** The parameters of a delay line; `bufferSize` is fixed at construction. */
  datatype Settings = Settings(sampleRate: int, maxDelayTime: real, bufferSize: int,
                               feedback: real, wetMix: real, dryMix: real,
                               delayTime: real, delaySamples: int,
                               modulationRate: real, modulationDepth: real)

  /** The settings, the buffer with its write position, and the modulation
      phase. */
  datatype Delay = Delay(settings: Settings, ring: RingBuffer.Ring, modulationPhase: real)

  /** `int(seconds * sample_rate)`. */
  function Samples(seconds: real, sampleRate: int): int
  {
    Trunc(seconds * sampleRate as real)
  }

  /** A whole number of seconds is that many times the rate in samples. */
  lemma WholeSeconds(n: nat, sampleRate: int)
    requires sampleRate > 0
    ensures Samples(n as real, sampleRate) == n * sampleRate
  {
    assert n as real * sampleRate as real == (n * sampleRate) as real;
  }

  /** What every setter keeps: a positive rate, a buffer of
      `int(max_delay_time * sample_rate)` slots (at least one), feedback in
      [0, 0.9], wet in [0, 1] with dry = 1 - wet, and non-negative modulation
      settings. */
  predicate ValidSettings(s: Settings)
  {
    && s.sampleRate > 0
    && s.bufferSize == Samples(s.maxDelayTime, s.sampleRate) && s.bufferSize >= 1
    && 0.0 <= s.feedback <= 0.9
    && 0.0 <= s.wetMix <= 1.0 && s.dryMix == 1.0 - s.wetMix
    && s.modulationRate >= 0.0 && s.modulationDepth >= 0.0
  }

  predicate Valid(d: Delay)
  {
    ValidSettings(d.settings) && RingBuffer.Valid(d.ring) && |d.ring.slots| == d.settings.bufferSize
  }

  /** The constructor: feedback and wet clamped, a silent buffer, a 0.5 s
      delay and no modulation. A buffer of no slots is excluded: every read
      would take a remainder modulo zero. */
  function New(sampleRate: int, maxDelayTime: real, feedback: real, wetMix: real): (d: Delay)
    requires sampleRate > 0 && Samples(maxDelayTime, sampleRate) >= 1
    ensures Valid(d)
    ensures 0.0 <= feedback <= 0.9 ==> d.settings.feedback == feedback
    ensures 0.0 <= wetMix <= 1.0 ==> d.settings.wetMix == wetMix
    ensures d.ring.writeIndex == 0 && forall i :: 0 <= i < |d.ring.slots| ==> d.ring.slots[i] == 0.0
    ensures d.settings.delayTime == 0.5 && d.settings.delaySamples == Samples(0.5, sampleRate)
    ensures d.settings.modulationRate == 0.0 && d.settings.modulationDepth == 0.0 && d.modulationPhase == 0.0
  {
    var wet := Clip(wetMix, 0.0, 1.0);
    var size := Samples(maxDelayTime, sampleRate);
    Delay(Settings(sampleRate, maxDelayTime, size, Clip(feedback, 0.0, 0.9), wet, 1.0 - wet,
                   0.5, Samples(0.5, sampleRate), 0.0, 0.0),
          RingBuffer.Silent(size), 0.0)
  }

  /** A positive rate and a buffer of at least one slot mean a positive
      maximum delay. */
  lemma MaxDelayPositive(maxDelayTime: real, sampleRate: int)
    requires sampleRate > 0 && Samples(maxDelayTime, sampleRate) >= 1
    ensures maxDelayTime > 0.0
  {
    if maxDelayTime <= 0.0 {
      MulMono(maxDelayTime, 0.0, sampleRate as real);
    }
  }

  /** A delay no longer than the maximum fits in the buffer. */
  lemma DelayFits(seconds: real, maxDelayTime: real, sampleRate: int)
    requires sampleRate > 0 && 0.0 <= seconds <= maxDelayTime
    ensures 0 <= Samples(seconds, sampleRate) <= Samples(maxDelayTime, sampleRate)
  {
    var sr := sampleRate as real;
    MulMono(seconds, maxDelayTime, sr);
    MulNonneg(seconds, sr);
    TruncMono(seconds * sr, maxDelayTime * sr);
  }

  /** `set_delay_time`: the time is clamped to [0.001, max_delay_time] and
      the delay in samples never exceeds the buffer. */
  function SetDelayTime(d: Delay, seconds: real): (r: Delay)
    requires Valid(d)
    ensures Valid(r) && r.ring == d.ring && r.modulationPhase == d.modulationPhase
    ensures r.settings == d.settings.(delayTime := r.settings.delayTime, delaySamples := r.settings.delaySamples)
    ensures r.settings.delayTime <= d.settings.maxDelayTime
    ensures d.settings.maxDelayTime >= 0.001 ==> 0.001 <= r.settings.delayTime
    ensures 0.001 <= seconds <= d.settings.maxDelayTime ==> r.settings.delayTime == seconds
    ensures r.settings.delaySamples == Samples(r.settings.delayTime, d.settings.sampleRate)
    ensures 0 <= r.settings.delaySamples <= d.settings.bufferSize
  {
    var s := d.settings;
    var t := Clip(seconds, 0.001, s.maxDelayTime);
    MaxDelayPositive(s.maxDelayTime, s.sampleRate);
    DelayFits(t, s.maxDelayTime, s.sampleRate);
    d.(settings := s.(delayTime := t, delaySamples := Samples(t, s.sampleRate)))
  }

  /** `set_feedback`: clamped to [0, 0.9]. */
  function SetFeedback(d: Delay, feedback: real): (r: Delay)
    requires Valid(d)
    ensures Valid(r) && r == d.(settings := d.settings.(feedback := r.settings.feedback))
    ensures 0.0 <= feedback <= 0.9 ==> r.settings.feedback == feedback
    ensures feedback < 0.0 ==> r.settings.feedback == 0.0
    ensures feedback > 0.9 ==> r.settings.feedback == 0.9
  {
    d.(settings := d.settings.(feedback := Clip(feedback, 0.0, 0.9)))
  }

  /** `set_wet_mix`: clamped to [0, 1], and the dry mix follows. */
  function SetWetMix(d: Delay, wetMix: real): (r: Delay)
    requires Valid(d)
    ensures Valid(r)
    ensures r == d.(settings := d.settings.(wetMix := r.settings.wetMix, dryMix := r.settings.dryMix))
    ensures 0.0 <= wetMix <= 1.0 ==> r.settings.wetMix == wetMix
    ensures r.settings.wetMix + r.settings.dryMix == 1.0
  {
    var wet := Clip(wetMix, 0.0, 1.0);
    d.(settings := d.settings.(wetMix := wet, dryMix := 1.0 - wet))
  }

  /** `set_modulation`: negative settings become 0. */
  function SetModulation(d: Delay, rate: real, depth: real): (r: Delay)
    requires Valid(d)
    ensures Valid(r)
    ensures r == d.(settings := d.settings.(modulationRate := r.settings.modulationRate,
                                            modulationDepth := r.settings.modulationDepth))
    ensures rate >= 0.0 ==> r.settings.modulationRate == rate
    ensures depth >= 0.0 ==> r.settings.modulationDepth == depth
    ensures rate <= 0.0 ==> r.settings.modulationRate == 0.0
    ensures depth <= 0.0 ==> r.settings.modulationDepth == 0.0
  {
    d.(settings := d.settings.(modulationRate := Max(0.0, rate), modulationDepth := Max(0.0, depth)))
  }

  predicate Modulated(s: Settings)
  {
    s.modulationRate > 0.0 && s.modulationDepth > 0.0
  }

  /** `_get_modulated_delay`: the delay in samples, moved by
      `int(depth * sine(phase))` and clamped to [1, size - 1] (numpy's clip,
      so 0 for a one-slot buffer) when modulation is on. */
  function ModulatedDelay(d: Delay, sine: real -> real): (k: int)
    requires Valid(d)
    ensures !Modulated(d.settings) ==> k == d.settings.delaySamples
    ensures Modulated(d.settings) && d.settings.bufferSize >= 2 ==> 1 <= k <= d.settings.bufferSize - 1
    ensures Modulated(d.settings) && d.settings.bufferSize == 1 ==> k == 0
  {
    var s := d.settings;
    if Modulated(s) then
      ClipInt(s.delaySamples + Trunc(s.modulationDepth * sine(d.modulationPhase)), 1, s.bufferSize - 1)
    else s.delaySamples
  }

  /** `_update_modulation_phase`: advances by rate / sample rate and wraps
      once past 1; a phase in [0, 1) stays there while the rate is below the
      sample rate. */
  function NextPhase(s: Settings, phase: real): (p: real)
    requires ValidSettings(s)
    ensures s.modulationRate == 0.0 ==> p == phase
    ensures 0.0 <= phase < 1.0 && s.modulationRate < s.sampleRate as real ==> 0.0 <= p < 1.0
  {
    if s.modulationRate > 0.0 then
      var p := phase + s.modulationRate / s.sampleRate as real;
      BelowQuotient(1.0, s.modulationRate, s.sampleRate as real);
      if p >= 1.0 then p - 1.0 else p
    else phase
  }

  /** The sample the delay line reads for the current call. */
  function Delayed(d: Delay, sine: real -> real): real
    requires Valid(d)
  {
    RingBuffer.Read(d.ring, ModulatedDelay(d, sine))
  }

  /** The output for input `x` and delayed sample `e`: dry*x + wet*e. */
  function Mix(s: Settings, x: real, e: real): real
  {
    s.dryMix * x + s.wetMix * e
  }

  /** What goes back into the buffer: x + feedback*e. */
  function Feed(s: Settings, x: real, e: real): real
  {
    x + s.feedback * e
  }

  /** One call's result: the new state and the two output channels. */
  datatype Processed = Processed(state: Delay, left: real, right: real)

  /** `process_sample`: read the delayed sample `e`, output the mix on both
      channels, store the feed, advance the phase. */
  function ProcessSample(d: Delay, x: real, sine: real -> real): (r: Processed)
    requires Valid(d)
    ensures Valid(r.state) && r.state.settings == d.settings
    ensures r.left == r.right == Mix(d.settings, x, Delayed(d, sine))
    ensures r.state.ring == RingBuffer.Write(d.ring, Feed(d.settings, x, Delayed(d, sine)))
  {
    var s := d.settings;
    var e := Delayed(d, sine);
    Processed(Delay(s, RingBuffer.Write(d.ring, Feed(s, x, e)), NextPhase(s, d.modulationPhase)), Mix(s, x, e), Mix(s, x, e))
  }

  /** The mix law: the output lies between the dry input and the delayed
      sample, is the input at wet 0 and the delayed sample at wet 1. */
  lemma MixBetween(s: Settings, x: real, e: real)
    requires ValidSettings(s)
    ensures Min(x, e) <= Mix(s, x, e) <= Max(x, e)
    ensures s.wetMix == 0.0 ==> Mix(s, x, e) == x
    ensures s.wetMix == 1.0 ==> Mix(s, x, e) == e
  {
    MixBounds(s.wetMix, x, e);
  }

  /** The state after the first `t` samples of `xs`. */
  function After(d: Delay, xs: seq<real>, sine: real -> real, t: nat): (a: Delay)
    requires Valid(d) && t <= |xs|
    ensures Valid(a) && a.settings == d.settings
    decreases t
  {
    if t == 0 then d
    else ProcessSample(After(d, xs, sine, t - 1), xs[t - 1], sine).state
  }

  /** `process_buffer`: the samples in order; both channels as long as the
      input, and the state after the whole buffer. */
  function ProcessBuffer(d: Delay, xs: seq<real>, sine: real -> real): (r: (Delay, seq<real>, seq<real>))
    requires Valid(d)
    ensures r.0 == After(d, xs, sine, |xs|)
    ensures |r.1| == |xs| && r.1 == r.2
    ensures forall t :: 0 <= t < |xs| ==> r.1[t] == ProcessSample(After(d, xs, sine, t), xs[t], sine).left
  {
    var out := seq(|xs|, t requires 0 <= t < |xs| => ProcessSample(After(d, xs, sine, t), xs[t], sine).left);
    (After(d, xs, sine, |xs|), out, out)
  }

  /** The sample read at step `t` of a run. */
  function Echo(d: Delay, xs: seq<real>, sine: real -> real, t: nat): real
    requires Valid(d) && t <= |xs|
  {
    Delayed(After(d, xs, sine, t), sine)
  }

  /** One step of a run writes the input fed back with the sample read. */
  lemma StepWrites(d: Delay, xs: seq<real>, sine: real -> real, j: nat)
    requires Valid(d) && j < |xs|
    ensures After(d, xs, sine, j + 1).ring
            == RingBuffer.Write(After(d, xs, sine, j).ring, Feed(d.settings, xs[j], Echo(d, xs, sine, j)))
  {
  }

  /** The buffer states of the first `n` steps of a run, before each step
      and after the last. */
  function Rings(d: Delay, xs: seq<real>, sine: real -> real, n: nat): (rs: seq<RingBuffer.Ring>)
    requires Valid(d) && n <= |xs|
    ensures |rs| == n + 1 && rs[0] == d.ring && rs[n] == After(d, xs, sine, n).ring
  {
    if n == 0 then [d.ring] else Rings(d, xs, sine, n - 1) + [After(d, xs, sine, n).ring]
  }

  /** The values the first `n` steps of a run write. */
  function Writes(d: Delay, xs: seq<real>, sine: real -> real, n: nat): (vs: seq<real>)
    requires Valid(d) && n <= |xs|
    ensures |vs| == n
  {
    if n == 0 then [] else Writes(d, xs, sine, n - 1) + [Feed(d.settings, xs[n - 1], Echo(d, xs, sine, n - 1))]
  }

  /** The value written at step `i` is that step's input fed back with the
      sample read then. */
  lemma {:induction false} WriteAt(d: Delay, xs: seq<real>, sine: real -> real, n: nat, i: nat)
    requires Valid(d) && i < n <= |xs|
    ensures Writes(d, xs, sine, n)[i] == Feed(d.settings, xs[i], Echo(d, xs, sine, i))
  {
    if i < n - 1 {
      WriteAt(d, xs, sine, n - 1, i);
    }
  }

  /** A run's buffer states form a chain of its writes. */
  lemma {:induction false} RunIsChain(d: Delay, xs: seq<real>, sine: real -> real, n: nat)
    requires Valid(d) && n <= |xs|
    ensures RingBuffer.Chain(Rings(d, xs, sine, n), Writes(d, xs, sine, n))
  {
    if n > 0 {
      RunIsChain(d, xs, sine, n - 1);
      StepWrites(d, xs, sine, n - 1);
      RingBuffer.ChainExtend(Rings(d, xs, sine, n - 1), Writes(d, xs, sine, n - 1),
                             After(d, xs, sine, n).ring, Feed(d.settings, xs[n - 1], Echo(d, xs, sine, n - 1)));
    }
  }

  /** Unmodulated, every step reads exactly D samples back. */
  lemma EchoReadsDelay(d: Delay, xs: seq<real>, sine: real -> real, t: nat)
    requires Valid(d) && !Modulated(d.settings) && t <= |xs|
    ensures Echo(d, xs, sine, t) == RingBuffer.Read(After(d, xs, sine, t).ring, d.settings.delaySamples)
  {
  }

  /** The output at every step mixes the input with the sample read. */
  lemma OutputMixesEcho(d: Delay, xs: seq<real>, sine: real -> real, t: nat)
    requires Valid(d) && t < |xs|
    ensures ProcessBuffer(d, xs, sine).1[t] == Mix(d.settings, xs[t], Echo(d, xs, sine, t))
  {
  }

  /** The echo law of an unmodulated delay of D samples (1 <= D <= buffer
      length): the sample read at step t is the one written D steps
      earlier, the input then fed back with what was read then; before D
      steps have passed it is what the buffer held before the run. */
  lemma EchoLaw(d: Delay, xs: seq<real>, sine: real -> real, t: nat)
    requires Valid(d) && !Modulated(d.settings) && t < |xs|
    requires 1 <= d.settings.delaySamples <= d.settings.bufferSize
    ensures var dd := d.settings.delaySamples;
            t >= dd ==> Echo(d, xs, sine, t) == Feed(d.settings, xs[t - dd], Echo(d, xs, sine, t - dd))
    ensures var dd := d.settings.delaySamples;
            t < dd ==> Echo(d, xs, sine, t) == RingBuffer.Read(d.ring, dd - t)
  {
    var dd := d.settings.delaySamples;
    var rs, vs := Rings(d, xs, sine, t), Writes(d, xs, sine, t);
    RunIsChain(d, xs, sine, t);
    RingBuffer.ChainReads(rs, vs, t, dd);
    EchoReadsDelay(d, xs, sine, t);
    assert Echo(d, xs, sine, t) == RingBuffer.Read(rs[t], dd);
    if t >= dd {
      WriteAt(d, xs, sine, t, t - dd);
    }
  }

  /** With nothing delayed the output is the dry signal alone. */
  lemma DrySilence(s: Settings, x: real, e: real)
    requires e == 0.0
    ensures Mix(s, x, e) == s.dryMix * x
  {
  }

  /** `reset`: a silent buffer, the write position and the phase at 0. */
  function Reset(d: Delay): (r: Delay)
    requires Valid(d)
    ensures Valid(r) && r.settings == d.settings
    ensures r.ring.writeIndex == 0 && r.modulationPhase == 0.0
    ensures forall i :: 0 <= i < |r.ring.slots| ==> r.ring.slots[i] == 0.0
  {
    Delay(d.settings, RingBuffer.Silent(d.settings.bufferSize), 0.0)
  }

  /** After a reset, an unmodulated delay of D samples reads silence for
      the first D samples. */
  lemma ResetEchoesSilence(d: Delay, xs: seq<real>, sine: real -> real, t: nat)
    requires Valid(d) && !Modulated(d.settings) && t < |xs|
    requires 1 <= d.settings.delaySamples <= d.settings.bufferSize
    requires t < d.settings.delaySamples
    ensures Echo(Reset(d), xs, sine, t) == 0.0
  {
    EchoLaw(Reset(d), xs, sine, t);
  }

  /** Right after a reset, the first D outputs of an unmodulated delay of D
      samples mix the input with silence: the dry input alone, by
      `DrySilence`. */
  lemma ResetIsSilentForDelay(d: Delay, xs: seq<real>, sine: real -> real, t: nat)
    requires Valid(d) && !Modulated(d.settings) && t < |xs|
    requires 1 <= d.settings.delaySamples <= d.settings.bufferSize
    requires t < d.settings.delaySamples
    ensures ProcessBuffer(Reset(d), xs, sine).1[t] == Mix(d.settings, xs[t], 0.0)
  {
    var z := Reset(d);
    ResetEchoesSilence(d, xs, sine, t);
    OutputMixesEcho(z, xs, sine, t);
  }
}

=== FILE: basic_delay.dfy ===
/** `BasicDelay`: a `BaseDelay` with a 2-second buffer whose initial delay
    goes through the clamping setter, and a setter for several parameters
    at once where an absent argument leaves its parameter alone. */
module BasicDelay {
  import opened Base
  import BaseDelay

  /** The longest delay of a basic delay, in seconds. */
  const MaxDelay: real := 2.0

  /** The constructor: a base delay of 2 s, then `set_delay_time`. */
  function New(sampleRate: int, delayTime: real, feedback: real, wetMix: real): (d: BaseDelay.Delay)
    requires sampleRate > 0
    ensures BaseDelay.Valid(d)
    ensures d.settings.maxDelayTime == MaxDelay && d.settings.bufferSize == 2 * sampleRate
    ensures 0.001 <= d.settings.delayTime <= MaxDelay
    ensures 0.001 <= delayTime <= MaxDelay ==> d.settings.delayTime == delayTime
    ensures 0 <= d.settings.delaySamples <= d.settings.bufferSize
    ensures 0.0 <= feedback <= 0.9 ==> d.settings.feedback == feedback
    ensures 0.0 <= wetMix <= 1.0 ==> d.settings.wetMix == wetMix
    ensures d.ring.writeIndex == 0 && forall i :: 0 <= i < |d.ring.slots| ==> d.ring.slots[i] == 0.0
  {
    BaseDelay.WholeSeconds(2, sampleRate);
    BaseDelay.SetDelayTime(BaseDelay.New(sampleRate, MaxDelay, feedback, wetMix), delayTime)
  }

  /** `set_parameters`: each present argument goes through its clamping
      setter, in the order delay, feedback, wet. */
  function SetParameters(d: BaseDelay.Delay, delayTime: Option<real>, feedback: Option<real>,
                         wetMix: Option<real>): (r: BaseDelay.Delay)
    requires BaseDelay.Valid(d)
    ensures BaseDelay.Valid(r) && r.ring == d.ring && r.modulationPhase == d.modulationPhase
    ensures delayTime.None? ==> r.settings.delayTime == d.settings.delayTime
                                && r.settings.delaySamples == d.settings.delaySamples
    ensures delayTime.Some? && 0.001 <= delayTime.value <= d.settings.maxDelayTime ==>
              r.settings.delayTime == delayTime.value
    ensures feedback.None? ==> r.settings.feedback == d.settings.feedback
    ensures feedback.Some? && 0.0 <= feedback.value <= 0.9 ==> r.settings.feedback == feedback.value
    ensures wetMix.None? ==> r.settings.wetMix == d.settings.wetMix && r.settings.dryMix == d.settings.dryMix
    ensures wetMix.Some? && 0.0 <= wetMix.value <= 1.0 ==> r.settings.wetMix == wetMix.value
    ensures r.settings.sampleRate == d.settings.sampleRate && r.settings.bufferSize == d.settings.bufferSize
    ensures r.settings.modulationRate == d.settings.modulationRate
    ensures r.settings.modulationDepth == d.settings.modulationDepth
  {
    var a := if delayTime.Some? then BaseDelay.SetDelayTime(d, delayTime.value) else d;
    var b := if feedback.Some? then BaseDelay.SetFeedback(a, feedback.value) else a;
    if wetMix.Some? then BaseDelay.SetWetMix(b, wetMix.value) else b
  }

  /** A call with no arguments changes nothing. */
  lemma NoArgumentsNoChange(d: BaseDelay.Delay)
    requires BaseDelay.Valid(d)
    ensures SetParameters(d, None, None, None) == d
  {
  }

  /** The three setters touch different fields, so the order
      `set_parameters` applies them in does not matter. */
  lemma SettersCommute(d: BaseDelay.Delay, t: real, f: real, w: real)
    requires BaseDelay.Valid(d)
    ensures SetParameters(d, Some(t), Some(f), Some(w))
            == BaseDelay.SetDelayTime(BaseDelay.SetFeedback(BaseDelay.SetWetMix(d, w), f), t)
  {
  }

  /** What `get_parameters` reports. */
  datatype Parameters = Parameters(delayTime: real, feedback: real, wetMix: real, dryMix: real)

  /** `get_parameters`: the current delay time, feedback, wet mix and dry
      mix; the reported mixes add up to one and every value lies in its
      setter's range. */
  function GetParameters(d: BaseDelay.Delay): (p: Parameters)
    requires BaseDelay.Valid(d)
    ensures p.wetMix + p.dryMix == 1.0
    ensures 0.0 <= p.feedback <= 0.9 && 0.0 <= p.wetMix <= 1.0
    ensures p.delayTime == d.settings.delayTime && p.feedback == d.settings.feedback
    ensures p.wetMix == d.settings.wetMix && p.dryMix == d.settings.dryMix
  {
    Parameters(d.settings.delayTime, d.settings.feedback, d.settings.wetMix, d.settings.dryMix)
  }

  /** Setting and then reading back returns the values set, when they are
      within range. */
  lemma SetThenGet(d: BaseDelay.Delay, t: real, f: real, w: real)
    requires BaseDelay.Valid(d)
    requires 0.001 <= t <= d.settings.maxDelayTime && 0.0 <= f <= 0.9 && 0.0 <= w <= 1.0
    ensures GetParameters(SetParameters(d, Some(t), Some(f), Some(w))) == Parameters(t, f, w, 1.0 - w)
  {
  }
}

=== FILE: chord_detector.dfy ===
/** The FFT chord detector's symbolic half: naming spectral peaks after the
    nearest entry of a five-octave note table, keeping the strongest peak per
    note name, and scoring every (root, chord template) pair against the
    distinct names heard. The spectrum analysis that produces the peaks is an
    input. */
module ChordDetector {
  import opened Base
  import Pitch
  import Select

  /** A chord quality and its intervals in semitones above the root. */
  datatype Template = Template(quality: string, intervals: seq<int>)

  /** The chord patterns, in the order the detector tries them. */
  const Templates: seq<Template> := [
    Template("major", [0, 4, 7]),
    Template("minor", [0, 3, 7]),
    Template("major7", [0, 4, 7, 11]),
    Template("minor7", [0, 3, 7, 10]),
    Template("dominant7", [0, 4, 7, 10]),
    Template("sus2", [0, 2, 7]),
    Template("sus4", [0, 5, 7]),
    Template("dim", [0, 3, 6]),
    Template("aug", [0, 4, 8]),
    Template("add9", [0, 4, 7, 14]),
    Template("power", [0, 7])
  ]

  /** Reference pitches in Hz: one row per chromatic note (in the order of
      `Pitch.Chromatic`), one column per octave from 2 to 6. */
  const NoteTable: seq<seq<real>> := [
    [65.41, 130.81, 261.63, 523.25, 1046.50],
    [69.30, 138.59, 277.18, 554.37, 1108.73],
    [73.42, 146.83, 293.66, 587.33, 1174.66],
    [77.78, 155.56, 311.13, 622.25, 1244.51],
    [82.41, 164.81, 329.63, 659.25, 1318.51],
    [87.31, 174.61, 349.23, 698.46, 1396.91],
    [92.50, 185.00, 369.99, 739.99, 1479.98],
    [98.00, 196.00, 392.00, 783.99, 1567.98],
    [103.83, 207.65, 415.30, 830.61, 1661.22],
    [110.00, 220.00, 440.00, 880.00, 1760.00],
    [116.54, 233.08, 466.16, 932.33, 1864.66],
    [123.47, 246.94, 493.88, 987.77, 1975.53]
  ]

  /** Detections must score strictly above this to be reported as valid. */
  const MinChordConfidence: real := 0.6

  /** Entry `e` of the table read row by row (five entries per note), which is
      the order the nearest-note search visits them in. */
  function TableFreq(e: nat): real
    requires e < 60
  {
    NoteTable[e / 5][e % 5]
  }

  /** The lowest and highest pitch of each octave column. */
  function BandLow(c: nat): real
    requires c < 5
  {
    NoteTable[0][c]
  }

  function BandHigh(c: nat): real
    requires c < 5
  {
    NoteTable[11][c]
  }

  /** Within one octave column the pitches rise note by note. */
  lemma ColumnRises(r: nat, c: nat)
    requires r < 11 && c < 5
    ensures NoteTable[r][c] < NoteTable[r + 1][c]
  {
  }

  lemma ColumnOrdered(r1: nat, r2: nat, c: nat)
    requires r1 < r2 < 12 && c < 5
    ensures NoteTable[r1][c] < NoteTable[r2][c]
    decreases r2 - r1
  {
    ColumnRises(r1, c);
    if r1 + 1 < r2 {
      ColumnOrdered(r1 + 1, r2, c);
    }
  }

  /** Each octave column is a band of pitches, and a higher column's band
      lies wholly above a lower one's. */
  lemma BandsSeparate(c: nat)
    requires c < 4
    ensures BandHigh(c) < BandLow(c + 1)
  {
  }

  lemma InBand(r: nat, c: nat)
    requires r < 12 && c < 5
    ensures BandLow(c) <= NoteTable[r][c] <= BandHigh(c)
  {
    if r > 0 {
      ColumnOrdered(0, r, c);
    }
    if r < 11 {
      ColumnOrdered(r, 11, c);
    }
  }

  lemma BandsOrdered(c1: nat, c2: nat)
    requires c1 < c2 < 5
    ensures BandHigh(c1) < BandLow(c2)
    decreases c2 - c1
  {
    BandsSeparate(c1);
    if c1 + 1 < c2 {
      InBand(0, c1 + 1);
      InBand(11, c1 + 1);
      BandsOrdered(c1 + 1, c2);
    }
  }

  /** No pitch appears twice in the table. */
  lemma TableInjective(e1: nat, e2: nat)
    requires e1 < 60 && e2 < 60 && e1 != e2
    ensures TableFreq(e1) != TableFreq(e2)
  {
    var r1, c1, r2, c2 := e1 / 5, e1 % 5, e2 / 5, e2 % 5;
    if c1 == c2 {
      assert r1 != r2;
      if r1 < r2 { ColumnOrdered(r1, r2, c1); } else { ColumnOrdered(r2, r1, c1); }
    } else {
      InBand(r1, c1);
      InBand(r2, c2);
      if c1 < c2 { BandsOrdered(c1, c2); } else { BandsOrdered(c2, c1); }
    }
  }

  /** The octave-4 column is the synth's octave-4 pitch table. */
  lemma Octave4Agrees(r: nat)
    requires r < 12
    ensures NoteTable[r][2] == Pitch.Octave4Hz[r]
  {
  }

  /** The result of the nearest-note search. */
  datatype NoteMatch = NoteMatch(note: string, octave: int, centsOff: real, difference: real)

  function Distances(f: real): (d: seq<real>)
    ensures |d| == 60
    ensures forall e :: 0 <= e < 60 ==> d[e] == Abs(f - TableFreq(e))
  {
    seq(60, e requires 0 <= e < 60 => Abs(f - TableFreq(e)))
  }

  /** The table entry nearest to `f`; the first one visited wins a tie. */
  function ClosestEntry(f: real): (e: nat)
    ensures e < 60
    ensures forall j :: 0 <= j < 60 ==> Abs(f - TableFreq(e)) <= Abs(f - TableFreq(j))
    ensures forall j :: 0 <= j < e ==> Abs(f - TableFreq(e)) < Abs(f - TableFreq(j))
  {
    Select.ArgMinFirst(Distances(f))
  }

  /** The nearest note to `f`. `cents(f, ref)` stands for the pitch distance
      1200 * log2(f / ref), which is only taken for a positive `f` (every
      table pitch is positive). */
  function FindClosestNote(f: real, cents: (real, real) -> real): (m: NoteMatch)
    ensures m.note in Pitch.Chromatic && 2 <= m.octave <= 6
    ensures m.difference >= 0.0
  {
    var e := ClosestEntry(f);
    NoteMatch(Pitch.Chromatic[e / 5], e % 5 + 2,
              if f > 0.0 then cents(f, TableFreq(e)) else 0.0,
              Abs(f - TableFreq(e)))
  }

  /** The reported note and octave name a table pitch whose distance to `f`
      is the reported difference, and the cents are measured against it. */
  lemma ClosestNoteNamesItsPitch(f: real, cents: (real, real) -> real)
    ensures Pitch.IndexOf(FindClosestNote(f, cents).note).Some?
    ensures var m := FindClosestNote(f, cents);
            var ref := NoteTable[Pitch.IndexOf(m.note).value][m.octave - 2];
            m.difference == Abs(f - ref) && m.centsOff == (if f > 0.0 then cents(f, ref) else 0.0)
  {
    var e := ClosestEntry(f);
    Pitch.IndexOfAt(e / 5);
  }

  /** No table pitch is nearer to `f` than the reported one. */
  lemma ClosestNoteIsNearest(f: real, cents: (real, real) -> real)
    ensures forall r, c :: 0 <= r < 12 && 0 <= c < 5 ==> FindClosestNote(f, cents).difference <= Abs(f - NoteTable[r][c])
  {
    var e := ClosestEntry(f);
    forall r, c | 0 <= r < 12 && 0 <= c < 5
      ensures Abs(f - TableFreq(e)) <= Abs(f - NoteTable[r][c])
    {
      EntryOf(r, c);
    }
  }

  /** Row `r`, column `c` is entry `5 * r + c` of the row-by-row order. */
  lemma EntryOf(r: nat, c: nat)
    requires r < 12 && c < 5
    ensures 5 * r + c < 60 && TableFreq(5 * r + c) == NoteTable[r][c]
  {
    DivModUnique(5 * r + c, 5, r, c);
  }

  /** A pitch taken from the table is named back as that very note and
      octave, with no distance. */
  lemma TablePitchNamedBack(r: nat, c: nat, cents: (real, real) -> real)
    requires r < 12 && c < 5
    ensures FindClosestNote(NoteTable[r][c], cents).note == Pitch.Chromatic[r]
    ensures FindClosestNote(NoteTable[r][c], cents).octave == c + 2
    ensures FindClosestNote(NoteTable[r][c], cents).difference == 0.0
  {
    var f := NoteTable[r][c];
    EntryOf(r, c);
    var e := ClosestEntry(f);
    assert Abs(f - TableFreq(e)) <= Abs(f - TableFreq(5 * r + c));
    if e != 5 * r + c {
      TableInjective(e, 5 * r + c);
    }
    DivModUnique(e, 5, r, c);
  }

  /** A spectral peak handed over by the spectrum analysis. */
  datatype Peak = Peak(frequency: real, magnitude: real)

  /** A peak named as a note. */
  datatype DetectedNote = DetectedNote(note: string, octave: int, frequency: real,
                                       strength: real, centsOff: real)

  /** A peak becomes a note when it lies within 100 cents of its nearest note. */
  function NoteOfPeak(p: Peak, cents: (real, real) -> real): (r: Option<DetectedNote>)
    ensures r.Some? <==> Abs(FindClosestNote(p.frequency, cents).centsOff) < 100.0
    ensures r.Some? ==> r.value.note in Pitch.Chromatic && r.value.frequency == p.frequency
                        && r.value.strength == p.magnitude
  {
    var m := FindClosestNote(p.frequency, cents);
    if Abs(m.centsOff) < 100.0 then Some(DetectedNote(m.note, m.octave, p.frequency, p.magnitude, m.centsOff))
    else None
  }

  /** `NoteOfPeak` as a function of the peak alone. */
  function PeakNamer(cents: (real, real) -> real): Peak -> Option<DetectedNote>
  {
    p => NoteOfPeak(p, cents)
  }

  /** The in-tune peaks, named, in their original order. */
  function InTune(peaks: seq<Peak>, cents: (real, real) -> real): (r: seq<DetectedNote>)
    ensures |r| <= |peaks|
    ensures forall n :: n in r <==> exists j :: 0 <= j < |peaks| && NoteOfPeak(peaks[j], cents) == Some(n)
    ensures forall i :: 0 <= i < |r| ==> r[i].note in Pitch.Chromatic
  {
    FilterMapMembers(peaks, PeakNamer(cents));
    var r := FilterMap(peaks, PeakNamer(cents));
    assert forall i :: 0 <= i < |r| ==> r[i] in r;
    r
  }

  /** Which peaks become notes, how often and in what order: the notes of a
      concatenation are those of its parts in turn, and one peak gives its
      note or nothing. */
  lemma InTuneInOrder(a: seq<Peak>, b: seq<Peak>, cents: (real, real) -> real)
    ensures InTune(a + b, cents) == InTune(a, cents) + InTune(b, cents)
    ensures |a| == 1 && NoteOfPeak(a[0], cents).Some? ==> InTune(a, cents) == [NoteOfPeak(a[0], cents).value]
    ensures |a| == 1 && NoteOfPeak(a[0], cents).None? ==> InTune(a, cents) == []
  {
    FilterMapAppend(a, b, PeakNamer(cents));
  }

  /** Position of the entry named `name`, if any. */
  function NamePos(kept: seq<DetectedNote>, name: string): (r: Option<nat>)
    ensures r.Some? ==> r.value < |kept| && kept[r.value].note == name
    ensures r.None? <==> forall i :: 0 <= i < |kept| ==> kept[i].note != name
  {
    if |kept| == 0 then None
    else if kept[|kept| - 1].note == name then Some(|kept| - 1)
    else NamePos(kept[..|kept| - 1], name)
  }

  /** One step of the de-duplication: a new name is appended; a known name is
      replaced in place by a strictly stronger entry. */
  function Absorb(kept: seq<DetectedNote>, n: DetectedNote): seq<DetectedNote>
  {
    match NamePos(kept, n.note)
    case None => kept + [n]
    case Some(i) => if n.strength > kept[i].strength then kept[i := n] else kept
  }

  /** The strongest entry per note name, in order of each name's first
      appearance (a dictionary keyed by name). */
  function KeepStrongest(notes: seq<DetectedNote>): seq<DetectedNote>
  {
    if |notes| == 0 then [] else Absorb(KeepStrongest(notes[..|notes| - 1]), notes[|notes| - 1])
  }

  /** The peaks named and de-duplicated. */
  function FrequenciesToNotes(peaks: seq<Peak>, cents: (real, real) -> real): (r: seq<DetectedNote>)
    ensures forall i, j :: 0 <= i < j < |r| ==> r[i].note != r[j].note
    ensures forall i :: 0 <= i < |r| ==> r[i].note in Pitch.Chromatic
  {
    var notes := InTune(peaks, cents);
    KeepStrongestSummarises(notes);
    KeepStrongest(notes)
  }

  /** `notes[k]` is the first of the strongest entries bearing its name. */
  ghost predicate StrongestFrom(notes: seq<DetectedNote>, k: nat)
    requires k < |notes|
  {
    && (forall j :: 0 <= j < |notes| && notes[j].note == notes[k].note ==> notes[j].strength <= notes[k].strength)
    && (forall j :: 0 <= j < k && notes[j].note == notes[k].note ==> notes[j].strength < notes[k].strength)
  }

  /** An entry stays first-strongest when a later entry neither shares its
      name nor outweighs it. */
  lemma StrongestExtends(front: seq<DetectedNote>, k: nat, n: DetectedNote)
    requires k < |front| && StrongestFrom(front, k)
    requires n.note != front[k].note || n.strength <= front[k].strength
    ensures StrongestFrom(front + [n], k)
  {
    var notes := front + [n];
    assert forall j :: 0 <= j < |front| ==> notes[j] == front[j];
  }

  ghost predicate DistinctNames(kept: seq<DetectedNote>)
  {
    forall i, j :: 0 <= i < j < |kept| ==> kept[i].note != kept[j].note
  }

  lemma {:induction false} KeepStrongestDistinct(notes: seq<DetectedNote>)
    ensures DistinctNames(KeepStrongest(notes))
  {
    if |notes| > 0 {
      var kept := KeepStrongest(notes[..|notes| - 1]);
      KeepStrongestDistinct(notes[..|notes| - 1]);
      var n := notes[|notes| - 1];
      match NamePos(kept, n.note)
      case None =>
      case Some(p) =>
    }
  }

  lemma HasName(kept: seq<DetectedNote>, i: nat)
    requires i < |kept|
    ensures NamePos(kept, kept[i].note).Some?
  {
  }

  /** Absorbing an entry keeps every name already present and adds its own. */
  lemma AbsorbNames(kept: seq<DetectedNote>, n: DetectedNote)
    ensures NamePos(Absorb(kept, n), n.note).Some?
    ensures forall q :: 0 <= q < |kept| ==> NamePos(Absorb(kept, n), kept[q].note).Some?
  {
    var out := Absorb(kept, n);
    match NamePos(kept, n.note)
    case None =>
      HasName(out, |kept|);
      forall q | 0 <= q < |kept| ensures NamePos(out, kept[q].note).Some? {
        HasName(out, q);
      }
    case Some(p) =>
      HasName(out, p);
      forall q | 0 <= q < |kept| ensures NamePos(out, kept[q].note).Some? {
        if q == p && out != kept {
          HasName(out, p);
        } else {
          HasName(out, q);
        }
      }
  }

  /** Every name heard has an entry. */
  lemma {:induction false} KeepStrongestCovers(notes: seq<DetectedNote>)
    ensures forall j :: 0 <= j < |notes| ==> NamePos(KeepStrongest(notes), notes[j].note).Some?
  {
    if |notes| > 0 {
      var front, n := notes[..|notes| - 1], notes[|notes| - 1];
      var kept := KeepStrongest(front);
      KeepStrongestCovers(front);
      AbsorbNames(kept, n);
      var out := KeepStrongest(notes);
      assert out == Absorb(kept, n);
      forall j | 0 <= j < |notes| ensures NamePos(out, notes[j].note).Some? {
        if j < |front| {
          assert notes[j] == front[j];
          var q := NamePos(kept, front[j].note).value;
          assert kept[q].note == notes[j].note;
        }
      }
    }
  }

  /** `idx` gives, for each kept entry, its first-strongest position in `notes`. */
  ghost predicate SourcedBy(kept: seq<DetectedNote>, notes: seq<DetectedNote>, idx: seq<nat>)
  {
    && |idx| == |kept|
    && (forall i :: 0 <= i < |idx| ==> idx[i] < |notes| && notes[idx[i]] == kept[i] && StrongestFrom(notes, idx[i]))
  }

  /** A new name enters at the end, sourced at the entry just absorbed. */
  lemma AbsorbNewName(kept: seq<DetectedNote>, front: seq<DetectedNote>, n: DetectedNote, prev: seq<nat>)
    requires SourcedBy(kept, front, prev)
    requires forall j :: 0 <= j < |front| ==> NamePos(kept, front[j].note).Some?
    requires NamePos(kept, n.note).None?
    ensures SourcedBy(kept + [n], front + [n], prev + [|front|])
  {
    var notes, idx := front + [n], prev + [|front|];
    forall j | 0 <= j < |front| ensures front[j].note != n.note {
      assert NamePos(kept, front[j].note).Some?;
    }
    assert forall j :: 0 <= j < |front| ==> notes[j] == front[j];
    assert StrongestFrom(notes, |front|);
    forall i | 0 <= i < |prev| ensures StrongestFrom(notes, idx[i]) {
      StrongestExtends(front, prev[i], n);
    }
  }

  /** A strictly stronger entry of a known name takes that name's place. */
  lemma AbsorbStronger(kept: seq<DetectedNote>, front: seq<DetectedNote>, n: DetectedNote, prev: seq<nat>, p: nat)
    requires SourcedBy(kept, front, prev) && DistinctNames(kept)
    requires p < |kept| && kept[p].note == n.note && n.strength > kept[p].strength
    ensures SourcedBy(kept[p := n], front + [n], prev[p := |front|])
  {
    var notes, idx := front + [n], prev[p := |front|];
    forall j | 0 <= j < |front| && front[j].note == n.note ensures front[j].strength < n.strength {
      assert front[j].strength <= front[prev[p]].strength;
    }
    assert forall j :: 0 <= j < |front| ==> notes[j] == front[j];
    assert StrongestFrom(notes, |front|);
    forall i | 0 <= i < |idx| && i != p ensures StrongestFrom(notes, idx[i]) {
      assert kept[i].note != kept[p].note;
      StrongestExtends(front, prev[i], n);
    }
  }

  /** A known name's entry that is not outweighed stays. */
  lemma AbsorbWeaker(kept: seq<DetectedNote>, front: seq<DetectedNote>, n: DetectedNote, prev: seq<nat>, p: nat)
    requires SourcedBy(kept, front, prev) && DistinctNames(kept)
    requires p < |kept| && kept[p].note == n.note && n.strength <= kept[p].strength
    ensures SourcedBy(kept, front + [n], prev)
  {
    var notes := front + [n];
    forall i | 0 <= i < |prev| ensures StrongestFrom(notes, prev[i]) {
      if i != p {
        assert kept[i].note != kept[p].note;
      }
      StrongestExtends(front, prev[i], n);
    }
    assert forall j :: 0 <= j < |front| ==> notes[j] == front[j];
  }

  /** Each kept entry is the first strongest entry of its name, found at the
      returned position of the input. */
  lemma {:induction false} KeepStrongestSources(notes: seq<DetectedNote>) returns (idx: seq<nat>)
    ensures SourcedBy(KeepStrongest(notes), notes, idx)
  {
    if |notes| == 0 {
      return [];
    }
    var front, n := notes[..|notes| - 1], notes[|notes| - 1];
    assert front + [n] == notes;
    var kept := KeepStrongest(front);
    var prev := KeepStrongestSources(front);
    KeepStrongestDistinct(front);
    KeepStrongestCovers(front);
    match NamePos(kept, n.note)
    case None =>
      AbsorbNewName(kept, front, n, prev);
      idx := prev + [|front|];
    case Some(p) =>
      if n.strength > kept[p].strength {
        AbsorbStronger(kept, front, n, prev, p);
        idx := prev[p := |front|];
      } else {
        AbsorbWeaker(kept, front, n, prev, p);
        idx := prev;
      }
  }

  /** The de-duplication keeps exactly one entry per name heard: an entry of
      the input that no entry of the same name outweighs, the first such. */
  lemma KeepStrongestSummarises(notes: seq<DetectedNote>)
    ensures DistinctNames(KeepStrongest(notes))
    ensures forall j :: 0 <= j < |notes| ==> notes[j].note in NamesOf(KeepStrongest(notes))
    ensures forall i :: 0 <= i < |KeepStrongest(notes)| ==>
              exists k :: 0 <= k < |notes| && notes[k] == KeepStrongest(notes)[i] && StrongestFrom(notes, k)
  {
    var kept := KeepStrongest(notes);
    KeepStrongestDistinct(notes);
    KeepStrongestCovers(notes);
    var idx := KeepStrongestSources(notes);
    forall j | 0 <= j < |notes| ensures notes[j].note in NamesOf(kept) {
      var i := NamePos(kept, notes[j].note).value;
      assert NamesOf(kept)[i] == notes[j].note;
    }
    forall i | 0 <= i < |kept|
      ensures exists k :: 0 <= k < |notes| && notes[k] == kept[i] && StrongestFrom(notes, k)
    {
      assert notes[idx[i]] == kept[i] && StrongestFrom(notes, idx[i]);
    }
  }

  function NamesOf(notes: seq<DetectedNote>): (r: seq<string>)
    ensures |r| == |notes|
    ensures forall i :: 0 <= i < |notes| ==> r[i] == notes[i].note
  {
    seq(|notes|, i requires 0 <= i < |notes| => notes[i].note)
  }

  /** The notes of the chord built on `root` from `intervals`; nothing when
      the root is not a note name. */
  function GetChordNotes(root: string, intervals: seq<int>): (r: seq<string>)
    ensures root !in Pitch.Chromatic ==> r == []
    ensures root in Pitch.Chromatic ==> |r| == |intervals|
    ensures forall k :: 0 <= k < |r| ==> r[k] in Pitch.Chromatic
  {
    match Pitch.IndexOf(root)
    case None => []
    case Some(i) => seq(|intervals|, k requires 0 <= k < |intervals| => Pitch.NoteAbove(i, intervals[k]))
  }

  /** The chord built on the note at index `i`, note by note. */
  lemma ChordNotesAt(i: nat, intervals: seq<int>)
    requires i < 12
    ensures |GetChordNotes(Pitch.Chromatic[i], intervals)| == |intervals|
    ensures forall k :: 0 <= k < |intervals| ==> GetChordNotes(Pitch.Chromatic[i], intervals)[k] == Pitch.NoteAbove(i, intervals[k])
  {
    Pitch.IndexOfAt(i);
  }

  /** Note `k` of the chord built on a transposed root. */
  lemma TransposedChordNote(root: nat, shift: int, intervals: seq<int>, k: nat)
    requires root < 12 && k < |intervals|
    ensures |GetChordNotes(Pitch.NoteAbove(root, shift), intervals)| == |intervals|
    ensures GetChordNotes(Pitch.NoteAbove(root, shift), intervals)[k] == Pitch.NoteAbove(root, shift + intervals[k])
  {
    var t := (root + shift) % 12;
    var name := Pitch.NoteAbove(root, shift);
    assert name == Pitch.Chromatic[t];
    ChordNotesAt(t, intervals);
    assert GetChordNotes(name, intervals)[k] == Pitch.NoteAbove(t, intervals[k]);
    SameNoteAbove(root, shift, intervals[k]);
  }

  /** Building a chord on a transposed root transposes each of its notes by
      the same amount, and a zero interval gives the root back. */
  lemma GetChordNotesTransposes(root: nat, shift: int, intervals: seq<int>)
    requires root < 12
    ensures |GetChordNotes(Pitch.NoteAbove(root, shift), intervals)| == |intervals|
    ensures forall k :: 0 <= k < |intervals| ==>
              GetChordNotes(Pitch.NoteAbove(root, shift), intervals)[k] == Pitch.NoteAbove(root, shift + intervals[k])
    ensures forall k :: 0 <= k < |intervals| && intervals[k] == 0 ==>
              GetChordNotes(Pitch.NoteAbove(root, shift), intervals)[k] == Pitch.NoteAbove(root, shift)
  {
    ChordNotesAt((root + shift) % 12, intervals);
    forall k | 0 <= k < |intervals|
      ensures GetChordNotes(Pitch.NoteAbove(root, shift), intervals)[k] == Pitch.NoteAbove(root, shift + intervals[k])
    {
      TransposedChordNote(root, shift, intervals, k);
    }
  }

  /** Stepping `a` then `b` semitones lands where `a + b` does. */
  lemma SameNoteAbove(root: nat, a: int, b: int)
    requires root < 12
    ensures Pitch.NoteAbove((root + a) % 12, b) == Pitch.NoteAbove(root, a + b)
  {
    ModShift(root + a, b, 12);
    var i, j := ((root + a) % 12 + b) % 12, (root + (a + b)) % 12;
    assert i == j;
  }

  lemma ModShift(a: int, b: int, n: int)
    requires n > 0
    ensures (a % n + b) % n == (a + b) % n
  {
    var q := a / n;
    assert a == n * q + a % n;
    var q2, r2 := (a % n + b) / n, (a % n + b) % n;
    assert a + b == n * (q + q2) + r2;
    DivModUnique(a + b, n, q + q2, r2);
  }

  function ToSet(s: seq<string>): set<string>
  {
    set x | x in s
  }

  /** How many distinct expected notes were heard. */
  function Matches(detected: seq<string>, expected: seq<string>): nat
  {
    |ToSet(detected) * ToSet(expected)|
  }

  lemma ToSetBound(s: seq<string>)
    ensures |ToSet(s)| <= |s|
  {
    if |s| > 0 {
      var front := s[..|s| - 1];
      ToSetBound(front);
      assert ToSet(s) == ToSet(front) + {s[|s| - 1]};
    }
  }

  lemma SubsetBound<T>(a: set<T>, b: set<T>)
    requires a <= b
    ensures |a| <= |b|
  {
    if a != {} {
      var x :| x in a;
      SubsetBound(a - {x}, b - {x});
    }
  }

  lemma MatchesBound(detected: seq<string>, expected: seq<string>)
    ensures Matches(detected, expected) <= |expected|
    ensures Matches(detected, expected) <= |detected|
  {
    var d, e := ToSet(detected), ToSet(expected);
    SubsetBound(d * e, e);
    SubsetBound(d * e, d);
    ToSetBound(expected);
    ToSetBound(detected);
  }

  /** The score from the counts: the share of the chord's `e` notes that
      were heard (`m` of them), less a tenth per note beyond the chord's size
      among the `d` heard, raised to 1 for an exact fit, clamped to [0, 1]. */
  function ScoreOf(m: nat, e: nat, d: nat): (r: real)
    requires 0 < e && m <= e && m <= d
    ensures 0.0 <= r <= 1.0
    ensures r <= m as real / e as real
    ensures m == e && d == e ==> r == 1.0
  {
    var ratio := m as real / e as real - (if d > e then (d - e) as real * 0.1 else 0.0);
    var ratio' := if m == e && d == e then 1.0 else ratio;
    Max(0.0, Min(1.0, ratio'))
  }

  /** How well the names heard fit a chord; 0 when either side is empty. */
  function ChordConfidence(detected: seq<string>, expected: seq<string>): (r: real)
    ensures |detected| == 0 || |expected| == 0 ==> r == 0.0
    ensures 0.0 <= r <= 1.0
    ensures |expected| > 0 ==> r <= Matches(detected, expected) as real / |expected| as real
  {
    if |expected| == 0 || |detected| == 0 then 0.0
    else
      MatchesBound(detected, expected);
      ScoreOf(Matches(detected, expected), |expected|, |detected|)
  }

  /** Hearing exactly the chord's distinct notes, once each, scores 1. */
  lemma ExactChordScoresOne(detected: seq<string>, expected: seq<string>)
    requires |expected| > 0
    requires forall i, j :: 0 <= i < j < |expected| ==> expected[i] != expected[j]
    requires ToSet(detected) == ToSet(expected) && |detected| == |expected|
    ensures ChordConfidence(detected, expected) == 1.0
  {
    DistinctCard(expected);
    assert ToSet(detected) * ToSet(expected) == ToSet(expected);
    assert Matches(detected, expected) == |expected|;
  }

  lemma {:induction false} DistinctCard(s: seq<string>)
    requires forall i, j :: 0 <= i < j < |s| ==> s[i] != s[j]
    ensures |ToSet(s)| == |s|
  {
    if |s| > 0 {
      var front := s[..|s| - 1];
      DistinctCard(front);
      assert s[|s| - 1] !in ToSet(front);
      assert ToSet(s) == ToSet(front) + {s[|s| - 1]};
    }
  }

  lemma ScoreExtraNote(m: nat, e: nat, d: nat)
    requires 0 < e && m <= e && m <= d
    ensures ScoreOf(m, e, d + 1) <= ScoreOf(m, e, d)
  {
  }

  lemma MatchesIgnoresStranger(detected: seq<string>, x: string, expected: seq<string>)
    requires x !in expected
    ensures Matches(detected + [x], expected) == Matches(detected, expected)
  {
    var more := detected + [x];
    assert ToSet(more) == ToSet(detected) + {x};
    assert ToSet(more) * ToSet(expected) == ToSet(detected) * ToSet(expected);
  }

  /** Hearing one more note that is not in the chord never raises the score. */
  lemma ExtraNoteNeverHelps(detected: seq<string>, x: string, expected: seq<string>)
    requires x !in expected
    ensures ChordConfidence(detected + [x], expected) <= ChordConfidence(detected, expected)
  {
    var more := detected + [x];
    MatchesIgnoresStranger(detected, x, expected);
    if |expected| > 0 {
      MatchesBound(detected, expected);
      if |detected| > 0 {
        var m := Matches(detected, expected);
        ScoreExtraNote(m, |expected|, |detected|);
        assert ChordConfidence(more, expected) == ScoreOf(m, |expected|, |detected| + 1);
        assert ChordConfidence(detected, expected) == ScoreOf(m, |expected|, |detected|);
      } else {
        assert Matches(more, expected) == 0;
      }
    }
  }

  /** Outcome of the root and quality search. */
  datatype Analysis = Analysis(root: Option<string>, quality: Option<string>, confidence: real,
                               expected: seq<string>)

  /** Candidate `c` pairs root `roots[c / 11]` with template `Templates[c % 11]`,
      the order of the nested root-then-pattern loops. */
  function CandidateScores(roots: seq<string>): (s: seq<real>)
    ensures |s| == |roots| * 11
  {
    seq(|roots| * 11, c requires 0 <= c < |roots| * 11 =>
      ChordConfidence(roots, GetChordNotes(roots[c / 11], Templates[c % 11].intervals)))
  }

  /** `order` lists each name of `names` exactly once (some iteration order
      of the set of names). */
  predicate Enumerates(order: seq<string>, names: seq<string>)
  {
    && (forall i, j :: 0 <= i < j < |order| ==> order[i] != order[j])
    && ToSet(order) == ToSet(names)
  }

  /** The best (root, quality) for the names heard. `order` is the order the
      distinct names are visited in. A candidate replaces the best only when it
      scores strictly higher, starting from 0, so nothing is named when every
      candidate scores 0. */
  function AnalyzeChord(names: seq<string>, order: seq<string>): (a: Analysis)
    requires Enumerates(order, names)
    ensures |names| < 2 ==> a == Analysis(None, None, 0.0, [])
    ensures a.root.None? <==> a.quality.None?
    ensures a.root.Some? ==> a.root.value in names && a.confidence > 0.0
    ensures 0.0 <= a.confidence <= 1.0
  {
    if |names| < 2 then Analysis(None, None, 0.0, [])
    else
      var scores := CandidateScores(order);
      match Select.ArgMaxAbove(scores, 0.0)
      case None => Analysis(None, None, 0.0, [])
      case Some(c) =>
        assert c / 11 < |order| && order[c / 11] in ToSet(order);
        var t := Templates[c % 11];
        Analysis(Some(order[c / 11]), Some(t.quality), scores[c], GetChordNotes(order[c / 11], t.intervals))
  }

  /** The reported chord is a best-scoring candidate: no (root, quality) pair
      scores higher, every pair tried before it scores strictly lower, and
      nothing is named only when every pair scores 0. */
  lemma AnalyzeChordIsBest(names: seq<string>, order: seq<string>)
    requires Enumerates(order, names) && |names| >= 2
    ensures AnalyzeChord(names, order).root.None? <==>
              forall c :: 0 <= c < |order| * 11 ==> CandidateScores(order)[c] == 0.0
    ensures forall c :: 0 <= c < |order| * 11 ==> CandidateScores(order)[c] <= AnalyzeChord(names, order).confidence
    ensures AnalyzeChord(names, order).root.Some? ==>
              exists c :: 0 <= c < |order| * 11
                && AnalyzeChord(names, order).root.value == order[c / 11]
                && AnalyzeChord(names, order).quality.value == Templates[c % 11].quality
                && AnalyzeChord(names, order).confidence == CandidateScores(order)[c]
                && forall j :: 0 <= j < c ==> CandidateScores(order)[j] < CandidateScores(order)[c]
  {
    var scores := CandidateScores(order);
    assert forall c :: 0 <= c < |scores| ==> scores[c] >= 0.0;
    match Select.ArgMaxAbove(scores, 0.0)
    case None =>
    case Some(c) =>
  }

  /** A whole detection. */
  datatype ChordResult = ChordResult(root: Option<string>, quality: Option<string>, notes: seq<string>,
                                     details: seq<DetectedNote>, confidence: real, timestamp: real, valid: bool)

  /** Names the peaks, analyses them and flags the chord valid only above the
      minimum confidence. The clock reading is a parameter. */
  function DetectChord(peaks: seq<Peak>, cents: (real, real) -> real, order: seq<string>, now: real): (r: ChordResult)
    requires Enumerates(order, NamesOf(FrequenciesToNotes(peaks, cents)))
    ensures r.valid <==> r.confidence > MinChordConfidence
    ensures r.details == FrequenciesToNotes(peaks, cents) && r.notes == NamesOf(r.details)
    ensures r.root.Some? ==> r.root.value in r.notes
    ensures r.valid ==> r.root.Some? && |r.notes| >= 2
    ensures var a := AnalyzeChord(r.notes, order);
            r.root == a.root && r.quality == a.quality && r.confidence == a.confidence && r.timestamp == now
  {
    var notes := FrequenciesToNotes(peaks, cents);
    var a := AnalyzeChord(NamesOf(notes), order);
    ChordResult(a.root, a.quality, NamesOf(notes), notes, a.confidence, now, a.confidence > MinChordConfidence)
  }

  /** A valid detection reports the best-scoring (root, template) pair over
      the distinct names, the first in enumeration order on a tie, and no
      pair scores above its confidence. */
  lemma ValidDetectionIsBest(peaks: seq<Peak>, cents: (real, real) -> real, order: seq<string>, now: real)
    requires Enumerates(order, NamesOf(FrequenciesToNotes(peaks, cents)))
    requires DetectChord(peaks, cents, order, now).valid
    ensures var r := DetectChord(peaks, cents, order, now);
            && (forall c :: 0 <= c < |order| * 11 ==> CandidateScores(order)[c] <= r.confidence)
            && exists c :: 0 <= c < |order| * 11
                 && r.root == Some(order[c / 11])
                 && r.quality == Some(Templates[c % 11].quality)
                 && r.confidence == CandidateScores(order)[c]
                 && forall j :: 0 <= j < c ==> CandidateScores(order)[j] < CandidateScores(order)[c]
  {
    var r := DetectChord(peaks, cents, order, now);
    AnalyzeChordIsBest(r.notes, order);
  }
}

=== FILE: chordino.dfy ===
/** The Chordino-based detector's symbolic half: the chord label the external
    Chordino extractor reports (such as "C", "Am", "F#m7") is parsed into a
    root, a quality and the notes of that chord, each note gets an estimated
    pitch and open string, and the detection is graded by the input level.
    The extractor itself, the temporary WAV file it reads and the logarithm
    behind cents are inputs. */
module Chordino {
  import opened Base
  import Pitch
  import ChordDetector
  import SimpleChord
  import Synth

  /** Python's `sub in s` on strings. */
  predicate Occurs(sub: string, s: string)
    decreases |s|
  {
    |sub| <= |s| && (s[..|sub|] == sub || Occurs(sub, s[1..]))
  }

  lemma {:induction false} OccursAt(sub: string, s: string, i: nat)
    requires i + |sub| <= |s| && s[i..i + |sub|] == sub
    ensures Occurs(sub, s)
    decreases i
  {
    if i > 0 {
      assert s[1..][i - 1..i - 1 + |sub|] == s[i..i + |sub|];
      OccursAt(sub, s[1..], i - 1);
    }
  }

  /** Every character of a piece occurs in a string it occurs in. */
  lemma {:induction false} OccursContains(sub: string, s: string, k: nat)
    requires k < |sub| && Occurs(sub, s)
    ensures sub[k] in s
    decreases |s|
  {
    if s[..|sub|] == sub {
      assert s[k] == sub[k];
    } else {
      OccursContains(sub, s[1..], k);
      var j :| 0 <= j < |s| - 1 && s[1..][j] == sub[k];
      assert s[j + 1] == sub[k];
    }
  }

  /** The root: the first character, with a following '#' or 'b'. */
  function ParseRoot(notation: string): (root: string)
    requires |notation| > 0
    ensures 1 <= |root| <= 2 && |root| <= |notation| && root == notation[..|root|]
    ensures |root| == 2 <==> |notation| > 1 && notation[1] in "#b"
  {
    if |notation| > 1 && notation[1] in "#b" then notation[..2] else notation[..1]
  }

  /** The five qualities the note generator knows. */
  const Qualities: set<string> := {"major", "minor", "diminished", "augmented", "dominant7"}

  /** The quality as `_parse_chord_notation` reads it: any 'm' means minor,
      checked before "dim", so a diminished label ("Cdim") and a major
      seventh ("Cmaj7") are read as minor and the diminished reading is
      never reached. */
  function ParseQualityAsWritten(notation: string): (q: string)
    ensures q in Qualities && q != "diminished"
    ensures q == "minor" <==> 'm' in notation
  {
    if 'm' in notation then "minor"
    else if Occurs("dim", notation) then OccursContains("dim", notation, 2); assert false; "diminished"
    else if Occurs("aug", notation) then "augmented"
    else if '7' in notation then "dominant7"
    else "major"
  }

  /** The quality with "dim", "aug" and "maj" checked before the minor
      'm', so each of the five qualities is reachable and an 'm' that
      belongs to "dim" or "maj" does not make the chord minor. */
  function ParseQuality(notation: string): (q: string)
    ensures q in Qualities
    ensures Occurs("dim", notation) <==> q == "diminished"
    ensures q == "minor" ==> 'm' in notation && !Occurs("maj", notation)
    ensures Occurs("maj", notation) && !Occurs("dim", notation) && !Occurs("aug", notation) ==> q == "major"
    ensures q == "dominant7" ==> '7' in notation
  {
    if Occurs("dim", notation) then "diminished"
    else if Occurs("aug", notation) then "augmented"
    else if Occurs("maj", notation) then "major"
    else if 'm' in notation then "minor"
    else if '7' in notation then "dominant7"
    else "major"
  }

  /** A diminished label and a major seventh are read as minor as written,
      and as diminished and major once corrected. */
  lemma DiminishedReadAsMinor()
    ensures ParseQualityAsWritten("Cdim") == "minor"
    ensures ParseQuality("Cdim") == "diminished"
    ensures ParseQualityAsWritten("Cmaj7") == "minor"
    ensures ParseQuality("Cmaj7") == "major"
  {
    assert "Cdim"[3] == 'm';
    OccursAt("dim", "Cdim", 1);
    assert "Cmaj7"[1] == 'm';
    OccursAt("maj", "Cmaj7", 1);
    if Occurs("dim", "Cmaj7") {
      OccursContains("dim", "Cmaj7", 0);
      assert false;
    }
    if Occurs("aug", "Cmaj7") {
      OccursContains("aug", "Cmaj7", 1);
      assert false;
    }
  }

  /** The two readings differ only on a label holding "dim", "aug" or
      "maj" together with an 'm'. */
  lemma ReadingsAgree(notation: string)
    requires 'm' !in notation || (!Occurs("dim", notation) && !Occurs("aug", notation) && !Occurs("maj", notation))
    ensures ParseQualityAsWritten(notation) == ParseQuality(notation)
  {
    if 'm' !in notation {
      if Occurs("dim", notation) { OccursContains("dim", notation, 2); }
      if Occurs("maj", notation) { OccursContains("maj", notation, 0); }
    }
  }

  /** Which quality reading a parse uses: the program's own, or the
      corrected one. */
  datatype Reading = AsWritten | Corrected

  function ReadQuality(how: Reading, notation: string): (q: string)
    ensures q in Qualities
    ensures how == AsWritten ==> q == ParseQualityAsWritten(notation)
    ensures how == Corrected ==> q == ParseQuality(notation)
  {
    match how
    case AsWritten => ParseQualityAsWritten(notation)
    case Corrected => ParseQuality(notation)
  }

  /** The intervals of each quality; an unknown quality is the root alone. */
  function QualityIntervals(quality: string): (iv: seq<int>)
    ensures |iv| > 0 && iv[0] == 0
  {
    match quality
    case "major" => [0, 4, 7]
    case "minor" => [0, 3, 7]
    case "diminished" => [0, 3, 6]
    case "augmented" => [0, 4, 8]
    case "dominant7" => [0, 4, 7, 10]
    case _ => [0]
  }

  /** The notes of the chord: the root alone when it is not a sharp-spelled
      note name (a flat such as "Bb"), else the chord's notes from the root. */
  function GenerateChordNotes(root: string, quality: string): (r: seq<string>)
    ensures |r| > 0 && r[0] == root
    ensures root !in Pitch.Chromatic ==> r == [root]
    ensures root in Pitch.Chromatic ==> |r| == |QualityIntervals(quality)| && forall k :: 0 <= k < |r| ==> r[k] in Pitch.Chromatic
  {
    match Pitch.IndexOf(root)
    case None => [root]
    case Some(i) =>
      ChordStartsAtRoot(i, QualityIntervals(quality));
      ChordDetector.GetChordNotes(root, QualityIntervals(quality))
  }

  lemma ChordStartsAtRoot(i: nat, intervals: seq<int>)
    requires i < 12 && |intervals| > 0 && intervals[0] == 0
    ensures ChordDetector.GetChordNotes(Pitch.Chromatic[i], intervals)[0] == Pitch.Chromatic[i]
  {
    Pitch.IndexOfAt(i);
    assert (i + intervals[0]) % 12 == i;
  }

  /** The chord on a transposed root is the transposed chord. */
  lemma GenerateChordNotesTransposes(root: nat, shift: int, quality: string)
    requires root < 12
    ensures var iv := QualityIntervals(quality);
            var r := GenerateChordNotes(Pitch.NoteAbove(root, shift), quality);
            |r| == |iv| && forall k :: 0 <= k < |iv| ==> r[k] == Pitch.NoteAbove(root, shift + iv[k])
  {
    ChordDetector.GetChordNotesTransposes(root, shift, QualityIntervals(quality));
  }

  /** A parsed label. */
  datatype ParsedChord = ParsedChord(root: string, quality: string, notes: seq<string>)

  const NoChord: ParsedChord := ParsedChord("Unknown", "unknown", [])

  /** `_parse_chord_notation`, with the quality read as `how` says. */
  function ParseChordNotation(notation: string, how: Reading): (p: ParsedChord)
    ensures notation == "" || notation == "N" ==> p == NoChord
    ensures notation != "" && notation != "N" ==> |p.notes| > 0 && p.notes[0] == p.root
    ensures notation != "" && notation != "N" ==> |p.root| <= |notation| && p.root == notation[..|p.root|]
    ensures notation != "" && notation != "N" ==>
              p.quality == ReadQuality(how, notation) && p.notes == GenerateChordNotes(p.root, p.quality)
  {
    if notation == "" || notation == "N" then NoChord
    else
      var root := ParseRoot(notation);
      var quality := ReadQuality(how, notation);
      ParsedChord(root, quality, GenerateChordNotes(root, quality))
  }

  /** A root as the sharp-spelled scale writes it: a capital letter,
      possibly followed by '#'. */
  predicate PlainRoot(root: string)
  {
    && 1 <= |root| <= 2
    && root[0] in "ABCDEFG"
    && (|root| == 2 ==> root[1] == '#')
  }

  lemma ChromaticIsPlain(i: nat)
    requires i < 12
    ensures PlainRoot(Pitch.Chromatic[i])
  {
  }

  /** The suffix `Spell` writes after the root. */
  function SuffixOf(quality: string): string
  {
    match quality
    case "minor" => "m"
    case "diminished" => "dim"
    case "augmented" => "aug"
    case "dominant7" => "7"
    case _ => ""
  }

  /** The label the parser expects for a root and quality. */
  function Spell(root: string, quality: string): string
  {
    root + SuffixOf(quality)
  }

  lemma SpelledRoot(root: string, quality: string)
    requires PlainRoot(root)
    ensures ParseRoot(Spell(root, quality)) == root
  {
    var s := Spell(root, quality);
    assert s[..|root|] == root;
    if |root| == 1 && |s| > 1 {
      assert s[1] == SuffixOf(quality)[0];
    }
  }

  /** A character of a spelled label is the root's or the suffix's. */
  lemma SpelledChars(root: string, quality: string, c: char)
    requires PlainRoot(root) && c in Spell(root, quality)
    ensures c in "ABCDEFG#" || c in SuffixOf(quality)
  {
    var s := Spell(root, quality);
    var j :| 0 <= j < |s| && s[j] == c;
    if j >= |root| {
      assert SuffixOf(quality)[j - |root|] == c;
    }
  }

  lemma SpelledQuality(root: string, quality: string)
    requires PlainRoot(root) && quality in Qualities
    ensures ParseQuality(Spell(root, quality)) == quality
  {
    var s := Spell(root, quality);
    var suffix := SuffixOf(quality);
    if quality == "diminished" {
      assert s[|root|..|root| + 3] == "dim";
      OccursAt("dim", s, |root|);
    } else {
      if Occurs("dim", s) {
        OccursContains("dim", s, 0);
        SpelledChars(root, quality, 'd');
        assert false;
      }
      if quality == "augmented" {
        assert s[|root|..|root| + 3] == "aug";
        OccursAt("aug", s, |root|);
      } else {
        if Occurs("aug", s) {
          OccursContains("aug", s, 0);
          SpelledChars(root, quality, 'a');
          assert false;
        }
        if Occurs("maj", s) {
          OccursContains("maj", s, 1);
          SpelledChars(root, quality, 'a');
          assert false;
        }
        if quality == "minor" {
          assert s[|root|] == 'm';
        } else {
          if 'm' in s {
            SpelledChars(root, quality, 'm');
            assert false;
          }
          if quality == "dominant7" {
            assert s[|root|] == '7';
          } else if '7' in s {
            SpelledChars(root, quality, '7');
            assert false;
          }
        }
      }
    }
  }

  /** Spelling a chord and parsing it with the corrected reading gives
      back its root, quality and notes. */
  lemma ParseSpellRoundTrip(i: nat, quality: string)
    requires i < 12 && quality in Qualities
    ensures ParseChordNotation(Spell(Pitch.Chromatic[i], quality), Corrected)
         == ParsedChord(Pitch.Chromatic[i], quality, GenerateChordNotes(Pitch.Chromatic[i], quality))
  {
    ChromaticIsPlain(i);
    SpelledRoot(Pitch.Chromatic[i], quality);
    SpelledQuality(Pitch.Chromatic[i], quality);
  }

  /** `_note_to_frequency`: the octave-4 pitch moved to `octave`, 0 for a
      name the table does not know. */
  function NoteToFrequency(note: string, octave: int): (f: real)
    ensures note !in Pitch.Chromatic ==> f == 0.0
    ensures note in Pitch.Chromatic ==> f > 0.0
  {
    match Pitch.Octave4Frequency(note)
    case Some(b) => Synth.OctaveShift(b, octave)
    case None => 0.0
  }

  /** Each octave up doubles the pitch, and octave 4 is the table value. */
  lemma NoteToFrequencyLaws(note: string, octave: int)
    requires note in Pitch.Chromatic
    ensures NoteToFrequency(note, octave + 1) == 2.0 * NoteToFrequency(note, octave)
    ensures Pitch.Octave4Frequency(note) == Some(NoteToFrequency(note, 4))
  {
    Synth.OctaveShiftLaws(Pitch.Octave4Frequency(note).value, octave);
  }

  /** The open string nearest a pitch; a pitch of 0 (an unknown name) gives
      an infinite cents distance and so no string. */
  function GuitarStringFor(f: real, cents: (real, real) -> real): (r: Option<SimpleChord.StringMatch>)
    ensures f <= 0.0 ==> r.None?
  {
    if f <= 0.0 then None else SimpleChord.IdentifyGuitarString(f, cents)
  }

  /** An estimated note of the chord. Its tuning status is always "unknown":
      the extractor reports none. */
  datatype NoteDetail = NoteDetail(note: string, octave: int, frequency: real, strength: real,
                                   centsOff: real, guitarString: Option<SimpleChord.StringMatch>)

  /** One entry per chord note, placed in octave 3, in tune, and fading by a
      tenth of the input level per position. */
  function CreateNoteDetails(notes: seq<string>, level: real, cents: (real, real) -> real): (r: seq<NoteDetail>)
    ensures |r| == |notes|
    ensures forall i :: 0 <= i < |r| ==> r[i].note == notes[i] && r[i].octave == 3 && r[i].centsOff == 0.0
    ensures forall i :: 0 <= i < |r| ==> r[i].strength == Faded(level, i)
  {
    seq(|notes|, i requires 0 <= i < |notes| =>
      var f := NoteToFrequency(notes[i], 3);
      NoteDetail(notes[i], 3, f, Faded(level, i), 0.0, GuitarStringFor(f, cents)))
  }

  /** The strength given to the note at position `i`. */
  function Faded(level: real, i: nat): real
  {
    level * (1.0 - i as real * 0.1)
  }

  /** For a positive level the strengths fall note by note and stay
      non-negative for the first eleven notes. */
  lemma StrengthsFade(level: real, i: nat, j: nat)
    requires level > 0.0 && i < j
    ensures Faded(level, j) < Faded(level, i)
    ensures j <= 10 ==> Faded(level, j) >= 0.0
  {
    var a, b := 1.0 - i as real * 0.1, 1.0 - j as real * 0.1;
    MulMonoStrict(b, a, level);
    if j <= 10 {
      assert j as real <= 10.0;
      MulNonneg(b, level);
    }
  }

  /** The input level, capped at 1 after scaling by 100, averaged with a
      fixed 0.8. */
  function CalculateConfidence(level: real): (c: real)
    ensures c <= 0.9
    ensures level >= 0.0 ==> c >= 0.4
    ensures level >= 0.01 ==> c == 0.9
  {
    Min((Min(level * 100.0, 1.0) + 0.8) / 2.0, 1.0)
  }

  lemma ConfidenceRisesWithLevel(a: real, b: real)
    requires a <= b
    ensures CalculateConfidence(a) <= CalculateConfidence(b)
  {
  }

  /** A chord change reported by the extractor. */
  datatype ChordChange = ChordChange(chord: string, timestamp: real)

  datatype ChordResult = ChordResult(root: string, quality: string, notes: seq<string>, details: seq<NoteDetail>,
                                     confidence: real, valid: bool, timestamp: real, notation: string,
                                     detectionMethod: string)

  const EmptyResult: ChordResult := ChordResult("Unknown", "unknown", [], [], 0.0, false, 0.0, "N", "none")

  /** `_analyze_chordino_result`: the parsed label, its note details and
      the level's confidence, with the quality read as `how` says. */
  function AnalyzeChordinoResult(change: ChordChange, level: real, cents: (real, real) -> real, how: Reading): (r: ChordResult)
    ensures r.valid && r.notation == change.chord && r.timestamp == change.timestamp
    ensures var p := ParseChordNotation(change.chord, how);
            r.root == p.root && r.quality == p.quality && r.notes == p.notes
    ensures r.details == CreateNoteDetails(r.notes, level, cents)
    ensures r.confidence == CalculateConfidence(level) && r.detectionMethod == "chordino"
  {
    var p := ParseChordNotation(change.chord, how);
    ChordResult(p.root, p.quality, p.notes, CreateNoteDetails(p.notes, level, cents), CalculateConfidence(level),
                true, change.timestamp, change.chord, "chordino")
  }

  /** Inputs quieter than this are not analysed. */
  const MinLevel: real := 0.005

  /** A whole detection. `available` says whether the extractor package is
      installed; `changes` is what it reports for the saved input, `None`
      when the input could not be saved. The latest change is analysed,
      with the quality read as `how` says: `AsWritten` is the program,
      `Corrected` the intended reading. */
  function DetectChordFromAudio(available: bool, samples: seq<real>, changes: Option<seq<ChordChange>>,
                                cents: (real, real) -> real, how: Reading): (r: ChordResult)
    ensures r.valid <==> available && PeakAbs(samples) >= MinLevel && changes.Some? && |changes.value| > 0
    ensures !r.valid ==> r == EmptyResult
    ensures r.valid ==> r == AnalyzeChordinoResult(changes.value[|changes.value| - 1], PeakAbs(samples), cents, how)
    ensures r.valid ==> 0.65 <= r.confidence <= 0.9
  {
    if !available then EmptyResult
    else
      var level := PeakAbs(samples);
      if level < MinLevel then EmptyResult
      else match changes
        case None => EmptyResult
        case Some(cs) =>
          if |cs| == 0 then EmptyResult
          else AnalyzeChordinoResult(cs[|cs| - 1], level, cents, how)
  }

  /** The program and the corrected reading report the same detection
      unless the latest label holds "dim", "aug" or "maj" together with an
      'm'. */
  lemma DetectionsAgree(available: bool, samples: seq<real>, changes: Option<seq<ChordChange>>,
                        cents: (real, real) -> real)
    requires changes.Some? && |changes.value| > 0 ==>
               var n := changes.value[|changes.value| - 1].chord;
               'm' !in n || (!Occurs("dim", n) && !Occurs("aug", n) && !Occurs("maj", n))
    ensures DetectChordFromAudio(available, samples, changes, cents, AsWritten)
         == DetectChordFromAudio(available, samples, changes, cents, Corrected)
  {
    if changes.Some? && |changes.value| > 0 {
      ReadingsAgree(changes.value[|changes.value| - 1].chord);
    }
  }

  /** On "Cdim" the program reports C minor (C, D#, G) where the corrected
      reading reports C diminished (C, D#, F#). */
  lemma DiminishedLabelNotes()
    ensures ParseChordNotation("Cdim", AsWritten) == ParsedChord("C", "minor", ["C", "D#", "G"])
    ensures ParseChordNotation("Cdim", Corrected) == ParsedChord("C", "diminished", ["C", "D#", "F#"])
  {
    DiminishedReadAsMinor();
    assert ParseRoot("Cdim") == "C";
    NotesOnC("minor", [0, 3, 7], ["C", "D#", "G"]);
    NotesOnC("diminished", [0, 3, 6], ["C", "D#", "F#"]);
  }

  /** The notes of a chord on C, given the intervals of its quality and the
      notes those intervals name. */
  lemma NotesOnC(quality: string, intervals: seq<int>, notes: seq<string>)
    requires QualityIntervals(quality) == intervals
    requires |notes| == |intervals| && forall k :: 0 <= k < |intervals| ==> notes[k] == Pitch.NoteAbove(0, intervals[k])
    ensures GenerateChordNotes("C", quality) == notes
  {
    assert Pitch.Chromatic[0] == "C";
    ChordDetector.ChordNotesAt(0, intervals);
  }
}

=== FILE: distortion.dfy ===
/** The distortion applied to cross-feedback: a gain stage, one of six
    curves, and a dry/wet blend. The hard clip and the cubic waveshaper are
    computed; the tanh-based soft clip, tube and fuzz curves and the
    randomly held bit crusher are not, and their value for the driven
    sample is a parameter (`curve`). */
module Distortion {
  import opened Base

  datatype Kind = SoftClip | HardClip | Tube | Fuzz | BitCrush | Waveshaper | NoDistortion

  datatype Effect = Effect(kind: Kind, drive: real, mix: real, sampleRate: int,
                           bitDepth: int, rateReduction: real, lastSample: real)

  predicate Valid(e: Effect)
  {
    && 0.0 <= e.drive <= 1.0
    && 0.0 <= e.mix <= 1.0
    && 1 <= e.bitDepth <= 16
    && 0.0 <= e.rateReduction <= 1.0
  }

  /** The constructor: drive and mix clamped to [0, 1], an 8-bit crusher
      holding half the time, nothing held yet. */
  function New(kind: Kind, drive: real, mix: real, sampleRate: int): (e: Effect)
    ensures Valid(e) && e.kind == kind && e.sampleRate == sampleRate
    ensures 0.0 <= drive <= 1.0 ==> e.drive == drive
    ensures 0.0 <= mix <= 1.0 ==> e.mix == mix
    ensures drive < 0.0 ==> e.drive == 0.0
    ensures drive > 1.0 ==> e.drive == 1.0
    ensures e.bitDepth == 8 && e.rateReduction == 0.5 && e.lastSample == 0.0
  {
    Effect(kind, Clip(drive, 0.0, 1.0), Clip(mix, 0.0, 1.0), sampleRate, 8, 0.5, 0.0)
  }

  function SetKind(e: Effect, kind: Kind): (r: Effect)
    ensures r.kind == kind && r == e.(kind := kind)
  {
    e.(kind := kind)
  }

  function SetDrive(e: Effect, drive: real): (r: Effect)
    requires Valid(e)
    ensures Valid(r) && r == e.(drive := r.drive)
    ensures 0.0 <= drive <= 1.0 ==> r.drive == drive
  {
    e.(drive := Clip(drive, 0.0, 1.0))
  }

  function SetMix(e: Effect, mix: real): (r: Effect)
    requires Valid(e)
    ensures Valid(r) && r == e.(mix := r.mix)
    ensures 0.0 <= mix <= 1.0 ==> r.mix == mix
  {
    e.(mix := Clip(mix, 0.0, 1.0))
  }

  /** `set_bit_crush_parameters`: depth clamped to [1, 16], the reduction
      to [0, 1]. */
  function SetBitCrushParameters(e: Effect, bitDepth: int, rateReduction: real): (r: Effect)
    requires Valid(e)
    ensures Valid(r) && r == e.(bitDepth := r.bitDepth, rateReduction := r.rateReduction)
    ensures 1 <= bitDepth <= 16 ==> r.bitDepth == bitDepth
    ensures bitDepth < 1 ==> r.bitDepth == 1
    ensures bitDepth > 16 ==> r.bitDepth == 16
    ensures 0.0 <= rateReduction <= 1.0 ==> r.rateReduction == rateReduction
  {
    e.(bitDepth := if bitDepth > 16 then 16 else if bitDepth < 1 then 1 else bitDepth,
       rateReduction := Clip(rateReduction, 0.0, 1.0))
  }

  /** Setting a parameter the setters clamp, twice, is setting it once. */
  lemma SettersIdempotent(e: Effect, drive: real, mix: real, bitDepth: int, rateReduction: real)
    requires Valid(e)
    ensures SetDrive(SetDrive(e, drive), drive) == SetDrive(e, drive)
    ensures SetMix(SetMix(e, mix), mix) == SetMix(e, mix)
    ensures var once := SetBitCrushParameters(e, bitDepth, rateReduction);
            SetBitCrushParameters(once, bitDepth, rateReduction) == once
  {
  }

  /** numpy's sign. */
  function Sign(y: real): (s: real)
    ensures s == 1.0 || s == 0.0 || s == -1.0
    ensures s * y == Abs(y)
  {
    if y > 0.0 then 1.0 else if y < 0.0 then -1.0 else 0.0
  }

  /** `_hard_clip`: samples beyond the threshold `1 - drive` are flattened
      onto it, keeping their sign. */
  function HardClipOf(drive: real, y: real): (r: real)
  {
    var threshold := 1.0 - drive;
    if Abs(y) > threshold then Sign(y) * threshold else y
  }

  /** The hard clip never exceeds its threshold, leaves samples within it
      alone, never flips a sign, and clipping twice is clipping once. */
  lemma HardClipLaws(drive: real, y: real)
    requires 0.0 <= drive <= 1.0
    ensures Abs(HardClipOf(drive, y)) <= 1.0 - drive
    ensures Abs(y) <= 1.0 - drive <==> HardClipOf(drive, y) == y
    ensures y >= 0.0 ==> HardClipOf(drive, y) >= 0.0
    ensures y <= 0.0 ==> HardClipOf(drive, y) <= 0.0
    ensures HardClipOf(drive, HardClipOf(drive, y)) == HardClipOf(drive, y)
  {
  }

  /** The cubic curve z - z^3 / 3. */
  function Cubic(z: real): real
  {
    z - z * z * z / 3.0
  }

  /** `_waveshaper`: the cubic curve applied to the sample times
      1 + 3 drive. */
  function WaveshaperOf(drive: real, y: real): real
  {
    Cubic(y * (1.0 + drive * 3.0))
  }

  /** The cubic curve is odd, and maps [-2, 2] into [-2/3, 2/3]: its
      extremes are at the ends of [-1, 1], and it comes back to them at 2
      and -2. */
  lemma CubicLaws(z: real)
    ensures Cubic(-z) == -Cubic(z)
    ensures -2.0 <= z <= 2.0 ==> -2.0 / 3.0 <= Cubic(z) <= 2.0 / 3.0
  {
    assert (-z) * (-z) * (-z) == -(z * z * z);
    if -2.0 <= z <= 2.0 {
      var a, b := (z - 1.0) * (z - 1.0), (z + 1.0) * (z + 1.0);
      MulNonneg(a, z + 2.0);
      MulNonneg(b, 2.0 - z);
      assert 2.0 / 3.0 - Cubic(z) == a * (z + 2.0) / 3.0;
      assert Cubic(z) + 2.0 / 3.0 == b * (2.0 - z) / 3.0;
    }
  }

  /** The curve a kind applies to an already driven sample; `curve` is the
      value of the curves this model does not compute (tanh soft clip,
      tube, fuzz, and the bit crusher's random hold). */
  function Shape(e: Effect, y: real, curve: real): (r: real)
  {
    match e.kind
    case HardClip => HardClipOf(e.drive, y)
    case Waveshaper => WaveshaperOf(e.drive, y)
    case NoDistortion => y
    case _ => curve
  }

  /** The gain stage in front of every curve. */
  function Driven(e: Effect, x: real): real
  {
    x * (1.0 + e.drive * 5.0)
  }

  /** Dry x weighted by 1 - w, plus wet d weighted by w. */
  function Blend(x: real, d: real, w: real): real
  {
    x * (1.0 - w) + d * w
  }

  /** A blend lies between its two inputs; weight 0 is all dry and weight
      1 all wet. */
  lemma BlendBetween(x: real, d: real, w: real)
    requires 0.0 <= w <= 1.0
    ensures Min(x, d) <= Blend(x, d, w) <= Max(x, d)
    ensures w == 0.0 ==> Blend(x, d, w) == x
    ensures w == 1.0 ==> Blend(x, d, w) == d
  {
    MixBounds(w, x, d);
    assert Blend(x, d, w) == (1.0 - w) * x + w * d;
  }

  datatype Processed = Processed(state: Effect, output: real)

  /** `process_sample`: no distortion passes the sample through and changes
      nothing; otherwise the driven sample is shaped, remembered as the last
      sample, and blended with the input by `mix`. */
  function ProcessSample(e: Effect, x: real, curve: real): (r: Processed)
    requires Valid(e)
    ensures Valid(r.state) && r.state == e.(lastSample := r.state.lastSample)
    ensures e.kind == NoDistortion ==> r == Processed(e, x)
    ensures e.kind != NoDistortion ==>
              && r.state.lastSample == Shape(e, Driven(e, x), curve)
              && r.output == Blend(x, r.state.lastSample, e.mix)
  {
    if e.kind == NoDistortion then Processed(e, x)
    else
      var distorted := Shape(e, Driven(e, x), curve);
      Processed(e.(lastSample := distorted), Blend(x, distorted, e.mix))
  }

  /** A fully wet hard clip never leaves [-(1 - drive), 1 - drive]; a fully
      dry effect of any kind returns its input. */
  lemma MixExtremes(e: Effect, x: real, curve: real)
    requires Valid(e)
    ensures e.kind == HardClip && e.mix == 1.0 ==> Abs(ProcessSample(e, x, curve).output) <= 1.0 - e.drive
    ensures e.mix == 0.0 ==> ProcessSample(e, x, curve).output == x
  {
    var y := Driven(e, x);
    BlendBetween(x, Shape(e, y, curve), e.mix);
    if e.kind == HardClip {
      HardClipLaws(e.drive, y);
    }
  }

  /** A fully wet waveshaper stays within [-2/3, 2/3] for samples whose
      driven and scaled value is within [-2, 2]. */
  lemma WaveshaperBounded(e: Effect, x: real, curve: real)
    requires Valid(e) && e.kind == Waveshaper && e.mix == 1.0
    requires -2.0 <= Driven(e, x) * (1.0 + e.drive * 3.0) <= 2.0
    ensures -2.0 / 3.0 <= ProcessSample(e, x, curve).output <= 2.0 / 3.0
  {
    BlendBetween(x, Shape(e, Driven(e, x), curve), 1.0);
    CubicLaws(Driven(e, x) * (1.0 + e.drive * 3.0));
  }

  /** `process_buffer`: the samples processed in order, the state threaded
      through; `curves[i]` is the unmodelled curve's value at sample `i`. */
  function ProcessBuffer(e: Effect, xs: seq<real>, curves: seq<real>): (r: (Effect, seq<real>))
    requires Valid(e) && |curves| == |xs|
    ensures Valid(r.0) && |r.1| == |xs|
    decreases |xs|
  {
    if |xs| == 0 then (e, [])
    else
      var p := ProcessSample(e, xs[0], curves[0]);
      var rest := ProcessBuffer(p.state, xs[1..], curves[1..]);
      (rest.0, [p.output] + rest.1)
  }

  /** The effect state before sample `t` of a buffer. */
  function Before(e: Effect, xs: seq<real>, curves: seq<real>, t: nat): (s: Effect)
    requires Valid(e) && |curves| == |xs| && t <= |xs|
    ensures Valid(s) && s == e.(lastSample := s.lastSample)
    decreases t
  {
    if t == 0 then e else ProcessSample(Before(e, xs, curves, t - 1), xs[t - 1], curves[t - 1]).state
  }

  /** Buffer processing is sample processing, one sample at a time: output
      `t` is what the single-sample law gives in the state before it. */
  lemma {:induction false} BufferIsSamples(e: Effect, xs: seq<real>, curves: seq<real>, t: nat)
    requires Valid(e) && |curves| == |xs| && t < |xs|
    ensures ProcessBuffer(e, xs, curves).1[t] == ProcessSample(Before(e, xs, curves, t), xs[t], curves[t]).output
    decreases t
  {
    if t > 0 {
      var p := ProcessSample(e, xs[0], curves[0]);
      BufferIsSamples(p.state, xs[1..], curves[1..], t - 1);
      BeforeShift(e, xs, curves, t);
    }
  }

  /** The state before sample `t` is the state before sample `t - 1` of the
      rest of the buffer, started after the first sample. */
  lemma {:induction false} BeforeShift(e: Effect, xs: seq<real>, curves: seq<real>, t: nat)
    requires Valid(e) && |curves| == |xs| && 1 <= t <= |xs|
    ensures Before(e, xs, curves, t)
            == Before(ProcessSample(e, xs[0], curves[0]).state, xs[1..], curves[1..], t - 1)
    decreases t
  {
    if t > 1 {
      BeforeShift(e, xs, curves, t - 1);
    }
  }

  /** Every sample of a fully wet hard-clipped buffer is within the
      threshold, whatever came before it. */
  lemma HardClipBufferBounded(e: Effect, xs: seq<real>, curves: seq<real>)
    requires Valid(e) && |curves| == |xs| && e.kind == HardClip && e.mix == 1.0
    ensures forall t :: 0 <= t < |xs| ==> Abs(ProcessBuffer(e, xs, curves).1[t]) <= 1.0 - e.drive
  {
    forall t | 0 <= t < |xs| ensures Abs(ProcessBuffer(e, xs, curves).1[t]) <= 1.0 - e.drive {
      BufferIsSamples(e, xs, curves, t);
      MixExtremes(Before(e, xs, curves, t), xs[t], curves[t]);
    }
  }

  /** With no distortion the buffer comes back unchanged. */
  lemma {:induction false} NoDistortionBuffer(e: Effect, xs: seq<real>, curves: seq<real>)
    requires Valid(e) && |curves| == |xs| && e.kind == NoDistortion
    ensures ProcessBuffer(e, xs, curves) == (e, xs)
    decreases |xs|
  {
    if |xs| > 0 {
      NoDistortionBuffer(e, xs[1..], curves[1..]);
      assert [xs[0]] + xs[1..] == xs;
    }
  }

  /** `CrossFeedbackDistortion`: an on/off switch, the effect, and how much
      of the distorted signal replaces the feedback. */
  datatype Cross = Cross(enabled: bool, effect: Effect, intensity: real)

  predicate CrossValid(c: Cross)
  {
    Valid(c.effect) && 0.0 <= c.intensity <= 1.0
  }

  /** The constructor: the effect built from the arguments, intensity one
      half. */
  function NewCross(enabled: bool, kind: Kind, drive: real, mix: real, sampleRate: int): (c: Cross)
    ensures CrossValid(c) && c.enabled == enabled && c.intensity == 0.5
    ensures c.effect == New(kind, drive, mix, sampleRate)
  {
    Cross(enabled, New(kind, drive, mix, sampleRate), 0.5)
  }

  function SetEnabled(c: Cross, enabled: bool): (r: Cross)
    ensures r.enabled == enabled && r == c.(enabled := enabled)
  {
    c.(enabled := enabled)
  }

  function SetFeedbackIntensity(c: Cross, intensity: real): (r: Cross)
    requires CrossValid(c)
    ensures CrossValid(r) && r == c.(intensity := r.intensity)
    ensures 0.0 <= intensity <= 1.0 ==> r.intensity == intensity
  {
    c.(intensity := Clip(intensity, 0.0, 1.0))
  }

  datatype CrossProcessed = CrossProcessed(state: Cross, left: real, right: real)

  /** `process_cross_feedback`: disabled, the pair passes through and
      nothing changes; enabled, the left sample and then the right one go
      through the effect, and each output blends the input with its
      distorted value by the intensity. */
  function ProcessCrossFeedback(c: Cross, left: real, right: real, leftCurve: real, rightCurve: real): (r: CrossProcessed)
    requires CrossValid(c)
    ensures CrossValid(r.state) && r.state == c.(effect := r.state.effect)
    ensures !c.enabled ==> r == CrossProcessed(c, left, right)
    ensures c.enabled ==>
              var pl := ProcessSample(c.effect, left, leftCurve);
              var pr := ProcessSample(pl.state, right, rightCurve);
              && r.state.effect == pr.state
              && r.left == Blend(left, pl.output, c.intensity)
              && r.right == Blend(right, pr.output, c.intensity)
  {
    if !c.enabled then CrossProcessed(c, left, right)
    else
      var pl := ProcessSample(c.effect, left, leftCurve);
      var pr := ProcessSample(pl.state, right, rightCurve);
      CrossProcessed(c.(effect := pr.state), Blend(left, pl.output, c.intensity),
                     Blend(right, pr.output, c.intensity))
  }

  /** The feedback pair comes back unchanged when the switch is off, when
      the intensity is 0, or when the effect is fully dry; and a fully wet,
      full-intensity hard clip keeps both channels within its threshold. */
  lemma CrossFeedbackLaws(c: Cross, left: real, right: real, leftCurve: real, rightCurve: real)
    requires CrossValid(c)
    ensures var r := ProcessCrossFeedback(c, left, right, leftCurve, rightCurve);
            !c.enabled || c.intensity == 0.0 || c.effect.mix == 0.0 ==> r.left == left && r.right == right
    ensures var r := ProcessCrossFeedback(c, left, right, leftCurve, rightCurve);
            && c.enabled && c.intensity == 1.0 && c.effect.kind == HardClip && c.effect.mix == 1.0
            ==> Abs(r.left) <= 1.0 - c.effect.drive && Abs(r.right) <= 1.0 - c.effect.drive
  {
    if c.enabled {
      var pl := ProcessSample(c.effect, left, leftCurve);
      var pr := ProcessSample(pl.state, right, rightCurve);
      MixExtremes(c.effect, left, leftCurve);
      MixExtremes(pl.state, right, rightCurve);
      BlendBetween(left, pl.output, c.intensity);
      BlendBetween(right, pr.output, c.intensity);
    }
  }
}

=== FILE: enhanced_chord.dfy ===
/** The enhanced chord detector's chord analysis: each detected note is tried
    as the root, the rounded semitone distances of the other notes are matched
    against 28 interval templates with a one-semitone tolerance, and the best
    match is scored, named and graded. The note detections themselves, and the
    rounded log2 distances between their frequencies, are inputs. */
module EnhancedChord {
  import opened Base
  import opened Sorting
  import Select

  /** A chord quality, its intervals above the root and the symbol printed
      after the root name (the first of the program's symbol list). */
  datatype Pattern = Pattern(quality: string, intervals: seq<int>, symbol: string)

  /** The interval templates, in the order they are tried. */
  const Patterns: seq<Pattern> := [
    Pattern("major", [0, 4, 7], ""),
    Pattern("minor", [0, 3, 7], "m"),
    Pattern("diminished", [0, 3, 6], "dim"),
    Pattern("augmented", [0, 4, 8], "aug"),
    Pattern("sus2", [0, 2, 7], "sus2"),
    Pattern("sus4", [0, 5, 7], "sus4"),
    Pattern("major7", [0, 4, 7, 11], "maj7"),
    Pattern("minor7", [0, 3, 7, 10], "m7"),
    Pattern("dominant7", [0, 4, 7, 10], "7"),
    Pattern("diminished7", [0, 3, 6, 9], "dim7"),
    Pattern("half_diminished7", [0, 3, 6, 10], "m7b5"),
    Pattern("minor_major7", [0, 3, 7, 11], "mMaj7"),
    Pattern("major9", [0, 4, 7, 11, 14], "maj9"),
    Pattern("minor9", [0, 3, 7, 10, 14], "m9"),
    Pattern("dominant9", [0, 4, 7, 10, 14], "9"),
    Pattern("major11", [0, 4, 7, 11, 14, 17], "maj11"),
    Pattern("minor11", [0, 3, 7, 10, 14, 17], "m11"),
    Pattern("power", [0, 7], "5"),
    Pattern("power_octave", [0, 7, 12], "5oct"),
    Pattern("add2", [0, 4, 7, 14], "add2"),
    Pattern("add4", [0, 4, 7, 17], "add4"),
    Pattern("add6", [0, 4, 7, 21], "add6"),
    Pattern("major7#5", [0, 4, 8, 11], "maj7#5"),
    Pattern("major7b5", [0, 4, 6, 11], "maj7b5"),
    Pattern("dominant7#5", [0, 4, 8, 10], "7#5"),
    Pattern("dominant7b5", [0, 4, 6, 10], "7b5"),
    Pattern("dominant7#9", [0, 4, 7, 10, 15], "7#9"),
    Pattern("dominant7b9", [0, 4, 7, 10, 13], "7b9")
  ]

  /** A result is reported valid only above this confidence. */
  const ValidConfidence: real := 0.4

  lemma PatternsShape()
    ensures |Patterns| == 28
    ensures forall p :: 0 <= p < |Patterns| ==> |Patterns[p].intervals| >= 2
  {
  }

  /** A note reported by the single-note detector. */
  datatype Note = Note(name: string, octave: int, frequency: real, confidence: real, centsOff: real)

  function IntAbs(x: int): nat
  {
    if x < 0 then -x else x
  }

  /** The pairwise check, front to back, stopping at the first pair more
      than a semitone apart. */
  function AllClose(a: seq<int>, b: seq<int>): (r: bool)
    requires |a| == |b|
  {
    |a| == 0 || (IntAbs(a[0] - b[0]) <= 1 && AllClose(a[1..], b[1..]))
  }

  lemma {:induction false} AllCloseMeans(a: seq<int>, b: seq<int>)
    requires |a| == |b|
    ensures AllClose(a, b) <==> forall k :: 0 <= k < |a| ==> IntAbs(a[k] - b[k]) <= 1
  {
    if |a| > 0 {
      AllCloseMeans(a[1..], b[1..]);
      assert forall k :: 1 <= k < |a| ==> a[1..][k - 1] == a[k] && b[1..][k - 1] == b[k];
    }
  }

  /** Detected intervals match a template when the lists are equally long
      and, both sorted, every pair is at most one semitone apart. */
  function IntervalsMatch(detected: seq<int>, expected: seq<int>): (r: bool)
    ensures |detected| != |expected| ==> !r
  {
    if |detected| != |expected| then false
    else AllClose(SortInts(detected), SortInts(expected))
  }

  /** The early-exit check accepts exactly the lists whose sorted pairs are
      all within a semitone. */
  lemma IntervalsMatchMeans(detected: seq<int>, expected: seq<int>)
    ensures IntervalsMatch(detected, expected) <==>
              (|detected| == |expected| &&
               forall k :: 0 <= k < |detected| ==> IntAbs(SortInts(detected)[k] - SortInts(expected)[k]) <= 1)
  {
    if |detected| == |expected| {
      AllCloseMeans(SortInts(detected), SortInts(expected));
    }
  }

  /** Sum of the pairwise distances. */
  function TotalDiff(a: seq<int>, b: seq<int>): (r: nat)
    requires |a| == |b|
  {
    if |a| == 0 then 0 else IntAbs(a[0] - b[0]) + TotalDiff(a[1..], b[1..])
  }

  lemma {:induction false} TotalDiffBound(a: seq<int>, b: seq<int>)
    requires |a| == |b|
    requires forall k :: 0 <= k < |a| ==> IntAbs(a[k] - b[k]) <= 1
    ensures TotalDiff(a, b) <= |a|
  {
    if |a| > 0 {
      assert forall k :: 1 <= k < |a| ==> a[1..][k - 1] == a[k] && b[1..][k - 1] == b[k];
      TotalDiffBound(a[1..], b[1..]);
    }
  }

  lemma {:induction false} TotalDiffSame(a: seq<int>)
    ensures TotalDiff(a, a) == 0
  {
    if |a| > 0 {
      TotalDiffSame(a[1..]);
    }
  }

  /** The score from the total distance over `n` pairs: one less half the
      mean distance, never below 0. */
  function ScoreFromTotal(total: nat, n: nat): (r: real)
    requires n > 0
    ensures 0.0 <= r <= 1.0
    ensures total == 0 ==> r == 1.0
    ensures total <= n ==> r >= 0.5
  {
    var avg := total as real / n as real;
    assert total <= n ==> avg <= 1.0 by {
      BelowQuotient(1.0, total as real, n as real);
    }
    Max(0.0, 1.0 - avg / 2.0)
  }

  /** How well detected intervals fit a template: one less half the mean
      distance between the sorted lists, at least 0; 0 for unequal lengths.
      Two empty lists are excluded (the mean would divide by zero). */
  function MatchScore(detected: seq<int>, expected: seq<int>): (r: real)
    requires |detected| != |expected| || |detected| > 0
    ensures |detected| != |expected| ==> r == 0.0
    ensures 0.0 <= r <= 1.0
  {
    if |detected| != |expected| then 0.0
    else ScoreFromTotal(TotalDiff(SortInts(detected), SortInts(expected)), |detected|)
  }

  /** Intervals that match a template score at least one half, and an exact
      match (the same intervals in any order) scores 1. */
  lemma MatchScoreLaws(detected: seq<int>, expected: seq<int>)
    requires |detected| == |expected| > 0
    ensures IntervalsMatch(detected, expected) ==> 0.5 <= MatchScore(detected, expected)
    ensures multiset(detected) == multiset(expected) ==> MatchScore(detected, expected) == 1.0
  {
    var a, b := SortInts(detected), SortInts(expected);
    if IntervalsMatch(detected, expected) {
      IntervalsMatchMeans(detected, expected);
      TotalDiffBound(a, b);
    }
    if multiset(detected) == multiset(expected) {
      SortedUnique(a, b);
      TotalDiffSame(a);
    }
  }

  /** The printed chord name: the bare root for an unknown quality, else the
      root followed by the quality's symbol (the quality itself when it has
      no template). */
  function ChordSymbol(root: string, quality: string): (r: string)
    ensures quality == "unknown" ==> r == root
    ensures root <= r
  {
    if quality == "unknown" then root
    else root + SymbolFor(quality, 0)
  }

  function SymbolFor(quality: string, p: nat): string
    decreases |Patterns| - p
  {
    if p >= |Patterns| then quality
    else if Patterns[p].quality == quality then Patterns[p].symbol
    else SymbolFor(quality, p + 1)
  }

  /** Major chords print as the bare root and minor ones with an "m". */
  lemma MajorMinorSymbols(root: string)
    ensures ChordSymbol(root, "major") == root
    ensures ChordSymbol(root, "minor") == root + "m"
  {
  }

  /** The notes other than the one at `i`. */
  function Without(notes: seq<Note>, i: nat): (r: seq<Note>)
    requires i < |notes|
    ensures |r| == |notes| - 1
    ensures forall k :: 0 <= k < |r| ==> r[k] == (if k < i then notes[k] else notes[k + 1])
  {
    notes[..i] + notes[i + 1..]
  }

  /** The sorted rounded distances, in semitones, from note `i` to every
      other note. `semis(f, root)` stands for round(12 * log2(f / root)). */
  function IntervalsFrom(notes: seq<Note>, i: nat, semis: (real, real) -> int): (r: seq<int>)
    requires i < |notes|
    ensures |r| == |notes| - 1
  {
    var others := Without(notes, i);
    SortInts(seq(|others|, k requires 0 <= k < |others| => semis(others[k].frequency, notes[i].frequency)))
  }

  /** A table of 28 templates, each with at least one interval beyond the
      root. */
  ghost predicate Templated(pats: seq<Pattern>)
  {
    |pats| == 28 && forall p :: 0 <= p < |pats| ==> |pats[p].intervals| >= 2
  }

  /** Candidate `c` tries note `c / 28` as the root against template
      `c % 28` (without its root interval); a template that does not
      match scores 0. */
  function CandidateScore(notes: seq<Note>, semis: (real, real) -> int, pats: seq<Pattern>, c: nat): (r: real)
    requires Templated(pats) && c < |notes| * 28
    ensures 0.0 <= r <= 1.0
    ensures r > 0.0 ==> r >= 0.5
  {
    var iv := IntervalsFrom(notes, c / 28, semis);
    var ex := pats[c % 28].intervals[1..];
    if IntervalsMatch(iv, ex) then
      MatchScoreLaws(iv, ex);
      MatchScore(iv, ex)
    else 0.0
  }

  /** A candidate scores above 0 exactly when its template matches. */
  lemma CandidateMatches(notes: seq<Note>, semis: (real, real) -> int, pats: seq<Pattern>, c: nat)
    requires Templated(pats) && c < |notes| * 28
    ensures CandidateScore(notes, semis, pats, c) > 0.0 <==>
              IntervalsMatch(IntervalsFrom(notes, c / 28, semis), pats[c % 28].intervals[1..])
  {
    var iv := IntervalsFrom(notes, c / 28, semis);
    var ex := pats[c % 28].intervals[1..];
    if IntervalsMatch(iv, ex) {
      MatchScoreLaws(iv, ex);
    }
  }

  function CandidateScores(notes: seq<Note>, semis: (real, real) -> int, pats: seq<Pattern>): (s: seq<real>)
    requires Templated(pats)
    ensures |s| == |notes| * 28
    ensures forall c :: 0 <= c < |s| ==> s[c] == CandidateScore(notes, semis, pats, c)
  {
    seq(|notes| * 28, c requires 0 <= c < |notes| * 28 => CandidateScore(notes, semis, pats, c))
  }

  /** The analysis of a set of notes. `intervals` is missing when no template
      matched. */
  datatype Structure = Structure(root: string, quality: string, notes: seq<string>, symbol: string,
                                 intervals: Option<seq<int>>, score: real)

  const UnknownStructure := Structure("Unknown", "unknown", [], "N", None, 0.0)

  function NamesOf(notes: seq<Note>): (r: seq<string>)
    ensures |r| == |notes| && forall i :: 0 <= i < |notes| ==> r[i] == notes[i].name
  {
    seq(|notes|, i requires 0 <= i < |notes| => notes[i].name)
  }

  /** The candidate the root-then-template scan settles on: it replaces the
      best only on a strictly higher score, starting from 0, so it finds the
      first highest-scoring candidate, and none when every candidate scores 0. */
  function BestCandidate(notes: seq<Note>, semis: (real, real) -> int, pats: seq<Pattern>): (r: Option<nat>)
    requires Templated(pats)
    ensures r.None? <==> forall c :: 0 <= c < |notes| * 28 ==> CandidateScores(notes, semis, pats)[c] == 0.0
    ensures r.Some? ==> r.value < |notes| * 28 && CandidateScores(notes, semis, pats)[r.value] >= 0.5
    ensures r.Some? ==> forall c :: 0 <= c < |notes| * 28 ==>
                          CandidateScores(notes, semis, pats)[c] <= CandidateScores(notes, semis, pats)[r.value]
    ensures r.Some? ==> forall c :: 0 <= c < r.value ==>
                          CandidateScores(notes, semis, pats)[c] < CandidateScores(notes, semis, pats)[r.value]
  {
    Select.ArgMaxAbove(CandidateScores(notes, semis, pats), 0.0)
  }

  /** The analysis over the templates of `pats`: the best candidate's root,
      quality and symbol, with the other notes' intervals from that root. */
  function AnalyzeWith(notes: seq<Note>, semis: (real, real) -> int, pats: seq<Pattern>): (s: Structure)
    requires Templated(pats)
    ensures s.intervals.None? ==> s == UnknownStructure
    ensures s.intervals.Some? ==> s.root in NamesOf(notes) && 0.5 <= s.score <= 1.0
    ensures s.intervals.Some? ==> s.symbol == ChordSymbol(s.root, s.quality) && s.notes == NamesOf(notes)
    ensures s.intervals.Some? ==> |s.intervals.value| == |notes| - 1
  {
    match BestCandidate(notes, semis, pats)
    case None => UnknownStructure
    case Some(c) =>
      var i := c / 28;
      var p := pats[c % 28];
      assert NamesOf(notes)[i] == notes[i].name;
      Structure(notes[i].name, p.quality, NamesOf(notes), ChordSymbol(notes[i].name, p.quality),
                Some(IntervalsFrom(notes, i, semis)), CandidateScore(notes, semis, pats, c))
  }

  /** The detector's analysis, over its 28 templates. */
  function AnalyzeStructure(notes: seq<Note>, semis: (real, real) -> int): (s: Structure)
    ensures s.intervals.None? ==> s == UnknownStructure
    ensures s.intervals.Some? ==> s.root in NamesOf(notes) && 0.5 <= s.score <= 1.0
    ensures s.intervals.Some? ==> s.symbol == ChordSymbol(s.root, s.quality) && s.notes == NamesOf(notes)
    ensures Templated(Patterns) && s == AnalyzeWith(notes, semis, Patterns)
  {
    PatternsShape();
    AnalyzeWith(notes, semis, Patterns)
  }

  /** The analysis finds no chord exactly when no template matches from any
      root; otherwise it reports the first highest-scoring (root, template)
      pair, and no pair scores higher. */
  lemma AnalyzeIsBest(notes: seq<Note>, semis: (real, real) -> int, pats: seq<Pattern>)
    requires Templated(pats)
    ensures AnalyzeWith(notes, semis, pats).intervals.None? <==>
              forall c :: 0 <= c < |notes| * 28 ==>
                !IntervalsMatch(IntervalsFrom(notes, c / 28, semis), pats[c % 28].intervals[1..])
    ensures forall c :: 0 <= c < |notes| * 28 ==> CandidateScore(notes, semis, pats, c) <= AnalyzeWith(notes, semis, pats).score
    ensures BestCandidate(notes, semis, pats).Some? ==>
              var c := BestCandidate(notes, semis, pats).value;
              var s := AnalyzeWith(notes, semis, pats);
              s.root == notes[c / 28].name && s.quality == pats[c % 28].quality
                && s.score == CandidateScore(notes, semis, pats, c)
  {
    var scores := CandidateScores(notes, semis, pats);
    forall c | 0 <= c < |notes| * 28
      ensures scores[c] == CandidateScore(notes, semis, pats, c)
      ensures CandidateScore(notes, semis, pats, c) > 0.0 <==>
                IntervalsMatch(IntervalsFrom(notes, c / 28, semis), pats[c % 28].intervals[1..])
    {
      CandidateMatches(notes, semis, pats, c);
    }
  }

  /** Penalty for notes more than 50 cents out of tune: a hundredth per cent
      beyond 50, summed over the notes. */
  function TuningPenalty(notes: seq<Note>): (r: real)
    ensures r >= 0.0
    ensures (forall i :: 0 <= i < |notes| ==> Abs(notes[i].centsOff) <= 50.0) ==> r == 0.0
  {
    if |notes| == 0 then 0.0
    else
      var last := Abs(notes[|notes| - 1].centsOff);
      TuningPenalty(notes[..|notes| - 1]) + (if last > 50.0 then (last - 50.0) / 100.0 else 0.0)
  }

  function Confidences(notes: seq<Note>): (r: seq<real>)
    ensures |r| == |notes| && forall i :: 0 <= i < |notes| ==> r[i] == notes[i].confidence
  {
    seq(|notes|, i requires 0 <= i < |notes| => notes[i].confidence)
  }

  /** The weighted blend of the four confidence factors, capped at 1. */
  function Blend(score: real, noteConfidence: real, penalty: real, count: nat): (r: real)
    requires 0.0 <= score && 0.0 <= noteConfidence && 0.0 <= penalty
    ensures 0.0 <= r <= 1.0
    ensures score >= 1.0 && noteConfidence >= 1.0 && penalty == 0.0 && count >= 6 ==> r == 1.0
  {
    var tuning := Max(0.0, 1.0 - penalty);
    var bonus := Min(count as real / 6.0, 1.0);
    Min(score * 0.4 + noteConfidence * 0.3 + tuning * 0.2 + bonus * 0.1, 1.0)
  }

  ghost predicate ConfidencesInRange(notes: seq<Note>)
  {
    forall i :: 0 <= i < |notes| ==> 0.0 <= notes[i].confidence <= 1.0
  }

  /** Overall confidence: 0 with no notes or no root; otherwise 0.4 of the
      interval score, 0.3 of the mean note confidence, 0.2 of the tuning
      accuracy and 0.1 of a note-count bonus reaching its full weight at six
      notes, capped at 1. */
  function ChordConfidence(notes: seq<Note>, s: Structure): (r: real)
    requires forall i :: 0 <= i < |notes| ==> notes[i].confidence >= 0.0
    requires s.score >= 0.0
    ensures |notes| == 0 || s.root == "Unknown" ==> r == 0.0
    ensures 0.0 <= r <= 1.0
  {
    if |notes| == 0 || s.root == "Unknown" then 0.0
    else
      var confs := Confidences(notes);
      assert forall i :: 0 <= i < |confs| ==> confs[i] >= 0.0;
      Blend(s.score, Mean(confs), TuningPenalty(notes), |notes|)
  }

  /** Six or more notes, all fully confident and within 50 cents, under an
      exact interval match, give full confidence. */
  lemma FullConfidence(notes: seq<Note>, s: Structure)
    requires |notes| >= 6 && s.root != "Unknown" && s.score == 1.0
    requires forall i :: 0 <= i < |notes| ==> notes[i].confidence == 1.0 && Abs(notes[i].centsOff) <= 50.0
    ensures ChordConfidence(notes, s) == 1.0
  {
    var confs := Confidences(notes);
    MeanOfOnes(confs);
  }

  lemma {:induction false} SumOfOnes(s: seq<real>)
    requires forall i :: 0 <= i < |s| ==> s[i] == 1.0
    ensures Sum(s) == |s| as real
  {
    if |s| > 0 {
      SumOfOnes(s[..|s| - 1]);
    }
  }

  lemma MeanOfOnes(s: seq<real>)
    requires |s| > 0 && forall i :: 0 <= i < |s| ==> s[i] == 1.0
    ensures Mean(s) == 1.0
  {
    SumOfOnes(s);
  }

  /** A full detection from the notes found. */
  datatype ChordReport = ChordReport(root: string, quality: string, symbol: string, notes: seq<string>,
                                     details: seq<Note>, intervals: seq<int>, confidence: real, valid: bool)

  const EmptyReport := ChordReport("Unknown", "unknown", "N", [], [], [], 0.0, false)

  /** Quiet input (peak below 0.005), fewer than two notes, or notes that
      match no template give the empty report; the last because the missing
      interval list makes the report lookup fail and the failure handler
      returns the empty report. Otherwise the report is valid exactly when
      its confidence exceeds 0.4. */
  function DetectChord(level: real, notes: seq<Note>, semis: (real, real) -> int): (r: ChordReport)
    requires forall i :: 0 <= i < |notes| ==> notes[i].confidence >= 0.0
    ensures level < 0.005 || |notes| < 2 ==> r == EmptyReport
    ensures r.valid <==> r.confidence > ValidConfidence
    ensures r.valid ==> AnalyzeStructure(notes, semis).intervals.Some? && r.root in NamesOf(notes)
    ensures AnalyzeStructure(notes, semis).intervals.None? ==> r == EmptyReport
    ensures level >= 0.005 && |notes| >= 2 && AnalyzeStructure(notes, semis).intervals.Some? ==>
              var s := AnalyzeStructure(notes, semis);
              && r.root == s.root && r.quality == s.quality && r.symbol == s.symbol
              && r.notes == NamesOf(notes) && r.details == notes && r.intervals == s.intervals.value
              && r.confidence == ChordConfidence(notes, s)
  {
    if level < 0.005 || |notes| < 2 then EmptyReport
    else
      var s := AnalyzeStructure(notes, semis);
      match s.intervals
      case None => EmptyReport
      case Some(iv) =>
        var conf := ChordConfidence(notes, s);
        ChordReport(s.root, s.quality, s.symbol, s.notes, notes, iv, conf, conf > ValidConfidence)
  }
  /** A report with a chord names the first highest-scoring (root, template)
      pair over the 28 templates: no pair scores higher than the analysis,
      and every earlier pair scores lower than the one reported. */
  lemma ReportedChordIsBest(level: real, notes: seq<Note>, semis: (real, real) -> int)
    requires forall i :: 0 <= i < |notes| ==> notes[i].confidence >= 0.0
    requires DetectChord(level, notes, semis) != EmptyReport
    ensures var s := AnalyzeStructure(notes, semis);
            && s.intervals.Some?
            && forall d :: 0 <= d < |notes| * 28 ==> CandidateScore(notes, semis, Patterns, d) <= s.score
    ensures var r := DetectChord(level, notes, semis);
            exists c :: 0 <= c < |notes| * 28
              && r.root == notes[c / 28].name && r.quality == Patterns[c % 28].quality
              && forall d :: 0 <= d < c ==>
                   CandidateScore(notes, semis, Patterns, d) < CandidateScore(notes, semis, Patterns, c)
  {
    PatternsShape();
    AnalyzeIsBest(notes, semis, Patterns);
    var c := BestCandidate(notes, semis, Patterns).value;
    var scores := CandidateScores(notes, semis, Patterns);
    forall d | 0 <= d <= c
      ensures scores[d] == CandidateScore(notes, semis, Patterns, d)
    {
      CandidateMatches(notes, semis, Patterns, d);
    }
  }



  /** An alternative reading of the chord with one note left out. */
  datatype Suggestion = Suggestion(notes: seq<string>, chord: Structure, removed: string)

  function SuggestionScore(s: Suggestion): real
  {
    s.chord.score
  }

  /** The reading of the chord without note `i`. */
  function ReadingWithout(notes: seq<Note>, semis: (real, real) -> int, i: nat): (r: Suggestion)
    requires i < |notes|
    ensures r.removed == notes[i].name && r.notes == NamesOf(Without(notes, i))
  {
    var rest := Without(notes, i);
    Suggestion(NamesOf(rest), AnalyzeStructure(rest, semis), notes[i].name)
  }

  /** A reading worth suggesting: two notes or more remain and a root was found. */
  predicate Useful(s: Suggestion)
  {
    |s.notes| >= 2 && s.chord.root != "Unknown"
  }

  /** The readings with note 0, 1, ... removed, in that order. */
  function AllReadings(notes: seq<Note>, semis: (real, real) -> int): (r: seq<Suggestion>)
    ensures |r| == |notes|
    ensures forall i :: 0 <= i < |notes| ==> r[i] == ReadingWithout(notes, semis, i)
  {
    seq(|notes|, i requires 0 <= i < |notes| => ReadingWithout(notes, semis, i))
  }

  /** At most three useful readings, best score first; the first scores at
      least as well as every useful reading. */
  function ChordSuggestions(notes: seq<Note>, semis: (real, real) -> int): (r: seq<Suggestion>)
    ensures |r| <= 3
    ensures forall i, j :: 0 <= i < j < |r| ==> r[i].chord.score >= r[j].chord.score
    ensures forall k :: 0 <= k < |r| ==> Useful(r[k]) && r[k] in AllReadings(notes, semis)
    ensures |r| > 0 ==> forall s :: s in AllReadings(notes, semis) && Useful(s) ==> s.chord.score <= r[0].chord.score
    ensures |r| == 0 ==> forall s :: s in AllReadings(notes, semis) ==> !Useful(s)
  {
    TopBy(AllReadings(notes, semis), Useful, SuggestionScore, 3)
  }

  /** The suggestions are the best useful readings: fewer than three means
      every useful reading is suggested, and a useful reading left out
      scores no better than the last one suggested. */
  lemma SuggestionsAreBest(notes: seq<Note>, semis: (real, real) -> int)
    ensures var r := ChordSuggestions(notes, semis);
            |r| < 3 ==> forall s :: s in AllReadings(notes, semis) && Useful(s) ==> s in r
    ensures var r := ChordSuggestions(notes, semis);
            |r| > 0 ==> forall s :: s in AllReadings(notes, semis) && Useful(s) && s !in r ==>
              s.chord.score <= r[|r| - 1].chord.score
  {
    var r := TopBy(AllReadings(notes, semis), Useful, SuggestionScore, 3);
    assert r == ChordSuggestions(notes, semis);
  }
}

=== FILE: enhanced_guitar.dfy ===
/** The enhanced guitar note detector's symbolic half: a 60-key
    equal-tempered note table for octaves 2 to 6, the nearest-key lookup,
    five-way tuning feedback, the weighted vote between the FFT,
    autocorrelation and YIN estimators, and the harmonic confidence of an FFT
    estimate. The estimators themselves are inputs; `cents(f, ref)` stands
    for 1200 * log2(f / ref) and `tempered(n)` for 440 * 2^(n / 12). */
module EnhancedGuitar {
  import opened Base
  import Pitch
  import Select
  import Sorting
  import SimpleChord

  /** The octave of table key `k`: keys are laid out octave by octave from
      octave 2, twelve notes each. */
  function OctaveOf(k: nat): nat
  {
    2 + k / 12
  }

  /** Key `k` of the note table, such as "C2" or "A#5". */
  function KeyAt(k: nat): (key: string)
    requires k < 60
    ensures |key| >= 2
  {
    Pitch.Key(k % 12, OctaveOf(k))
  }

  /** The table has 60 distinct keys: no key overwrites another. */
  lemma KeysDistinct(i: nat, j: nat)
    requires i < j < 60
    ensures KeyAt(i) != KeyAt(j)
  {
    Pitch.KeyParts(i % 12, OctaveOf(i));
    Pitch.KeyParts(j % 12, OctaveOf(j));
    Pitch.ChromaticDistinct();
    DivModUnique(i, 12, i / 12, i % 12);
    DivModUnique(j, 12, j / 12, j % 12);
  }

  /** Semitones from A4 (octave 4, note 9) to key `k`. */
  function SemitonesFromA4(k: nat): int
    requires k < 60
  {
    12 * (OctaveOf(k) - 4) + (k % 12 - 9)
  }

  /** The offset counts keys from A4, so it is zero exactly at "A4". */
  lemma OffsetCountsFromA4(k: nat)
    requires k < 60
    ensures SemitonesFromA4(k) == k - 33
    ensures SemitonesFromA4(k) == 0 <==> KeyAt(k) == "A4"
  {
    Pitch.KeyParts(k % 12, OctaveOf(k));
    Pitch.KeyParts(9, 4);
    assert KeyAt(33) == "A4";
    if KeyAt(k) == "A4" && k != 33 {
      if k < 33 {
        KeysDistinct(k, 33);
      } else {
        KeysDistinct(33, k);
      }
    }
  }

  /** The table frequency of key `k`. */
  function NoteHz(k: nat, tempered: int -> real): real
    requires k < 60
  {
    tempered(SemitonesFromA4(k))
  }

  /** A frequency named after its nearest table key. */
  datatype NoteReading = NoteReading(note: string, octave: int, centsOff: real, expectedFrequency: real)

  function KeyDistances(f: real, cents: (real, real) -> real, tempered: int -> real): (d: seq<real>)
    ensures |d| == 60 && forall k :: 0 <= k < 60 ==> d[k] == Abs(cents(f, NoteHz(k, tempered)))
  {
    seq(60, k requires 0 <= k < 60 => Abs(cents(f, NoteHz(k, tempered))))
  }

  /** The key nearest to `f` in cents, the first in table order winning ties. */
  function ClosestKey(f: real, cents: (real, real) -> real, tempered: int -> real): (k: nat)
    ensures k < 60
    ensures forall j :: 0 <= j < 60 ==> Abs(cents(f, NoteHz(k, tempered))) <= Abs(cents(f, NoteHz(j, tempered)))
    ensures forall j :: 0 <= j < k ==> Abs(cents(f, NoteHz(k, tempered))) < Abs(cents(f, NoteHz(j, tempered)))
  {
    Select.ArgMinFirst(KeyDistances(f, cents, tempered))
  }

  /** The nearest key split into note name (all but the last character) and
      octave (the last character read as a number); nothing for a frequency
      that is not positive. */
  function FrequencyToNote(f: real, cents: (real, real) -> real, tempered: int -> real): (r: Option<NoteReading>)
    ensures r.None? <==> f <= 0.0
    ensures r.Some? ==> r.value.note in Pitch.Chromatic && 2 <= r.value.octave <= 6
  {
    if f <= 0.0 then None
    else
      var k := ClosestKey(f, cents, tempered);
      var key := KeyAt(k);
      Pitch.KeyParts(k % 12, OctaveOf(k));
      Some(NoteReading(key[..|key| - 1], Pitch.DigitValue(key[|key| - 1]),
                       cents(f, NoteHz(k, tempered)), NoteHz(k, tempered)))
  }

  /** The name and octave read back from the key locate the key again: the
      expected frequency is the one tempered from A4 by the reading's own
      note and octave, and no key is nearer. */
  lemma ReadingLocatesKey(f: real, cents: (real, real) -> real, tempered: int -> real)
    requires f > 0.0
    ensures var r := FrequencyToNote(f, cents, tempered).value;
            && r.note in Pitch.Chromatic
            && r.expectedFrequency == tempered(12 * (r.octave - 4) + (Pitch.IndexOf(r.note).value - 9))
            && r.centsOff == cents(f, r.expectedFrequency)
            && forall j :: 0 <= j < 60 ==> Abs(r.centsOff) <= Abs(cents(f, NoteHz(j, tempered)))
  {
    var k := ClosestKey(f, cents, tempered);
    Pitch.KeyParts(k % 12, OctaveOf(k));
    Pitch.IndexOfAt(k % 12);
  }

  /** The five tuning verdicts, from best to worst. */
  datatype Feedback = Perfect | VeryClose | SlightlyOff | OutOfTune | WayOff

  function Rank(v: Feedback): nat
  {
    match v
    case Perfect => 0
    case VeryClose => 1
    case SlightlyOff => 2
    case OutOfTune => 3
    case WayOff => 4
  }

  /** Tuning feedback: boundaries at 10, 25, 50 and 100 cents, each
      boundary belonging to the worse verdict. */
  function TuningFeedback(centsOff: real): (v: Feedback)
    ensures v == Perfect <==> Abs(centsOff) < 10.0
    ensures v == VeryClose <==> 10.0 <= Abs(centsOff) < 25.0
    ensures v == SlightlyOff <==> 25.0 <= Abs(centsOff) < 50.0
    ensures v == OutOfTune <==> 50.0 <= Abs(centsOff) < 100.0
    ensures v == WayOff <==> 100.0 <= Abs(centsOff)
  {
    var c := Abs(centsOff);
    if c < 10.0 then Perfect
    else if c < 25.0 then VeryClose
    else if c < 50.0 then SlightlyOff
    else if c < 100.0 then OutOfTune
    else WayOff
  }

  /** Further from pitch never gets better feedback. */
  lemma FeedbackMonotone(a: real, b: real)
    requires Abs(a) <= Abs(b)
    ensures Rank(TuningFeedback(a)) <= Rank(TuningFeedback(b))
  {
  }

  /** One estimator's answer, or the combined answer. */
  datatype NoteResult = NoteResult(frequency: real, note: string, octave: int, centsOff: real, confidence: real,
                                   detectionMethod: string, guitarString: Option<SimpleChord.StringMatch>)

  const EmptyNoteResult: NoteResult := NoteResult(0.0, "Unknown", 0, 0.0, 0.0, "none", None)

  /** An estimator's result for its frequency estimate `f`: nothing when the
      estimate cannot be named; the open string is the first within 100
      cents. */
  function EstimatorResult(f: real, confidence: real, detectionMethod: string, cents: (real, real) -> real,
                           tempered: int -> real): (r: Option<NoteResult>)
    ensures r.None? <==> f <= 0.0
    ensures r.Some? ==> r.value.frequency == f && r.value.detectionMethod == detectionMethod && r.value.confidence == confidence
    ensures r.Some? ==> r.value.guitarString == SimpleChord.StringWithin(f, cents, 100.0)
  {
    match FrequencyToNote(f, cents, tempered)
    case None => None
    case Some(n) => Some(NoteResult(f, n.note, n.octave, n.centsOff, confidence, detectionMethod,
                                    SimpleChord.IdentifyGuitarString(f, cents)))
  }

  /** How far each estimator is trusted. */
  function Weight(detectionMethod: string): (w: real)
    ensures 0.5 <= w <= 1.0
  {
    if detectionMethod == "fft_harmonic" then 1.0
    else if detectionMethod == "autocorrelation" then 0.8
    else if detectionMethod == "yin" then 0.9
    else 0.5
  }

  function Score(r: NoteResult): real
  {
    r.confidence * Weight(r.detectionMethod)
  }

  function Scores(rs: seq<NoteResult>): (s: seq<real>)
    ensures |s| == |rs| && forall i :: 0 <= i < |rs| ==> s[i] == Score(rs[i])
  {
    seq(|rs|, i requires 0 <= i < |rs| => Score(rs[i]))
  }

  /** Whether `r` lies within 10 Hz of `top`. */
  function Agrees(top: real): NoteResult -> bool
  {
    (r: NoteResult) => Abs(r.frequency - top) < 10.0
  }

  /** The label of a winner that `k` estimators agree with. */
  function CombinedLabel(k: nat): string
  {
    "combined_" + NatToString(k) + "_methods"
  }

  /** The head of the results sorted by weighted score, highest first. */
  function Winner(rs: seq<NoteResult>): (w: NoteResult)
    requires |rs| > 0
    ensures w in rs
  {
    var sorted := Sorting.SortDescendingBy(rs, Score);
    assert sorted[0] in multiset(rs);
    sorted[0]
  }

  /** The vote: the winner, with its confidence raised by a fifth (capped
      at 1) and its method relabelled when another estimator lies within 10 Hz
      of it. */
  function CombineDetectionResults(rs: seq<NoteResult>): (r: NoteResult)
    ensures |rs| == 0 ==> r == EmptyNoteResult
    ensures |rs| == 1 ==> r == rs[0]
    ensures |rs| > 1 ==>
              var w := Winner(rs);
              && r.frequency == w.frequency && r.note == w.note && r.octave == w.octave
              && r.centsOff == w.centsOff && r.guitarString == w.guitarString
              && (Count(rs, Agrees(w.frequency)) <= 1 ==> r == w)
              && (Count(rs, Agrees(w.frequency)) > 1 ==>
                    r.confidence == Min(w.confidence * 1.2, 1.0) && r.detectionMethod == CombinedLabel(Count(rs, Agrees(w.frequency))))
  {
    if |rs| == 0 then EmptyNoteResult
    else if |rs| == 1 then rs[0]
    else
      var best := Winner(rs);
      var agreeing := Count(rs, Agrees(best.frequency));
      if agreeing > 1 then
        best.(confidence := Min(best.confidence * 1.2, 1.0), detectionMethod := CombinedLabel(agreeing))
      else best
  }

  /** The winner is the first result of highest weighted score, and it
      agrees with itself, so the agreement count is at least 1. */
  lemma WinnerIsFirstBest(rs: seq<NoteResult>)
    requires |rs| > 0
    ensures var w := Select.ArgMaxFirst(Scores(rs));
            && Winner(rs) == rs[w]
            && (forall j :: 0 <= j < |rs| ==> Score(rs[j]) <= Score(rs[w]))
            && (forall j :: 0 <= j < w ==> Score(rs[j]) < Score(rs[w]))
            && Count(rs, Agrees(rs[w].frequency)) >= 1
  {
    var w := Select.ArgMaxFirst(Scores(rs));
    Sorting.DescendingHeadIsFirstMax(rs, Score, w);
    assert Agrees(rs[w].frequency)(rs[w]);
    CountsWitness(rs, Agrees(rs[w].frequency), w);
  }

  /** The method results worth combining: those present with confidence
      above 0.3, in the order FFT, autocorrelation, YIN. */
  function Confident(results: seq<Option<NoteResult>>): (r: seq<NoteResult>)
    ensures |r| <= |results|
    ensures forall i :: 0 <= i < |r| ==> r[i].confidence > 0.3 && Some(r[i]) in results
    ensures forall i :: 0 <= i < |results| && results[i].Some? && results[i].value.confidence > 0.3 ==>
              results[i].value in r
  {
    if |results| == 0 then []
    else
      var front := Confident(results[..|results| - 1]);
      var last := results[|results| - 1];
      assert forall x :: x in results[..|results| - 1] ==> x in results;
      if last.Some? && last.value.confidence > 0.3 then front + [last.value] else front
  }

  /** A detection: the empty result below a peak level of 0.005 or when no
      estimator is confident, the vote otherwise. */
  function DetectNoteFromAudio(samples: seq<real>, fft: Option<NoteResult>, autocorrelation: Option<NoteResult>,
                               yin: Option<NoteResult>): (r: NoteResult)
    ensures PeakAbs(samples) < 0.005 ==> r == EmptyNoteResult
    ensures r == EmptyNoteResult || r.confidence > 0.3
    ensures PeakAbs(samples) >= 0.005 && |Confident([fft, autocorrelation, yin])| == 0 ==> r == EmptyNoteResult
    ensures PeakAbs(samples) >= 0.005 && |Confident([fft, autocorrelation, yin])| > 0 ==>
              r == CombineDetectionResults(Confident([fft, autocorrelation, yin]))
  {
    if PeakAbs(samples) < 0.005 then EmptyNoteResult
    else
      var kept := Confident([fft, autocorrelation, yin]);
      if |kept| == 0 then EmptyNoteResult
      else
        assert |kept| > 1 ==> Winner(kept).confidence > 0.3;
        CombineDetectionResults(kept)
  }

  /** Python's `round`: to the nearest integer, halves to even. */
  function PyRound(x: real): (n: int)
    ensures Abs(x - n as real) <= 0.5
  {
    var fl := x.Floor;
    if x - fl as real < 0.5 then fl
    else if x - fl as real > 0.5 then fl + 1
    else if fl % 2 == 0 then fl else fl + 1
  }

  /** A ratio within 0.1 of a whole multiple of at least 1. */
  predicate IsHarmonicRatio(ratio: real)
  {
    Abs(ratio - PyRound(ratio) as real) < 0.1 && PyRound(ratio) >= 1
  }

  /** The rounding inside the harmonic test does not matter: a ratio passes
      exactly when it lies within 0.1 of some whole number from 1 up. */
  lemma HarmonicRatioMeans(ratio: real, n: int)
    requires n >= 1 && Abs(ratio - n as real) < 0.1
    ensures IsHarmonicRatio(ratio) && PyRound(ratio) == n
  {
  }

  /** The magnitudes of the peaks that are harmonics of `fundamental`. */
  function HarmonicMagnitudes(freqs: seq<real>, mags: seq<real>, fundamental: real): (h: seq<real>)
    requires |freqs| == |mags| && fundamental > 0.0
    ensures |h| <= |freqs|
    ensures (forall i :: 0 <= i < |mags| ==> mags[i] > 0.0) ==> Sum(h) >= 0.0
  {
    if |freqs| == 0 then []
    else
      var front := HarmonicMagnitudes(freqs[..|freqs| - 1], mags[..|mags| - 1], fundamental);
      assert forall i :: 0 <= i < |mags| - 1 ==> mags[..|mags| - 1][i] == mags[i];
      if IsHarmonicRatio(freqs[|freqs| - 1] / fundamental) then front + [mags[|mags| - 1]] else front
  }

  lemma RatioAtLeastOne(a: real, b: real)
    requires b > 0.0
    ensures a / b >= 1.0 <==> a >= b
  {
    assert a / b * b == a;
    if a / b < 1.0 {
      MulMonoStrict(a / b, 1.0, b);
    } else {
      MulMono(1.0, a / b, b);
    }
  }

  /** The harmonic confidence: 0.5 for fewer than two peaks, otherwise the
      mean of the harmonic count out of 4 and the harmonic magnitude out of
      the largest peak, each capped at 1. */
  function HarmonicConfidence(freqs: seq<real>, mags: seq<real>, fundamental: real): (c: real)
    requires |freqs| == |mags| && fundamental > 0.0
    requires forall i :: 0 <= i < |mags| ==> mags[i] > 0.0
    ensures |freqs| < 2 ==> c == 0.5
    ensures 0.0 <= c <= 1.0
    ensures |freqs| >= 2 ==>
              var h := HarmonicMagnitudes(freqs, mags, fundamental);
              (c == 1.0 <==> |h| >= 4 && Sum(h) >= mags[Select.ArgMaxFirst(mags)])
  {
    if |freqs| < 2 then 0.5
    else
      var h := HarmonicMagnitudes(freqs, mags, fundamental);
      var peak := mags[Select.ArgMaxFirst(mags)];
      RatioAtLeastOne(|h| as real, 4.0);
      RatioAtLeastOne(Sum(h), peak);
      CappedMean(|h| as real / 4.0, Sum(h) / peak)
  }

  /** The mean of two non-negative scores each capped at 1: within [0, 1],
      and 1 exactly when both reach 1. */
  function CappedMean(x: real, y: real): (c: real)
    requires x >= 0.0 && y >= 0.0
    ensures 0.0 <= c <= 1.0
    ensures c == 1.0 <==> x >= 1.0 && y >= 1.0
  {
    (Min(x, 1.0) + Min(y, 1.0)) / 2.0
  }
}

=== FILE: guitar_synth.dfy ===
/** `GuitarSynth`: a block effect chain (ring modulation, bit crushing,
    sample-and-hold rate reduction, wave shaping, a two-pole low-pass, an
    envelope and an LFO gain) blended with the dry input and clipped to
    [-1, 1]. Every parameter is clamped by its setter, but `set_parameters`
    can also assign attributes directly, past the clamps.

    Python numbers are reals here. The sine of the oscillator phases, tanh,
    the quantiser's rounding, the RMS square root and the filter's
    trigonometric coefficients are parameters (`Externals`); the phase
    arithmetic around them is modelled, with 2*pi as the double it is in
    the program. */
module GuitarSynth {
  import opened Base

  /** `2 * np.pi` as a double. */
  const TwoPi: real := 6.283185307179586

  /** The parameters: the ten a setter clamps, the dry mix kept at
      1 - wet, the sample rate and the envelope decay. */
  datatype Params = Params(
    sampleRate: real, ringFreq: real, bitDepth: real, rateReduction: real, waveShape: real,
    cutoff: real, resonance: real, sensitivity: real, wetMix: real, dryMix: real,
    envelopeDecay: real, lfoFreq: real, lfoDepth: real)

  /** The running state `reset` clears. The filter state array is never
      read (the filter keeps its history in locals), so it is not here. */
  datatype Dynamics = Dynamics(
    ringPhase: real, envelope: real, lfoPhase: real, ringOscillator: real,
    bitAccumulator: real, bitCounter: real, srAccumulator: real, srCounter: real, srHold: real)

  datatype Synth = Synth(params: Params, dyn: Dynamics)

  /** What the constructor and the setters keep. */
  predicate Valid(s: Synth)
  {
    var p := s.params;
    && p.sampleRate > 0.0
    && 20.0 <= p.ringFreq <= 2000.0
    && 1.0 <= p.bitDepth <= 16.0
    && 0.1 <= p.rateReduction <= 1.0
    && 0.0 <= p.waveShape <= 1.0
    && 20.0 <= p.cutoff <= 20000.0
    && 0.0 <= p.resonance <= 1.0
    && 0.0 <= p.sensitivity <= 1.0
    && 0.0 <= p.wetMix <= 1.0
    && p.dryMix == 1.0 - p.wetMix
    && 0.1 <= p.lfoFreq <= 20.0
    && 0.0 <= p.lfoDepth <= 1.0
  }

  const Cleared: Dynamics := Dynamics(0.0, 0.0, 0.0, 0.0, 0.0, 0.0, 0.0, 0.0, 0.0)

  /** The constructor: every argument clamped to its range, dry = 1 - wet,
      an LFO at 2 Hz and depth 0.1, envelope decay 0.99, all state zero. A
      sample rate of 0 would make the oscillator increments infinite, so
      it is positive. */
  function New(sampleRate: int, ringFreq: real, bitDepth: int, rateReduction: real, waveShape: real,
               cutoff: real, resonance: real, sensitivity: real, wetMix: real): (s: Synth)
    requires sampleRate > 0
    ensures Valid(s) && s.dyn == Cleared
    ensures s.params.ringFreq == Clip(ringFreq, 20.0, 2000.0)
    ensures s.params.bitDepth == Clip(bitDepth as real, 1.0, 16.0)
    ensures s.params.rateReduction == Clip(rateReduction, 0.1, 1.0)
    ensures s.params.waveShape == Clip(waveShape, 0.0, 1.0)
    ensures s.params.cutoff == Clip(cutoff, 20.0, 20000.0)
    ensures s.params.resonance == Clip(resonance, 0.0, 1.0)
    ensures s.params.sensitivity == Clip(sensitivity, 0.0, 1.0)
    ensures s.params.wetMix == Clip(wetMix, 0.0, 1.0) && s.params.dryMix == 1.0 - s.params.wetMix
    ensures s.params.lfoFreq == 2.0 && s.params.lfoDepth == 0.1 && s.params.envelopeDecay == 0.99
  {
    var wet := Clip(wetMix, 0.0, 1.0);
    Synth(Params(sampleRate as real, Clip(ringFreq, 20.0, 2000.0), Clip(bitDepth as real, 1.0, 16.0),
                 Clip(rateReduction, 0.1, 1.0), Clip(waveShape, 0.0, 1.0), Clip(cutoff, 20.0, 20000.0),
                 Clip(resonance, 0.0, 1.0), Clip(sensitivity, 0.0, 1.0), wet, 1.0 - wet, 0.99, 2.0, 0.1),
          Cleared)
  }

  // ---------------------------------------------------------------------
  // Attributes and setters, by name

  /** The object's numeric attributes. */
  datatype Attr =
    | SampleRate | RingFreq | BitDepth | RateReduction | WaveShape | Cutoff | Resonance
    | Sensitivity | WetMix | DryMix | EnvelopeDecay | LfoFreq | LfoDepth
    | RingPhase | Envelope | LfoPhase | RingOscillator | BitAccumulator | BitCounter
    | SrAccumulator | SrCounter | SrHold

  function AttrName(a: Attr): string
  {
    match a
    case SampleRate => "sample_rate"
    case RingFreq => "ring_freq"
    case BitDepth => "bit_depth"
    case RateReduction => "sample_rate_reduction"
    case WaveShape => "wave_shape_amount"
    case Cutoff => "filter_cutoff"
    case Resonance => "filter_resonance"
    case Sensitivity => "envelope_sensitivity"
    case WetMix => "wet_mix"
    case DryMix => "dry_mix"
    case EnvelopeDecay => "envelope_decay"
    case LfoFreq => "lfo_freq"
    case LfoDepth => "lfo_depth"
    case RingPhase => "ring_phase"
    case Envelope => "envelope"
    case LfoPhase => "lfo_phase"
    case RingOscillator => "ring_oscillator"
    case BitAccumulator => "bit_accumulator"
    case BitCounter => "bit_counter"
    case SrAccumulator => "sr_accumulator"
    case SrCounter => "sr_counter"
    case SrHold => "sr_hold_sample"
  }

  function AttrNamed(name: string): (a: Option<Attr>)
    ensures a.Some? ==> AttrName(a.value) == name
  {
    match name
    case "sample_rate" => Some(SampleRate)
    case "ring_freq" => Some(RingFreq)
    case "bit_depth" => Some(BitDepth)
    case "sample_rate_reduction" => Some(RateReduction)
    case "wave_shape_amount" => Some(WaveShape)
    case "filter_cutoff" => Some(Cutoff)
    case "filter_resonance" => Some(Resonance)
    case "envelope_sensitivity" => Some(Sensitivity)
    case "wet_mix" => Some(WetMix)
    case "dry_mix" => Some(DryMix)
    case "envelope_decay" => Some(EnvelopeDecay)
    case "lfo_freq" => Some(LfoFreq)
    case "lfo_depth" => Some(LfoDepth)
    case "ring_phase" => Some(RingPhase)
    case "envelope" => Some(Envelope)
    case "lfo_phase" => Some(LfoPhase)
    case "ring_oscillator" => Some(RingOscillator)
    case "bit_accumulator" => Some(BitAccumulator)
    case "bit_counter" => Some(BitCounter)
    case "sr_accumulator" => Some(SrAccumulator)
    case "sr_counter" => Some(SrCounter)
    case "sr_hold_sample" => Some(SrHold)
    case _ => None
  }

  /** Every attribute is found under its own name. */
  lemma AttrNamesRoundTrip(a: Attr)
    ensures AttrNamed(AttrName(a)) == Some(a)
  {
    match a
    case SampleRate => assert AttrNamed(AttrName(SampleRate)) == Some(SampleRate);
    case RingFreq => assert AttrNamed(AttrName(RingFreq)) == Some(RingFreq);
    case BitDepth => assert AttrNamed(AttrName(BitDepth)) == Some(BitDepth);
    case RateReduction => assert AttrNamed(AttrName(RateReduction)) == Some(RateReduction);
    case WaveShape => assert AttrNamed(AttrName(WaveShape)) == Some(WaveShape);
    case Cutoff => assert AttrNamed(AttrName(Cutoff)) == Some(Cutoff);
    case Resonance => assert AttrNamed(AttrName(Resonance)) == Some(Resonance);
    case Sensitivity => assert AttrNamed(AttrName(Sensitivity)) == Some(Sensitivity);
    case WetMix => assert AttrNamed(AttrName(WetMix)) == Some(WetMix);
    case DryMix => assert AttrNamed(AttrName(DryMix)) == Some(DryMix);
    case EnvelopeDecay => assert AttrNamed(AttrName(EnvelopeDecay)) == Some(EnvelopeDecay);
    case LfoFreq => assert AttrNamed(AttrName(LfoFreq)) == Some(LfoFreq);
    case LfoDepth => assert AttrNamed(AttrName(LfoDepth)) == Some(LfoDepth);
    case RingPhase => assert AttrNamed(AttrName(RingPhase)) == Some(RingPhase);
    case Envelope => assert AttrNamed(AttrName(Envelope)) == Some(Envelope);
    case LfoPhase => assert AttrNamed(AttrName(LfoPhase)) == Some(LfoPhase);
    case RingOscillator => assert AttrNamed(AttrName(RingOscillator)) == Some(RingOscillator);
    case BitAccumulator => assert AttrNamed(AttrName(BitAccumulator)) == Some(BitAccumulator);
    case BitCounter => assert AttrNamed(AttrName(BitCounter)) == Some(BitCounter);
    case SrAccumulator => assert AttrNamed(AttrName(SrAccumulator)) == Some(SrAccumulator);
    case SrCounter => assert AttrNamed(AttrName(SrCounter)) == Some(SrCounter);
    case SrHold => assert AttrNamed(AttrName(SrHold)) == Some(SrHold);
  }

  function Get(s: Synth, a: Attr): real
  {
    var p, d := s.params, s.dyn;
    match a
    case SampleRate => p.sampleRate
    case RingFreq => p.ringFreq
    case BitDepth => p.bitDepth
    case RateReduction => p.rateReduction
    case WaveShape => p.waveShape
    case Cutoff => p.cutoff
    case Resonance => p.resonance
    case Sensitivity => p.sensitivity
    case WetMix => p.wetMix
    case DryMix => p.dryMix
    case EnvelopeDecay => p.envelopeDecay
    case LfoFreq => p.lfoFreq
    case LfoDepth => p.lfoDepth
    case RingPhase => d.ringPhase
    case Envelope => d.envelope
    case LfoPhase => d.lfoPhase
    case RingOscillator => d.ringOscillator
    case BitAccumulator => d.bitAccumulator
    case BitCounter => d.bitCounter
    case SrAccumulator => d.srAccumulator
    case SrCounter => d.srCounter
    case SrHold => d.srHold
  }

  /** `setattr`: one attribute replaced. */
  function Put(s: Synth, a: Attr, v: real): (r: Synth)
  {
    var p, d := s.params, s.dyn;
    match a
    case SampleRate => s.(params := p.(sampleRate := v))
    case RingFreq => s.(params := p.(ringFreq := v))
    case BitDepth => s.(params := p.(bitDepth := v))
    case RateReduction => s.(params := p.(rateReduction := v))
    case WaveShape => s.(params := p.(waveShape := v))
    case Cutoff => s.(params := p.(cutoff := v))
    case Resonance => s.(params := p.(resonance := v))
    case Sensitivity => s.(params := p.(sensitivity := v))
    case WetMix => s.(params := p.(wetMix := v))
    case DryMix => s.(params := p.(dryMix := v))
    case EnvelopeDecay => s.(params := p.(envelopeDecay := v))
    case LfoFreq => s.(params := p.(lfoFreq := v))
    case LfoDepth => s.(params := p.(lfoDepth := v))
    case RingPhase => s.(dyn := d.(ringPhase := v))
    case Envelope => s.(dyn := d.(envelope := v))
    case LfoPhase => s.(dyn := d.(lfoPhase := v))
    case RingOscillator => s.(dyn := d.(ringOscillator := v))
    case BitAccumulator => s.(dyn := d.(bitAccumulator := v))
    case BitCounter => s.(dyn := d.(bitCounter := v))
    case SrAccumulator => s.(dyn := d.(srAccumulator := v))
    case SrCounter => s.(dyn := d.(srCounter := v))
    case SrHold => s.(dyn := d.(srHold := v))
  }

  /** Reading back an attribute just written gives the value written, and
      every other attribute is as it was. */
  lemma GetPut(s: Synth, a: Attr, b: Attr, v: real)
    ensures Get(Put(s, a, v), b) == if a == b then v else Get(s, b)
  {
  }

  /** The ten `set_<name>` methods, each clamping one attribute. */
  datatype Setter =
    | SetRingFrequency | SetBitDepth | SetSampleRateReduction | SetWaveShapeAmount | SetFilterCutoff
    | SetFilterResonance | SetEnvelopeSensitivity | SetWetMix | SetLfoFrequency | SetLfoDepth

  /** The setter `set_<name>` calls, for the `name` of a keyword. */
  function SetterNamed(name: string): Option<Setter>
  {
    match name
    case "ring_frequency" => Some(SetRingFrequency)
    case "bit_depth" => Some(SetBitDepth)
    case "sample_rate_reduction" => Some(SetSampleRateReduction)
    case "wave_shape_amount" => Some(SetWaveShapeAmount)
    case "filter_cutoff" => Some(SetFilterCutoff)
    case "filter_resonance" => Some(SetFilterResonance)
    case "envelope_sensitivity" => Some(SetEnvelopeSensitivity)
    case "wet_mix" => Some(SetWetMix)
    case "lfo_frequency" => Some(SetLfoFrequency)
    case "lfo_depth" => Some(SetLfoDepth)
    case _ => None
  }

  /** The attribute a setter writes. */
  function Target(k: Setter): Attr
  {
    match k
    case SetRingFrequency => RingFreq
    case SetBitDepth => BitDepth
    case SetSampleRateReduction => RateReduction
    case SetWaveShapeAmount => WaveShape
    case SetFilterCutoff => Cutoff
    case SetFilterResonance => Resonance
    case SetEnvelopeSensitivity => Sensitivity
    case SetWetMix => WetMix
    case SetLfoFrequency => LfoFreq
    case SetLfoDepth => LfoDepth
  }

  /** The range a setter clamps to. */
  function Bounds(k: Setter): (b: (real, real))
    ensures b.0 < b.1
  {
    match k
    case SetRingFrequency => (20.0, 2000.0)
    case SetBitDepth => (1.0, 16.0)
    case SetSampleRateReduction => (0.1, 1.0)
    case SetFilterCutoff => (20.0, 20000.0)
    case SetLfoFrequency => (0.1, 20.0)
    case _ => (0.0, 1.0)
  }

  /** A setter: its attribute clamped into range; `set_wet_mix` also sets
      the dry mix to the complement. */
  function CallSetter(s: Synth, k: Setter, v: real): (r: Synth)
    requires Valid(s)
    ensures Valid(r)
    ensures Get(r, Target(k)) == Clip(v, Bounds(k).0, Bounds(k).1)
    ensures k == SetWetMix ==> r.params.dryMix == 1.0 - r.params.wetMix
    ensures forall a :: a != Target(k) && !(k == SetWetMix && a == DryMix) ==> Get(r, a) == Get(s, a)
  {
    var c := Clip(v, Bounds(k).0, Bounds(k).1);
    var r := Put(s, Target(k), c);
    if k == SetWetMix then Put(r, DryMix, 1.0 - c) else r
  }

  /** Calling a setter twice with the same value is calling it once, and a
      value already in range is stored as given. */
  lemma SetterIdempotent(s: Synth, k: Setter, v: real)
    requires Valid(s)
    ensures CallSetter(CallSetter(s, k, v), k, v) == CallSetter(s, k, v)
    ensures Bounds(k).0 <= v <= Bounds(k).1 ==> Get(CallSetter(s, k, v), Target(k)) == v
  {
  }

  /** `set_parameters`, as far as it got: the state, and whether a keyword
      raised. */
  datatype Applied = Applied(state: Synth, raised: bool)

  /** One keyword of `set_parameters`: a name with a setter calls it;
      `parameters` finds `set_parameters` itself, which takes no positional
      argument, so the call raises `TypeError`; another attribute's name is
      assigned directly; any other name is ignored. */
  function SetParameter(s: Synth, name: string, v: real): (r: Applied)
    ensures r.raised <==> name == "parameters"
    ensures r.raised ==> r.state == s
    ensures SetterNamed(name).Some? && Valid(s) ==> r.state == CallSetter(s, SetterNamed(name).value, v)
    ensures SetterNamed(name).Some? ==> Get(r.state, Target(SetterNamed(name).value))
                                         == Clip(v, Bounds(SetterNamed(name).value).0, Bounds(SetterNamed(name).value).1)
    ensures SetterNamed(name).None? && name != "parameters" && AttrNamed(name).Some? ==>
              && Get(r.state, AttrNamed(name).value) == v
              && forall b :: b != AttrNamed(name).value ==> Get(r.state, b) == Get(s, b)
    ensures SetterNamed(name).None? && AttrNamed(name).None? ==> r.state == s
  {
    if SetterNamed(name).Some? then
      if Valid(s) then Applied(CallSetter(s, SetterNamed(name).value, v), false)
      else
        var k := SetterNamed(name).value;
        var c := Clip(v, Bounds(k).0, Bounds(k).1);
        var t := Put(s, Target(k), c);
        assert Get(t, Target(k)) == c by { GetPut(s, Target(k), Target(k), c); }
        Applied(if k == SetWetMix then Put(t, DryMix, 1.0 - c) else t, false)
    else if name == "parameters" then Applied(s, true)
    else if AttrNamed(name).Some? then
      var a := AttrNamed(name).value;
      assert forall b :: Get(Put(s, a, v), b) == if a == b then v else Get(s, b) by {
        forall b { GetPut(s, a, b, v); }
      }
      Applied(Put(s, a, v), false)
    else Applied(s, false)
  }

  /** `set_parameters`: the keywords in order, stopping at the first that
      raises (the ones before it stay applied). */
  function SetParameters(s: Synth, kwargs: seq<(string, real)>): (r: Applied)
    ensures |kwargs| == 0 ==> r == Applied(s, false)
    decreases |kwargs|
  {
    if |kwargs| == 0 then Applied(s, false)
    else
      var first := SetParameter(s, kwargs[0].0, kwargs[0].1);
      if first.raised then first else SetParameters(first.state, kwargs[1..])
  }

  /** Keywords that all name setters keep the invariant and never raise;
      each is the setter's call. */
  lemma {:induction false} SettersKeepValid(s: Synth, kwargs: seq<(string, real)>)
    requires Valid(s)
    requires forall i :: 0 <= i < |kwargs| ==> SetterNamed(kwargs[i].0).Some?
    ensures Valid(SetParameters(s, kwargs).state) && !SetParameters(s, kwargs).raised
    decreases |kwargs|
  {
    if |kwargs| > 0 {
      var first := SetParameter(s, kwargs[0].0, kwargs[0].1);
      assert first.state == CallSetter(s, SetterNamed(kwargs[0].0).value, kwargs[0].1);
      SettersKeepValid(first.state, kwargs[1..]);
    }
  }

  /** `ring_freq` has no setter of its own (the setter is
      `set_ring_frequency`), so the keyword `ring_freq` assigns it directly,
      unclamped: a frequency of 5 Hz is accepted and the invariant is
      broken. So is `dry_mix`, which can part from 1 - wet. */
  lemma RawAssignmentBypassesClamps(s: Synth)
    requires Valid(s)
    ensures SetParameters(s, [("ring_freq", 5.0)]) == Applied(s.(params := s.params.(ringFreq := 5.0)), false)
    ensures !Valid(SetParameters(s, [("ring_freq", 5.0)]).state)
    ensures !Valid(SetParameters(s, [("dry_mix", s.params.dryMix + 1.0)]).state)
  {
    assert SetParameters(s, [("ring_freq", 5.0)]) == SetParameters(SetParameter(s, "ring_freq", 5.0).state, []);
    assert SetParameters(s, [("dry_mix", s.params.dryMix + 1.0)])
        == SetParameters(SetParameter(s, "dry_mix", s.params.dryMix + 1.0).state, []);
  }

  /** How `set_parameters` treats its first keyword, for every keyword and
      every remainder: a setter's name calls the setter and goes on, another
      attribute's name assigns it and goes on, `parameters` raises before
      anything after it is applied, and any other name is skipped. */
  lemma SetParametersDispatch(s: Synth, name: string, v: real, rest: seq<(string, real)>)
    ensures SetterNamed(name).Some? && Valid(s) ==>
              SetParameters(s, [(name, v)] + rest) == SetParameters(CallSetter(s, SetterNamed(name).value, v), rest)
    ensures SetterNamed(name).None? && name != "parameters" && AttrNamed(name).Some? ==>
              SetParameters(s, [(name, v)] + rest) == SetParameters(Put(s, AttrNamed(name).value, v), rest)
    ensures SetterNamed(name).None? && AttrNamed(name).None? && name != "parameters" ==>
              SetParameters(s, [(name, v)] + rest) == SetParameters(s, rest)
    ensures SetParameters(s, [("parameters", v)] + rest) == Applied(s, true)
  {
    assert ([(name, v)] + rest)[1..] == rest;
  }

  /** The attributes `reset` sets to 0. `ring_oscillator` is not among
      them: `reset` leaves it at the last oscillator value. */
  predicate Running(a: Attr)
  {
    a in {RingPhase, Envelope, LfoPhase, BitAccumulator, BitCounter, SrAccumulator, SrCounter, SrHold}
  }

  /** `reset`: the running state cleared except the ring oscillator's last
      value, the parameters kept. */
  function Reset(s: Synth): (r: Synth)
    ensures r.params == s.params && r.dyn == Cleared.(ringOscillator := s.dyn.ringOscillator)
    ensures Valid(s) ==> Valid(r)
  {
    Synth(s.params, Cleared.(ringOscillator := s.dyn.ringOscillator))
  }

  /** After a reset every running attribute reads 0 and every other
      attribute, the ring oscillator included, reads as before; resetting
      twice is resetting once. */
  lemma ResetLaws(s: Synth, a: Attr)
    ensures Running(a) ==> Get(Reset(s), a) == 0.0
    ensures !Running(a) ==> Get(Reset(s), a) == Get(s, a)
    ensures Get(Reset(s), RingOscillator) == Get(s, RingOscillator)
    ensures Reset(Reset(s)) == Reset(s)
  {
  }

  // ---------------------------------------------------------------------
  // The effect chain

  /** One oscillator step: the phase advanced by `inc`, wrapped once past
      a full turn. */
  function NextPhase(phase: real, inc: real): real
  {
    var p := phase + inc;
    if p >= TwoPi then p - TwoPi else p
  }

  /** A phase inside a turn stays inside it when the step is at most a
      turn. */
  lemma PhaseStaysInTurn(phase: real, inc: real)
    requires 0.0 <= phase < TwoPi && 0.0 <= inc <= TwoPi
    ensures 0.0 <= NextPhase(phase, inc) < TwoPi
  {
  }

  /** The phase step of an oscillator at `freq` Hz. */
  function Increment(freq: real, sampleRate: real): real
    requires sampleRate > 0.0
  {
    TwoPi * freq / sampleRate
  }

  /** The ring oscillator's phase after each of `n` samples. */
  function RingPhases(phase: real, inc: real, n: nat): (ps: seq<real>)
    ensures |ps| == n
    ensures n > 0 ==> ps[0] == NextPhase(phase, inc)
    decreases n
  {
    if n == 0 then [] else [NextPhase(phase, inc)] + RingPhases(NextPhase(phase, inc), inc, n - 1)
  }

  /** A ring-oscillator phase stays inside a turn while the oscillator is
      below the sample rate. */
  lemma {:induction false} RingPhasesInTurn(phase: real, inc: real, n: nat)
    requires 0.0 <= phase < TwoPi && 0.0 <= inc <= TwoPi
    ensures forall i :: 0 <= i < n ==> 0.0 <= RingPhases(phase, inc, n)[i] < TwoPi
    decreases n
  {
    if n > 0 {
      PhaseStaysInTurn(phase, inc);
      RingPhasesInTurn(NextPhase(phase, inc), inc, n - 1);
    }
  }

  /** `_apply_ring_modulation`: each sample times the sine of the phase
      it advanced to. */
  function RingModulate(audio: seq<real>, phases: seq<real>, sine: real -> real): (m: seq<real>)
    requires |phases| == |audio|
    ensures |m| == |audio|
    ensures forall i :: 0 <= i < |audio| ==> m[i] == audio[i] * sine(phases[i])
  {
    seq(|audio|, i requires 0 <= i < |audio| => audio[i] * sine(phases[i]))
  }

  /** The scale `_apply_bit_crushing` quantises against: the peak magnitude,
      or 1 for silence. */
  function CrushScale(audio: seq<real>): (m: real)
    ensures m > 0.0
    ensures forall i :: 0 <= i < |audio| ==> Abs(audio[i]) <= m
  {
    var peak := PeakAbs(audio);
    if peak == 0.0 then 1.0 else peak
  }

  /** `_apply_bit_crushing`: nothing at 16 bits or more; otherwise each
      sample through the quantiser, scaled by the peak. The quantiser
      (rounding to `2^(bits-1) - 1` levels) is a parameter. */
  function BitCrush(bitDepth: real, audio: seq<real>, quantize: (real, real) -> real): (c: seq<real>)
    ensures |c| == |audio|
    ensures bitDepth >= 16.0 ==> c == audio
    ensures bitDepth < 16.0 ==> forall i :: 0 <= i < |audio| ==> c[i] == quantize(audio[i], CrushScale(audio))
  {
    if bitDepth >= 16.0 then audio
    else
      var m := CrushScale(audio);
      seq(|audio|, i requires 0 <= i < |audio| => quantize(audio[i], m))
  }

  /** The hold period of the sample-and-hold: `int(1 / factor)`, from 1 to
      10 for a factor in [0.1, 1). */
  function HoldStep(factor: real): (k: nat)
    requires 0.1 <= factor < 1.0
    ensures 1 <= k <= 10
  {
    var inv := 1.0 / factor;
    assert 1.0 < inv <= 10.0 by {
      BelowQuotient(1.0, 1.0, factor);
      assert inv * factor == 1.0;
      if inv > 10.0 {
        MulMonoStrict(10.0, inv, factor);
      }
    }
    Trunc(inv)
  }

  /** The sample a hold of period `step` shows at position `i`: the one at
      the start of `i`'s period. */
  function HeldIndex(i: nat, step: nat): (j: nat)
    requires step >= 1
    ensures j <= i && j % step == 0 && i - j < step
  {
    assert (i - i % step) % step == 0 by {
      DivModUnique(i - i % step, step, i / step, 0);
    }
    i - i % step
  }

  /** `_apply_sample_rate_reduction`, the loop: at the start of every
      period the hold takes the current sample, and every output is the
      hold. The outputs are the samples at the start of their period, and
      the hold ends on the last one taken. */
  method ReduceSampleRate(audio: seq<real>, step: nat, hold: real) returns (out: seq<real>, held: real)
    requires step >= 1
    ensures |out| == |audio|
    ensures forall i :: 0 <= i < |audio| ==> out[i] == audio[HeldIndex(i, step)]
    ensures |audio| == 0 ==> held == hold
    ensures |audio| > 0 ==> held == audio[HeldIndex(|audio| - 1, step)]
  {
    out := [];
    held := hold;
    var i := 0;
    while i < |audio|
      invariant 0 <= i <= |audio| && |out| == i
      invariant forall j :: 0 <= j < i ==> out[j] == audio[HeldIndex(j, step)]
      invariant i == 0 ==> held == hold
      invariant i > 0 ==> held == audio[HeldIndex(i - 1, step)]
    {
      if i % step == 0 {
        held := audio[i];
      } else {
        assert HeldIndex(i, step) == HeldIndex(i - 1, step) by {
          StepWithinPeriod(i, step);
        }
      }
      out := out + [held];
      i := i + 1;
    }
  }

  /** Inside a period the start of the period does not move. */
  lemma StepWithinPeriod(i: nat, step: nat)
    requires step >= 1 && i >= 1 && i % step != 0
    ensures HeldIndex(i, step) == HeldIndex(i - 1, step)
  {
    var q, m := i / step, i % step;
    DivModUnique(i - 1, step, q, m - 1);
  }

  /** The reduced signal, as a value: each sample replaced by the one at
      the start of its period. */
  function Held(audio: seq<real>, step: nat): (h: seq<real>)
    requires step >= 1
    ensures |h| == |audio|
  {
    seq(|audio|, i requires 0 <= i < |audio| => audio[HeldIndex(i, step)])
  }

  /** Holding is idempotent: a held signal is constant over each period,
      so holding it again changes nothing; and only input samples appear. */
  lemma HoldingTwice(audio: seq<real>, step: nat)
    requires step >= 1
    ensures Held(Held(audio, step), step) == Held(audio, step)
    ensures forall i :: 0 <= i < |audio| ==> Held(audio, step)[i] in audio
  {
    var h := Held(audio, step);
    forall i | 0 <= i < |audio| ensures Held(h, step)[i] == h[i] {
      var j := HeldIndex(i, step);
      assert HeldIndex(j, step) == j by {
        DivModUnique(j, step, j / step, 0);
      }
    }
  }

  /** `_apply_wave_shaping`: nothing at amount 0; otherwise tanh of each
      sample times 1 + 3 amount (tanh a parameter). */
  function ShapeWaves(amount: real, audio: seq<real>, tanh: real -> real): (w: seq<real>)
    ensures |w| == |audio|
    ensures amount <= 0.0 ==> w == audio
    ensures amount > 0.0 ==> forall i :: 0 <= i < |audio| ==> w[i] == tanh(Overdriven(amount, audio[i]))
  {
    if amount <= 0.0 then audio
    else seq(|audio|, i requires 0 <= i < |audio| => tanh(Overdriven(amount, audio[i])))
  }

  /** The sample the shaper's tanh is applied to. */
  function Overdriven(amount: real, v: real): real
  {
    v * (1.0 + amount * 3.0)
  }

  /** The normalised biquad coefficients, computed in `_calculate_filter_coefficients` from the
      sine and cosine of the cutoff. */
  datatype Coefficients = Coefficients(b0: real, b1: real, b2: real, a1: real, a2: real)

  /** Sample `i` of a sequence, or 0 before its start. */
  function At(s: seq<real>, i: int): real
  {
    if 0 <= i < |s| then s[i] else 0.0
  }

  /** `_apply_low_pass_filter`'s recurrence, over the first `|f|` outputs:
      the next output from the last three inputs and last two outputs. */
  function FilterStep(c: Coefficients, audio: seq<real>, f: seq<real>): real
    requires |f| < |audio|
  {
    var i := |f|;
    c.b0 * audio[i] + c.b1 * At(audio, i - 1) + c.b2 * At(audio, i - 2)
      - c.a1 * At(f, i - 1) - c.a2 * At(f, i - 2)
  }

  /** The filter run over the first `n` samples. */
  function LowPass(c: Coefficients, audio: seq<real>, n: nat): (f: seq<real>)
    requires n <= |audio|
    ensures |f| == n
    decreases n
  {
    if n == 0 then [] else var g := LowPass(c, audio, n - 1); g + [FilterStep(c, audio, g)]
  }

  /** The filter is causal: its first outputs do not depend on later
      samples, and each output follows the recurrence. */
  lemma {:induction false} LowPassCausal(c: Coefficients, audio: seq<real>, n: nat, k: nat)
    requires k <= n <= |audio|
    ensures LowPass(c, audio, n)[..k] == LowPass(c, audio, k)
    ensures k < n ==> LowPass(c, audio, n)[k] == FilterStep(c, audio, LowPass(c, audio, k))
    decreases n
  {
    if k < n {
      LowPassCausal(c, audio, n - 1, k);
      assert LowPass(c, audio, n)[..n - 1] == LowPass(c, audio, n - 1);
      if k < n - 1 {
        assert LowPass(c, audio, n)[k] == LowPass(c, audio, n - 1)[k];
        LowPassCausal(c, audio, n - 1, k);
      }
    }
  }

  /** A filter with only the direct coefficient 1 passes the audio
      through. */
  lemma {:induction false} PassThroughFilter(audio: seq<real>, n: nat)
    requires n <= |audio|
    ensures LowPass(Coefficients(1.0, 0.0, 0.0, 0.0, 0.0), audio, n) == audio[..n]
    decreases n
  {
    if n > 0 {
      PassThroughFilter(audio, n - 1);
      assert audio[..n] == audio[..n - 1] + [audio[n - 1]];
    }
  }

  /** Each sample times `k`. */
  function Scale(audio: seq<real>, k: real): (r: seq<real>)
    ensures |r| == |audio|
    ensures forall i :: 0 <= i < |audio| ==> r[i] == audio[i] * k
  {
    seq(|audio|, i requires 0 <= i < |audio| => audio[i] * k)
  }

  /** `_update_envelope`: a louder block's RMS is taken at once; otherwise
      the envelope decays. */
  function NextEnvelope(envelope: real, decay: real, rms: real): (e: real)
    ensures rms > envelope ==> e == rms
    ensures rms <= envelope ==> e == envelope * decay
  {
    if rms > envelope then rms else envelope * decay
  }

  /** A non-negative envelope never goes negative or grows while the
      signal is quieter than it, and never exceeds the louder of itself and
      the signal. */
  lemma EnvelopeBounds(envelope: real, decay: real, rms: real)
    requires 0.0 <= envelope && 0.0 <= decay <= 1.0
    ensures rms <= envelope ==> 0.0 <= NextEnvelope(envelope, decay, rms) <= envelope
    ensures NextEnvelope(envelope, decay, rms) <= Max(envelope, rms)
  {
    if rms <= envelope && envelope > 0.0 {
      MulMono(decay, 1.0, envelope);
      MulNonneg(envelope, decay);
    }
  }

  /** The values the program computes with functions this model leaves
      uninterpreted. */
  datatype Externals = Externals(sine: real -> real, tanh: real -> real, quantize: (real, real) -> real,
                                 rms: real, filter: Coefficients)

  datatype Chain = Chain(dyn: Dynamics, wet: seq<real>)

  /** The wet chain of `process_audio`, in its order, each stage behind its
      guard; the running state it leaves (phases, oscillator, envelope,
      hold). */
  function WetChain(s: Synth, audio: seq<real>, x: Externals): (c: Chain)
    requires Valid(s) && |audio| > 0
    ensures |c.wet| == |audio|
    ensures c.dyn == s.dyn.(ringPhase := c.dyn.ringPhase, ringOscillator := c.dyn.ringOscillator,
                            envelope := c.dyn.envelope, srHold := c.dyn.srHold, lfoPhase := c.dyn.lfoPhase)
  {
    var p, d := s.params, s.dyn;
    var envelope := NextEnvelope(d.envelope, p.envelopeDecay, x.rms);
    var phases := RingPhases(d.ringPhase, Increment(p.ringFreq, p.sampleRate), |audio|);
    var ringed := if p.ringFreq > 0.0 then RingModulate(audio, phases, x.sine) else audio;
    var crushed := if p.bitDepth < 16.0 then BitCrush(p.bitDepth, ringed, x.quantize) else ringed;
    var reduced := if p.rateReduction < 1.0 then Held(crushed, HoldStep(p.rateReduction)) else crushed;
    var hold := if p.rateReduction < 1.0 then reduced[|reduced| - 1] else d.srHold;
    var shaped := if p.waveShape > 0.0 then ShapeWaves(p.waveShape, reduced, x.tanh) else reduced;
    var filtered := if p.cutoff < 20000.0 then LowPass(x.filter, shaped, |shaped|) else shaped;
    var enveloped := if p.sensitivity > 0.0 then Scale(filtered, 1.0 + envelope * p.sensitivity) else filtered;
    var lfoPhase := if p.lfoDepth > 0.0 then NextPhase(d.lfoPhase, Increment(p.lfoFreq, p.sampleRate)) else d.lfoPhase;
    var wet := if p.lfoDepth > 0.0 then Scale(enveloped, 1.0 + p.lfoDepth * x.sine(lfoPhase)) else enveloped;
    var ringPhase := if p.ringFreq > 0.0 then phases[|phases| - 1] else d.ringPhase;
    var oscillator := if p.ringFreq > 0.0 then x.sine(ringPhase) else d.ringOscillator;
    Chain(d.(ringPhase := ringPhase, ringOscillator := oscillator, envelope := envelope, srHold := hold,
             lfoPhase := lfoPhase), wet)
  }

  /** With every optional stage off (16 bits, no rate reduction, no
      shaping, the cutoff at 20 kHz, no envelope or LFO gain), the chain is
      ring modulation alone: the ring modulator always runs, since a valid
      ring frequency is at least 20 Hz. */
  lemma BypassedChainIsRingModulation(s: Synth, audio: seq<real>, x: Externals)
    requires Valid(s) && |audio| > 0
    requires s.params.bitDepth == 16.0 && s.params.rateReduction == 1.0 && s.params.waveShape == 0.0
    requires s.params.cutoff == 20000.0 && s.params.sensitivity == 0.0 && s.params.lfoDepth == 0.0
    ensures var ps := RingPhases(s.dyn.ringPhase, Increment(s.params.ringFreq, s.params.sampleRate), |audio|);
            WetChain(s, audio, x).wet == RingModulate(audio, ps, x.sine)
  {
  }

  /** One output sample: dry input plus wet chain, clipped to [-1, 1]. */
  function OutputSample(p: Params, x: real, w: real): (y: real)
    ensures -1.0 <= y <= 1.0
  {
    Clip(p.dryMix * x + p.wetMix * w, -1.0, 1.0)
  }

  /** The output mix of a block. */
  function Output(p: Params, audio: seq<real>, wet: seq<real>): (out: seq<real>)
    requires |wet| == |audio|
    ensures |out| == |audio|
    ensures forall i :: 0 <= i < |audio| ==> -1.0 <= out[i] <= 1.0
  {
    seq(|audio|, i requires 0 <= i < |audio| => OutputSample(p, audio[i], wet[i]))
  }

  datatype Result = Result(state: Synth, output: seq<real>)

  /** `process_audio`: an empty block comes back as it is and changes
      nothing; otherwise the block goes through the chain and the mix, and
      only the running state moves. */
  function ProcessAudio(s: Synth, audio: seq<real>, x: Externals): (r: Result)
    requires Valid(s)
    ensures Valid(r.state) && r.state.params == s.params
    ensures |audio| == 0 ==> r == Result(s, audio)
    ensures |r.output| == |audio|
    ensures |audio| > 0 ==> r.output == Output(s.params, audio, WetChain(s, audio, x).wet)
    ensures forall i :: 0 <= i < |audio| ==> -1.0 <= r.output[i] <= 1.0
  {
    if |audio| == 0 then Result(s, audio)
    else
      var c := WetChain(s, audio, x);
      Result(Synth(s.params, c.dyn), Output(s.params, audio, c.wet))
  }

  /** A fully dry synth (wet mix 0) returns its input, clipped; so input
      already within [-1, 1] comes back unchanged. */
  lemma DrySynthIsTransparent(s: Synth, audio: seq<real>, x: Externals)
    requires Valid(s) && s.params.wetMix == 0.0
    requires forall i :: 0 <= i < |audio| ==> -1.0 <= audio[i] <= 1.0
    ensures ProcessAudio(s, audio, x).output == audio
  {
    if |audio| > 0 {
      var out := ProcessAudio(s, audio, x).output;
      forall i | 0 <= i < |audio| ensures out[i] == audio[i] {
        assert s.params.dryMix == 1.0;
      }
    }
  }

  /** Each output sample is the dry/wet blend of its input and the chain,
      clipped: when that blend is within [-1, 1] it is the output. */
  lemma OutputIsBlend(s: Synth, x: real, w: real)
    requires Valid(s)
    ensures var blend := (1.0 - s.params.wetMix) * x + s.params.wetMix * w;
            && (-1.0 <= blend <= 1.0 ==> OutputSample(s.params, x, w) == blend)
            && (blend > 1.0 ==> OutputSample(s.params, x, w) == 1.0)
            && (blend < -1.0 ==> OutputSample(s.params, x, w) == -1.0)
  {
  }
}

=== FILE: guitar_tuner.dfy ===
/** The guitar tuner's symbolic half: overlapping analysis windows, the
    guitar-frequency test and peak post-filter, harmonic grouping of peaks,
    the octave-weighted note choice, and the vote between windows. The FFT,
    filtering and peak picking are inputs; `cents(f, ref)` stands for
    1200 * log2(f / ref). */
module GuitarTuner {
  import opened Base
  import Pitch
  import Select
  import Sorting
  import SimpleChord

  /** The working sample rate: rates above 44100 Hz are lowered to it. */
  function TunerSampleRate(requested: int): (r: int)
    ensures r <= 44100
    ensures requested <= 44100 ==> r == requested
    ensures requested > 44100 ==> r == 44100
  {
    if requested > 44100 then 44100 else requested
  }

  /** Lowering the rate twice is lowering it once. */
  lemma TunerSampleRateIdempotent(requested: int)
    ensures TunerSampleRate(TunerSampleRate(requested)) == TunerSampleRate(requested)
  {
  }

  /** The window length: 4096 samples, or the whole input when shorter. */
  function WindowSize(n: nat): nat
  {
    if n < 4096 then n else 4096
  }

  /** The `i`-th multiple of `step` not beyond `room / step` is not beyond
      `room`. */
  lemma StartFits(room: nat, step: nat, i: nat)
    requires step > 0 && i <= room / step
    ensures i * step <= room
  {
    var q := room / step;
    assert room == q * step + room % step;
    assert (q - i) * step >= 0;
    assert q * step - i * step == (q - i) * step;
  }

  /** `create_analysis_windows`: windows of `WindowSize` samples starting at
      every multiple of a quarter window that leaves room for a whole window;
      `None` where the zero step of an input shorter than 4 samples makes
      `range` raise. */
  function CreateAnalysisWindows(audio: seq<real>): (r: Option<seq<seq<real>>>)
    ensures r.None? <==> |audio| < 4
    ensures r.Some? ==>
              var size := WindowSize(|audio|);
              var step := size / 4;
              && step > 0
              && |r.value| == (|audio| - size) / step + 1
              && forall i :: 0 <= i < |r.value| ==>
                   |r.value[i]| == size && i * step + size <= |audio| && r.value[i] == audio[i * step..i * step + size]
  {
    var size := WindowSize(|audio|);
    var step := size / 4;
    if step == 0 then None
    else
      var count := (|audio| - size) / step + 1;
      assert forall i :: 0 <= i < count ==> i * step + size <= |audio| by {
        forall i | 0 <= i < count ensures i * step + size <= |audio| {
          StartFits(|audio| - size, step, i);
        }
      }
      Some(seq(count, i requires 0 <= i < count => audio[i * step..i * step + size]))
  }

  /** A multiple of `step` no greater than `room` is at most `room / step`
      steps along. */
  lemma StepMultiple(room: nat, step: nat, start: nat)
    requires step > 0 && start <= room && start % step == 0
    ensures start / step <= room / step && (start / step) * step == start
  {
    var q, k := room / step, start / step;
    assert room == q * step + room % step;
    assert start == k * step;
    assert (q + 1 - k) * step == q * step + step - k * step;
    NonposProduct(q + 1 - k, step);
  }

  /** One step past the last multiple is beyond `room`. */
  lemma PastRoom(room: nat, step: nat)
    requires step > 0
    ensures (room / step + 1) * step > room
  {
    var q := room / step;
    assert room == q * step + room % step;
    assert (q + 1) * step == q * step + step;
  }

  /** The windows start at exactly the multiples of the step that leave room
      for a whole window. */
  lemma WindowStarts(audio: seq<real>, start: nat)
    requires |audio| >= 4
    ensures var size := WindowSize(|audio|);
            var step := size / 4;
            (start <= |audio| - size && start % step == 0) ==>
              start / step < |CreateAnalysisWindows(audio).value| && (start / step) * step == start
    ensures var size := WindowSize(|audio|);
            var step := size / 4;
            var count := |CreateAnalysisWindows(audio).value|;
            count * step > |audio| - size
  {
    var size := WindowSize(|audio|);
    var step := size / 4;
    var room := |audio| - size;
    assert |CreateAnalysisWindows(audio).value| == room / step + 1;
    PastRoom(room, step);
    if start <= room && start % step == 0 {
      StepMultiple(room, step, start);
    }
  }

  /** Consecutive windows overlap by three quarters: the next window starts
      with the last `size - step` samples of the one before. */
  lemma WindowsOverlap(audio: seq<real>, i: nat)
    requires |audio| >= 4
    requires i + 1 < |CreateAnalysisWindows(audio).value|
    ensures var ws := CreateAnalysisWindows(audio).value;
            var step := WindowSize(|audio|) / 4;
            ws[i + 1][..WindowSize(|audio|) - step] == ws[i][step..]
  {
    var size := WindowSize(|audio|);
    var step := size / 4;
    assert (i + 1) * step == i * step + step;
  }

  /** Within 50 Hz of harmonic 1 to 6 of the open string at `hz`. */
  predicate NearStringHarmonic(f: real, hz: real)
  {
    Abs(f - hz) < 50.0 || Abs(f - hz * 2.0) < 50.0 || Abs(f - hz * 3.0) < 50.0
    || Abs(f - hz * 4.0) < 50.0 || Abs(f - hz * 5.0) < 50.0 || Abs(f - hz * 6.0) < 50.0
  }

  /** Whether some string from `t` on has a harmonic within 50 Hz of `f`. */
  function AnyStringFrom(f: real, t: nat): (b: bool)
    requires t <= 6
    ensures b <==> exists u :: t <= u < 6 && NearStringHarmonic(f, SimpleChord.GuitarStrings[u].hz)
    decreases 6 - t
  {
    if t == 6 then false
    else NearStringHarmonic(f, SimpleChord.GuitarStrings[t].hz) || AnyStringFrom(f, t + 1)
  }

  /** `is_guitar_frequency`: within 50 Hz of harmonic 1 to 6 of an open
      string. */
  function IsGuitarFrequency(f: real): (b: bool)
    ensures b <==> exists u :: 0 <= u < 6 && NearStringHarmonic(f, SimpleChord.GuitarStrings[u].hz)
  {
    AnyStringFrom(f, 0)
  }

  /** A guitar frequency is above 32 Hz: the lowest string minus the 50 Hz
      allowance. */
  lemma GuitarFrequencyPositive(f: real)
    requires IsGuitarFrequency(f)
    ensures f > 32.0
  {
    var u :| 0 <= u < 6 && NearStringHarmonic(f, SimpleChord.GuitarStrings[u].hz);
    assert SimpleChord.GuitarStrings[u].hz >= 82.41;
  }

  /** A spectral peak: frequency, magnitude and bin. */
  datatype TunerPeak = TunerPeak(frequency: real, magnitude: real, index: int)

  predicate IsGuitarPeak(p: TunerPeak)
  {
    IsGuitarFrequency(p.frequency)
  }

  function PeakMagnitude(p: TunerPeak): real
  {
    p.magnitude
  }

  /** The post-filter of `find_guitar_peaks`: guitar-frequency peaks only,
      strongest first, at most 8; fewer than 8 means none was dropped. */
  function FindGuitarPeaks(peaks: seq<TunerPeak>): (r: seq<TunerPeak>)
    ensures |r| <= 8
    ensures forall i :: 0 <= i < |r| ==> IsGuitarFrequency(r[i].frequency) && r[i] in peaks
    ensures forall i, j :: 0 <= i < j < |r| ==> r[i].magnitude >= r[j].magnitude
    ensures |r| > 0 ==> forall x :: x in peaks && IsGuitarFrequency(x.frequency) ==> x.magnitude <= r[0].magnitude
    ensures |r| < 8 ==> forall x :: x in peaks && IsGuitarFrequency(x.frequency) ==> x in r
  {
    Sorting.TopBy(peaks, IsGuitarPeak, PeakMagnitude, 8)
  }

  /** A frequency ratio within 0.05 of a whole number from 1 to 6. */
  predicate HarmonicRatio(ratio: real)
  {
    Abs(ratio - 1.0) < 0.05 || Abs(ratio - 2.0) < 0.05 || Abs(ratio - 3.0) < 0.05
    || Abs(ratio - 4.0) < 0.05 || Abs(ratio - 5.0) < 0.05 || Abs(ratio - 6.0) < 0.05
  }

  /** Whether `p` is a harmonic of `fundamental`. */
  function HarmonicOf(fundamental: real): TunerPeak -> bool
    requires fundamental > 0.0
  {
    (p: TunerPeak) => HarmonicRatio(p.frequency / fundamental)
  }

  /** Peak `i` with the later peaks that are its harmonics. */
  function HarmonicGroup(peaks: seq<TunerPeak>, i: nat): (g: seq<TunerPeak>)
    requires i < |peaks| && peaks[i].frequency > 0.0
    ensures |g| >= 1 && g[0] == peaks[i]
  {
    [peaks[i]] + Filter(peaks[i + 1..], HarmonicOf(peaks[i].frequency))
  }

  /** The group's other members are exactly the later peaks at a harmonic
      ratio to its fundamental. */
  lemma HarmonicGroupMembers(peaks: seq<TunerPeak>, i: nat)
    requires i < |peaks| && peaks[i].frequency > 0.0
    ensures var g := HarmonicGroup(peaks, i);
            forall x :: x in g[1..] <==> x in peaks[i + 1..] && HarmonicRatio(x.frequency / peaks[i].frequency)
  {
    var g := HarmonicGroup(peaks, i);
    assert g[1..] == Filter(peaks[i + 1..], HarmonicOf(peaks[i].frequency));
  }

  function Magnitudes(g: seq<TunerPeak>): (m: seq<real>)
    ensures |m| == |g| && forall i :: 0 <= i < |g| ==> m[i] == g[i].magnitude
  {
    seq(|g|, i requires 0 <= i < |g| => g[i].magnitude)
  }

  function Strength(peaks: seq<TunerPeak>, i: nat): real
    requires i < |peaks| && peaks[i].frequency > 0.0
  {
    Sum(Magnitudes(HarmonicGroup(peaks, i)))
  }

  /** A fundamental with at least one harmonic beside it. */
  predicate Qualifies(peaks: seq<TunerPeak>, i: nat)
    requires i < |peaks| && peaks[i].frequency > 0.0
  {
    |HarmonicGroup(peaks, i)| > 1
  }

  /** The strength of every peak's group. */
  function Strengths(peaks: seq<TunerPeak>): (s: seq<real>)
    requires forall k :: 0 <= k < |peaks| ==> peaks[k].frequency > 0.0
    ensures |s| == |peaks| && forall j :: 0 <= j < |peaks| ==> s[j] == Strength(peaks, j)
  {
    seq(|peaks|, j requires 0 <= j < |peaks| => Strength(peaks, j))
  }

  /** Which peaks have a harmonic partner. */
  function Qualifying(peaks: seq<TunerPeak>): (q: seq<bool>)
    requires forall k :: 0 <= k < |peaks| ==> peaks[k].frequency > 0.0
    ensures |q| == |peaks| && forall j :: 0 <= j < |peaks| ==> q[j] == Qualifies(peaks, j)
  {
    seq(|peaks|, j requires 0 <= j < |peaks| => Qualifies(peaks, j))
  }

  /** The strongest qualifying group, the first on ties (as Python's `max`
      keeps the first maximal element). */
  function BestGroup(peaks: seq<TunerPeak>): (b: Option<nat>)
    requires forall k :: 0 <= k < |peaks| ==> peaks[k].frequency > 0.0
    ensures b.None? <==> forall j :: 0 <= j < |peaks| ==> !Qualifies(peaks, j)
    ensures b.Some? ==> b.value < |peaks| && Qualifies(peaks, b.value)
    ensures b.Some? ==> forall j :: 0 <= j < |peaks| && Qualifies(peaks, j) ==> Strength(peaks, j) <= Strength(peaks, b.value)
    ensures b.Some? ==> forall j :: 0 <= j < b.value && Qualifies(peaks, j) ==> Strength(peaks, j) < Strength(peaks, b.value)
  {
    Select.ArgMaxWhere(Strengths(peaks), Qualifying(peaks))
  }

  /** A note estimate. */
  datatype NoteGuess = NoteGuess(note: string, octave: int, frequency: real, centsOff: real, confidence: real)

  /** The tuner's table: octaves 2 to 6 of the nine-octave pitch table,
      entry `e` being note `e / 5` in column `e % 5`. */
  function TunerHz(e: nat): real
    requires e < 60
  {
    Pitch.TableHz(e / 5, e % 5 + 2)
  }

  /** Cents off plus 50 per column away from the middle one. */
  function GuessScore(f: real, cents: (real, real) -> real, e: nat): real
    requires e < 60
  {
    Abs(cents(f, TunerHz(e))) + 50.0 * Abs((e % 5) as real - 2.0)
  }

  function GuessScores(f: real, cents: (real, real) -> real): (s: seq<real>)
    ensures |s| == 60 && forall e :: 0 <= e < 60 ==> s[e] == GuessScore(f, cents, e)
  {
    seq(60, e requires 0 <= e < 60 => GuessScore(f, cents, e))
  }

  /** `identify_note_from_fundamental`: the entry of least score (the first
      on ties); octave = column + 2, confidence = max(0, 1 - |cents| / 100).
      `identify_note_from_fundamental` takes the logarithm of `f`, which raises unless `f > 0`. */
  function IdentifyNoteFromFundamental(f: real, cents: (real, real) -> real): (r: NoteGuess)
    requires f > 0.0
    ensures r.note in Pitch.Chromatic && 2 <= r.octave <= 6
    ensures 0.0 <= r.confidence <= 1.0
    ensures r.confidence == 1.0 <==> r.centsOff == 0.0
  {
    var e := Select.ArgMinFirst(GuessScores(f, cents));
    var c := cents(f, TunerHz(e));
    NoteGuess(Pitch.Chromatic[e / 5], e % 5 + 2, TunerHz(e), c, Max(0.0, 1.0 - Abs(c) / 100.0))
  }

  /** Entry `e` of the table is recovered from its note name and octave. */
  lemma EntryFromNote(e: nat)
    requires e < 60
    ensures Pitch.IndexOf(Pitch.Chromatic[e / 5]) == Some(e / 5)
    ensures 5 * (e / 5) + (e % 5 + 2 - 2) == e
  {
    Pitch.IndexOfAt(e / 5);
  }

  /** The guess minimises the score over every note and octave of the table,
      and the first such entry in table order wins. */
  lemma GuessIsBest(f: real, cents: (real, real) -> real)
    requires f > 0.0
    ensures var r := IdentifyNoteFromFundamental(f, cents);
            var e := 5 * Pitch.IndexOf(r.note).value + (r.octave - 2);
            && e < 60 && r.frequency == TunerHz(e) && r.centsOff == cents(f, r.frequency)
            && (forall j :: 0 <= j < 60 ==> GuessScore(f, cents, e) <= GuessScore(f, cents, j))
            && (forall j :: 0 <= j < e ==> GuessScore(f, cents, e) < GuessScore(f, cents, j))
  {
    var e := Select.ArgMinFirst(GuessScores(f, cents));
    EntryFromNote(e);
  }

  /** One window's reading. */
  datatype TunerReading = TunerReading(note: string, octave: int, frequency: real, confidence: real,
                                       centsOff: real, harmonicCount: nat, totalStrength: real)

  /** `analyze_harmonics`: the note of the strongest harmonic group's
      fundamental; nothing for fewer than two peaks or when no peak has a
      harmonic partner. */
  function AnalyzeHarmonics(peaks: seq<TunerPeak>, cents: (real, real) -> real): (r: Option<TunerReading>)
    requires forall k :: 0 <= k < |peaks| ==> peaks[k].frequency > 0.0
    ensures r.None? <==> |peaks| < 2 || BestGroup(peaks).None?
    ensures r.Some? ==>
              var b := BestGroup(peaks).value;
              && r.value.frequency == peaks[b].frequency
              && r.value.harmonicCount == |HarmonicGroup(peaks, b)| >= 2
              && r.value.totalStrength == Strength(peaks, b)
  {
    if |peaks| < 2 then None
    else
      match BestGroup(peaks)
      case None => None
      case Some(b) =>
        var guess := IdentifyNoteFromFundamental(peaks[b].frequency, cents);
        Some(TunerReading(guess.note, guess.octave, peaks[b].frequency, guess.confidence, guess.centsOff,
                          |HarmonicGroup(peaks, b)|, Strength(peaks, b)))
  }

  /** The dictionary key of a reading: note and octave. */
  function KeyOf(r: TunerReading): (string, int)
  {
    (r.note, r.octave)
  }

  /** The readings with key `k`, in order. */
  function WithKey(rs: seq<TunerReading>, k: (string, int)): (w: seq<TunerReading>)
    ensures |w| <= |rs|
    ensures forall i :: 0 <= i < |w| ==> KeyOf(w[i]) == k
  {
    if |rs| == 0 then []
    else WithKey(rs[..|rs| - 1], k) + (if KeyOf(rs[|rs| - 1]) == k then [rs[|rs| - 1]] else [])
  }

  /** The index of the first reading with key `k`; `|rs|` when there is none. */
  function FirstWith(rs: seq<TunerReading>, k: (string, int)): (i: nat)
    ensures i <= |rs|
    ensures i < |rs| ==> KeyOf(rs[i]) == k
    ensures forall j :: 0 <= j < i ==> KeyOf(rs[j]) != k
  {
    if |rs| == 0 then 0
    else
      var front := FirstWith(rs[..|rs| - 1], k);
      if front < |rs| - 1 then front
      else if KeyOf(rs[|rs| - 1]) == k then |rs| - 1
      else |rs|
  }

  /** A key that never occurs selects nothing. */
  lemma {:induction false} WithKeyAbsent(rs: seq<TunerReading>, k: (string, int))
    requires forall i :: 0 <= i < |rs| ==> KeyOf(rs[i]) != k
    ensures WithKey(rs, k) == []
  {
    if |rs| > 0 {
      WithKeyAbsent(rs[..|rs| - 1], k);
    }
  }

  /** A reading's selection starts with the first reading of that key. */
  lemma {:induction false} WithKeyStartsAtFirst(rs: seq<TunerReading>, k: (string, int))
    requires FirstWith(rs, k) < |rs|
    ensures |WithKey(rs, k)| > 0 && WithKey(rs, k)[0] == rs[FirstWith(rs, k)]
  {
    var p := rs[..|rs| - 1];
    if FirstWith(p, k) < |p| {
      WithKeyStartsAtFirst(p, k);
    } else {
      WithKeyAbsent(p, k);
    }
  }

  /** The first group whose first reading has key `k`. */
  function GroupIndex(groups: seq<seq<TunerReading>>, k: (string, int)): (g: Option<nat>)
    requires forall h :: 0 <= h < |groups| ==> |groups[h]| > 0
    ensures g.Some? ==> g.value < |groups| && KeyOf(groups[g.value][0]) == k
    ensures g.None? <==> forall h :: 0 <= h < |groups| ==> KeyOf(groups[h][0]) != k
  {
    if |groups| == 0 then None
    else if KeyOf(groups[|groups| - 1][0]) == k then
      match GroupIndex(groups[..|groups| - 1], k)
      case Some(h) => Some(h)
      case None => Some(|groups| - 1)
    else GroupIndex(groups[..|groups| - 1], k)
  }

  /** Adding a reading to the dictionary of groups: appended to its key's
      group, or opening a new group at the end. */
  function Place(groups: seq<seq<TunerReading>>, r: TunerReading): (out: seq<seq<TunerReading>>)
    requires forall h :: 0 <= h < |groups| ==> |groups[h]| > 0
    ensures forall h :: 0 <= h < |out| ==> |out[h]| > 0
    ensures |out| > 0
  {
    match GroupIndex(groups, KeyOf(r))
    case Some(g) => groups[g := groups[g] + [r]]
    case None => groups + [[r]]
  }

  /** The readings grouped by key, groups in order of first appearance. */
  function GroupByKey(rs: seq<TunerReading>): (groups: seq<seq<TunerReading>>)
    ensures forall h :: 0 <= h < |groups| ==> |groups[h]| > 0
    ensures |groups| == 0 <==> |rs| == 0
  {
    if |rs| == 0 then [] else Place(GroupByKey(rs[..|rs| - 1]), rs[|rs| - 1])
  }

  /** Each group is non-empty, is every reading of its first reading's
      key, and that key occurs. */
  ghost predicate Selections(rs: seq<TunerReading>, groups: seq<seq<TunerReading>>)
  {
    forall h :: 0 <= h < |groups| ==>
      && |groups[h]| > 0
      && groups[h] == WithKey(rs, KeyOf(groups[h][0]))
      && FirstWith(rs, KeyOf(groups[h][0])) < |rs|
  }

  /** Groups appear in the order their keys first appear. */
  ghost predicate InFirstOrder(rs: seq<TunerReading>, groups: seq<seq<TunerReading>>)
    requires forall h :: 0 <= h < |groups| ==> |groups[h]| > 0
  {
    forall g, h :: 0 <= g < h < |groups| ==>
      FirstWith(rs, KeyOf(groups[g][0])) < FirstWith(rs, KeyOf(groups[h][0]))
  }

  /** Every reading has a group. */
  ghost predicate Covers(rs: seq<TunerReading>, groups: seq<seq<TunerReading>>)
    requires forall h :: 0 <= h < |groups| ==> |groups[h]| > 0
  {
    forall i :: 0 <= i < |rs| ==> GroupIndex(groups, KeyOf(rs[i])).Some?
  }

  /** What the grouping keeps true. */
  ghost predicate Grouped(rs: seq<TunerReading>, groups: seq<seq<TunerReading>>)
  {
    Selections(rs, groups) && InFirstOrder(rs, groups) && Covers(rs, groups)
  }

  /** Appending a reading extends its own key's selection only. */
  lemma WithKeySnoc(p: seq<TunerReading>, x: TunerReading, k: (string, int))
    ensures WithKey(p + [x], k) == WithKey(p, k) + (if KeyOf(x) == k then [x] else [])
  {
    assert (p + [x])[..|p|] == p;
  }

  /** Appending a reading moves no key's first appearance that was already
      there. */
  lemma FirstWithSnoc(p: seq<TunerReading>, x: TunerReading, k: (string, int))
    ensures FirstWith(p, k) < |p| ==> FirstWith(p + [x], k) == FirstWith(p, k)
    ensures FirstWith(p, k) == |p| && KeyOf(x) == k ==> FirstWith(p + [x], k) == |p|
  {
    assert (p + [x])[..|p|] == p;
  }

  /** Groups' keys are distinct. */
  lemma GroupKeysDistinct(p: seq<TunerReading>, groups: seq<seq<TunerReading>>, g: nat, h: nat)
    requires Selections(p, groups) && InFirstOrder(p, groups)
    requires g < |groups| && h < |groups| && g != h
    ensures KeyOf(groups[g][0]) != KeyOf(groups[h][0])
  {
    if g < h {
      assert FirstWith(p, KeyOf(groups[g][0])) < FirstWith(p, KeyOf(groups[h][0]));
    } else {
      assert FirstWith(p, KeyOf(groups[h][0])) < FirstWith(p, KeyOf(groups[g][0]));
    }
  }

  /** Appending a reading keeps every group key's first appearance. */
  lemma FirstsKept(p: seq<TunerReading>, x: TunerReading, groups: seq<seq<TunerReading>>)
    requires Selections(p, groups)
    ensures forall h :: 0 <= h < |groups| ==>
              FirstWith(p + [x], KeyOf(groups[h][0])) == FirstWith(p, KeyOf(groups[h][0])) < |p|
  {
    forall h | 0 <= h < |groups|
      ensures FirstWith(p + [x], KeyOf(groups[h][0])) == FirstWith(p, KeyOf(groups[h][0])) < |p|
    {
      FirstWithSnoc(p, x, KeyOf(groups[h][0]));
    }
  }

  /** Every reading of `p`, and `x`, still finds a group in `out`, whose
      leading groups have the heads of `groups` and some group of which has
      `x`'s key. */
  lemma CoversSnoc(p: seq<TunerReading>, x: TunerReading, groups: seq<seq<TunerReading>>,
                   out: seq<seq<TunerReading>>, w: nat)
    requires forall h :: 0 <= h < |groups| ==> |groups[h]| > 0
    requires forall h :: 0 <= h < |out| ==> |out[h]| > 0
    requires Covers(p, groups)
    requires |groups| <= |out| && forall h :: 0 <= h < |groups| ==> out[h][0] == groups[h][0]
    requires w < |out| && KeyOf(out[w][0]) == KeyOf(x)
    ensures Covers(p + [x], out)
  {
    var rs := p + [x];
    forall i | 0 <= i < |rs| ensures GroupIndex(out, KeyOf(rs[i])).Some? {
      if i < |p| {
        var g := GroupIndex(groups, KeyOf(p[i])).value;
        assert KeyOf(out[g][0]) == KeyOf(rs[i]);
      } else {
        assert KeyOf(out[w][0]) == KeyOf(rs[i]);
      }
    }
  }

  /** Joining a group: each group is still its key's selection. */
  lemma JoinsSelections(p: seq<TunerReading>, x: TunerReading, groups: seq<seq<TunerReading>>, g0: nat)
    requires Selections(p, groups)
    requires g0 < |groups| && KeyOf(groups[g0][0]) == KeyOf(x)
    requires forall h :: 0 <= h < |groups| && h != g0 ==> KeyOf(groups[h][0]) != KeyOf(x)
    ensures Selections(p + [x], groups[g0 := groups[g0] + [x]])
  {
    var out := groups[g0 := groups[g0] + [x]];
    forall h | 0 <= h < |out|
      ensures |out[h]| > 0
      ensures out[h] == WithKey(p + [x], KeyOf(out[h][0]))
      ensures FirstWith(p + [x], KeyOf(out[h][0])) < |p + [x]|
    {
      assert out[h][0] == groups[h][0];
      WithKeySnoc(p, x, KeyOf(groups[h][0]));
      FirstWithSnoc(p, x, KeyOf(groups[h][0]));
    }
  }

  /** Groups whose heads stay put stay in first-appearance order. */
  lemma SameHeadsInFirstOrder(p: seq<TunerReading>, x: TunerReading, groups: seq<seq<TunerReading>>,
                              out: seq<seq<TunerReading>>)
    requires Selections(p, groups) && InFirstOrder(p, groups)
    requires |out| == |groups|
    requires forall h :: 0 <= h < |out| ==> |out[h]| > 0 && out[h][0] == groups[h][0]
    ensures InFirstOrder(p + [x], out)
  {
    FirstsKept(p, x, groups);
  }

  /** A reading whose key already has a group joins that group. */
  lemma PlaceJoins(p: seq<TunerReading>, x: TunerReading, groups: seq<seq<TunerReading>>, g0: nat)
    requires Grouped(p, groups)
    requires GroupIndex(groups, KeyOf(x)) == Some(g0)
    ensures Grouped(p + [x], groups[g0 := groups[g0] + [x]])
  {
    var out := groups[g0 := groups[g0] + [x]];
    forall h | 0 <= h < |groups| && h != g0 ensures KeyOf(groups[h][0]) != KeyOf(x) {
      GroupKeysDistinct(p, groups, h, g0);
    }
    JoinsSelections(p, x, groups, g0);
    assert forall h :: 0 <= h < |out| ==> |out[h]| > 0 && out[h][0] == groups[h][0];
    SameHeadsInFirstOrder(p, x, groups, out);
    CoversSnoc(p, x, groups, out, g0);
  }

  /** Opening a group: the old groups are still their keys' selections and
      the new one is the single reading of a new key. */
  lemma OpensSelections(p: seq<TunerReading>, x: TunerReading, groups: seq<seq<TunerReading>>)
    requires Selections(p, groups)
    requires forall i :: 0 <= i < |p| ==> KeyOf(p[i]) != KeyOf(x)
    ensures Selections(p + [x], groups + [[x]])
  {
    var out := groups + [[x]];
    WithKeyAbsent(p, KeyOf(x));
    forall h | 0 <= h < |out|
      ensures |out[h]| > 0
      ensures out[h] == WithKey(p + [x], KeyOf(out[h][0]))
      ensures FirstWith(p + [x], KeyOf(out[h][0])) < |p + [x]|
    {
      WithKeySnoc(p, x, KeyOf(out[h][0]));
      FirstWithSnoc(p, x, KeyOf(out[h][0]));
    }
  }

  /** Opening a group: the new key first appears after every old one. */
  lemma OpensInFirstOrder(p: seq<TunerReading>, x: TunerReading, groups: seq<seq<TunerReading>>)
    requires Selections(p, groups) && InFirstOrder(p, groups)
    requires forall i :: 0 <= i < |p| ==> KeyOf(p[i]) != KeyOf(x)
    ensures InFirstOrder(p + [x], groups + [[x]])
  {
    var out := groups + [[x]];
    FirstsKept(p, x, groups);
    FirstWithSnoc(p, x, KeyOf(x));
    assert forall h :: 0 <= h < |groups| ==> out[h][0] == groups[h][0];
    assert FirstWith(p + [x], KeyOf(out[|groups|][0])) == |p|;
  }

  /** A reading of a new key opens a group at the end. */
  lemma PlaceOpens(p: seq<TunerReading>, x: TunerReading, groups: seq<seq<TunerReading>>)
    requires Grouped(p, groups)
    requires GroupIndex(groups, KeyOf(x)).None?
    ensures Grouped(p + [x], groups + [[x]])
  {
    var out := groups + [[x]];
    forall i | 0 <= i < |p| ensures KeyOf(p[i]) != KeyOf(x) {
      var g := GroupIndex(groups, KeyOf(p[i])).value;
      assert KeyOf(groups[g][0]) == KeyOf(p[i]);
    }
    OpensSelections(p, x, groups);
    OpensInFirstOrder(p, x, groups);
    assert forall h :: 0 <= h < |groups| ==> out[h][0] == groups[h][0];
    CoversSnoc(p, x, groups, out, |groups|);
  }

  lemma {:induction false} GroupByKeyGroups(rs: seq<TunerReading>)
    ensures Grouped(rs, GroupByKey(rs))
  {
    if |rs| > 0 {
      var p := rs[..|rs| - 1];
      var x := rs[|rs| - 1];
      var groups := GroupByKey(p);
      GroupByKeyGroups(p);
      assert rs == p + [x];
      match GroupIndex(groups, KeyOf(x))
      case Some(g0) => PlaceJoins(p, x, groups, g0);
      case None => PlaceOpens(p, x, groups);
    }
  }

  function GroupSizes(groups: seq<seq<TunerReading>>): (s: seq<real>)
    ensures |s| == |groups| && forall h :: 0 <= h < |groups| ==> s[h] == |groups[h]| as real
  {
    seq(|groups|, h requires 0 <= h < |groups| => |groups[h]| as real)
  }

  function Confidences(g: seq<TunerReading>): (c: seq<real>)
    ensures |c| == |g| && forall i :: 0 <= i < |g| ==> c[i] == g[i].confidence
  {
    seq(|g|, i requires 0 <= i < |g| => g[i].confidence)
  }

  function CentsOffs(g: seq<TunerReading>): (c: seq<real>)
    ensures |c| == |g| && forall i :: 0 <= i < |g| ==> c[i] == g[i].centsOff
  {
    seq(|g|, i requires 0 <= i < |g| => g[i].centsOff)
  }

  /** `combine_window_results`: the first reading of the largest key group
      (the earliest-opened group on ties), carrying the group's mean
      confidence and mean cents; nothing for no readings. */
  function CombineWindowResults(rs: seq<TunerReading>): (r: Option<TunerReading>)
    ensures r.None? <==> |rs| == 0
  {
    var groups := GroupByKey(rs);
    if |groups| == 0 then None
    else
      var g := Select.ArgMaxFirst(GroupSizes(groups));
      var best := groups[g][0];
      Some(best.(confidence := Mean(Confidences(groups[g])), centsOff := Mean(CentsOffs(groups[g]))))
  }

  /** The vote stated without the dictionary: the winning key is held by at
      least as many readings as any other key and by more than every key
      that first appears earlier; the result is the first reading of that
      key, with the mean confidence and cents over all its readings. */
  lemma CombineMeansMostFrequentKey(rs: seq<TunerReading>)
    requires |rs| > 0
    ensures var r := CombineWindowResults(rs).value;
            var k := KeyOf(r);
            var first := FirstWith(rs, k);
            && first < |rs| && |WithKey(rs, k)| > 0
            && r == rs[first].(confidence := Mean(Confidences(WithKey(rs, k))),
                               centsOff := Mean(CentsOffs(WithKey(rs, k))))
            && (forall i :: 0 <= i < |rs| ==> |WithKey(rs, KeyOf(rs[i]))| <= |WithKey(rs, k)|)
            && (forall i :: 0 <= i < first ==> |WithKey(rs, KeyOf(rs[i]))| < |WithKey(rs, k)|)
  {
    var groups := GroupByKey(rs);
    GroupByKeyGroups(rs);
    var g := Select.ArgMaxFirst(GroupSizes(groups));
    var k := KeyOf(groups[g][0]);
    assert groups[g] == WithKey(rs, k);
    WithKeyStartsAtFirst(rs, k);
    LargestGroupWins(rs, groups, g);
  }

  /** The largest group, earliest on ties, holds the most frequent key, and
      every key first appearing before it is strictly less frequent. */
  lemma LargestGroupWins(rs: seq<TunerReading>, groups: seq<seq<TunerReading>>, g: nat)
    requires Grouped(rs, groups)
    requires g < |groups|
    requires forall h :: 0 <= h < |groups| ==> |groups[h]| <= |groups[g]|
    requires forall h :: 0 <= h < g ==> |groups[h]| < |groups[g]|
    ensures var k := KeyOf(groups[g][0]);
            forall i :: 0 <= i < |rs| ==> |WithKey(rs, KeyOf(rs[i]))| <= |WithKey(rs, k)|
    ensures var k := KeyOf(groups[g][0]);
            forall i :: 0 <= i < FirstWith(rs, k) ==> |WithKey(rs, KeyOf(rs[i]))| < |WithKey(rs, k)|
  {
    var k := KeyOf(groups[g][0]);
    assert groups[g] == WithKey(rs, k);
    forall i | 0 <= i < |rs|
      ensures |WithKey(rs, KeyOf(rs[i]))| <= |WithKey(rs, k)|
      ensures i < FirstWith(rs, k) ==> |WithKey(rs, KeyOf(rs[i]))| < |WithKey(rs, k)|
    {
      var h := GroupOf(rs, groups, i);
      if i < FirstWith(rs, k) {
        EarlierKeyEarlierGroup(rs, groups, h, g);
      }
    }
  }

  /** A group whose key appears first comes first. */
  lemma EarlierKeyEarlierGroup(rs: seq<TunerReading>, groups: seq<seq<TunerReading>>, h: nat, g: nat)
    requires Selections(rs, groups) && InFirstOrder(rs, groups)
    requires h < |groups| && g < |groups|
    requires FirstWith(rs, KeyOf(groups[h][0])) < FirstWith(rs, KeyOf(groups[g][0]))
    ensures h < g
  {
  }

  /** The group holding reading `i`: the selection of its key, whose first
      appearance is at or before `i`. */
  lemma GroupOf(rs: seq<TunerReading>, groups: seq<seq<TunerReading>>, i: nat) returns (h: nat)
    requires Grouped(rs, groups)
    requires i < |rs|
    ensures h < |groups| && KeyOf(groups[h][0]) == KeyOf(rs[i])
    ensures groups[h] == WithKey(rs, KeyOf(rs[i]))
    ensures FirstWith(rs, KeyOf(groups[h][0])) <= i
  {
    h := GroupIndex(groups, KeyOf(rs[i])).value;
  }

  /** `detect_note`: the vote over the windows that gave a reading; nothing
      when the input is too short to window or no window gave a reading.
      `analyze` stands for the per-window filter, FFT and peak analysis. */
  function DetectNote(audio: seq<real>, analyze: seq<real> -> Option<TunerReading>): (r: Option<TunerReading>)
    ensures |audio| < 4 ==> r.None?
    ensures |audio| >= 4 ==>
              var windows := CreateAnalysisWindows(audio).value;
              (r.None? <==> forall i :: 0 <= i < |windows| ==> analyze(windows[i]).None?)
    ensures |audio| >= 4 ==> r == CombineWindowResults(Readings(CreateAnalysisWindows(audio).value, analyze))
  {
    match CreateAnalysisWindows(audio)
    case None => None
    case Some(windows) =>
      var readings := Readings(windows, analyze);
      CombineWindowResults(readings)
  }

  /** The readings of the windows that gave one, in window order. */
  function Readings(windows: seq<seq<real>>, analyze: seq<real> -> Option<TunerReading>): (rs: seq<TunerReading>)
    ensures |rs| <= |windows|
    ensures |rs| == 0 <==> forall i :: 0 <= i < |windows| ==> analyze(windows[i]).None?
    ensures forall x :: x in rs <==> exists i :: 0 <= i < |windows| && analyze(windows[i]) == Some(x)
  {
    FilterMapMembers(windows, analyze);
    var rs := FilterMap(windows, analyze);
    assert |rs| > 0 ==> rs[0] in rs;
    assert forall i :: 0 <= i < |windows| && analyze(windows[i]).Some? ==> analyze(windows[i]).value in rs;
    rs
  }

  /** Which windows vote, how often and in what order: the readings of a
      concatenation of windows are those of its parts in turn, and one
      window gives its reading or nothing. */
  lemma ReadingsInOrder(a: seq<seq<real>>, b: seq<seq<real>>, analyze: seq<real> -> Option<TunerReading>)
    ensures Readings(a + b, analyze) == Readings(a, analyze) + Readings(b, analyze)
    ensures |a| == 1 && analyze(a[0]).Some? ==> Readings(a, analyze) == [analyze(a[0]).value]
    ensures |a| == 1 && analyze(a[0]).None? ==> Readings(a, analyze) == []
  {
    FilterMapAppend(a, b, analyze);
  }
}

=== FILE: multi_tap.dfy ===
/** `MultiTapDelay`: a base delay's settings driving any number of taps,
    each with its own delay line. The taps are kept in four parallel lists
    (tap parameters, buffers, write positions, read positions) that every
    operation keeps in step. Every tap buffer receives the same feedback
    sample; each tap's delayed sample is panned into the two output
    channels. */
module MultiTap {
  import opened Base
  import RingBuffer
  import BaseDelay
  import Runs

  /** `np.sqrt(2) / 2`, as the double the program computes. */
  const HalfRoot2: real := 0.7071067811865476

  /** `DelayTap`: delay time (never clamped), level, pan and the two gains
      derived from the pan. */
  datatype Tap = Tap(delayTime: real, level: real, pan: real, leftGain: real, rightGain: real)

  /** The pan law: k(1 - pan) to the left, k(1 + pan) to the right. The
      gains always add up to 2k, are equal at the centre, are non-negative
      over the whole pan range, and the right one is the larger exactly when
      the pan leans right. */
  function Gains(pan: real): (g: (real, real))
    ensures g.0 + g.1 == 2.0 * HalfRoot2
    ensures pan == 0.0 ==> g.0 == g.1 == HalfRoot2
    ensures -1.0 <= pan <= 1.0 ==> g.0 >= 0.0 && g.1 >= 0.0
    ensures g.0 <= g.1 <==> pan >= 0.0
  {
    (HalfRoot2 * (1.0 - pan), HalfRoot2 * (1.0 + pan))
  }

  /** A tap's level in [0, 1], pan in [-1, 1] and gains that follow its
      pan. */
  predicate TapValid(t: Tap)
  {
    && 0.0 <= t.level <= 1.0
    && -1.0 <= t.pan <= 1.0
    && (t.leftGain, t.rightGain) == Gains(t.pan)
  }

  /** The `DelayTap` constructor: level and pan clamped, the delay kept. */
  function NewTap(delayTime: real, level: real, pan: real): (t: Tap)
    ensures TapValid(t) && t.delayTime == delayTime
    ensures 0.0 <= level <= 1.0 ==> t.level == level
    ensures -1.0 <= pan <= 1.0 ==> t.pan == pan
  {
    var p := Clip(pan, -1.0, 1.0);
    var g := Gains(p);
    Tap(delayTime, Clip(level, 0.0, 1.0), p, g.0, g.1)
  }

  /** `DelayTap.set_parameters`: only the supplied fields change; the gains
      are recomputed only with a new pan. */
  function SetTapFields(t: Tap, delayTime: Option<real>, level: Option<real>, pan: Option<real>): (r: Tap)
    requires TapValid(t)
    ensures TapValid(r)
    ensures delayTime.None? ==> r.delayTime == t.delayTime
    ensures delayTime.Some? ==> r.delayTime == delayTime.value
    ensures level.None? ==> r.level == t.level
    ensures level.Some? && 0.0 <= level.value <= 1.0 ==> r.level == level.value
    ensures pan.None? ==> r.pan == t.pan && r.leftGain == t.leftGain && r.rightGain == t.rightGain
    ensures pan.Some? && -1.0 <= pan.value <= 1.0 ==> r.pan == pan.value
  {
    var a := if delayTime.Some? then t.(delayTime := delayTime.value) else t;
    var b := if level.Some? then a.(level := Clip(level.value, 0.0, 1.0)) else a;
    if pan.Some? then
      var p := Clip(pan.value, -1.0, 1.0);
      var g := Gains(p);
      b.(pan := p, leftGain := g.0, rightGain := g.1)
    else b
  }

  /** Supplying every field gives the tap the constructor would build from
      them; supplying none changes nothing. */
  lemma SetAllFieldsIsNew(t: Tap, delayTime: real, level: real, pan: real)
    requires TapValid(t)
    ensures SetTapFields(t, Some(delayTime), Some(level), Some(pan)) == NewTap(delayTime, level, pan)
    ensures SetTapFields(t, None, None, None) == t
  {
  }

  datatype MultiTap = MultiTap(base: BaseDelay.Delay, taps: seq<Tap>, buffers: seq<seq<real>>,
                               writeIndices: seq<nat>, readIndices: seq<nat>, stereoOutput: bool)

  /** The four per-tap lists have the same length. */
  predicate InSync(m: MultiTap)
  {
    |m.buffers| == |m.taps| && |m.writeIndices| == |m.taps| && |m.readIndices| == |m.taps|
  }

  /** One position of the four lists, seen together. */
  datatype Slot = Slot(tap: Tap, buffer: seq<real>, writeIndex: nat, readIndex: nat)

  function SlotAt(m: MultiTap, i: nat): Slot
    requires InSync(m) && i < |m.taps|
  {
    Slot(m.taps[i], m.buffers[i], m.writeIndices[i], m.readIndices[i])
  }

  /** The four lists built from a list of slots, one entry each per slot. */
  function Assemble(base: BaseDelay.Delay, ss: seq<Slot>, stereoOutput: bool): (m: MultiTap)
    ensures InSync(m) && |m.taps| == |ss| && m.base == base && m.stereoOutput == stereoOutput
    ensures forall i :: 0 <= i < |ss| ==> SlotAt(m, i) == ss[i]
  {
    MultiTap(base, seq(|ss|, i requires 0 <= i < |ss| => ss[i].tap),
             seq(|ss|, i requires 0 <= i < |ss| => ss[i].buffer),
             seq(|ss|, i requires 0 <= i < |ss| => ss[i].writeIndex),
             seq(|ss|, i requires 0 <= i < |ss| => ss[i].readIndex), stereoOutput)
  }

  /** The slots of a multi-tap delay, in order. */
  function Slots(m: MultiTap): (ss: seq<Slot>)
    requires InSync(m)
    ensures |ss| == |m.taps| && forall i :: 0 <= i < |ss| ==> ss[i] == SlotAt(m, i)
  {
    seq(|m.taps|, i requires 0 <= i < |m.taps| => SlotAt(m, i))
  }

  /** Taking the lists apart into slots and assembling them again gives the
      same lists. */
  lemma AssembleSlots(m: MultiTap)
    requires InSync(m)
    ensures Assemble(m.base, Slots(m), m.stereoOutput) == m
  {
    var r := Assemble(m.base, Slots(m), m.stereoOutput);
    assert forall i :: 0 <= i < |m.taps| ==> SlotAt(r, i) == SlotAt(m, i);
    assert r.taps == m.taps && r.buffers == m.buffers;
    assert r.writeIndices == m.writeIndices && r.readIndices == m.readIndices;
  }

  /** A position inside a buffer of `n` slots, or 0 for an empty one. */
  predicate IndexIn(k: nat, n: nat)
  {
    k < n || k == 0
  }

  /** A tap valid, its buffer `int(delay * sample_rate)` slots long, and
      both positions inside it. */
  predicate SlotValid(s: Slot, sampleRate: int)
  {
    && TapValid(s.tap)
    && |s.buffer| == BaseDelay.Samples(s.tap.delayTime, sampleRate)
    && IndexIn(s.writeIndex, |s.buffer|)
    && IndexIn(s.readIndex, |s.buffer|)
  }

  predicate SlotsValid(ss: seq<Slot>, sampleRate: int)
  {
    forall i :: 0 <= i < |ss| ==> SlotValid(ss[i], sampleRate)
  }

  predicate Valid(m: MultiTap)
  {
    && BaseDelay.Valid(m.base)
    && InSync(m)
    && forall i :: 0 <= i < |m.taps| ==> SlotValid(SlotAt(m, i), m.base.settings.sampleRate)
  }

  /** Assembling valid slots under a valid base delay gives a valid state. */
  lemma AssembleValid(base: BaseDelay.Delay, ss: seq<Slot>, stereoOutput: bool)
    requires BaseDelay.Valid(base) && SlotsValid(ss, base.settings.sampleRate)
    ensures Valid(Assemble(base, ss, stereoOutput))
  {
  }

  /** Every tap buffer has a slot. Processing indexes each buffer and takes
      a remainder modulo its length, so a tap whose delay is shorter than
      one sample, which `add_tap` accepts, makes processing raise
      `IndexError`. */
  predicate Ready(m: MultiTap)
    requires InSync(m)
  {
    forall i :: 0 <= i < |m.taps| ==> |m.buffers[i]| >= 1
  }

  /** A non-negative delay gives a buffer length that is not negative. */
  lemma NonnegativeLength(seconds: real, sampleRate: int)
    requires sampleRate > 0 && seconds >= 0.0
    ensures BaseDelay.Samples(seconds, sampleRate) >= 0
  {
    MulNonneg(seconds, sampleRate as real);
  }

  /** A new tap with a silent buffer of `int(delay * sample_rate)` slots and
      both positions at 0. */
  function FreshSlot(delayTime: real, level: real, pan: real, sampleRate: int): (s: Slot)
    requires BaseDelay.Samples(delayTime, sampleRate) >= 0
    ensures SlotValid(s, sampleRate) && s.tap == NewTap(delayTime, level, pan)
    ensures s.writeIndex == 0 && s.readIndex == 0
    ensures s.buffer == Zeros(BaseDelay.Samples(delayTime, sampleRate))
  {
    Slot(NewTap(delayTime, level, pan), Zeros(BaseDelay.Samples(delayTime, sampleRate)), 0, 0)
  }

  /** `add_tap`: the new tap, a silent buffer and two zero positions
      appended at the end of each of the four lists. A delay giving a
      negative length makes `np.zeros` raise, so it is excluded. */
  function AddTap(m: MultiTap, delayTime: real, level: real, pan: real): (r: MultiTap)
    requires Valid(m) && BaseDelay.Samples(delayTime, m.base.settings.sampleRate) >= 0
    ensures Valid(r) && r.base == m.base && r.stereoOutput == m.stereoOutput
    ensures r.taps == m.taps + [NewTap(delayTime, level, pan)]
    ensures r.buffers == m.buffers + [Zeros(BaseDelay.Samples(delayTime, m.base.settings.sampleRate))]
    ensures r.writeIndices == m.writeIndices + [0] && r.readIndices == m.readIndices + [0]
  {
    var ss := Slots(m) + [FreshSlot(delayTime, level, pan, m.base.settings.sampleRate)];
    var r := Assemble(m.base, ss, m.stereoOutput);
    AssembleValid(m.base, ss, m.stereoOutput);
    assert forall i :: 0 <= i < |m.taps| ==> SlotAt(r, i) == SlotAt(m, i);
    assert r.taps == m.taps + [NewTap(delayTime, level, pan)];
    assert r.buffers == m.buffers + [Zeros(BaseDelay.Samples(delayTime, m.base.settings.sampleRate))];
    assert r.writeIndices == m.writeIndices + [0] && r.readIndices == m.readIndices + [0];
    r
  }

  /** `remove_tap`: an index outside the list changes nothing; otherwise the
      same position leaves all four lists and the later taps move down one
      place. */
  function RemoveTap(m: MultiTap, index: int): (r: MultiTap)
    requires Valid(m)
    ensures Valid(r) && r.base == m.base && r.stereoOutput == m.stereoOutput
    ensures !(0 <= index < |m.taps|) ==> r == m
    ensures 0 <= index < |m.taps| ==>
              && |r.taps| == |m.taps| - 1
              && (forall i :: 0 <= i < index ==> SlotAt(r, i) == SlotAt(m, i))
              && (forall i :: index <= i < |r.taps| ==> SlotAt(r, i) == SlotAt(m, i + 1))
  {
    if 0 <= index < |m.taps| then
      var all := Slots(m);
      var ss := all[..index] + all[index + 1..];
      assert forall i :: 0 <= i < index ==> ss[i] == all[i];
      assert forall i :: index <= i < |ss| ==> ss[i] == all[i + 1];
      AssembleValid(m.base, ss, m.stereoOutput);
      Assemble(m.base, ss, m.stereoOutput)
    else m
  }

  /** Removing the tap just added gives back the taps before. */
  lemma RemoveUndoesAdd(m: MultiTap, delayTime: real, level: real, pan: real)
    requires Valid(m) && BaseDelay.Samples(delayTime, m.base.settings.sampleRate) >= 0
    ensures RemoveTap(AddTap(m, delayTime, level, pan), |m.taps|) == m
  {
    var r := RemoveTap(AddTap(m, delayTime, level, pan), |m.taps|);
    assert forall i :: 0 <= i < |m.taps| ==> SlotAt(r, i) == SlotAt(m, i);
    assert r.taps == m.taps && r.buffers == m.buffers;
    assert r.writeIndices == m.writeIndices && r.readIndices == m.readIndices;
  }

  /** `clear_taps`: all four lists emptied. */
  function ClearTaps(m: MultiTap): (r: MultiTap)
    requires Valid(m)
    ensures Valid(r) && r.base == m.base && r.stereoOutput == m.stereoOutput
    ensures r.taps == [] && r.buffers == [] && r.writeIndices == [] && r.readIndices == []
  {
    m.(taps := [], buffers := [], writeIndices := [], readIndices := [])
  }

  /** One slot after `set_tap_parameters`: the supplied tap fields change,
      and the buffer is replaced by a silent one with both positions at 0
      exactly when a new delay changes its length. */
  function RetapSlot(s: Slot, delayTime: Option<real>, level: Option<real>, pan: Option<real>,
                     sampleRate: int): (r: Slot)
    requires SlotValid(s, sampleRate)
    requires delayTime.Some? ==> BaseDelay.Samples(delayTime.value, sampleRate) >= 0
    ensures SlotValid(r, sampleRate)
    ensures r.tap == SetTapFields(s.tap, delayTime, level, pan)
    ensures var resized := delayTime.Some? && BaseDelay.Samples(delayTime.value, sampleRate) != |s.buffer|;
            && (resized ==> r.buffer == Zeros(|r.buffer|) && r.writeIndex == 0 && r.readIndex == 0)
            && (!resized ==> r.buffer == s.buffer && r.writeIndex == s.writeIndex && r.readIndex == s.readIndex)
  {
    var t := SetTapFields(s.tap, delayTime, level, pan);
    if delayTime.Some? && BaseDelay.Samples(delayTime.value, sampleRate) != |s.buffer| then
      Slot(t, Zeros(BaseDelay.Samples(delayTime.value, sampleRate)), 0, 0)
    else s.(tap := t)
  }

  /** `set_tap_parameters`: an index outside the list changes nothing;
      otherwise only that position of the lists changes, as `RetapSlot`
      says. A new delay giving a negative length makes `np.zeros` raise,
      so it is excluded. */
  function SetTapParameters(m: MultiTap, index: int, delayTime: Option<real>, level: Option<real>,
                            pan: Option<real>): (r: MultiTap)
    requires Valid(m)
    requires 0 <= index < |m.taps| && delayTime.Some? ==>
               BaseDelay.Samples(delayTime.value, m.base.settings.sampleRate) >= 0
    ensures Valid(r) && r.base == m.base && r.stereoOutput == m.stereoOutput && |r.taps| == |m.taps|
    ensures !(0 <= index < |m.taps|) ==> r == m
    ensures forall i :: 0 <= i < |m.taps| && i != index ==> SlotAt(r, i) == SlotAt(m, i)
    ensures 0 <= index < |m.taps| ==>
              SlotAt(r, index) == RetapSlot(SlotAt(m, index), delayTime, level, pan, m.base.settings.sampleRate)
  {
    if 0 <= index < |m.taps| then
      var sr := m.base.settings.sampleRate;
      var ss := Slots(m)[index := RetapSlot(SlotAt(m, index), delayTime, level, pan, sr)];
      AssembleValid(m.base, ss, m.stereoOutput);
      Assemble(m.base, ss, m.stereoOutput)
    else m
  }

  /** The taps the constructor installs: (delay, level, pan). */
  const DefaultTaps: seq<(real, real, real)> := [(0.25, 0.8, 0.0), (0.5, 0.6, -0.3), (0.75, 0.4, 0.3)]

  /** The constructor: a base delay, stereo output on, and the three
      default taps in order, each with a silent buffer. */
  function New(sampleRate: int, maxDelayTime: real, feedback: real, wetMix: real): (m: MultiTap)
    requires sampleRate > 0 && BaseDelay.Samples(maxDelayTime, sampleRate) >= 1
    ensures Valid(m) && m.stereoOutput && |m.taps| == 3
    ensures m.base == BaseDelay.New(sampleRate, maxDelayTime, feedback, wetMix)
    ensures forall i :: 0 <= i < 3 ==>
              SlotAt(m, i) == FreshSlot(DefaultTaps[i].0, DefaultTaps[i].1, DefaultTaps[i].2, sampleRate)
  {
    NonnegativeLength(0.25, sampleRate);
    NonnegativeLength(0.5, sampleRate);
    NonnegativeLength(0.75, sampleRate);
    var base := BaseDelay.New(sampleRate, maxDelayTime, feedback, wetMix);
    var ss := [FreshSlot(0.25, 0.8, 0.0, sampleRate), FreshSlot(0.5, 0.6, -0.3, sampleRate),
               FreshSlot(0.75, 0.4, 0.3, sampleRate)];
    AssembleValid(base, ss, true);
    Assemble(base, ss, true)
  }

  /** The note divisions `sync_taps_to_tempo` knows, in beats. */
  function Multiplier(name: string): (r: Option<real>)
    ensures r.Some? ==> r.value > 0.0
  {
    match name
    case "1/16" => Some(0.25)
    case "1/8" => Some(0.5)
    case "1/4" => Some(1.0)
    case "1/2" => Some(2.0)
    case "3/4" => Some(0.75)
    case "3/8" => Some(0.375)
    case "1/1" => Some(4.0)
    case _ => None
  }

  predicate Recognised(name: string)
  {
    Multiplier(name).Some?
  }

  /** The level and pan of the tap made from the `i`-th entry of the
      division list (entries that are skipped still count). */
  function SyncLevel(i: nat): real
  {
    1.0 - i as real * 0.2
  }

  function SyncPan(i: nat): real
  {
    (i % 2) as real * 0.6 - 0.3
  }

  /** The slot made from the `j`-th division name, when recognised. */
  function SyncSlot(beat: real, divisions: seq<string>, j: nat, sampleRate: int): (s: Slot)
    requires beat > 0.0 && sampleRate > 0 && j < |divisions| && Recognised(divisions[j])
    ensures SlotValid(s, sampleRate)
    ensures s == FreshSlot(beat * Multiplier(divisions[j]).value, SyncLevel(j), SyncPan(j), sampleRate)
  {
    var k := Multiplier(divisions[j]).value;
    MulNonneg(beat, k);
    NonnegativeLength(beat * k, sampleRate);
    FreshSlot(beat * k, SyncLevel(j), SyncPan(j), sampleRate)
  }

  /** The slots the loop of `sync_taps_to_tempo` has added after looking at
      the first `n` division names: one per recognised name. */
  function SyncSlots(beat: real, divisions: seq<string>, n: nat, sampleRate: int): (ss: seq<Slot>)
    requires beat > 0.0 && sampleRate > 0 && n <= |divisions|
    ensures SlotsValid(ss, sampleRate)
    ensures |ss| == Count(divisions[..n], Recognised)
  {
    if n == 0 then []
    else
      assert divisions[..n][..n - 1] == divisions[..n - 1];
      var prev := SyncSlots(beat, divisions, n - 1, sampleRate);
      if Recognised(divisions[n - 1]) then prev + [SyncSlot(beat, divisions, n - 1, sampleRate)] else prev
  }

  /** The loop only appends: what it added after fewer names stays in
      front. */
  lemma {:induction false} SyncKeepsEarlierSlots(beat: real, divisions: seq<string>, k: nat, n: nat, i: nat, sampleRate: int)
    requires beat > 0.0 && sampleRate > 0 && k <= n <= |divisions|
    requires i < |SyncSlots(beat, divisions, k, sampleRate)|
    ensures i < |SyncSlots(beat, divisions, n, sampleRate)|
    ensures SyncSlots(beat, divisions, n, sampleRate)[i] == SyncSlots(beat, divisions, k, sampleRate)[i]
  {
    if k < n {
      SyncKeepsEarlierSlots(beat, divisions, k, n - 1, i, sampleRate);
      SyncSlotsExtend(beat, divisions, n, sampleRate);
      var prev := SyncSlots(beat, divisions, n - 1, sampleRate);
      var cur := SyncSlots(beat, divisions, n, sampleRate);
      assert cur[i] == cur[..|prev|][i];
    }
  }

  /** One more name keeps the slots added so far in front. */
  lemma SyncSlotsExtend(beat: real, divisions: seq<string>, n: nat, sampleRate: int)
    requires beat > 0.0 && sampleRate > 0 && 0 < n <= |divisions|
    ensures var prev := SyncSlots(beat, divisions, n - 1, sampleRate);
            var cur := SyncSlots(beat, divisions, n, sampleRate);
            |prev| <= |cur| && cur[..|prev|] == prev
  {
    var prev := SyncSlots(beat, divisions, n - 1, sampleRate);
    if Recognised(divisions[n - 1]) {
      assert SyncSlots(beat, divisions, n, sampleRate) == prev + [SyncSlot(beat, divisions, n - 1, sampleRate)];
      assert (prev + [SyncSlot(beat, divisions, n - 1, sampleRate)])[..|prev|] == prev;
    } else {
      assert SyncSlots(beat, divisions, n, sampleRate) == prev;
    }
  }

  /** The default division names. */
  const DefaultDivisions: seq<string> := ["1/4", "1/2", "3/4"]

  /** `sync_taps_to_tempo`: every tap removed, then one tap per recognised
      division name, in order, with delay `60 / bpm` times the division's
      length in beats. A tempo of 0 divides by zero, so the tempo is
      positive. */
  function SyncTapsToTempo(m: MultiTap, bpm: real, divisions: Option<seq<string>>): (r: MultiTap)
    requires Valid(m) && bpm > 0.0
    ensures Valid(r) && r.base == m.base
    ensures var names := if divisions.Some? then divisions.value else DefaultDivisions;
            |r.taps| == Count(names, Recognised)
  {
    var names := if divisions.Some? then divisions.value else DefaultDivisions;
    assert names[..|names|] == names;
    var ss := SyncSlots(60.0 / bpm, names, |names|, m.base.settings.sampleRate);
    AssembleValid(m.base, ss, m.stereoOutput);
    Assemble(m.base, ss, m.stereoOutput)
  }

  /** The slot made from the `j`-th name, when recognised, sits at the
      place counted by the recognised names before it. */
  lemma SyncedSlot(beat: real, divisions: seq<string>, j: nat, sampleRate: int)
    requires beat > 0.0 && sampleRate > 0 && j < |divisions| && Recognised(divisions[j])
    ensures var all := SyncSlots(beat, divisions, |divisions|, sampleRate);
            var k := Count(divisions[..j], Recognised);
            k < |all| && all[k] == SyncSlot(beat, divisions, j, sampleRate)
  {
    var k := Count(divisions[..j], Recognised);
    var upTo := SyncSlots(beat, divisions, j + 1, sampleRate);
    assert divisions[..j + 1][..j] == divisions[..j];
    assert upTo == SyncSlots(beat, divisions, j, sampleRate) + [SyncSlot(beat, divisions, j, sampleRate)];
    SyncKeepsEarlierSlots(beat, divisions, j + 1, |divisions|, k, sampleRate);
  }

  /** The tap made from the `j`-th division name, when recognised, sits at
      the place counted by the recognised names before it, with the
      division's delay, level `1 - 0.2 j` (clamped at 0), pan -0.3 or 0.3
      as `j` is even or odd, and a silent buffer. */
  lemma SyncedTap(m: MultiTap, bpm: real, divisions: seq<string>, j: nat)
    requires Valid(m) && bpm > 0.0 && j < |divisions| && Recognised(divisions[j])
    ensures var r := SyncTapsToTempo(m, bpm, Some(divisions));
            var k := Count(divisions[..j], Recognised);
            var delay := 60.0 / bpm * Multiplier(divisions[j]).value;
            && k < |r.taps|
            && SlotAt(r, k) == FreshSlot(delay, SyncLevel(j), SyncPan(j), m.base.settings.sampleRate)
            && r.taps[k].level == Max(SyncLevel(j), 0.0)
            && r.taps[k].pan == (if j % 2 == 0 then -0.3 else 0.3)
  {
    var sr := m.base.settings.sampleRate;
    SyncedSlot(60.0 / bpm, divisions, j, sr);
    assert divisions[..|divisions|] == divisions;
    assert SyncLevel(j) <= 1.0;
    if j % 2 == 0 {
      assert SyncPan(j) == -0.3;
    } else {
      assert SyncPan(j) == 0.3;
    }
  }

  /** What tap `t` contributes to one channel for delayed sample `e`:
      `e * level * gain`. */
  function Contribution(t: Tap, e: real, right: bool): real
  {
    e * t.level * (if right then t.rightGain else t.leftGain)
  }

  /** One channel's wet sum over the taps, `es` being their delayed
      samples. */
  function Wet(ts: seq<Tap>, es: seq<real>, right: bool): real
    requires |es| == |ts|
  {
    if |ts| == 0 then 0.0
    else Wet(ts[..|ts| - 1], es[..|es| - 1], right) + Contribution(ts[|ts| - 1], es[|es| - 1], right)
  }

  /** The taps' delayed samples weighted by level alone. */
  function Levelled(ts: seq<Tap>, es: seq<real>): real
    requires |es| == |ts|
  {
    if |ts| == 0 then 0.0
    else Levelled(ts[..|ts| - 1], es[..|es| - 1]) + es[|es| - 1] * ts[|ts| - 1].level
  }

  /** One tap's two contributions add up to 2k times its levelled sample. */
  lemma ContributionBalance(t: Tap, e: real)
    requires TapValid(t)
    ensures Contribution(t, e, false) + Contribution(t, e, true) == 2.0 * HalfRoot2 * (e * t.level)
  {
    var a := e * t.level;
    assert Contribution(t, e, false) == a * t.leftGain;
    assert Contribution(t, e, true) == a * t.rightGain;
    assert a * t.leftGain + a * t.rightGain == a * (t.leftGain + t.rightGain);
  }

  /** Panning loses nothing: the two channels' wet sums add up to 2k times
      the level-weighted sum of the delayed samples, whatever the pans. */
  lemma {:induction false} WetBalance(ts: seq<Tap>, es: seq<real>)
    requires |es| == |ts| && forall i :: 0 <= i < |ts| ==> TapValid(ts[i])
    ensures Wet(ts, es, false) + Wet(ts, es, true) == 2.0 * HalfRoot2 * Levelled(ts, es)
  {
    if |ts| > 0 {
      var n := |ts| - 1;
      WetBalance(ts[..n], es[..n]);
      ContributionBalance(ts[n], es[n]);
    }
  }

  /** With every tap centred both channels carry the same wet sum. */
  lemma {:induction false} CentredIsMono(ts: seq<Tap>, es: seq<real>)
    requires |es| == |ts| && forall i :: 0 <= i < |ts| ==> TapValid(ts[i]) && ts[i].pan == 0.0
    ensures Wet(ts, es, false) == Wet(ts, es, true)
  {
    if |ts| > 0 {
      var n := |ts| - 1;
      CentredIsMono(ts[..n], es[..n]);
      assert ts[n].leftGain == ts[n].rightGain;
    }
  }

  /** A slot's buffer as a ring with its write position. */
  function Lane(s: Slot): RingBuffer.Ring
  {
    RingBuffer.Ring(s.buffer, s.writeIndex)
  }

  /** The sample a tap reads as intended: `int(delay * sample_rate)` back
      from the current write position, its whole buffer length, so the
      slot about to be overwritten. */
  function SlotEcho(s: Slot, sampleRate: int): (e: real)
    requires SlotValid(s, sampleRate) && |s.buffer| >= 1
    ensures RingBuffer.Valid(Lane(s))
    ensures e == s.buffer[s.writeIndex]
  {
    RingBuffer.StepBack(s.writeIndex, |s.buffer|, |s.buffer|);
    RingBuffer.Read(Lane(s), BaseDelay.Samples(s.tap.delayTime, sampleRate))
  }

  /** One slot after a call that writes `v`: `v` stored at the write
      position, the write position advanced, the read position set to
      `int(delay * sample_rate)` behind the old write position, which is
      the old write position itself. */
  function StepSlot(s: Slot, v: real, sampleRate: int): (r: Slot)
    requires SlotValid(s, sampleRate) && |s.buffer| >= 1
    ensures SlotValid(r, sampleRate) && |r.buffer| == |s.buffer| && r.tap == s.tap
    ensures RingBuffer.Valid(Lane(s)) && Lane(r) == RingBuffer.Write(Lane(s), v)
    ensures r.readIndex == s.writeIndex
  {
    var n := |s.buffer|;
    RingBuffer.StepBack(s.writeIndex, n, n);
    Slot(s.tap, s.buffer[s.writeIndex := v], (s.writeIndex + 1) % n,
         (s.writeIndex - BaseDelay.Samples(s.tap.delayTime, sampleRate)) % n)
  }

  /** Each tap's delayed sample as intended. */
  function Echoes(m: MultiTap): (es: seq<real>)
    requires Valid(m) && Ready(m)
    ensures |es| == |m.taps|
    ensures forall i :: 0 <= i < |m.taps| ==> es[i] == SlotEcho(SlotAt(m, i), m.base.settings.sampleRate)
  {
    seq(|m.taps|, i requires 0 <= i < |m.taps| => SlotEcho(SlotAt(m, i), m.base.settings.sampleRate))
  }

  /** The sample a tap reads as `process_sample` does: at the read position
      stored by the previous call. */
  function SlotEchoAsWritten(s: Slot, sampleRate: int): (e: real)
    requires SlotValid(s, sampleRate) && |s.buffer| >= 1
    ensures s.readIndex < |s.buffer| && e == s.buffer[s.readIndex]
  {
    s.buffer[s.readIndex]
  }

  /** Each tap's delayed sample as `process_sample` reads it: at the read position
      stored by the previous call. */
  function EchoesAsWritten(m: MultiTap): (es: seq<real>)
    requires Valid(m) && Ready(m)
    ensures |es| == |m.taps|
    ensures forall i :: 0 <= i < |m.taps| ==> es[i] == SlotEchoAsWritten(SlotAt(m, i), m.base.settings.sampleRate)
  {
    seq(|m.taps|, i requires 0 <= i < |m.taps| => SlotEchoAsWritten(SlotAt(m, i), m.base.settings.sampleRate))
  }

  /** What every tap buffer receives: the input plus feedback times the
      average of the two channels' wet sums. */
  function FeedSample(s: BaseDelay.Settings, x: real, left: real, right: real): real
  {
    BaseDelay.Feed(s, x, (left + right) * 0.5)
  }

  datatype Processed = Processed(state: MultiTap, left: real, right: real)

  /** The body of `process_sample` once the taps' delayed samples `es` are
      known: the wet sums, the feedback sample written into every buffer,
      every write position advanced, every read position moved, and
      dry*x + wet*sum on each channel. */
  function Step(m: MultiTap, x: real, es: seq<real>): (r: Processed)
    requires Valid(m) && Ready(m) && |es| == |m.taps|
    ensures Valid(r.state) && Ready(r.state)
    ensures r.state.base == m.base && r.state.taps == m.taps && r.state.stereoOutput == m.stereoOutput
    ensures forall i :: 0 <= i < |m.taps| ==>
              SlotAt(r.state, i)
              == StepSlot(SlotAt(m, i), FeedSample(m.base.settings, x, Wet(m.taps, es, false), Wet(m.taps, es, true)),
                          m.base.settings.sampleRate)
    ensures r.left == BaseDelay.Mix(m.base.settings, x, Wet(m.taps, es, false))
    ensures r.right == BaseDelay.Mix(m.base.settings, x, Wet(m.taps, es, true))
  {
    var s := m.base.settings;
    var l, rr := Wet(m.taps, es, false), Wet(m.taps, es, true);
    var v := FeedSample(s, x, l, rr);
    var ss := seq(|m.taps|, i requires 0 <= i < |m.taps| => StepSlot(SlotAt(m, i), v, s.sampleRate));
    var state := Assemble(m.base, ss, m.stereoOutput);
    AssembleValid(m.base, ss, m.stereoOutput);
    assert state.taps == m.taps;
    Processed(state, BaseDelay.Mix(s, x, l), BaseDelay.Mix(s, x, rr))
  }

  /** `process_sample` as intended: `IndexError` when a tap buffer has no
      slot; otherwise every tap reads its delay back from the current
      write position, and both channels mix the input with the taps' wet
      sums. */
  function ProcessSample(m: MultiTap, x: real): (r: Outcome<Processed>)
    requires Valid(m)
    ensures r.Raised? <==> !Ready(m)
    ensures r.Raised? ==> r.error == "IndexError"
    ensures r.Returned? ==> Ready(m) && Valid(r.value.state) && Ready(r.value.state)
                            && r.value.state.base == m.base && r.value.state.taps == m.taps
    ensures r.Returned? ==> r.value.left == BaseDelay.Mix(m.base.settings, x, Wet(m.taps, Echoes(m), false))
                            && r.value.right == BaseDelay.Mix(m.base.settings, x, Wet(m.taps, Echoes(m), true))
  {
    if Ready(m) then Returned(Step(m, x, Echoes(m))) else Raised("IndexError")
  }

  /** `process_sample` as written: `IndexError` when a tap buffer has no
      slot; otherwise every tap reads at the read position the previous
      call stored. */
  function ProcessSampleAsWritten(m: MultiTap, x: real): (r: Outcome<Processed>)
    requires Valid(m)
    ensures r.Raised? <==> !Ready(m)
    ensures r.Raised? ==> r.error == "IndexError"
    ensures r.Returned? ==> Ready(m) && Valid(r.value.state) && Ready(r.value.state)
                            && r.value.state.base == m.base && r.value.state.taps == m.taps
    ensures r.Returned? ==> r.value.left == BaseDelay.Mix(m.base.settings, x, Wet(m.taps, EchoesAsWritten(m), false))
                            && r.value.right == BaseDelay.Mix(m.base.settings, x, Wet(m.taps, EchoesAsWritten(m), true))
  {
    if Ready(m) then Returned(Step(m, x, EchoesAsWritten(m))) else Raised("IndexError")
  }

  /** The defect: the read position a call stores is that call's write
      position, so the next call reads, in every tap, the sample just
      written, whatever the tap's delay: every tap echoes one sample
      late. */
  lemma AsWrittenEchoesPreviousSample(m: MultiTap, x: real, i: nat)
    requires Valid(m) && Ready(m) && i < |m.taps|
    ensures var es := EchoesAsWritten(m);
            EchoesAsWritten(ProcessSampleAsWritten(m, x).value.state)[i]
            == FeedSample(m.base.settings, x, Wet(m.taps, es, false), Wet(m.taps, es, true))
  {
  }

  /** As intended, a tap of `n` slots reads the slot about to be
      overwritten; after one call that is the sample written `n` calls
      earlier, which is the one just written only when `n` is 1. */
  lemma EchoReadsOldest(m: MultiTap, x: real, i: nat)
    requires Valid(m) && Ready(m) && i < |m.taps|
    ensures var s := SlotAt(m, i);
            var es := Echoes(m);
            var v := FeedSample(m.base.settings, x, Wet(m.taps, es, false), Wet(m.taps, es, true));
            var n := |s.buffer|;
            && RingBuffer.Valid(Lane(s))
            && (n == 1 ==> Echoes(ProcessSample(m, x).value.state)[i] == v)
            && (n >= 2 ==> Echoes(ProcessSample(m, x).value.state)[i] == RingBuffer.Read(Lane(s), n - 1))
  {
    var s := SlotAt(m, i);
    var es := Echoes(m);
    var v := FeedSample(m.base.settings, x, Wet(m.taps, es, false), Wet(m.taps, es, true));
    var n := |s.buffer|;
    var p := ProcessSample(m, x).value.state;
    assert SlotValid(s, m.base.settings.sampleRate);
    var t := SlotAt(p, i);
    assert Lane(t) == RingBuffer.Write(Lane(s), v);
    RingBuffer.StepBack(t.writeIndex, n, n);
    RingBuffer.ReadAfterWrite(Lane(s), v, n);
  }

  /** Which read `process_sample` performs: the stored read position, as
      the program does, or the tap's delay back from the write position, as
      intended. */
  datatype Reading = AsWritten | Intended

  /** Each tap's delayed sample under either reading. */
  function EchoesBy(how: Reading, m: MultiTap): (es: seq<real>)
    requires Valid(m) && Ready(m)
    ensures |es| == |m.taps|
  {
    match how
    case AsWritten => EchoesAsWritten(m)
    case Intended => Echoes(m)
  }

  /** `process_sample` under either reading, on a state whose tap buffers
      all have a slot: what `ProcessSample` or `ProcessSampleAsWritten`
      returns there. */
  function ProcessSampleBy(how: Reading, m: MultiTap, x: real): (r: Processed)
    requires Valid(m) && Ready(m)
    ensures Valid(r.state) && Ready(r.state) && r.state.base == m.base && r.state.taps == m.taps
    ensures how == Intended ==> ProcessSample(m, x) == Returned(r)
    ensures how == AsWritten ==> ProcessSampleAsWritten(m, x) == Returned(r)
  {
    Step(m, x, EchoesBy(how, m))
  }

  /** One `process_sample` call as a step of a run: the state it leaves
      and the left and right outputs. A state that is not valid, or has a
      tap buffer without a slot, is left alone: `ProcessBuffer` raises
      before a run from such a state starts, and a run from a valid state
      with every buffer non-empty never reaches one. */
  function Advance(how: Reading, m: MultiTap, x: real): MultiTap
  {
    if Valid(m) && Ready(m) then ProcessSampleBy(how, m, x).state else m
  }

  function LeftOut(how: Reading, m: MultiTap, x: real): real
  {
    if Valid(m) && Ready(m) then ProcessSampleBy(how, m, x).left else 0.0
  }

  function RightOut(how: Reading, m: MultiTap, x: real): real
  {
    if Valid(m) && Ready(m) then ProcessSampleBy(how, m, x).right else 0.0
  }

  /** The state after the first `t` samples of `xs`. */
  function After(how: Reading, m: MultiTap, xs: seq<real>, t: nat): MultiTap
    requires t <= |xs|
  {
    Runs.StateAfter((a, x) => Advance(how, a, x), m, xs, t)
  }

  /** Processing keeps the taps, the base delay and the validity of the state. */
  lemma {:induction false} AfterKeepsValid(how: Reading, m: MultiTap, xs: seq<real>, t: nat)
    requires Valid(m) && Ready(m) && t <= |xs|
    ensures var a := After(how, m, xs, t);
            Valid(a) && Ready(a) && a.base == m.base && a.taps == m.taps
    ensures t > 0 ==> After(how, m, xs, t) == ProcessSampleBy(how, After(how, m, xs, t - 1), xs[t - 1]).state
    decreases t
  {
    if t > 0 {
      AfterKeepsValid(how, m, xs, t - 1);
    }
  }

  /** `process_buffer`: `process_sample` on every input sample in order,
      the state threaded through, giving the final state and the left and
      right channels. A tap buffer without a slot makes the first sample
      raise `IndexError`; processing keeps every buffer's length, so no
      later sample raises. The program reads as `AsWritten`. */
  function ProcessBuffer(how: Reading, m: MultiTap, xs: seq<real>): (r: Outcome<(MultiTap, seq<real>, seq<real>)>)
    requires Valid(m)
    ensures r.Raised? <==> |xs| > 0 && !Ready(m)
    ensures r.Raised? ==> r.error == "IndexError"
    ensures r.Returned? ==> |r.value.1| == |xs| && |r.value.2| == |xs|
    ensures r.Returned? && |xs| == 0 ==> r.value.0 == m
    ensures r.Returned? ==> Valid(r.value.0) && r.value.0.base == m.base && r.value.0.taps == m.taps
  {
    if |xs| > 0 && !Ready(m) then Raised("IndexError")
    else
      var step := (a, x) => Advance(how, a, x);
      RunKeepsValid(how, m, xs);
      Returned((After(how, m, xs, |xs|),
                Runs.Outputs(step, (a, x) => LeftOut(how, a, x), m, xs, |xs|),
                Runs.Outputs(step, (a, x) => RightOut(how, a, x), m, xs, |xs|)))
  }

  /** A whole run keeps the state valid, the base delay and the taps,
      when it is empty or every tap buffer has a slot. */
  lemma RunKeepsValid(how: Reading, m: MultiTap, xs: seq<real>)
    requires Valid(m) && (|xs| == 0 || Ready(m))
    ensures var a := After(how, m, xs, |xs|);
            Valid(a) && a.base == m.base && a.taps == m.taps
  {
    if |xs| > 0 {
      AfterKeepsValid(how, m, xs, |xs|);
    }
  }

  /** Buffer processing is sample processing, one sample at a time: both
      channels' sample `t` are what `process_sample` returns in the state
      the samples before it reached, and the state left behind is valid,
      with the same taps, and the one after every sample. */
  lemma BufferIsSamples(how: Reading, m: MultiTap, xs: seq<real>, t: nat)
    requires Valid(m) && Ready(m) && t < |xs|
    ensures Valid(After(how, m, xs, t)) && Ready(After(how, m, xs, t))
    ensures ProcessBuffer(how, m, xs).value.1[t] == ProcessSampleBy(how, After(how, m, xs, t), xs[t]).left
    ensures ProcessBuffer(how, m, xs).value.2[t] == ProcessSampleBy(how, After(how, m, xs, t), xs[t]).right
    ensures ProcessBuffer(how, m, xs).value.0 == After(how, m, xs, |xs|)
    ensures Valid(ProcessBuffer(how, m, xs).value.0) && ProcessBuffer(how, m, xs).value.0.taps == m.taps
  {
    var step := (a, x) => Advance(how, a, x);
    AfterKeepsValid(how, m, xs, t);
    AfterKeepsValid(how, m, xs, |xs|);
    Runs.OutputAt(step, (a, x) => LeftOut(how, a, x), m, xs, |xs|, t);
    Runs.OutputAt(step, (a, x) => RightOut(how, a, x), m, xs, |xs|, t);
  }

  /** A tap of zero seconds is accepted by `add_tap` and gets a buffer
      without a slot, so the next sample raises under either reading, and
      so does a buffer of at least one sample. */
  lemma ZeroDelayTapRaises(m: MultiTap, level: real, pan: real, x: real, xs: seq<real>)
    requires Valid(m) && |xs| > 0
    ensures BaseDelay.Samples(0.0, m.base.settings.sampleRate) == 0
    ensures var a := AddTap(m, 0.0, level, pan);
            && ProcessSample(a, x) == Raised("IndexError")
            && ProcessSampleAsWritten(a, x) == Raised("IndexError")
            && ProcessBuffer(AsWritten, a, xs) == Raised("IndexError")
  {
    var a := AddTap(m, 0.0, level, pan);
    assert |a.buffers[|m.taps|]| == 0;
  }

  /** With no taps a multi-tap delay passes the dry signal and its lists
      stay empty, whichever read it performs. */
  lemma NoTapsIsDry(how: Reading, m: MultiTap, x: real)
    requires Valid(m) && Ready(m) && |m.taps| == 0
    ensures ProcessSampleBy(how, m, x).left == ProcessSampleBy(how, m, x).right == BaseDelay.Mix(m.base.settings, x, 0.0)
    ensures ProcessSampleBy(how, m, x).state == m
  {
    var p := ProcessSampleBy(how, m, x).state;
    assert p.buffers == m.buffers && p.writeIndices == m.writeIndices && p.readIndices == m.readIndices;
  }

  /** With no taps both channels of a processed buffer are the dry signal. */
  lemma NoTapsBufferIsDry(how: Reading, m: MultiTap, xs: seq<real>, t: nat)
    requires Valid(m) && Ready(m) && |m.taps| == 0 && t < |xs|
    ensures ProcessBuffer(how, m, xs).value.1[t] == ProcessBuffer(how, m, xs).value.2[t] == BaseDelay.Mix(m.base.settings, xs[t], 0.0)
  {
    var a := After(how, m, xs, t);
    AfterKeepsValid(how, m, xs, t);
    BufferIsSamples(how, m, xs, t);
    NoTapsIsDry(how, a, xs[t]);
  }
}

=== FILE: pitch.dfy ===
/** Note names shared by every component: the sharp-spelled chromatic scale,
    the octave-4 reference frequencies used by the synth and by the Chordino
    note builder, the nine-octave pitch table of the polyphonic detector and
    the tuner, and note-table keys such as "A4". */
module Pitch {
  import opened Base

  const Chromatic: seq<string> := ["C", "C#", "D", "D#", "E", "F", "F#", "G", "G#", "A", "A#", "B"]

  /** Hz of each chromatic note in octave 4, aligned with `Chromatic`. */
  const Octave4Hz: seq<real> := [261.63, 277.18, 293.66, 311.13, 329.63, 349.23,
                                 369.99, 392.00, 415.30, 440.00, 466.16, 493.88]

  /** Equal-tempered pitches in Hz: one row per chromatic note (in the order
      of `Chromatic`), one column per octave from 0 to 8. */
  const ScaleHz: seq<seq<real>> := [
    [16.35, 32.70, 65.41, 130.81, 261.63, 523.25, 1046.50, 2093.00, 4186.01],
    [17.32, 34.65, 69.30, 138.59, 277.18, 554.37, 1108.73, 2217.46, 4434.92],
    [18.35, 36.71, 73.42, 146.83, 293.66, 587.33, 1174.66, 2349.32, 4698.64],
    [19.45, 38.89, 77.78, 155.56, 311.13, 622.25, 1244.51, 2489.02, 4978.03],
    [20.60, 41.20, 82.41, 164.81, 329.63, 659.25, 1318.51, 2637.02, 5274.04],
    [21.83, 43.65, 87.31, 174.61, 349.23, 698.46, 1396.91, 2793.83, 5587.65],
    [23.12, 46.25, 92.50, 185.00, 369.99, 739.99, 1479.98, 2959.96, 5919.91],
    [24.50, 49.00, 98.00, 196.00, 392.00, 783.99, 1567.98, 3135.96, 6271.93],
    [25.96, 51.91, 103.83, 207.65, 415.30, 830.61, 1661.22, 3322.44, 6644.88],
    [27.50, 55.00, 110.00, 220.00, 440.00, 880.00, 1760.00, 3520.00, 7040.00],
    [29.14, 58.27, 116.54, 233.08, 466.16, 932.33, 1864.66, 3729.31, 7458.62],
    [30.87, 61.74, 123.47, 246.94, 493.88, 987.77, 1975.53, 3951.07, 7902.13]
  ]

  /** The table pitch of note `n` in octave `o`. */
  function TableHz(n: nat, o: nat): real
    requires n < 12 && o < 9
  {
    ScaleHz[n][o]
  }

  /** The character of a decimal digit. */
  function Digit(d: nat): char
    requires d < 10
  {
    ('0' as int + d) as char
  }

  /** Python's `int()` of a one-character digit string. */
  function DigitValue(c: char): int
  {
    c as int - '0' as int
  }

  /** A note-table key: the name of note `n` followed by the octave digit. */
  function Key(n: nat, octave: nat): (key: string)
    requires n < 12 && octave < 10
    ensures |key| >= 2
  {
    Chromatic[n] + [Digit(octave)]
  }

  /** Dropping a key's last character leaves the note name, and its last
      character reads back as the octave. */
  lemma KeyParts(n: nat, octave: nat)
    requires n < 12 && octave < 10
    ensures Key(n, octave)[..|Key(n, octave)| - 1] == Chromatic[n]
    ensures DigitValue(Key(n, octave)[|Key(n, octave)| - 1]) == octave
  {
    assert (Chromatic[n] + [Digit(octave)])[..|Chromatic[n]|] == Chromatic[n];
  }

  lemma ChromaticDistinct()
    ensures forall i, j :: 0 <= i < j < |Chromatic| ==> Chromatic[i] != Chromatic[j]
  {
  }

  function IndexFrom(name: string, i: nat): (r: Option<nat>)
    requires i <= |Chromatic|
    ensures r.Some? ==> i <= r.value < |Chromatic| && Chromatic[r.value] == name
    ensures r.None? <==> forall j :: i <= j < |Chromatic| ==> Chromatic[j] != name
    decreases |Chromatic| - i
  {
    if i == |Chromatic| then None
    else if Chromatic[i] == name then Some(i)
    else IndexFrom(name, i + 1)
  }

  /** Python's `chromatic_scale.index(name)`, `None` where it would raise. */
  function IndexOf(name: string): (r: Option<nat>)
    ensures r.Some? ==> r.value < 12 && Chromatic[r.value] == name
    ensures r.None? <==> name !in Chromatic
  {
    IndexFrom(name, 0)
  }

  lemma IndexOfAt(i: nat)
    requires i < 12
    ensures IndexOf(Chromatic[i]) == Some(i)
  {
    ChromaticDistinct();
  }

  /** The note `semis` semitones above the note at index `root`. */
  function NoteAbove(root: nat, semis: int): string
    requires root < 12
  {
    Chromatic[(root + semis) % 12]
  }

  lemma IndexOfNoteAbove(root: nat, semis: int)
    requires root < 12
    ensures IndexOf(NoteAbove(root, semis)) == Some((root + semis) % 12)
  {
    ChromaticDistinct();
  }

  /** The octave-4 table lookup (`dict.get`), `None` for an unknown name. */
  function Octave4Frequency(name: string): (r: Option<real>)
    ensures r.Some? <==> name in Chromatic
    ensures r.Some? ==> r.value > 0.0 && IndexOf(name).Some? && r.value == Octave4Hz[IndexOf(name).value]
  {
    match IndexOf(name)
    case Some(i) => Some(Octave4Hz[i])
    case None => None
  }
}

=== FILE: polyphonic.dfy ===
/** The polyphonic chord detector's symbolic half: spectral peaks in the
    guitar range are named after the nearest pitch of a nine-octave table,
    peaks within 25 cents of each other are merged into their strongest
    member, the six strongest notes are kept, and the chord is read off the
    note names with the lowest note as the root. The constant-Q spectrum and
    its peak picking, and the logarithm behind cents, are inputs. */
module Polyphonic {
  import opened Base
  import Pitch
  import Select
  import Sorting
  import ChordDetector
  import SimpleChord

  /** Entry `e` of the table read row by row (nine octaves per note), the
      order the nearest-note search visits them in. */
  function EntryHz(e: nat): real
    requires e < 108
  {
    Pitch.TableHz(e / 9, e % 9)
  }

  /** Row `n`, octave `o` is entry `9 * n + o`. */
  lemma EntryOf(n: nat, o: nat)
    requires n < 12 && o < 9
    ensures 9 * n + o < 108 && EntryHz(9 * n + o) == Pitch.TableHz(n, o)
  {
    DivModUnique(9 * n + o, 9, n, o);
  }

  /** The cents distance from `f` to each entry, in visiting order.
      `cents(f, ref)` stands for 1200 * log2(f / ref). */
  function CentsOffs(f: real, cents: (real, real) -> real): (d: seq<real>)
    ensures |d| == 108
    ensures forall e :: 0 <= e < 108 ==> d[e] == Abs(cents(f, EntryHz(e)))
  {
    seq(108, e requires 0 <= e < 108 => Abs(cents(f, EntryHz(e))))
  }

  /** The entry nearest to `f` in cents; the first visited wins a tie, as the
      search replaces its best only on a strictly smaller distance. */
  function NearestEntry(f: real, cents: (real, real) -> real): (e: nat)
    ensures e < 108
    ensures forall j :: 0 <= j < 108 ==> Abs(cents(f, EntryHz(e))) <= Abs(cents(f, EntryHz(j)))
    ensures forall j :: 0 <= j < e ==> Abs(cents(f, EntryHz(e))) < Abs(cents(f, EntryHz(j)))
  {
    Select.ArgMinFirst(CentsOffs(f, cents))
  }

  /** A frequency named as a note. */
  datatype NoteReading = NoteReading(frequency: real, note: string, octave: int, centsOff: real,
                                     tuning: SimpleChord.Tuning,
                                     guitarString: Option<SimpleChord.StringMatch>)

  /** The nearest note to `f` (nothing for a frequency that is not
      positive), graded in tune below 15 cents and slightly off below 35,
      with the first open string within 75 cents. */
  function FrequencyToNote(f: real, cents: (real, real) -> real): (r: Option<NoteReading>)
    ensures r.None? <==> f <= 0.0
    ensures r.Some? ==> r.value.frequency == f && r.value.note in Pitch.Chromatic && 0 <= r.value.octave <= 8
    ensures r.Some? ==> r.value.tuning == SimpleChord.TuningGrade(r.value.centsOff, 15.0, 35.0)
    ensures r.Some? ==> r.value.guitarString == SimpleChord.StringWithin(f, cents, 75.0)
  {
    if f <= 0.0 then None
    else
      var e := NearestEntry(f, cents);
      var c := cents(f, EntryHz(e));
      Some(NoteReading(f, Pitch.Chromatic[e / 9], e % 9, c, SimpleChord.TuningGrade(c, 15.0, 35.0),
                       SimpleChord.StringWithin(f, cents, 75.0)))
  }

  /** The reported note and octave name the table pitch the cents are
      measured against, and no table pitch is nearer in cents. */
  lemma NearestNoteIsNearest(f: real, cents: (real, real) -> real)
    requires f > 0.0
    ensures var r := FrequencyToNote(f, cents).value;
            && Pitch.IndexOf(r.note).Some?
            && r.centsOff == cents(f, Pitch.TableHz(Pitch.IndexOf(r.note).value, r.octave))
            && forall n, o :: 0 <= n < 12 && 0 <= o < 9 ==> Abs(r.centsOff) <= Abs(cents(f, Pitch.TableHz(n, o)))
  {
    var e := NearestEntry(f, cents);
    Pitch.IndexOfAt(e / 9);
    forall n, o | 0 <= n < 12 && 0 <= o < 9
      ensures Abs(cents(f, EntryHz(e))) <= Abs(cents(f, Pitch.TableHz(n, o)))
    {
      EntryOf(n, o);
    }
  }

  /** A spectral peak: its frequency, magnitude and time frame. */
  datatype Candidate = Candidate(frequency: real, magnitude: real, frame: int)

  /** A named peak. */
  datatype PolyNote = PolyNote(reading: NoteReading, magnitude: real, frame: int)

  function Frequency(n: PolyNote): real
  {
    n.reading.frequency
  }

  function Magnitude(n: PolyNote): real
  {
    n.magnitude
  }

  /** A peak strictly between 80 and 1200 Hz, named, with its magnitude and
      frame; nothing for any other peak. */
  function ReadingOf(c: Candidate, cents: (real, real) -> real): (r: Option<PolyNote>)
    ensures r.Some? <==> 80.0 < c.frequency < 1200.0
    ensures r.Some? ==> r.value.reading == FrequencyToNote(c.frequency, cents).value
                        && r.value.magnitude == c.magnitude && r.value.frame == c.frame
  {
    if 80.0 < c.frequency < 1200.0 then
      match FrequencyToNote(c.frequency, cents)
      case Some(n) => Some(PolyNote(n, c.magnitude, c.frame))
      case None => None
    else None
  }

  /** `ReadingOf` as a function of the peak alone. */
  function Reader(cents: (real, real) -> real): Candidate -> Option<PolyNote>
  {
    c => ReadingOf(c, cents)
  }

  /** The peaks strictly between 80 and 1200 Hz, named, in their order. */
  function Readings(cands: seq<Candidate>, cents: (real, real) -> real): (r: seq<PolyNote>)
    ensures |r| <= |cands|
    ensures forall n :: n in r <==> exists j :: 0 <= j < |cands| && ReadingOf(cands[j], cents) == Some(n)
    ensures forall i :: 0 <= i < |r| ==> 80.0 < Frequency(r[i]) < 1200.0 && r[i].reading.note in Pitch.Chromatic
  {
    FilterMapMembers(cands, Reader(cents));
    var r := FilterMap(cands, Reader(cents));
    assert forall i :: 0 <= i < |r| ==> r[i] in r;
    r
  }

  /** Which peaks are read, how often and in what order: the readings of a
      concatenation are those of its parts in turn, and one peak gives its
      reading or nothing. */
  lemma ReadingsInOrder(a: seq<Candidate>, b: seq<Candidate>, cents: (real, real) -> real)
    ensures Readings(a + b, cents) == Readings(a, cents) + Readings(b, cents)
    ensures |a| == 1 && 80.0 < a[0].frequency < 1200.0 ==> Readings(a, cents) == [ReadingOf(a[0], cents).value]
    ensures |a| == 1 && !(80.0 < a[0].frequency < 1200.0) ==> Readings(a, cents) == []
  {
    FilterMapAppend(a, b, Reader(cents));
  }

  /** Concatenation of groups. */
  function Flatten(gs: seq<seq<PolyNote>>): (r: seq<PolyNote>)
  {
    if |gs| == 0 then [] else gs[0] + Flatten(gs[1..])
  }

  /** The grouping pass over frequency-sorted notes: the next note joins the
      current group when it lies under 25 cents above the group's first note,
      and otherwise starts a new group. */
  function GroupFrom(rest: seq<PolyNote>, current: seq<PolyNote>, cents: (real, real) -> real): (gs: seq<seq<PolyNote>>)
    requires |current| > 0
    ensures |gs| > 0 && forall k :: 0 <= k < |gs| ==> |gs[k]| > 0
    ensures gs[0][0] == current[0]
    decreases |rest|
  {
    if |rest| == 0 then [current]
    else if cents(Frequency(rest[0]), Frequency(current[0])) < 25.0 then GroupFrom(rest[1..], current + [rest[0]], cents)
    else [current] + GroupFrom(rest[1..], [rest[0]], cents)
  }

  /** The groups cut the list into consecutive pieces: nothing is lost,
      added or reordered. */
  lemma {:induction false} GroupsPartition(rest: seq<PolyNote>, current: seq<PolyNote>, cents: (real, real) -> real)
    requires |current| > 0
    ensures Flatten(GroupFrom(rest, current, cents)) == current + rest
    decreases |rest|
  {
    if |rest| > 0 {
      if cents(Frequency(rest[0]), Frequency(current[0])) < 25.0 {
        GroupsPartition(rest[1..], current + [rest[0]], cents);
        assert current + [rest[0]] + rest[1..] == current + rest;
      } else {
        var gs := GroupFrom(rest[1..], [rest[0]], cents);
        GroupsPartition(rest[1..], [rest[0]], cents);
        assert ([current] + gs)[1..] == gs;
        assert [rest[0]] + rest[1..] == rest;
      }
    }
  }

  /** Every member of a group lies under 25 cents above the group's first
      note. */
  ghost predicate Tight(gs: seq<seq<PolyNote>>, cents: (real, real) -> real)
  {
    forall g, k :: 0 <= g < |gs| && 1 <= k < |gs[g]| ==> cents(Frequency(gs[g][k]), Frequency(gs[g][0])) < 25.0
  }

  /** Each group after the first starts 25 cents or more above the first
      note of the group before it. */
  ghost predicate Separated(gs: seq<seq<PolyNote>>, cents: (real, real) -> real)
    requires forall g :: 0 <= g < |gs| ==> |gs[g]| > 0
  {
    forall g :: 1 <= g < |gs| ==> cents(Frequency(gs[g][0]), Frequency(gs[g - 1][0])) >= 25.0
  }

  /** The grouping is tight and separated: a note joins a group exactly
      when it is near that group's first note. */
  lemma {:induction false} GroupsAreTight(rest: seq<PolyNote>, current: seq<PolyNote>, cents: (real, real) -> real)
    requires |current| > 0
    requires forall k :: 1 <= k < |current| ==> cents(Frequency(current[k]), Frequency(current[0])) < 25.0
    ensures Tight(GroupFrom(rest, current, cents), cents)
    ensures Separated(GroupFrom(rest, current, cents), cents)
    decreases |rest|
  {
    if |rest| > 0 {
      if cents(Frequency(rest[0]), Frequency(current[0])) < 25.0 {
        var joined := current + [rest[0]];
        assert forall k :: 1 <= k < |joined| ==> cents(Frequency(joined[k]), Frequency(joined[0])) < 25.0;
        GroupsAreTight(rest[1..], joined, cents);
      } else {
        GroupsAreTight(rest[1..], [rest[0]], cents);
        var gs := GroupFrom(rest[1..], [rest[0]], cents);
        var all := [current] + gs;
        assert all == GroupFrom(rest, current, cents);
        assert forall g :: 1 <= g < |all| ==> all[g] == gs[g - 1];
        forall g, k | 0 <= g < |all| && 1 <= k < |all[g]|
          ensures cents(Frequency(all[g][k]), Frequency(all[g][0])) < 25.0
        {
          if g > 0 {
            assert all[g] == gs[g - 1];
          }
        }
        forall g | 1 <= g < |all|
          ensures cents(Frequency(all[g][0]), Frequency(all[g - 1][0])) >= 25.0
        {
          if g > 1 {
            assert all[g - 1] == gs[g - 2];
          }
        }
      }
    } else {
      assert GroupFrom(rest, current, cents) == [current];
    }
  }

  /** Each group is at least one note long, so there are no more groups than
      notes. */
  lemma {:induction false} GroupCount(gs: seq<seq<PolyNote>>)
    requires forall k :: 0 <= k < |gs| ==> |gs[k]| > 0
    ensures |gs| <= |Flatten(gs)|
  {
    if |gs| > 0 {
      GroupCount(gs[1..]);
    }
  }

  /** A member of a group is an element of the flattened list. */
  lemma {:induction false} InFlatten(gs: seq<seq<PolyNote>>, k: nat, x: PolyNote)
    requires k < |gs| && x in gs[k]
    ensures x in Flatten(gs)
  {
    if k > 0 {
      InFlatten(gs[1..], k - 1, x);
    }
  }

  /** The notes from lowest to highest (a stable sort). */
  function ByFrequency(notes: seq<PolyNote>): (r: seq<PolyNote>)
    ensures |r| == |notes| && multiset(r) == multiset(notes)
    ensures forall i, j :: 0 <= i < j < |r| ==> Frequency(r[i]) <= Frequency(r[j])
  {
    Sorting.SortBy(notes, Frequency)
  }

  /** The groups of the frequency-sorted notes. */
  function Groups(notes: seq<PolyNote>, cents: (real, real) -> real): (gs: seq<seq<PolyNote>>)
    requires |notes| > 0
    ensures |gs| > 0 && forall k :: 0 <= k < |gs| ==> |gs[k]| > 0
  {
    var sorted := ByFrequency(notes);
    GroupFrom(sorted[1..], [sorted[0]], cents)
  }

  function Magnitudes(g: seq<PolyNote>): (m: seq<real>)
    ensures |m| == |g| && forall i :: 0 <= i < |g| ==> m[i] == g[i].magnitude
  {
    seq(|g|, i requires 0 <= i < |g| => g[i].magnitude)
  }

  /** The first member of largest magnitude (Python's `max` with a key). */
  function Strongest(g: seq<PolyNote>): (n: PolyNote)
    requires |g| > 0
    ensures n in g
    ensures forall i :: 0 <= i < |g| ==> g[i].magnitude <= n.magnitude
  {
    g[Select.ArgMaxFirst(Magnitudes(g))]
  }

  /** One note per group: its strongest member. */
  function Deduplicate(notes: seq<PolyNote>, cents: (real, real) -> real): (r: seq<PolyNote>)
    ensures |notes| == 0 ==> r == []
    ensures |notes| > 0 ==> 0 < |r| <= |notes|
    ensures forall i :: 0 <= i < |r| ==> r[i] in notes
  {
    if |notes| == 0 then []
    else
      var sorted := ByFrequency(notes);
      var gs := Groups(notes, cents);
      GroupsPartition(sorted[1..], [sorted[0]], cents);
      assert [sorted[0]] + sorted[1..] == sorted;
      GroupCount(gs);
      var r := seq(|gs|, k requires 0 <= k < |gs| => Strongest(gs[k]));
      assert forall i :: 0 <= i < |r| ==> r[i] in notes by {
        forall i | 0 <= i < |r| ensures r[i] in notes {
          InFlatten(gs, i, r[i]);
          assert r[i] in multiset(sorted);
        }
      }
      r
  }

  /** The kept note of each group is its strongest member; the groups
      together are the input sorted by frequency, each tight around its
      first note and separated from the one before. */
  lemma DeduplicateKeepsStrongest(notes: seq<PolyNote>, cents: (real, real) -> real)
    requires |notes| > 0
    ensures |Deduplicate(notes, cents)| == |Groups(notes, cents)|
    ensures forall k :: 0 <= k < |Groups(notes, cents)| ==>
              Deduplicate(notes, cents)[k] in Groups(notes, cents)[k]
              && forall x :: x in Groups(notes, cents)[k] ==> x.magnitude <= Deduplicate(notes, cents)[k].magnitude
    ensures Flatten(Groups(notes, cents)) == ByFrequency(notes)
    ensures Tight(Groups(notes, cents), cents) && Separated(Groups(notes, cents), cents)
  {
    var sorted := ByFrequency(notes);
    GroupsPartition(sorted[1..], [sorted[0]], cents);
    GroupsAreTight(sorted[1..], [sorted[0]], cents);
    assert [sorted[0]] + sorted[1..] == sorted;
  }

  /** Every note is a candidate for the six strongest: the program slices
      the sorted list without filtering it first. */
  predicate KeepAll(n: PolyNote)
  {
    true
  }

  /** The six strongest of `unique`, strongest first: fewer only when there
      are fewer, and none left out is stronger than the last one kept. */
  function StrongestSix(unique: seq<PolyNote>): (r: seq<PolyNote>)
    ensures |r| == if |unique| < 6 then |unique| else 6
    ensures forall i, j :: 0 <= i < j < |r| ==> r[i].magnitude >= r[j].magnitude
    ensures forall i :: 0 <= i < |r| ==> r[i] in unique
    ensures |r| > 0 ==> forall x :: x in unique && x !in r ==> x.magnitude <= r[|r| - 1].magnitude
  {
    Sorting.TopByKeepsAll(unique, KeepAll, Magnitude, 6);
    Sorting.TopBy(unique, KeepAll, Magnitude, 6)
  }

  /** The named, merged peaks: the six strongest, strongest first. */
  function ExtractPolyphonicNotes(cands: seq<Candidate>, cents: (real, real) -> real): (r: seq<PolyNote>)
    ensures r == StrongestSix(Deduplicate(Readings(cands, cents), cents))
    ensures |r| <= 6
    ensures forall i, j :: 0 <= i < j < |r| ==> r[i].magnitude >= r[j].magnitude
    ensures forall i :: 0 <= i < |r| ==> r[i] in Readings(cands, cents)
    ensures forall i :: 0 <= i < |r| ==> 80.0 < Frequency(r[i]) < 1200.0 && r[i].reading.note in Pitch.Chromatic
    ensures |r| == 0 <==> |Readings(cands, cents)| == 0
  {
    var named := Readings(cands, cents);
    var unique := Deduplicate(named, cents);
    StrongestSix(unique)
  }

  /** `_get_note_at_interval`: the note `semitones` above `root`; `None`
      where looking the root up raises (a name outside the scale). */
  function NoteAtInterval(root: string, semitones: int): (r: Option<string>)
    ensures r.None? <==> root !in Pitch.Chromatic
    ensures r.Some? ==> r.value == Pitch.NoteAbove(Pitch.IndexOf(root).value, semitones)
  {
    match Pitch.IndexOf(root)
    case None => None
    case Some(i) => Some(Pitch.NoteAbove(i, semitones))
  }

  /** The quality from the names, the first name being the root: "power"
      for fewer than three names, else major for a major third and a fifth,
      minor for a minor third and a fifth, "power" for a fifth alone and
      "unknown" otherwise. `None` where the root lookup raises. */
  function DetermineChordQuality(names: seq<string>): (q: Option<string>)
    ensures |names| < 3 ==> q == Some("power")
    ensures q.None? <==> |names| >= 3 && names[0] !in Pitch.Chromatic
  {
    if |names| < 3 then Some("power")
    else
      match NoteAtInterval(names[0], 4)
      case None => None
      case Some(majorThird) =>
        var minorThird := NoteAtInterval(names[0], 3).value;
        var fifth := NoteAtInterval(names[0], 7).value;
        Some(if majorThird in names && fifth in names then "major"
             else if minorThird in names && fifth in names then "minor"
             else if fifth in names then "power"
             else "unknown")
  }

  /** C, E, G reads as major. */
  lemma CMajorIsMajor()
    ensures DetermineChordQuality(["C", "E", "G"]) == Some("major")
  {
    Pitch.IndexOfAt(0);
    assert Pitch.NoteAbove(0, 4) == "E" && Pitch.NoteAbove(0, 7) == "G";
  }

  /** The names moved up by `shift` semitones. */
  function Transpose(names: seq<string>, shift: int): (r: seq<string>)
    requires forall k :: 0 <= k < |names| ==> names[k] in Pitch.Chromatic
    ensures |r| == |names|
    ensures forall k :: 0 <= k < |r| ==> r[k] == Pitch.NoteAbove(Pitch.IndexOf(names[k]).value, shift)
  {
    seq(|names|, k requires 0 <= k < |names| => Pitch.NoteAbove(Pitch.IndexOf(names[k]).value, shift))
  }

  /** Two notes moved by the same amount land on the same note only if they
      started on the same note. */
  lemma ShiftCancels(a: nat, b: nat, s: int)
    requires a < 12 && b < 12 && (a + s) % 12 == (b + s) % 12
    ensures a == b
  {
    ChordDetector.ModShift(a + s, -s, 12);
    ChordDetector.ModShift(b + s, -s, 12);
  }

  /** A note is among the transposed names exactly when the note it came
      from is among the names. */
  lemma TransposeMembership(names: seq<string>, shift: int, j: nat)
    requires forall k :: 0 <= k < |names| ==> names[k] in Pitch.Chromatic
    requires j < 12
    ensures Pitch.NoteAbove(j, shift) in Transpose(names, shift) <==> Pitch.Chromatic[j] in names
  {
    var t := Transpose(names, shift);
    if Pitch.Chromatic[j] in names {
      var k :| 0 <= k < |names| && names[k] == Pitch.Chromatic[j];
      Pitch.IndexOfAt(j);
      assert t[k] == Pitch.NoteAbove(j, shift);
    }
    if Pitch.NoteAbove(j, shift) in t {
      var k :| 0 <= k < |t| && t[k] == Pitch.NoteAbove(j, shift);
      var i := Pitch.IndexOf(names[k]).value;
      NoteAboveCancels(i, j, shift);
      assert names[k] == Pitch.Chromatic[j];
    }
  }

  /** Moving two notes by the same amount keeps them apart. */
  lemma NoteAboveCancels(a: nat, b: nat, s: int)
    requires a < 12 && b < 12 && Pitch.NoteAbove(a, s) == Pitch.NoteAbove(b, s)
    ensures a == b
  {
    Pitch.IndexOfNoteAbove(a, s);
    Pitch.IndexOfNoteAbove(b, s);
    ShiftCancels(a, b, s);
  }

  /** The note `s` semitones above the transposed root is the transposed
      note `s` semitones above the root. */
  lemma IntervalAboveTransposed(root: string, i: nat, shift: int, s: int)
    requires i < 12 && root == Pitch.Chromatic[i]
    ensures NoteAtInterval(Pitch.NoteAbove(i, shift), s) == Some(Pitch.NoteAbove((i + s) % 12, shift))
    ensures NoteAtInterval(root, s) == Some(Pitch.Chromatic[(i + s) % 12])
  {
    NoteAboveTransposed(i, shift, s);
    NoteAtIndex(i, s);
  }

  lemma NoteAboveTransposed(i: nat, shift: int, s: int)
    requires i < 12
    ensures NoteAtInterval(Pitch.NoteAbove(i, shift), s) == Some(Pitch.NoteAbove((i + s) % 12, shift))
  {
    Pitch.IndexOfNoteAbove(i, shift);
    var j := (i + shift) % 12;
    assert NoteAtInterval(Pitch.NoteAbove(i, shift), s) == Some(Pitch.NoteAbove(j, s));
    ChordDetector.SameNoteAbove(i, shift, s);
    ChordDetector.SameNoteAbove(i, s, shift);
    assert shift + s == s + shift;
  }
  lemma NoteAtIndex(i: nat, s: int)
    requires i < 12
    ensures NoteAtInterval(Pitch.Chromatic[i], s) == Some(Pitch.Chromatic[(i + s) % 12])
  {
    Pitch.IndexOfAt(i);
  }


  /** The quality does not depend on the key: moving every name by the same
      number of semitones keeps it. */
  lemma QualityIgnoresKey(names: seq<string>, shift: int)
    requires forall k :: 0 <= k < |names| ==> names[k] in Pitch.Chromatic
    ensures DetermineChordQuality(Transpose(names, shift)) == DetermineChordQuality(names)
  {
    if |names| >= 3 {
      var t := Transpose(names, shift);
      var i := Pitch.IndexOf(names[0]).value;
      assert t[0] == Pitch.NoteAbove(i, shift);
      assert names[0] == Pitch.Chromatic[i];
      IntervalAboveTransposed(names[0], i, shift, 3);
      IntervalAboveTransposed(names[0], i, shift, 4);
      IntervalAboveTransposed(names[0], i, shift, 7);
      TransposeMembership(names, shift, (i + 3) % 12);
      TransposeMembership(names, shift, (i + 4) % 12);
      TransposeMembership(names, shift, (i + 7) % 12);
      SameQuality(names, t,
                  Pitch.Chromatic[(i + 3) % 12], Pitch.Chromatic[(i + 4) % 12], Pitch.Chromatic[(i + 7) % 12],
                  Pitch.NoteAbove((i + 3) % 12, shift), Pitch.NoteAbove((i + 4) % 12, shift),
                  Pitch.NoteAbove((i + 7) % 12, shift));
    }
  }

  /** Two name lists whose thirds and fifths above the first name are
      present or absent alike have the same quality. */
  lemma SameQuality(a: seq<string>, b: seq<string>, minor: string, major: string, fifth: string,
                    minor': string, major': string, fifth': string)
    requires |a| >= 3 && |b| >= 3
    requires NoteAtInterval(a[0], 3) == Some(minor) && NoteAtInterval(b[0], 3) == Some(minor')
    requires NoteAtInterval(a[0], 4) == Some(major) && NoteAtInterval(b[0], 4) == Some(major')
    requires NoteAtInterval(a[0], 7) == Some(fifth) && NoteAtInterval(b[0], 7) == Some(fifth')
    requires (minor in a <==> minor' in b) && (major in a <==> major' in b) && (fifth in a <==> fifth' in b)
    ensures DetermineChordQuality(b) == DetermineChordQuality(a)
  {
  }


  /** Every root-position major triad reads as major. */
  lemma MajorTriadsAreMajor(shift: int)
    ensures DetermineChordQuality(Transpose(["C", "E", "G"], shift)) == Some("major")
  {
    CMajorIsMajor();
    QualityIgnoresKey(["C", "E", "G"], shift);
  }

  /** The deduction for one note: a tenth for more than 50 cents off, a
      twentieth for more than 25. */
  function NotePenalty(centsOff: real): (p: real)
    ensures 0.0 <= p <= 0.1
    ensures p == 0.0 <==> Abs(centsOff) <= 25.0
  {
    if Abs(centsOff) > 50.0 then 0.1 else if Abs(centsOff) > 25.0 then 0.05 else 0.0
  }

  function Penalty(notes: seq<PolyNote>): (p: real)
    ensures 0.0 <= p <= 0.1 * |notes| as real
  {
    if |notes| == 0 then 0.0 else Penalty(notes[..|notes| - 1]) + NotePenalty(notes[|notes| - 1].reading.centsOff)
  }

  /** Notes within 25 cents cost nothing. */
  lemma {:induction false} InTuneNoPenalty(notes: seq<PolyNote>)
    requires forall i :: 0 <= i < |notes| ==> Abs(notes[i].reading.centsOff) <= 25.0
    ensures Penalty(notes) == 0.0
  {
    if |notes| > 0 {
      InTuneNoPenalty(notes[..|notes| - 1]);
    }
  }

  /** The count grade min(n / 4, 1) less the tuning deductions, floored at
      0.1 and capped at 1; 0 without notes. */
  function ChordConfidence(notes: seq<PolyNote>): (c: real)
    ensures |notes| == 0 ==> c == 0.0
    ensures |notes| > 0 ==> 0.1 <= c <= 1.0
    ensures |notes| > 0 ==> c == 0.1 || c <= Min(|notes| as real / 4.0, 1.0)
  {
    if |notes| == 0 then 0.0
    else Min(Max(Min(|notes| as real / 4.0, 1.0) - Penalty(notes), 0.1), 1.0)
  }

  /** With every note within 25 cents the confidence is the count grade. */
  lemma InTuneConfidence(notes: seq<PolyNote>)
    requires |notes| > 0 && forall i :: 0 <= i < |notes| ==> Abs(notes[i].reading.centsOff) <= 25.0
    ensures ChordConfidence(notes) == Min(|notes| as real / 4.0, 1.0)
  {
    InTuneNoPenalty(notes);
  }

  /** A whole detection. */
  datatype ChordResult = ChordResult(root: string, quality: string, notes: seq<string>, details: seq<PolyNote>,
                                     confidence: real, valid: bool, timestamp: real)

  function EmptyResult(now: real): ChordResult
  {
    ChordResult("Unknown", "unknown", [], [], 0.0, false, now)
  }

  function NamesOf(notes: seq<PolyNote>): (r: seq<string>)
    ensures |r| == |notes| && forall i :: 0 <= i < |notes| ==> r[i] == notes[i].reading.note
  {
    seq(|notes|, i requires 0 <= i < |notes| => notes[i].reading.note)
  }

  /** Reads the chord off the notes. `clock` is what reading the clock gives:
      a time, or the exception raised. */
  function AnalyzeChordStructure(notes: seq<PolyNote>, clock: Outcome<real>): (r: Outcome<ChordResult>)
    ensures clock.Raised? ==> r.Raised?
    ensures clock.Returned? && |notes| == 0 ==> r == Returned(EmptyResult(clock.value))
    ensures clock.Returned? && |notes| > 0 && (forall i :: 0 <= i < |notes| ==> notes[i].reading.note in Pitch.Chromatic) ==>
              r.Returned? && r.value.valid && r.value.details == notes && r.value.timestamp == clock.value
    ensures clock.Returned? && |notes| > 0 ==>
              (r.Raised? <==> DetermineChordQuality(NamesOf(ByFrequency(notes))).None?)
    ensures r.Returned? && |notes| > 0 ==>
              && r.value.root == ByFrequency(notes)[0].reading.note
              && r.value.notes == NamesOf(ByFrequency(notes))
              && r.value.quality == DetermineChordQuality(NamesOf(ByFrequency(notes))).value
              && r.value.confidence == ChordConfidence(notes)
  {
    if |notes| == 0 then
      match clock
      case Raised(e) => Raised(e)
      case Returned(now) => Returned(EmptyResult(now))
    else
      var sorted := ByFrequency(notes);
      var names := NamesOf(sorted);
      assert sorted[0] in multiset(notes);
      match DetermineChordQuality(names)
      case None => Raised("ValueError")
      case Some(quality) =>
        match clock
        case Raised(e) => Raised(e)
        case Returned(now) =>
          Returned(ChordResult(sorted[0].reading.note, quality, names, notes, ChordConfidence(notes), true, now))
  }

  /** The root is the name of a lowest note, and the names run from low to
      high. */
  lemma RootIsLowest(notes: seq<PolyNote>, now: real)
    requires |notes| > 0 && forall i :: 0 <= i < |notes| ==> notes[i].reading.note in Pitch.Chromatic
    ensures var r := AnalyzeChordStructure(notes, Returned(now)).value;
            var sorted := ByFrequency(notes);
            && r.root == sorted[0].reading.note && r.notes == NamesOf(sorted)
            && forall j :: 0 <= j < |notes| ==> Frequency(sorted[0]) <= Frequency(notes[j])
  {
    var sorted := ByFrequency(notes);
    forall j | 0 <= j < |notes| ensures Frequency(sorted[0]) <= Frequency(notes[j]) {
      assert notes[j] in multiset(sorted);
    }
  }

  /** A detection: a result, or — when the analysis raises — the fallback
      result, which reads the clock again. */
  function DetectChordPolyphonic(cands: seq<Candidate>, cents: (real, real) -> real, clock: Outcome<real>)
    : (r: Outcome<ChordResult>)
    ensures clock.Raised? ==> r == Raised(clock.error)
    ensures clock.Returned? ==> r.Returned? && r.value.timestamp == clock.value
    ensures clock.Returned? ==> (r.value.valid <==> |Readings(cands, cents)| > 0)
    ensures clock.Returned? ==>
              r == match AnalyzeChordStructure(ExtractPolyphonicNotes(cands, cents), clock)
                   case Returned(result) => Returned(result)
                   case Raised(_) => Returned(EmptyResult(clock.value))
  {
    var notes := ExtractPolyphonicNotes(cands, cents);
    var analysis := AnalyzeChordStructure(notes, clock);
    assert clock.Returned? && |notes| > 0 ==> analysis.Returned? && analysis.value.valid by {
      assert forall i :: 0 <= i < |notes| ==> notes[i].reading.note in Pitch.Chromatic;
    }
    assert |notes| == 0 <==> |Readings(cands, cents)| == 0;
    match analysis
    case Returned(result) => Returned(result)
    case Raised(_) =>
      match clock
      case Raised(e) => Raised(e)
      case Returned(now) => Returned(EmptyResult(now))
  }

  /** What a valid detection reports: the six strongest merged readings as
      details, the lowest of them as root, the quality of their names from
      low to high, and the confidence of those notes. */
  lemma ValidDetectionIsOfStrongest(cands: seq<Candidate>, cents: (real, real) -> real, now: real)
    requires DetectChordPolyphonic(cands, cents, Returned(now)).value.valid
    ensures var r := DetectChordPolyphonic(cands, cents, Returned(now)).value;
            var notes := ExtractPolyphonicNotes(cands, cents);
            && r.details == notes && |notes| > 0
            && r.root == ByFrequency(notes)[0].reading.note
            && (forall j :: 0 <= j < |notes| ==> Frequency(ByFrequency(notes)[0]) <= Frequency(notes[j]))
            && r.quality == DetermineChordQuality(NamesOf(ByFrequency(notes))).value
            && r.confidence == ChordConfidence(notes)
  {
    var notes := ExtractPolyphonicNotes(cands, cents);
    RootIsLowest(notes, now);
  }

  /** The module reads the clock through a name it never imports, so every
      reading raises `NameError`. */
  const UnboundClock: Outcome<real> := Raised("NameError")

  /** As written, every detection raises `NameError`, whatever the input. */
  lemma DetectAsWrittenAlwaysRaises(cands: seq<Candidate>, cents: (real, real) -> real)
    ensures DetectChordPolyphonic(cands, cents, UnboundClock) == Raised("NameError")
  {
  }
}

=== FILE: ring_buffer.dfy ===
/** The circular buffer under every delay effect: a fixed number of slots
    and a write position. Writing stores one sample and advances the
    position by one modulo the length; reading `d` samples back looks at
    position `(write - d) mod length`. Python's `%` with a positive modulus
    is never negative, as Dafny's. */
module RingBuffer {
  import opened Base

  datatype Ring = Ring(slots: seq<real>, writeIndex: nat)

  /** At least one slot (a zero-length buffer makes the modulo raise), and
      the write position inside the buffer. */
  predicate Valid(r: Ring)
  {
    |r.slots| >= 1 && r.writeIndex < |r.slots|
  }

  /** `np.zeros(size)` with the write position at 0. */
  function Silent(size: nat): (r: Ring)
    requires size >= 1
    ensures Valid(r) && |r.slots| == size && r.writeIndex == 0
    ensures forall i :: 0 <= i < size ==> r.slots[i] == 0.0
  {
    Ring(seq(size, _ => 0.0), 0)
  }

  /** The slot `delay` samples behind the write position. */
  function ReadIndex(r: Ring, delay: int): (i: nat)
    requires Valid(r)
    ensures i < |r.slots|
  {
    (r.writeIndex - delay) % |r.slots|
  }

  function Read(r: Ring, delay: int): real
    requires Valid(r)
  {
    r.slots[ReadIndex(r, delay)]
  }

  /** Store `v` at the write position and advance it. */
  function Write(r: Ring, v: real): (w: Ring)
    requires Valid(r)
    ensures Valid(w) && |w.slots| == |r.slots|
  {
    Ring(r.slots[r.writeIndex := v], (r.writeIndex + 1) % |r.slots|)
  }

  /** A write changes exactly the slot at the write position, and the
      position moves one step forward, wrapping at the end. */
  lemma WriteChangesOneSlot(r: Ring, v: real)
    requires Valid(r)
    ensures var w := Write(r, v);
            && w.slots[r.writeIndex] == v
            && (forall i :: 0 <= i < |r.slots| && i != r.writeIndex ==> w.slots[i] == r.slots[i])
            && (r.writeIndex + 1 < |r.slots| ==> w.writeIndex == r.writeIndex + 1)
            && (r.writeIndex + 1 == |r.slots| ==> w.writeIndex == 0)
  {
  }

  /** Advancing modulo `n` one step at a time is advancing by the total. */
  lemma StepForward(a: nat, n: nat)
    requires n >= 1
    ensures (a % n + 1) % n == (a + 1) % n
  {
    var q, m := a / n, a % n;
    assert a + 1 == n * q + (m + 1);
    assert n * (q + 1) == n * q + n;
    if m + 1 < n {
      DivModUnique(a + 1, n, q, m + 1);
    } else {
      DivModUnique(a + 1, n, q + 1, 0);
    }
    DivModUnique(m + 1, n, if m + 1 < n then 0 else 1, if m + 1 < n then m + 1 else 0);
  }

  /** Stepping back `k` from `w`, modulo `n`, for `k` at most `n`. */
  lemma StepBack(w: int, k: int, n: int)
    requires n >= 1 && 0 <= w < n && 0 <= k <= n
    ensures (w - k) % n == (if w >= k then w - k else w - k + n)
  {
    if w >= k {
      DivModUnique(w - k, n, 0, w - k);
    } else {
      DivModUnique(w - k, n, -1, w - k + n);
    }
  }

  /** After one write, reading `d` back is reading `d - 1` back before it;
      for `d` at least 2 that is a slot the write did not touch. */
  lemma ReadAfterWrite(r: Ring, v: real, d: int)
    requires Valid(r) && 1 <= d <= |r.slots|
    ensures ReadIndex(Write(r, v), d) == ReadIndex(r, d - 1)
    ensures d == 1 ==> Read(Write(r, v), d) == v
    ensures d >= 2 ==> Read(Write(r, v), d) == Read(r, d - 1)
  {
    var n, w := |r.slots|, r.writeIndex;
    var w1 := Write(r, v).writeIndex;
    if w + 1 < n {
      assert w1 == w + 1;
      StepBack(w + 1, d, n);
    } else {
      assert w1 == 0;
      StepBack(0, d, n);
    }
    StepBack(w, d - 1, n);
  }

  /** A sequence of buffer states, each one write of `vs` after the one
      before. */
  predicate Chain(rs: seq<Ring>, vs: seq<real>)
  {
    && |rs| == |vs| + 1
    && (forall j :: 0 <= j < |rs| ==> Valid(rs[j]))
    && (forall j :: 0 <= j < |vs| ==> rs[j + 1] == Write(rs[j], vs[j]))
  }

  /** A chain grows by one more write of its last state. */
  lemma ChainExtend(rs: seq<Ring>, vs: seq<real>, r: Ring, v: real)
    requires Chain(rs, vs) && r == Write(rs[|rs| - 1], v)
    ensures Chain(rs + [r], vs + [v])
  {
    var rs', vs' := rs + [r], vs + [v];
    forall j | 0 <= j < |vs'| ensures rs'[j + 1] == Write(rs'[j], vs'[j]) {
      if j < |vs| {
        assert rs'[j + 1] == rs[j + 1] && rs'[j] == rs[j] && vs'[j] == vs[j];
      }
    }
  }

  /** The history of the buffer: after `t` writes, reading `d` back (for
      `d` from 1 to the length) gives the value written exactly `d` writes
      earlier; when fewer than `d` writes have happened, it gives what the
      buffer held `d - t` back before them. */
  lemma {:induction false} ChainReads(rs: seq<Ring>, vs: seq<real>, t: nat, d: int)
    requires Chain(rs, vs) && t < |rs| && 1 <= d <= |rs[0].slots|
    ensures |rs[t].slots| == |rs[0].slots|
    ensures d <= t ==> Read(rs[t], d) == vs[t - d]
    ensures d > t ==> Read(rs[t], d) == Read(rs[0], d - t)
  {
    if t > 0 {
      ChainReads(rs, vs, t - 1, if d >= 2 then d - 1 else 1);
      ReadAfterWrite(rs[t - 1], vs[t - 1], d);
    }
  }
}

=== FILE: runs.dfy ===
/** A sample-by-sample run of a stateful effect: the state threaded through
    a buffer by a step function, and the output read off before each step.
    The `for i in range(len(buffer))` loops of the delay effects. */
module Runs {

  /** The state after the first `t` inputs, each applied by `step`. */
  function StateAfter<S, X>(step: (S, X) -> S, s: S, xs: seq<X>, t: nat): S
    requires t <= |xs|
    decreases t
  {
    if t == 0 then s else step(StateAfter(step, s, xs, t - 1), xs[t - 1])
  }

  /** The outputs for the first `n` inputs: `out` of each input in the
      state the inputs before it reached. */
  function Outputs<S, X, Y>(step: (S, X) -> S, out: (S, X) -> Y, s: S, xs: seq<X>, n: nat): (ys: seq<Y>)
    requires n <= |xs|
    ensures |ys| == n
    decreases n
  {
    if n == 0 then [] else Outputs(step, out, s, xs, n - 1) + [out(StateAfter(step, s, xs, n - 1), xs[n - 1])]
  }

  /** Output `t` of a run is `out` in the state the first `t` inputs
      reached, however long the run. */
  lemma {:induction false} OutputAt<S, X, Y>(step: (S, X) -> S, out: (S, X) -> Y, s: S, xs: seq<X>, n: nat, t: nat)
    requires t < n <= |xs|
    ensures Outputs(step, out, s, xs, n)[t] == out(StateAfter(step, s, xs, t), xs[t])
    decreases n
  {
    if t < n - 1 {
      OutputAt(step, out, s, xs, n - 1, t);
    }
  }
}

=== FILE: select.dfy ===
/** The "keep the best so far" loops of the program, which scan a list from
    the front and replace the running best only on a STRICT improvement, so
    the earliest of several equal candidates wins. */
module Select {
  import opened Base

  /** Index of the first smallest value. */
  function ArgMinFirst(s: seq<real>): (k: nat)
    requires |s| > 0
    ensures k < |s|
    ensures forall j :: 0 <= j < |s| ==> s[k] <= s[j]
    ensures forall j :: 0 <= j < k ==> s[k] < s[j]
  {
    if |s| == 1 then 0
    else
      var k := ArgMinFirst(s[..|s| - 1]);
      assert forall j :: 0 <= j < |s| - 1 ==> s[..|s| - 1][j] == s[j];
      if s[|s| - 1] < s[k] then |s| - 1 else k
  }

  /** Index of the first largest value (Python's `max` with a key). */
  function ArgMaxFirst(s: seq<real>): (k: nat)
    requires |s| > 0
    ensures k < |s|
    ensures forall j :: 0 <= j < |s| ==> s[j] <= s[k]
    ensures forall j :: 0 <= j < k ==> s[j] < s[k]
  {
    if |s| == 1 then 0
    else
      var k := ArgMaxFirst(s[..|s| - 1]);
      assert forall j :: 0 <= j < |s| - 1 ==> s[..|s| - 1][j] == s[j];
      if s[|s| - 1] > s[k] then |s| - 1 else k
  }

  /** The loop that starts from a floor score and keeps a candidate only when
      it beats the best so far: finds the first maximum, provided some score
      exceeds the floor at all. */
  function ArgMaxAbove(s: seq<real>, floor: real): (r: Option<nat>)
    ensures r.None? <==> forall j :: 0 <= j < |s| ==> s[j] <= floor
    ensures r.Some? ==> r.value < |s| && s[r.value] > floor
    ensures r.Some? ==> forall j :: 0 <= j < |s| ==> s[j] <= s[r.value]
    ensures r.Some? ==> forall j :: 0 <= j < r.value ==> s[j] < s[r.value]
  {
    if |s| == 0 then None
    else
      var p := ArgMaxAbove(s[..|s| - 1], floor);
      assert forall j :: 0 <= j < |s| - 1 ==> s[..|s| - 1][j] == s[j];
      match p
      case None => if s[|s| - 1] > floor then Some(|s| - 1) else None
      case Some(k) => if s[|s| - 1] > s[k] then Some(|s| - 1) else Some(k)
  }

  /** Index of the first largest value among the positions `ok` admits
      (Python's `max` over a filtered list); `None` when it admits none. */
  function ArgMaxWhere(s: seq<real>, ok: seq<bool>): (r: Option<nat>)
    requires |ok| == |s|
    ensures r.None? <==> forall j :: 0 <= j < |s| ==> !ok[j]
    ensures r.Some? ==> r.value < |s| && ok[r.value]
    ensures r.Some? ==> forall j :: 0 <= j < |s| && ok[j] ==> s[j] <= s[r.value]
    ensures r.Some? ==> forall j :: 0 <= j < r.value && ok[j] ==> s[j] < s[r.value]
  {
    if |s| == 0 then None
    else
      var p := ArgMaxWhere(s[..|s| - 1], ok[..|s| - 1]);
      assert forall j :: 0 <= j < |s| - 1 ==> s[..|s| - 1][j] == s[j] && ok[..|s| - 1][j] == ok[j];
      if !ok[|s| - 1] then p
      else
        match p
        case None => Some(|s| - 1)
        case Some(k) => if s[|s| - 1] > s[k] then Some(|s| - 1) else Some(k)
  }
}

=== FILE: simple_chord.dfy ===
/** The simple FFT chord detector's symbolic half: naming spectral peaks after
    the nearest pitch of the guitar's range (E2 to E6), keeping the strongest
    peak per note name, reading the chord off the rounded intervals above the
    lowest note with an exact ten-entry table, and grading the detection. The
    spectrum analysis that produces the peaks, and the logarithms behind cents
    and rounded semitones, are inputs. */
module SimpleChord {
  import opened Base
  import Pitch
  import Select
  import Sorting
  import ChordDetector

  type DetectedNote = ChordDetector.DetectedNote
  type Peak = ChordDetector.Peak

  /** Reference pitches in Hz of the 49 semitones from E2 to E6, lowest first,
      in the order the nearest-note search visits them, written one octave
      (C to B) at a time. */
  const NoteHz: seq<real> := Octave2Hz + Octave3Hz + Octave4Hz + Octave5Hz + Octave6Hz

  const Octave2Hz: seq<real> := [82.41, 87.31, 92.50, 98.00, 103.83, 110.00, 116.54, 123.47]
  const Octave3Hz: seq<real> :=
    [130.81, 138.59, 146.83, 155.56, 164.81, 174.61, 185.00, 196.00, 207.65, 220.00, 233.08, 246.94]
  const Octave4Hz: seq<real> :=
    [261.63, 277.18, 293.66, 311.13, 329.63, 349.23, 369.99, 392.00, 415.30, 440.00, 466.16, 493.88]
  const Octave5Hz: seq<real> :=
    [523.25, 554.37, 587.33, 622.25, 659.25, 698.46, 739.99, 783.99, 830.61, 880.00, 932.33, 987.77]
  const Octave6Hz: seq<real> := [1046.50, 1108.73, 1174.66, 1244.51, 1318.51]

  /** The table key of entry `k`: the note name followed by the octave digit
      (entry 0 is E2, so entry `k` is `k + 4` semitones above C2). */
  function KeyOf(k: nat): (key: string)
    requires k < 49
    ensures |key| >= 2
  {
    Pitch.Key((k + 4) % 12, 2 + (k + 4) / 12)
  }

  /** Dropping a key's last character leaves the note name, and its last
      character is the octave. */
  lemma KeySplits(k: nat)
    requires k < 49
    ensures KeyOf(k)[..|KeyOf(k)| - 1] == Pitch.Chromatic[(k + 4) % 12]
    ensures Pitch.DigitValue(KeyOf(k)[|KeyOf(k)| - 1]) == 2 + (k + 4) / 12
    ensures 2 <= Pitch.DigitValue(KeyOf(k)[|KeyOf(k)| - 1]) <= 6
  {
    Pitch.KeyParts((k + 4) % 12, 2 + (k + 4) / 12);
  }

  /** The table rises semitone by semitone. */
  lemma TableRises(k: nat)
    requires k < 48
    ensures NoteHz[k] < NoteHz[k + 1]
  {
  }

  lemma TableOrdered(i: nat, j: nat)
    requires i < j < 49
    ensures NoteHz[i] < NoteHz[j]
    decreases j - i
  {
    TableRises(i);
    if i + 1 < j {
      TableOrdered(i + 1, j);
    }
  }

  /** The result of the nearest-note search. */
  datatype NoteMatch = NoteMatch(note: string, octave: int, frequency: real, centsOff: real, difference: real)

  function Distances(f: real): (d: seq<real>)
    ensures |d| == 49
    ensures forall k :: 0 <= k < 49 ==> d[k] == Abs(f - NoteHz[k])
  {
    seq(49, k requires 0 <= k < 49 => Abs(f - NoteHz[k]))
  }

  /** The table entry nearest to `f`; the first one visited wins a tie, as
      the search replaces its best only on a strictly smaller difference. */
  function ClosestIndex(f: real): (k: nat)
    ensures k < 49
    ensures forall j :: 0 <= j < 49 ==> Abs(f - NoteHz[k]) <= Abs(f - NoteHz[j])
    ensures forall j :: 0 <= j < k ==> Abs(f - NoteHz[k]) < Abs(f - NoteHz[j])
  {
    Select.ArgMinFirst(Distances(f))
  }

  /** The nearest note to `f`, or nothing for a frequency that is not
      positive. `cents(f, ref)` stands for 1200 * log2(f / ref). */
  function FindClosestNote(f: real, cents: (real, real) -> real): (r: Option<NoteMatch>)
    ensures r.None? <==> f <= 0.0
    ensures r.Some? ==> r.value.note in Pitch.Chromatic && 2 <= r.value.octave <= 6
    ensures r.Some? ==> r.value.difference >= 0.0 && r.value.frequency in NoteHz
  {
    if f <= 0.0 then None
    else
      var k := ClosestIndex(f);
      var key := KeyOf(k);
      KeySplits(k);
      Some(NoteMatch(key[..|key| - 1], Pitch.DigitValue(key[|key| - 1]), NoteHz[k],
                     cents(f, NoteHz[k]), Abs(f - NoteHz[k])))
  }

  /** The reported note is the nearest table pitch (the first of equally near
      ones), named by its key, with the difference and cents measured
      against it. */
  lemma ClosestNoteIsNearest(f: real, cents: (real, real) -> real)
    requires f > 0.0
    ensures var m := FindClosestNote(f, cents).value;
            var k := ClosestIndex(f);
            && m.note == Pitch.Chromatic[(k + 4) % 12] && m.octave == 2 + (k + 4) / 12
            && m.frequency == NoteHz[k] && m.centsOff == cents(f, NoteHz[k])
            && (forall j :: 0 <= j < 49 ==> m.difference <= Abs(f - NoteHz[j]))
            && (forall j :: 0 <= j < k ==> m.difference < Abs(f - NoteHz[j]))
  {
    KeySplits(ClosestIndex(f));
  }

  /** A pitch taken from the table is named back as that very entry. */
  lemma TablePitchNamedBack(k: nat, cents: (real, real) -> real)
    requires k < 49
    ensures FindClosestNote(NoteHz[k], cents).Some?
    ensures FindClosestNote(NoteHz[k], cents).value.note == Pitch.Chromatic[(k + 4) % 12]
    ensures FindClosestNote(NoteHz[k], cents).value.octave == 2 + (k + 4) / 12
    ensures FindClosestNote(NoteHz[k], cents).value.difference == 0.0
  {
    var f := NoteHz[k];
    TableOrdered(0, 48);
    if k > 0 {
      TableOrdered(0, k);
    }
    var e := ClosestIndex(f);
    assert Abs(f - NoteHz[e]) <= Abs(f - NoteHz[k]);
    if e < k {
      TableOrdered(e, k);
    } else if e > k {
      assert false;
    }
    KeySplits(k);
  }

  /** An open guitar string and its tuning pitch. */
  datatype GuitarString = GuitarString(name: string, hz: real)

  /** The six open strings, thickest first. */
  const GuitarStrings: seq<GuitarString> := [
    GuitarString("E2", 82.41), GuitarString("A2", 110.00), GuitarString("D3", 146.83),
    GuitarString("G3", 196.00), GuitarString("B3", 246.94), GuitarString("E4", 329.63)
  ]

  /** The note-table entry each open string sits on. */
  const StringEntries: seq<nat> := [0, 5, 10, 15, 19, 24]

  /** Every open string is a pitch of the note table, under the same key. */
  lemma StringsAreTablePitches(s: nat)
    requires s < 6
    ensures StringEntries[s] < 49
    ensures GuitarStrings[s].name == KeyOf(StringEntries[s])
    ensures GuitarStrings[s].hz == NoteHz[StringEntries[s]]
  {
  }

  /** The first string, from `i` on, within `tolerance` cents of `f`. */
  function FirstStringFrom(f: real, cents: (real, real) -> real, tolerance: real, i: nat): (r: Option<nat>)
    requires i <= 6
    ensures r.Some? ==> i <= r.value < 6 && Abs(cents(f, GuitarStrings[r.value].hz)) < tolerance
    ensures r.Some? ==> forall t :: i <= t < r.value ==> Abs(cents(f, GuitarStrings[t].hz)) >= tolerance
    ensures r.None? <==> forall t :: i <= t < 6 ==> Abs(cents(f, GuitarStrings[t].hz)) >= tolerance
    decreases 6 - i
  {
    if i == 6 then None
    else if Abs(cents(f, GuitarStrings[i].hz)) < tolerance then Some(i)
    else FirstStringFrom(f, cents, tolerance, i + 1)
  }

  /** Which open string could have produced `f`. */
  datatype StringMatch = StringMatch(name: string, expected: real, difference: real, centsOff: real)

  /** The first open string within `tolerance` cents of `f`, thickest first. */
  function StringWithin(f: real, cents: (real, real) -> real, tolerance: real): (r: Option<StringMatch>)
    ensures r.None? <==> forall t :: 0 <= t < 6 ==> Abs(cents(f, GuitarStrings[t].hz)) >= tolerance
    ensures r.Some? ==> Abs(r.value.centsOff) < tolerance && r.value.difference == f - r.value.expected
    ensures r.Some? ==> exists t :: 0 <= t < 6 && r.value.name == GuitarStrings[t].name && r.value.expected == GuitarStrings[t].hz
  {
    match FirstStringFrom(f, cents, tolerance, 0)
    case None => None
    case Some(s) =>
      var g := GuitarStrings[s];
      Some(StringMatch(g.name, g.hz, f - g.hz, cents(f, g.hz)))
  }

  function IdentifyGuitarString(f: real, cents: (real, real) -> real): (r: Option<StringMatch>)
    ensures r.None? <==> forall t :: 0 <= t < 6 ==> Abs(cents(f, GuitarStrings[t].hz)) >= 100.0
    ensures r.Some? ==> Abs(r.value.centsOff) < 100.0
  {
    StringWithin(f, cents, 100.0)
  }

  /** A wider tolerance never loses a string a narrower one finds. */
  lemma WiderToleranceFinds(f: real, cents: (real, real) -> real, narrow: real, wide: real)
    requires narrow <= wide && StringWithin(f, cents, narrow).Some?
    ensures StringWithin(f, cents, wide).Some?
  {
  }

  /** How far a note is from its reference pitch. */
  datatype Tuning = InTune | SlightlyOff | OutOfTune

  /** In tune below `tight` cents, slightly off below `loose`, out of tune
      otherwise. */
  function TuningGrade(centsOff: real, tight: real, loose: real): (t: Tuning)
    requires tight <= loose
    ensures t == InTune <==> Abs(centsOff) < tight
    ensures t == SlightlyOff <==> tight <= Abs(centsOff) < loose
    ensures t == OutOfTune <==> Abs(centsOff) >= loose
  {
    if Abs(centsOff) < tight then InTune
    else if Abs(centsOff) < loose then SlightlyOff
    else OutOfTune
  }

  function TuningStatus(centsOff: real): (t: Tuning)
    ensures t == InTune <==> Abs(centsOff) < 20.0
    ensures t == SlightlyOff <==> 20.0 <= Abs(centsOff) < 50.0
    ensures t == OutOfTune <==> Abs(centsOff) >= 50.0
  {
    TuningGrade(centsOff, 20.0, 50.0)
  }

  function Severity(t: Tuning): nat
  {
    match t
    case InTune => 0
    case SlightlyOff => 1
    case OutOfTune => 2
  }

  /** A note further off pitch never gets a better tuning grade. */
  lemma TuningMonotone(a: real, b: real, tight: real, loose: real)
    requires Abs(a) <= Abs(b) && tight <= loose
    ensures Severity(TuningGrade(a, tight, loose)) <= Severity(TuningGrade(b, tight, loose))
  {
  }

  /** A peak becomes a note when its frequency is positive and lies within 100
      cents of its nearest note. */
  function NoteOfPeak(p: Peak, cents: (real, real) -> real): (r: Option<DetectedNote>)
    ensures r.Some? <==> p.frequency > 0.0 && Abs(cents(p.frequency, NoteHz[ClosestIndex(p.frequency)])) < 100.0
    ensures r.Some? ==> r.value.note in Pitch.Chromatic && Abs(r.value.centsOff) < 100.0
    ensures r.Some? ==> r.value.frequency == p.frequency && r.value.strength == p.magnitude
  {
    match FindClosestNote(p.frequency, cents)
    case None => None
    case Some(m) =>
      if Abs(m.centsOff) < 100.0 then Some(ChordDetector.DetectedNote(m.note, m.octave, p.frequency, p.magnitude, m.centsOff))
      else None
  }

  /** `NoteOfPeak` as a function of the peak alone. */
  function PeakNamer(cents: (real, real) -> real): Peak -> Option<DetectedNote>
  {
    p => NoteOfPeak(p, cents)
  }

  /** The in-tune peaks, named, in their original order. */
  function Named(peaks: seq<Peak>, cents: (real, real) -> real): (r: seq<DetectedNote>)
    ensures |r| <= |peaks|
    ensures forall n :: n in r <==> exists j :: 0 <= j < |peaks| && NoteOfPeak(peaks[j], cents) == Some(n)
    ensures forall i :: 0 <= i < |r| ==> r[i].note in Pitch.Chromatic && Abs(r[i].centsOff) < 100.0
    ensures (forall j :: 0 <= j < |peaks| ==> peaks[j].magnitude >= 0.0) ==> forall i :: 0 <= i < |r| ==> r[i].strength >= 0.0
  {
    FilterMapMembers(peaks, PeakNamer(cents));
    var r := FilterMap(peaks, PeakNamer(cents));
    assert forall i :: 0 <= i < |r| ==> r[i] in r;
    r
  }

  /** Which peaks become notes, how often and in what order: the notes of a
      concatenation are those of its parts in turn, and one peak gives its
      note or nothing. */
  lemma NamedInOrder(a: seq<Peak>, b: seq<Peak>, cents: (real, real) -> real)
    ensures Named(a + b, cents) == Named(a, cents) + Named(b, cents)
    ensures |a| == 1 && NoteOfPeak(a[0], cents).Some? ==> Named(a, cents) == [NoteOfPeak(a[0], cents).value]
    ensures |a| == 1 && NoteOfPeak(a[0], cents).None? ==> Named(a, cents) == []
  {
    FilterMapAppend(a, b, PeakNamer(cents));
  }

  /** The peaks named and de-duplicated by note name (a dictionary keyed by
      name, replaced only by a strictly stronger note). */
  function FrequenciesToNotes(peaks: seq<Peak>, cents: (real, real) -> real): (r: seq<DetectedNote>)
    ensures forall i, j :: 0 <= i < j < |r| ==> r[i].note != r[j].note
    ensures forall i :: 0 <= i < |r| ==> r[i].note in Pitch.Chromatic && Abs(r[i].centsOff) < 100.0
    ensures (forall j :: 0 <= j < |peaks| ==> peaks[j].magnitude >= 0.0) ==> forall i :: 0 <= i < |r| ==> r[i].strength >= 0.0
  {
    var notes := Named(peaks, cents);
    ChordDetector.KeepStrongestSummarises(notes);
    ChordDetector.KeepStrongest(notes)
  }

  /** Every in-tune name survives the de-duplication, each as the first of
      the strongest notes bearing it. */
  lemma FrequenciesToNotesKeepsStrongest(peaks: seq<Peak>, cents: (real, real) -> real)
    ensures var named := Named(peaks, cents);
            forall j :: 0 <= j < |named| ==> named[j].note in ChordDetector.NamesOf(FrequenciesToNotes(peaks, cents))
    ensures var named := Named(peaks, cents);
            var r := FrequenciesToNotes(peaks, cents);
            forall i :: 0 <= i < |r| ==>
              exists k :: 0 <= k < |named| && named[k] == r[i] && ChordDetector.StrongestFrom(named, k)
  {
    var named := Named(peaks, cents);
    assert FrequenciesToNotes(peaks, cents) == ChordDetector.KeepStrongest(named);
    ChordDetector.KeepStrongestSummarises(named);
  }

  /** A note as reported, with its tuning status and open string. */
  datatype NoteDetail = NoteDetail(note: DetectedNote, tuning: Tuning, guitarString: Option<StringMatch>)

  function Details(notes: seq<DetectedNote>, cents: (real, real) -> real): (r: seq<NoteDetail>)
    ensures |r| == |notes|
    ensures forall i :: 0 <= i < |r| ==> r[i].note == notes[i]
    ensures forall i :: 0 <= i < |r| ==> r[i].tuning == TuningStatus(notes[i].centsOff)
  {
    seq(|notes|, i requires 0 <= i < |notes| =>
      NoteDetail(notes[i], TuningStatus(notes[i].centsOff), IdentifyGuitarString(notes[i].frequency, cents)))
  }

  /** A row of the quality table: the sorted intervals above the root (the
      root itself not included) and the quality they spell. */
  datatype QualityRow = QualityRow(intervals: seq<int>, quality: string)

  /** The qualities, in the order they are compared. */
  const QualityRows: seq<QualityRow> := [
    QualityRow([4, 7], "major"),
    QualityRow([3, 7], "minor"),
    QualityRow([4, 7, 11], "major7"),
    QualityRow([3, 7, 10], "minor7"),
    QualityRow([4, 7, 10], "dominant7"),
    QualityRow([2, 7], "sus2"),
    QualityRow([5, 7], "sus4"),
    QualityRow([3, 6], "diminished"),
    QualityRow([4, 8], "augmented"),
    QualityRow([7], "power")
  ]

  /** The first row, from `i` on, whose intervals are exactly `sorted`. */
  function RowFrom(rows: seq<QualityRow>, sorted: seq<int>, i: nat): (r: Option<nat>)
    requires i <= |rows|
    ensures r.Some? ==> i <= r.value < |rows| && rows[r.value].intervals == sorted
    ensures r.Some? ==> forall j :: i <= j < r.value ==> rows[j].intervals != sorted
    ensures r.None? <==> forall j :: i <= j < |rows| ==> rows[j].intervals != sorted
    decreases |rows| - i
  {
    if i == |rows| then None
    else if rows[i].intervals == sorted then Some(i)
    else RowFrom(rows, sorted, i + 1)
  }

  /** The quality spelled by `intervals` in `rows`, "unknown" when there are
      no intervals or no row matches their sorted list exactly. */
  function QualityIn(rows: seq<QualityRow>, intervals: seq<int>): string
  {
    if |intervals| == 0 then "unknown"
    else
      match RowFrom(rows, Sorting.SortInts(intervals), 0)
      case Some(k) => rows[k].quality
      case None => "unknown"
  }

  function DetermineChordQuality(intervals: seq<int>): (q: string)
    ensures |intervals| == 0 ==> q == "unknown"
  {
    QualityIn(QualityRows, intervals)
  }

  /** The quality rows are sorted, tell apart different interval lists, and
      none of them is named "unknown". */
  ghost predicate WellFormedRows(rows: seq<QualityRow>)
  {
    && (forall k :: 0 <= k < |rows| ==> Sorting.Ascending(rows[k].intervals) && rows[k].quality != "unknown")
    && (forall j, k :: 0 <= j < k < |rows| ==> rows[j].intervals != rows[k].intervals)
  }

  lemma QualityRowsWellFormed()
    ensures WellFormedRows(QualityRows)
  {
    RowsAscending();
    RowsDistinct();
  }

  lemma RowsAscending()
    ensures forall k :: 0 <= k < |QualityRows| ==>
              Sorting.Ascending(QualityRows[k].intervals) && QualityRows[k].quality != "unknown"
  {
  }

  lemma RowsDistinct()
    ensures forall j, k :: 0 <= j < k < |QualityRows| ==> QualityRows[j].intervals != QualityRows[k].intervals
  {
  }

  /** The quality depends on the intervals only as a collection: their order
      does not matter. */
  lemma QualityIgnoresOrder(a: seq<int>, b: seq<int>)
    requires multiset(a) == multiset(b)
    ensures DetermineChordQuality(a) == DetermineChordQuality(b)
  {
    assert |a| == |multiset(a)| == |multiset(b)| == |b|;
    Sorting.SortedUnique(Sorting.SortInts(a), Sorting.SortInts(b));
  }

  /** The quality is "unknown" exactly when there are no intervals or they
      match no row; otherwise it is the quality of the row they match. */
  lemma QualityInMeans(rows: seq<QualityRow>, intervals: seq<int>)
    requires WellFormedRows(rows)
    ensures QualityIn(rows, intervals) == "unknown" <==>
              |intervals| == 0 || forall k :: 0 <= k < |rows| ==> multiset(rows[k].intervals) != multiset(intervals)
    ensures forall k :: 0 <= k < |rows| && |intervals| > 0 && multiset(rows[k].intervals) == multiset(intervals) ==>
              QualityIn(rows, intervals) == rows[k].quality
  {
    if |intervals| > 0 {
      var sorted := Sorting.SortInts(intervals);
      forall k | 0 <= k < |rows| && multiset(rows[k].intervals) == multiset(intervals)
        ensures rows[k].intervals == sorted
      {
        Sorting.SortedUnique(rows[k].intervals, sorted);
      }
      match RowFrom(rows, sorted, 0)
      case None =>
      case Some(k) =>
    }
  }

  /** Each row's intervals, in any order, are recognised as that row's
      quality, and nothing else is recognised. */
  lemma DetermineChordQualityMeans(intervals: seq<int>)
    ensures DetermineChordQuality(intervals) == "unknown" <==>
              |intervals| == 0 || forall k :: 0 <= k < 10 ==> multiset(QualityRows[k].intervals) != multiset(intervals)
    ensures forall k :: 0 <= k < 10 && multiset(QualityRows[k].intervals) == multiset(intervals) ==>
              DetermineChordQuality(intervals) == QualityRows[k].quality
  {
    QualityRowsWellFormed();
    QualityInMeans(QualityRows, intervals);
  }

  /** The text printed after the root for a quality. */
  function Suffix(quality: string): string
  {
    match quality
    case "minor" => "m"
    case "major7" => "maj7"
    case "minor7" => "m7"
    case "dominant7" => "7"
    case "sus2" => "sus2"
    case "sus4" => "sus4"
    case "diminished" => "dim"
    case "augmented" => "aug"
    case "power" => "5"
    case _ => ""
  }

  /** The qualities written with a suffix after the root. */
  const SuffixedQualities: set<string> :=
    {"minor", "major7", "minor7", "dominant7", "sus2", "sus4", "diminished", "augmented", "power"}

  function ChordNotation(root: string, quality: string): (r: string)
    ensures |root| <= |r| && r[..|root|] == root
    ensures r == root <==> quality !in SuffixedQualities
  {
    root + Suffix(quality)
  }

  /** Different qualities of the table are written differently, so the
      notation gives the quality back. */
  lemma NotationTellsQualities(root: string, j: nat, k: nat)
    requires j < k < 10
    ensures ChordNotation(root, QualityRows[j].quality) != ChordNotation(root, QualityRows[k].quality)
  {
    var a, b := Suffix(QualityRows[j].quality), Suffix(QualityRows[k].quality);
    assert a != b;
    assert (root + a)[|root|..] == a && (root + b)[|root|..] == b;
  }

  /** The chord read off the notes. */
  datatype Structure = Structure(root: string, quality: string, notes: seq<string>, notation: string)

  const UnknownStructure: Structure := Structure("Unknown", "unknown", [], "N")

  function Frequency(n: DetectedNote): real
  {
    n.frequency
  }

  /** The notes from lowest to highest (a stable sort). */
  function ByFrequency(notes: seq<DetectedNote>): (r: seq<DetectedNote>)
    ensures |r| == |notes| && multiset(r) == multiset(notes)
    ensures forall i, j :: 0 <= i < j < |r| ==> r[i].frequency <= r[j].frequency
  {
    var r := Sorting.SortBy(notes, Frequency);
    assert forall i, j :: 0 <= i < j < |r| ==> Frequency(r[i]) <= Frequency(r[j]);
    r
  }

  /** The rounded semitone distances of the higher notes above the lowest.
      `semis(f, ref)` stands for round(12 * log2(f / ref)). */
  function IntervalsAboveLowest(sorted: seq<DetectedNote>, semis: (real, real) -> int): (r: seq<int>)
    requires |sorted| > 0
    ensures |r| == |sorted| - 1
  {
    seq(|sorted| - 1, i requires 0 <= i < |sorted| - 1 => semis(sorted[i + 1].frequency, sorted[0].frequency))
  }

  function AnalyzeChordStructure(notes: seq<DetectedNote>, semis: (real, real) -> int): (s: Structure)
    ensures |notes| == 0 ==> s == UnknownStructure
    ensures |notes| > 0 ==> |s.notes| == |notes| && |s.notation| >= |s.root| && s.notation[..|s.root|] == s.root
  {
    if |notes| == 0 then UnknownStructure
    else
      var sorted := ByFrequency(notes);
      var quality := DetermineChordQuality(IntervalsAboveLowest(sorted, semis));
      Structure(sorted[0].note, quality, ChordDetector.NamesOf(sorted), ChordNotation(sorted[0].note, quality))
  }

  /** The root is the name of a lowest note, the names run from low to high
      and are exactly the names heard, and the quality is the one spelled by
      the intervals above the root. */
  lemma StructureFromLowest(notes: seq<DetectedNote>, semis: (real, real) -> int)
    requires |notes| > 0
    ensures var s := AnalyzeChordStructure(notes, semis);
            var low := ByFrequency(notes)[0];
            && low in notes && s.root == low.note
            && (forall j :: 0 <= j < |notes| ==> low.frequency <= notes[j].frequency)
            && s.quality == DetermineChordQuality(IntervalsAboveLowest(ByFrequency(notes), semis))
    ensures var s := AnalyzeChordStructure(notes, semis);
            forall x :: x in s.notes <==> x in ChordDetector.NamesOf(notes)
  {
    var sorted := ByFrequency(notes);
    assert sorted[0] in multiset(notes);
    forall j | 0 <= j < |notes| ensures sorted[0].frequency <= notes[j].frequency {
      assert notes[j] in multiset(sorted);
    }
    var names := ChordDetector.NamesOf(sorted);
    forall x ensures x in names <==> x in ChordDetector.NamesOf(notes) {
      if x in names {
        var i :| 0 <= i < |names| && names[i] == x;
        assert sorted[i] in multiset(notes);
        var j :| 0 <= j < |notes| && notes[j] == sorted[i];
        assert ChordDetector.NamesOf(notes)[j] == x;
      }
      if x in ChordDetector.NamesOf(notes) {
        var j :| 0 <= j < |notes| && ChordDetector.NamesOf(notes)[j] == x;
        assert notes[j] in multiset(sorted);
        var i :| 0 <= i < |sorted| && sorted[i] == notes[j];
        assert names[i] == x;
      }
    }
  }

  /** Mean of the note strengths, 0 when there are none. */
  function Strengths(notes: seq<DetectedNote>): (r: seq<real>)
    ensures |r| == |notes|
    ensures forall i :: 0 <= i < |r| ==> r[i] == notes[i].strength
  {
    seq(|notes|, i requires 0 <= i < |notes| => notes[i].strength)
  }

  /** The three grades (input level, note count, mean strength), each
      capped at 1, averaged and capped at 1. */
  function CalculateConfidence(level: real, strengths: seq<real>): (r: real)
    ensures r <= 1.0
    ensures level >= 0.0 && (forall i :: 0 <= i < |strengths| ==> strengths[i] >= 0.0) ==> r >= 0.0
  {
    var levelGrade := Min(level * 50.0, 1.0);
    var countGrade := Min(|strengths| as real / 6.0, 1.0);
    var strengthGrade := if |strengths| > 0 then Min(Mean(strengths) / 0.5, 1.0) else 0.0;
    assert |strengths| > 0 ==> Mean(strengths) == Sum(strengths) / |strengths| as real;
    Min((levelGrade + countGrade + strengthGrade) / 3.0, 1.0)
  }

  /** Full marks: a level of at least 0.02, six or more notes and a mean
      strength of at least 0.5 give a confidence of exactly 1. */
  lemma FullConfidence(level: real, strengths: seq<real>)
    requires level >= 0.02 && |strengths| >= 6 && Mean(strengths) >= 0.5
    ensures CalculateConfidence(level, strengths) == 1.0
  {
  }

  /** A louder input never lowers the confidence. */
  lemma ConfidenceRisesWithLevel(a: real, b: real, strengths: seq<real>)
    requires a <= b
    ensures CalculateConfidence(a, strengths) <= CalculateConfidence(b, strengths)
  {
  }

  /** A whole detection. */
  datatype ChordResult = ChordResult(root: string, quality: string, notes: seq<string>, details: seq<NoteDetail>,
                                     confidence: real, valid: bool, timestamp: real, notation: string,
                                     detectionMethod: string)

  const EmptyResult: ChordResult := ChordResult("Unknown", "unknown", [], [], 0.0, false, 0.0, "N", "none")

  /** Inputs quieter than this are not analysed. */
  const MinLevel: real := 0.005

  /** The report on three or more named notes: always valid. */
  function Report(level: real, notes: seq<DetectedNote>, cents: (real, real) -> real,
                  semis: (real, real) -> int, now: real): (r: ChordResult)
    requires |notes| >= 3 && forall i :: 0 <= i < |notes| ==> notes[i].note in Pitch.Chromatic
    ensures r.valid && r.root in Pitch.Chromatic && |r.notes| == |notes|
    ensures |r.root| <= |r.notation| && r.notation[..|r.root|] == r.root
    ensures r.confidence <= 1.0
    ensures level >= 0.0 && (forall i :: 0 <= i < |notes| ==> notes[i].strength >= 0.0) ==> r.confidence >= 0.0
    ensures var s := AnalyzeChordStructure(notes, semis);
            && r.root == s.root && r.quality == s.quality && r.notes == s.notes && r.notation == s.notation
            && r.details == Details(notes, cents) && r.timestamp == now
    ensures r.quality == DetermineChordQuality(IntervalsAboveLowest(ByFrequency(notes), semis))
    ensures r.confidence == CalculateConfidence(level, Strengths(notes))
    ensures exists j :: 0 <= j < |notes| && r.root == notes[j].note
              && forall k :: 0 <= k < |notes| ==> notes[j].frequency <= notes[k].frequency
    ensures forall x :: x in r.notes <==> x in ChordDetector.NamesOf(notes)
  {
    var s := AnalyzeChordStructure(notes, semis);
    StructureFromLowest(notes, semis);
    ChordResult(s.root, s.quality, s.notes, Details(notes, cents), CalculateConfidence(level, Strengths(notes)),
                true, now, s.notation, "simple_fft")
  }

  /** Detects a chord in `samples`, whose spectral peaks are `peaks`. A
      detection of three or more notes is valid whatever its quality. The
      clock reading is a parameter. */
  function DetectChordFromAudio(samples: seq<real>, peaks: seq<Peak>, cents: (real, real) -> real,
                                semis: (real, real) -> int, now: real): (r: ChordResult)
    ensures r.valid <==> PeakAbs(samples) >= MinLevel && |FrequenciesToNotes(peaks, cents)| >= 3
    ensures !r.valid ==> r == EmptyResult
    ensures r.valid ==> r.root in Pitch.Chromatic && |r.notes| >= 3
    ensures r.valid ==> |r.root| <= |r.notation| && r.notation[..|r.root|] == r.root
    ensures r.valid ==> r.confidence <= 1.0
    ensures r.valid && (forall i :: 0 <= i < |peaks| ==> peaks[i].magnitude >= 0.0) ==> r.confidence >= 0.0
    ensures r.valid ==> r == Report(PeakAbs(samples), FrequenciesToNotes(peaks, cents), cents, semis, now)
  {
    var level := PeakAbs(samples);
    if level < MinLevel || |peaks| == 0 then EmptyResult
    else
      var notes := FrequenciesToNotes(peaks, cents);
      if |notes| < 3 then EmptyResult
      else Report(level, notes, cents, semis, now)
  }
}

=== FILE: sorting.dfy ===
/** Python's `sorted(xs, key=k)`: a stable sort by a real-valued key.
    `reverse=True` keeps stability too, so it is a stable sort by the
    negated key. */
module Sorting {
  import Base

  predicate SortedBy<T>(s: seq<T>, key: T -> real) {
    forall i, j :: 0 <= i < j < |s| ==> key(s[i]) <= key(s[j])
  }

  /** The elements of `s` whose key is `v`, in their original order. */
  function WithKey<T>(s: seq<T>, key: T -> real, v: real): (r: seq<T>)
    ensures |r| <= |s|
  {
    if |s| == 0 then []
    else if key(s[0]) == v then [s[0]] + WithKey(s[1..], key, v)
    else WithKey(s[1..], key, v)
  }

  /** `x` goes in front of the first element whose key is not smaller. */
  function Insert<T>(x: T, s: seq<T>, key: T -> real): (r: seq<T>)
    requires SortedBy(s, key)
    ensures SortedBy(r, key)
    ensures multiset(r) == multiset(s) + multiset{x}
    ensures |r| == |s| + 1
  {
    if |s| == 0 then [x]
    else if key(x) <= key(s[0]) then [x] + s
    else
      var t := Insert(x, s[1..], key);
      assert s == [s[0]] + s[1..];
      HeadBelowInsert(x, s, key, t);
      [s[0]] + t
  }

  lemma HeadBelowInsert<T>(x: T, s: seq<T>, key: T -> real, t: seq<T>)
    requires |s| > 0 && SortedBy(s, key) && key(s[0]) < key(x)
    requires multiset(t) == multiset(s[1..]) + multiset{x}
    ensures forall j :: 0 <= j < |t| ==> key(s[0]) <= key(t[j])
  {
    forall j | 0 <= j < |t| ensures key(s[0]) <= key(t[j]) {
      assert t[j] in multiset(t);
      if t[j] != x {
        assert t[j] in multiset(s[1..]);
        var k :| 0 <= k < |s[1..]| && s[1..][k] == t[j];
        assert s[k + 1] == t[j];
      }
    }
  }

  function SortBy<T>(s: seq<T>, key: T -> real): (r: seq<T>)
    ensures SortedBy(r, key)
    ensures multiset(r) == multiset(s)
    ensures |r| == |s|
  {
    if |s| == 0 then []
    else
      assert s == [s[0]] + s[1..];
      Insert(s[0], SortBy(s[1..], key), key)
  }

  /** The key that orders from largest to smallest. */
  function Negated<T>(key: T -> real): T -> real
  {
    x => -key(x)
  }

  function SortDescendingBy<T>(s: seq<T>, key: T -> real): (r: seq<T>)
    ensures forall i, j :: 0 <= i < j < |r| ==> key(r[i]) >= key(r[j])
    ensures multiset(r) == multiset(s)
    ensures |r| == |s|
  {
    var r := SortBy(s, Negated(key));
    assert forall i, j :: 0 <= i < j < |r| ==> Negated(key)(r[i]) <= Negated(key)(r[j]);
    r
  }

  lemma {:induction false} InsertKeepsOrder<T>(x: T, s: seq<T>, key: T -> real, v: real)
    requires SortedBy(s, key)
    ensures WithKey(Insert(x, s, key), key, v)
         == (if key(x) == v then [x] else []) + WithKey(s, key, v)
  {
    if |s| == 0 {
    } else if key(x) <= key(s[0]) {
      assert ([x] + s)[1..] == s;
    } else {
      InsertKeepsOrder(x, s[1..], key, v);
      assert ([s[0]] + Insert(x, s[1..], key))[1..] == Insert(x, s[1..], key);
    }
  }

  /** Stability: elements with equal keys keep their original relative order. */
  lemma {:induction false} SortIsStable<T>(s: seq<T>, key: T -> real, v: real)
    ensures WithKey(SortBy(s, key), key, v) == WithKey(s, key, v)
  {
    if |s| > 0 {
      SortIsStable(s[1..], key, v);
      InsertKeepsOrder(s[0], SortBy(s[1..], key), key, v);
    }
  }

  /** The first element of a stable descending sort is the first element
      of maximal key. */
  lemma FirstOfDescendingIsFirstMax<T>(s: seq<T>, key: T -> real)
    requires |s| > 0
    ensures var r := SortDescendingBy(s, key);
            forall j :: 0 <= j < |s| ==> key(s[j]) <= key(r[0])
  {
    var r := SortDescendingBy(s, key);
    forall j | 0 <= j < |s| ensures key(s[j]) <= key(r[0]) {
      assert s[j] in multiset(r);
    }
  }

  /** `WithKey` starts with the first element whose key is `v`. */
  lemma {:induction false} WithKeyHead<T>(s: seq<T>, key: T -> real, v: real, i: nat)
    requires i < |s| && key(s[i]) == v
    requires forall j :: 0 <= j < i ==> key(s[j]) != v
    ensures |WithKey(s, key, v)| > 0 && WithKey(s, key, v)[0] == s[i]
  {
    if i > 0 {
      WithKeyHead(s[1..], key, v, i - 1);
    }
  }

  /** Python's stable `sort(key=..., reverse=True)` puts first the earliest
      element of maximal key. */
  lemma DescendingHeadIsFirstMax<T>(s: seq<T>, key: T -> real, i: nat)
    requires i < |s|
    requires forall j :: 0 <= j < |s| ==> key(s[j]) <= key(s[i])
    requires forall j :: 0 <= j < i ==> key(s[j]) < key(s[i])
    ensures SortDescendingBy(s, key)[0] == s[i]
  {
    var r := SortDescendingBy(s, key);
    var neg := Negated(key);
    var v := -key(s[i]);
    assert r == SortBy(s, neg);
    FirstOfDescendingIsFirstMax(s, key);
    assert r[0] in multiset(s);
    assert key(r[0]) == key(s[i]);
    assert neg(r[0]) == v && neg(s[i]) == v;
    SortIsStable(s, neg, v);
    assert WithKey(r, neg, v) == WithKey(s, neg, v);
    WithKeyHead(s, neg, v, i);
    WithKeyHead(r, neg, v, 0);
  }

  /** The elements that `keep` accepts, by descending key. */
  function KeptDescending<T(!new)>(s: seq<T>, keep: T -> bool, key: T -> real): (r: seq<T>)
    ensures |r| <= |s|
    ensures forall i, j :: 0 <= i < j < |r| ==> key(r[i]) >= key(r[j])
    ensures forall x :: x in r <==> x in s && keep(x)
  {
    var kept := Base.Filter(s, keep);
    var sorted := SortDescendingBy(kept, key);
    assert forall x :: x in sorted <==> x in multiset(kept);
    sorted
  }

  /** The first `count` elements, by descending key, of those that `keep`
      accepts (a filter, a stable reverse sort and a slice). */
  function TopBy<T(!new)>(s: seq<T>, keep: T -> bool, key: T -> real, count: nat): (r: seq<T>)
    ensures |r| <= count && |r| <= |s|
    ensures forall i, j :: 0 <= i < j < |r| ==> key(r[i]) >= key(r[j])
    ensures forall k :: 0 <= k < |r| ==> keep(r[k]) && r[k] in s
    ensures |r| > 0 ==> forall x :: x in s && keep(x) ==> key(x) <= key(r[0])
    ensures |r| == 0 && count > 0 ==> forall x :: x in s ==> !keep(x)
    ensures |r| < count ==> forall x :: x in s && keep(x) ==> x in r
    ensures |r| > 0 ==> forall x :: x in s && keep(x) && x !in r ==> key(x) <= key(r[|r| - 1])
  {
    var sorted := KeptDescending(s, keep, key);
    var r := Prefix(sorted, count);
    assert |r| > 0 ==> r[0] == sorted[0];
    assert forall x :: x in sorted ==> key(x) <= key(sorted[0]);
    forall x | x in s && keep(x) && x !in r && |r| > 0
      ensures key(x) <= key(r[|r| - 1])
    {
      var j :| 0 <= j < |sorted| && sorted[j] == x;
      assert j >= |r|;
      assert sorted[|r| - 1] == r[|r| - 1];
    }
    r
  }

  /** When `keep` accepts every element, the top `count` are exactly
      `count` of them, or all of them when there are fewer. */
  lemma TopByKeepsAll<T(!new)>(s: seq<T>, keep: T -> bool, key: T -> real, count: nat)
    requires forall i :: 0 <= i < |s| ==> keep(s[i])
    ensures |TopBy(s, keep, key, count)| == if |s| < count then |s| else count
  {
    Base.FilterKeepsAll(s, keep);
  }

  /** The first `count` elements, or all of them when there are fewer. */
  function Prefix<T>(s: seq<T>, count: nat): (r: seq<T>)
    ensures |r| <= count && |r| <= |s|
    ensures |r| < count ==> r == s
    ensures forall k :: 0 <= k < |r| ==> r[k] == s[k]
  {
    if |s| <= count then s else s[..count]
  }

  function IntKey(x: int): real
  {
    x as real
  }

  /** An interval list in ascending order. */
  function SortInts(s: seq<int>): (r: seq<int>)
    ensures |r| == |s| && multiset(r) == multiset(s)
    ensures Ascending(r)
  {
    var r := SortBy(s, IntKey);
    assert forall i, j :: 0 <= i < j < |r| ==> IntKey(r[i]) <= IntKey(r[j]);
    r
  }

  ghost predicate Ascending(s: seq<int>)
  {
    forall i, j :: 0 <= i < j < |s| ==> s[i] <= s[j]
  }

  lemma HeadIsLeast(s: seq<int>, x: int)
    requires Ascending(s) && x in s
    ensures s[0] <= x
  {
    var i :| 0 <= i < |s| && s[i] == x;
    if i > 0 {
      assert s[0] <= s[i];
    }
  }

  lemma TailAscending(s: seq<int>)
    requires Ascending(s) && |s| > 0
    ensures Ascending(s[1..])
  {
    forall i, j | 0 <= i < j < |s| - 1 ensures s[1..][i] <= s[1..][j] {
      assert s[1..][i] == s[i + 1] && s[1..][j] == s[j + 1];
    }
  }

  /** Two ascending lists with the same elements are the same list. */
  lemma {:induction false} SortedUnique(a: seq<int>, b: seq<int>)
    requires multiset(a) == multiset(b)
    requires Ascending(a) && Ascending(b)
    ensures a == b
  {
    if |a| == 0 {
      assert |b| == |multiset(b)| == 0;
    } else {
      assert |b| == |multiset(b)| == |multiset(a)| == |a|;
      assert a[0] in multiset(b) && b[0] in multiset(a);
      HeadIsLeast(b, a[0]);
      HeadIsLeast(a, b[0]);
      assert a == [a[0]] + a[1..] && b == [b[0]] + b[1..];
      assert a[0] == b[0];
      assert multiset(a[1..]) == multiset(b[1..]) by {
        assert multiset(a) == multiset{a[0]} + multiset(a[1..]);
        assert multiset(b) == multiset{a[0]} + multiset(b[1..]);
        assert multiset(a[1..]) == multiset(a) - multiset{a[0]};
        assert multiset(b[1..]) == multiset(b) - multiset{a[0]};
      }
      TailAscending(a);
      TailAscending(b);
      SortedUnique(a[1..], b[1..]);
    }
  }
}

=== FILE: stereo_delay.dfy ===
/** `StereoDelay`: two delay lines, one per channel, each exactly as long
    as its delay, with ping-pong swapping, mid-side width enhancement and
    cross-feedback between the channels. The inherited buffer of the base
    delay is allocated but never read or written by this effect; only
    its settings (feedback, mixes) and its reset are used. */
module StereoDelay {
  import opened Base
  import RingBuffer
  import BaseDelay

  /** The longest delay the setters accept, in seconds. */
  const MaxDelay: real := 4.0

  datatype Stereo = Stereo(base: BaseDelay.Delay, leftDelay: real, rightDelay: real,
                           pingPong: bool, stereoWidth: real, crossFeedback: real,
                           left: RingBuffer.Ring, right: RingBuffer.Ring, midSideEnabled: bool)

  /** A channel's buffer: `int(delay * sample_rate)` slots (possibly none)
      and a write position inside it, or 0 for an empty buffer. */
  predicate LaneValid(r: RingBuffer.Ring, delay: real, sampleRate: int)
  {
    |r.slots| == BaseDelay.Samples(delay, sampleRate) && (r.writeIndex < |r.slots| || r.writeIndex == 0)
  }

  /** What every operation keeps: the base settings valid, width in [0, 1],
      cross-feedback in [0, 0.5], mid-side processing on exactly when the
      width is positive, and each buffer as long as its delay. */
  predicate Valid(s: Stereo)
  {
    && BaseDelay.Valid(s.base)
    && s.base.settings.maxDelayTime == MaxDelay
    && 0.0 <= s.stereoWidth <= 1.0
    && 0.0 <= s.crossFeedback <= 0.5
    && s.midSideEnabled == (s.stereoWidth > 0.0)
    && LaneValid(s.left, s.leftDelay, s.base.settings.sampleRate)
    && LaneValid(s.right, s.rightDelay, s.base.settings.sampleRate)
  }

  /** Both buffers hold at least one slot. Reading a delayed sample takes
      a remainder modulo each buffer's length, so a zero-slot buffer, which
      the constructor and the delay setters accept, makes processing raise
      `ZeroDivisionError`. */
  predicate Ready(s: Stereo)
  {
    |s.left.slots| >= 1 && |s.right.slots| >= 1
  }

  /** A buffer of `size` zeros with the write position at 0. */
  function Cleared(size: nat): (r: RingBuffer.Ring)
    ensures |r.slots| == size && r.writeIndex == 0
    ensures forall i :: 0 <= i < size ==> r.slots[i] == 0.0
  {
    RingBuffer.Ring(seq(size, _ => 0.0), 0)
  }

  /** The constructor. The channel delays are taken as given, not clamped;
      a delay whose buffer length would be negative makes `np.zeros` raise,
      so it is excluded. */
  function New(sampleRate: int, leftDelay: real, rightDelay: real, feedback: real, wetMix: real,
               pingPong: bool, stereoWidth: real, crossFeedback: real): (s: Stereo)
    requires sampleRate > 0
    requires BaseDelay.Samples(leftDelay, sampleRate) >= 0 && BaseDelay.Samples(rightDelay, sampleRate) >= 0
    ensures Valid(s)
    ensures s.leftDelay == leftDelay && s.rightDelay == rightDelay && s.pingPong == pingPong
    ensures 0.0 <= stereoWidth <= 1.0 ==> s.stereoWidth == stereoWidth
    ensures 0.0 <= crossFeedback <= 0.5 ==> s.crossFeedback == crossFeedback
    ensures s.midSideEnabled == (stereoWidth > 0.0)
    ensures s.left.writeIndex == 0 && forall i :: 0 <= i < |s.left.slots| ==> s.left.slots[i] == 0.0
    ensures s.right.writeIndex == 0 && forall i :: 0 <= i < |s.right.slots| ==> s.right.slots[i] == 0.0
  {
    BaseDelay.WholeSeconds(4, sampleRate);
    Stereo(BaseDelay.New(sampleRate, MaxDelay, feedback, wetMix), leftDelay, rightDelay, pingPong,
           Clip(stereoWidth, 0.0, 1.0), Clip(crossFeedback, 0.0, 0.5),
           Cleared(BaseDelay.Samples(leftDelay, sampleRate)), Cleared(BaseDelay.Samples(rightDelay, sampleRate)),
           stereoWidth > 0.0)
  }

  /** A clamped delay gives a buffer of at least no slots. */
  lemma ClampedLength(seconds: real, sampleRate: int)
    requires sampleRate > 0 && seconds >= 0.0
    ensures BaseDelay.Samples(seconds, sampleRate) >= 0
  {
    MulNonneg(seconds, sampleRate as real);
  }

  /** `set_left_delay` and `set_right_delay` for one channel: the delay is
      clamped to [0.001, 4], and the buffer is replaced by a silent one
      exactly when its length changes; otherwise buffer and write position
      are kept. */
  function Retime(r: RingBuffer.Ring, seconds: real, sampleRate: int): (out: (real, RingBuffer.Ring))
    requires sampleRate > 0 && (r.writeIndex < |r.slots| || r.writeIndex == 0)
    ensures 0.001 <= out.0 <= MaxDelay
    ensures 0.001 <= seconds <= MaxDelay ==> out.0 == seconds
    ensures LaneValid(out.1, out.0, sampleRate)
    ensures |out.1.slots| == |r.slots| ==> out.1 == r
    ensures |out.1.slots| != |r.slots| ==> out.1 == Cleared(|out.1.slots|)
  {
    var t := Clip(seconds, 0.001, MaxDelay);
    var size := BaseDelay.Samples(t, sampleRate);
    ClampedLength(t, sampleRate);
    if size != |r.slots| then (t, Cleared(size)) else (t, r)
  }

  function SetLeftDelay(s: Stereo, seconds: real): (r: Stereo)
    requires Valid(s)
    ensures Valid(r) && r == s.(leftDelay := r.leftDelay, left := r.left)
    ensures 0.001 <= r.leftDelay <= MaxDelay
    ensures 0.001 <= seconds <= MaxDelay ==> r.leftDelay == seconds
  {
    var (t, lane) := Retime(s.left, seconds, s.base.settings.sampleRate);
    s.(leftDelay := t, left := lane)
  }

  function SetRightDelay(s: Stereo, seconds: real): (r: Stereo)
    requires Valid(s)
    ensures Valid(r) && r == s.(rightDelay := r.rightDelay, right := r.right)
    ensures 0.001 <= r.rightDelay <= MaxDelay
    ensures 0.001 <= seconds <= MaxDelay ==> r.rightDelay == seconds
  {
    var (t, lane) := Retime(s.right, seconds, s.base.settings.sampleRate);
    s.(rightDelay := t, right := lane)
  }

  /** Setting a channel's delay to one that keeps its buffer length keeps
      what is stored in it. */
  lemma SameLengthKeepsEchoes(s: Stereo, seconds: real)
    requires Valid(s)
    requires BaseDelay.Samples(Clip(seconds, 0.001, MaxDelay), s.base.settings.sampleRate) == |s.left.slots|
    ensures SetLeftDelay(s, seconds).left == s.left
  {
  }

  /** `set_stereo_parameters`: each present argument is set, the width
      and the cross-feedback clamped; mid-side follows the new width. */
  function SetStereoParameters(s: Stereo, pingPong: Option<bool>, stereoWidth: Option<real>,
                               crossFeedback: Option<real>): (r: Stereo)
    requires Valid(s)
    ensures Valid(r)
    ensures r == s.(pingPong := r.pingPong, stereoWidth := r.stereoWidth,
                    crossFeedback := r.crossFeedback, midSideEnabled := r.midSideEnabled)
    ensures pingPong.None? ==> r.pingPong == s.pingPong
    ensures pingPong.Some? ==> r.pingPong == pingPong.value
    ensures stereoWidth.None? ==> r.stereoWidth == s.stereoWidth && r.midSideEnabled == s.midSideEnabled
    ensures stereoWidth.Some? && 0.0 <= stereoWidth.value <= 1.0 ==> r.stereoWidth == stereoWidth.value
    ensures crossFeedback.None? ==> r.crossFeedback == s.crossFeedback
    ensures crossFeedback.Some? && 0.0 <= crossFeedback.value <= 0.5 ==> r.crossFeedback == crossFeedback.value
  {
    var a := if pingPong.Some? then s.(pingPong := pingPong.value) else s;
    var b := if stereoWidth.Some? then
               var w := Clip(stereoWidth.value, 0.0, 1.0);
               a.(stereoWidth := w, midSideEnabled := w > 0.0)
             else a;
    if crossFeedback.Some? then b.(crossFeedback := Clip(crossFeedback.value, 0.0, 0.5)) else b
  }

  /** `_read_stereo_delays`: each channel reads `int(delay * rate)` back,
      which is its whole buffer length. */
  function Taps(s: Stereo): (taps: (real, real))
    requires Valid(s) && Ready(s)
  {
    var sr := s.base.settings.sampleRate;
    (RingBuffer.Read(s.left, BaseDelay.Samples(s.leftDelay, sr)),
     RingBuffer.Read(s.right, BaseDelay.Samples(s.rightDelay, sr)))
  }

  /** Reading a whole buffer length back reads the slot about to be
      overwritten: the oldest sample in the buffer. */
  lemma TapsReadOldest(s: Stereo)
    requires Valid(s) && Ready(s)
    ensures Taps(s).0 == s.left.slots[s.left.writeIndex]
    ensures Taps(s).1 == s.right.slots[s.right.writeIndex]
  {
    RingBuffer.StepBack(s.left.writeIndex, |s.left.slots|, |s.left.slots|);
    RingBuffer.StepBack(s.right.writeIndex, |s.right.slots|, |s.right.slots|);
  }

  /** `_apply_ping_pong`: the channels swap when ping-pong is on. */
  function PingPong(on: bool, taps: (real, real)): (r: (real, real))
    ensures on ==> r == (taps.1, taps.0)
    ensures !on ==> r == taps
  {
    if on then (taps.1, taps.0) else taps
  }

  /** Swapping twice gives the channels back. */
  lemma PingPongInvolution(on: bool, taps: (real, real))
    ensures PingPong(on, PingPong(on, taps)) == taps
  {
  }

  /** `_apply_stereo_enhancement`: to mid and side, the side scaled by
      1 + width, and back to left and right. */
  function Enhance(enabled: bool, width: real, pair: (real, real)): (r: (real, real))
  {
    if !enabled then pair
    else
      var mid := (pair.0 + pair.1) * 0.5;
      var side := (pair.0 - pair.1) * 0.5;
      var wide := side * (1.0 + width);
      (mid + wide, mid - wide)
  }

  /** Enhancement keeps the mid signal (the sum of the channels) and scales
      the side signal (their difference) by 1 + width; off, it changes
      nothing. */
  lemma EnhanceKeepsMid(enabled: bool, width: real, pair: (real, real))
    ensures Enhance(enabled, width, pair).0 + Enhance(enabled, width, pair).1 == pair.0 + pair.1
    ensures enabled ==> Enhance(enabled, width, pair).0 - Enhance(enabled, width, pair).1
                        == (pair.0 - pair.1) * (1.0 + width)
    ensures !enabled ==> Enhance(enabled, width, pair) == pair
  {
    if enabled {
      var diff := pair.0 - pair.1;
      var side := diff * 0.5;
      assert side * (1.0 + width) == side + side * width;
      assert diff * (1.0 + width) == diff + diff * width;
      assert side * width == 0.5 * (diff * width);
    }
  }

  /** A mono pair stays mono through enhancement. */
  lemma EnhanceMono(enabled: bool, width: real, v: real)
    ensures Enhance(enabled, width, (v, v)) == (v, v)
  {
    var e := Enhance(enabled, width, (v, v));
    EnhanceKeepsMid(enabled, width, (v, v));
    assert (v - v) * (1.0 + width) == 0.0;
    assert e.0 + e.1 == v + v;
    assert e.0 - e.1 == 0.0;
    assert e.0 == v;
  }

  /** What `_write_stereo_buffers` stores in one channel: its own feed plus
      cross-feedback times the other channel's feed. */
  function CrossFeed(crossFeedback: real, own: real, other: real): real
  {
    own + crossFeedback * other
  }

  /** The delayed pair after ping-pong and enhancement. */
  function Shaped(s: Stereo): (real, real)
    requires Valid(s) && Ready(s)
  {
    Enhance(s.midSideEnabled, s.stereoWidth, PingPong(s.pingPong, Taps(s)))
  }

  /** What one call writes into the left and the right buffer. */
  function Writes(s: Stereo, xl: real, xr: real): (w: (real, real))
    requires Valid(s) && Ready(s)
  {
    var e := Shaped(s);
    var fl := BaseDelay.Feed(s.base.settings, xl, e.0);
    var fr := BaseDelay.Feed(s.base.settings, xr, e.1);
    (CrossFeed(s.crossFeedback, fl, fr), CrossFeed(s.crossFeedback, fr, fl))
  }

  datatype Processed = Processed(state: Stereo, left: real, right: real)

  /** One `process_sample` call on two non-empty buffers: each channel
      outputs dry*input + wet*its shaped delayed sample, and each buffer
      stores its write and advances. */
  function Step(s: Stereo, xl: real, xr: real): (r: Processed)
    requires Valid(s) && Ready(s)
    ensures Valid(r.state) && Ready(r.state)
    ensures r.state == s.(left := r.state.left, right := r.state.right)
    ensures r.state.left == RingBuffer.Write(s.left, Writes(s, xl, xr).0)
    ensures r.state.right == RingBuffer.Write(s.right, Writes(s, xl, xr).1)
    ensures r.left == BaseDelay.Mix(s.base.settings, xl, Shaped(s).0)
    ensures r.right == BaseDelay.Mix(s.base.settings, xr, Shaped(s).1)
  {
    var e := Shaped(s);
    var w := Writes(s, xl, xr);
    Processed(s.(left := RingBuffer.Write(s.left, w.0), right := RingBuffer.Write(s.right, w.1)),
              BaseDelay.Mix(s.base.settings, xl, e.0), BaseDelay.Mix(s.base.settings, xr, e.1))
  }

  /** `process_sample`: `ZeroDivisionError` when either buffer has no slot,
      before anything changes; otherwise one step, which changes only the
      two buffers and outputs the dry/wet mix of each input with its
      shaped delayed sample. */
  function ProcessSample(s: Stereo, xl: real, xr: real): (r: Outcome<Processed>)
    requires Valid(s)
    ensures r.Raised? <==> !Ready(s)
    ensures r.Raised? ==> r.error == "ZeroDivisionError"
    ensures r.Returned? ==> Ready(s) && Valid(r.value.state) && Ready(r.value.state)
    ensures r.Returned? ==> r.value.state == s.(left := r.value.state.left, right := r.value.state.right)
    ensures r.Returned? ==> r.value.state.left == RingBuffer.Write(s.left, Writes(s, xl, xr).0)
                            && r.value.state.right == RingBuffer.Write(s.right, Writes(s, xl, xr).1)
    ensures r.Returned? ==> r.value.left == BaseDelay.Mix(s.base.settings, xl, Shaped(s).0)
                            && r.value.right == BaseDelay.Mix(s.base.settings, xr, Shaped(s).1)
  {
    if Ready(s) then Returned(Step(s, xl, xr)) else Raised("ZeroDivisionError")
  }

  /** A left delay of zero seconds is accepted by the constructor and
      leaves the left buffer without a slot, so the first sample raises. */
  lemma ZeroDelayRaises(sampleRate: int, rightDelay: real, feedback: real, wetMix: real,
                        pingPong: bool, stereoWidth: real, crossFeedback: real, xl: real, xr: real)
    requires sampleRate > 0 && BaseDelay.Samples(rightDelay, sampleRate) >= 0
    ensures var s := New(sampleRate, 0.0, rightDelay, feedback, wetMix, pingPong, stereoWidth, crossFeedback);
            Valid(s) && ProcessSample(s, xl, xr) == Raised("ZeroDivisionError")
  {
    assert BaseDelay.Samples(0.0, sampleRate) == 0;
  }

  /** With cross-feedback off, a channel stores only its own feed. */
  lemma NoCrossFeedback(s: Stereo, xl: real, xr: real)
    requires Valid(s) && Ready(s) && s.crossFeedback == 0.0
    ensures Writes(s, xl, xr).0 == BaseDelay.Feed(s.base.settings, xl, Shaped(s).0)
    ensures Writes(s, xl, xr).1 == BaseDelay.Feed(s.base.settings, xr, Shaped(s).1)
  {
  }

  /** The state after the first `t` sample pairs. */
  function After(s: Stereo, ls: seq<real>, rs: seq<real>, t: nat): (a: Stereo)
    requires Valid(s) && Ready(s) && |ls| == |rs| && t <= |ls|
    ensures Valid(a) && Ready(a) && a == s.(left := a.left, right := a.right)
    decreases t
  {
    if t == 0 then s
    else Step(After(s, ls, rs, t - 1), ls[t - 1], rs[t - 1]).state
  }

  /** One channel's buffer: the right one when `right` holds, else the
      left one. */
  function Lane(s: Stereo, right: bool): RingBuffer.Ring
  {
    if right then s.right else s.left
  }

  /** One channel of a pair. */
  function Channel(p: (real, real), right: bool): real
  {
    if right then p.1 else p.0
  }

  /** A ready channel buffer is a valid ring. */
  lemma LaneIsRing(s: Stereo, right: bool)
    requires Valid(s) && Ready(s)
    ensures RingBuffer.Valid(Lane(s, right))
  {
  }

  /** The value step `j` of a run writes into a channel's buffer. */
  function Written(s: Stereo, ls: seq<real>, rs: seq<real>, j: nat, right: bool): real
    requires Valid(s) && Ready(s) && |ls| == |rs| && j < |ls|
  {
    Channel(Writes(After(s, ls, rs, j), ls[j], rs[j]), right)
  }

  /** One step of a run writes into each channel's buffer. */
  lemma StepWrites(s: Stereo, ls: seq<real>, rs: seq<real>, j: nat, right: bool)
    requires Valid(s) && Ready(s) && |ls| == |rs| && j < |ls|
    ensures RingBuffer.Valid(Lane(After(s, ls, rs, j), right))
    ensures Lane(After(s, ls, rs, j + 1), right)
            == RingBuffer.Write(Lane(After(s, ls, rs, j), right), Written(s, ls, rs, j, right))
  {
  }

  /** A channel's buffer states over the first `n` steps of a run. */
  function Rings(s: Stereo, ls: seq<real>, rs: seq<real>, n: nat, right: bool): (q: seq<RingBuffer.Ring>)
    requires Valid(s) && Ready(s) && |ls| == |rs| && n <= |ls|
    ensures |q| == n + 1 && q[0] == Lane(s, right) && q[n] == Lane(After(s, ls, rs, n), right)
  {
    if n == 0 then [Lane(s, right)] else Rings(s, ls, rs, n - 1, right) + [Lane(After(s, ls, rs, n), right)]
  }

  /** The values the first `n` steps write into a channel's buffer. */
  function Feeds(s: Stereo, ls: seq<real>, rs: seq<real>, n: nat, right: bool): (f: seq<real>)
    requires Valid(s) && Ready(s) && |ls| == |rs| && n <= |ls|
    ensures |f| == n
  {
    if n == 0 then [] else Feeds(s, ls, rs, n - 1, right) + [Written(s, ls, rs, n - 1, right)]
  }

  /** The value at step `i` of the feeds is what step `i` wrote. */
  lemma {:induction false} FeedAt(s: Stereo, ls: seq<real>, rs: seq<real>, n: nat, i: nat, right: bool)
    requires Valid(s) && Ready(s) && |ls| == |rs| && i < n <= |ls|
    ensures Feeds(s, ls, rs, n, right)[i] == Written(s, ls, rs, i, right)
  {
    if i < n - 1 {
      FeedAt(s, ls, rs, n - 1, i, right);
    }
  }

  /** A channel's buffer states form a chain of its writes. */
  lemma {:induction false} RunIsChain(s: Stereo, ls: seq<real>, rs: seq<real>, n: nat, right: bool)
    requires Valid(s) && Ready(s) && |ls| == |rs| && n <= |ls|
    ensures RingBuffer.Chain(Rings(s, ls, rs, n, right), Feeds(s, ls, rs, n, right))
  {
    if n == 0 {
      LaneIsRing(s, right);
    } else {
      RunIsChain(s, ls, rs, n - 1, right);
      StepWrites(s, ls, rs, n - 1, right);
      RingBuffer.ChainExtend(Rings(s, ls, rs, n - 1, right), Feeds(s, ls, rs, n - 1, right),
                             Lane(After(s, ls, rs, n), right), Written(s, ls, rs, n - 1, right));
    }
  }

  /** Each channel reads `int(delay * rate)` back, its whole buffer. */
  lemma TapReadsWholeLane(a: Stereo, right: bool)
    requires Valid(a) && Ready(a)
    ensures RingBuffer.Valid(Lane(a, right))
    ensures Channel(Taps(a), right) == RingBuffer.Read(Lane(a, right), |Lane(a, right).slots|)
  {
  }

  /** The echo law of the stereo delay, per channel: a channel reads back
      what was written into its buffer exactly one buffer length (its delay
      in samples) earlier; before that many steps, what the buffer held
      before the run. */
  lemma EchoLaw(s: Stereo, ls: seq<real>, rs: seq<real>, t: nat, right: bool)
    requires Valid(s) && Ready(s) && |ls| == |rs| && t < |ls|
    ensures var n := |Lane(s, right).slots|;
            t >= n ==> Channel(Taps(After(s, ls, rs, t)), right) == Written(s, ls, rs, t - n, right)
    ensures var n := |Lane(s, right).slots|;
            t < n ==> Channel(Taps(After(s, ls, rs, t)), right) == RingBuffer.Read(Lane(s, right), n - t)
  {
    var n := |Lane(s, right).slots|;
    var q, f := Rings(s, ls, rs, t, right), Feeds(s, ls, rs, t, right);
    RunIsChain(s, ls, rs, t, right);
    RingBuffer.ChainReads(q, f, t, n);
    TapReadsWholeLane(After(s, ls, rs, t), right);
    if t >= n {
      FeedAt(s, ls, rs, t, t - n, right);
    }
  }

  /** The outputs of a run of sample pairs of equal length. */
  function Outputs(s: Stereo, ls: seq<real>, rs: seq<real>): (out: (seq<real>, seq<real>))
    requires Valid(s) && Ready(s) && |ls| == |rs|
    ensures |out.0| == |ls| && |out.1| == |ls|
  {
    (seq(|ls|, t requires 0 <= t < |ls| => Step(After(s, ls, rs, t), ls[t], rs[t]).left),
     seq(|ls|, t requires 0 <= t < |ls| => Step(After(s, ls, rs, t), ls[t], rs[t]).right))
  }

  /** `process_buffer`: inputs of different lengths raise `ValueError`;
      otherwise the first sample raises `ZeroDivisionError` when a buffer
      has no slot, and an empty run returns at once. Otherwise both
      outputs are as long as the inputs and the state is the one after
      the whole run. */
  function ProcessBuffer(s: Stereo, ls: seq<real>, rs: seq<real>): (r: Outcome<(Stereo, seq<real>, seq<real>)>)
    requires Valid(s)
    ensures r.Raised? <==> |ls| != |rs| || (|ls| > 0 && !Ready(s))
    ensures r.Raised? && |ls| == |rs| ==> r.error == "ZeroDivisionError"
    ensures r.Returned? ==> |r.value.1| == |ls| && |r.value.2| == |ls|
    ensures r.Returned? ==> Valid(r.value.0) && (Ready(r.value.0) <==> Ready(s))
    ensures r.Returned? && |ls| == 0 ==> r.value.0 == s
  {
    if |ls| != |rs| then Raised("Input buffers must have the same length")
    else if !Ready(s) then
      if |ls| == 0 then Returned((s, [], [])) else Raised("ZeroDivisionError")
    else
      var out := Outputs(s, ls, rs);
      Returned((After(s, ls, rs, |ls|), out.0, out.1))
  }

  /** Buffer processing is sample processing, one pair at a time: output
      pair `t` is what `process_sample` returns in the state the first `t`
      pairs reached, and the state left behind is the one after every
      pair. */
  lemma BufferIsSamples(s: Stereo, ls: seq<real>, rs: seq<real>, t: nat)
    requires Valid(s) && Ready(s) && |ls| == |rs| && t < |ls|
    ensures ProcessBuffer(s, ls, rs).value.1[t] == Step(After(s, ls, rs, t), ls[t], rs[t]).left
    ensures ProcessBuffer(s, ls, rs).value.2[t] == Step(After(s, ls, rs, t), ls[t], rs[t]).right
    ensures ProcessBuffer(s, ls, rs).value.0 == After(s, ls, rs, |ls|)
  {
  }

  /** With ping-pong and mid/side enhancement off, each output channel is
      the dry/wet mix of its input with what was written into its buffer
      one delay earlier. */
  lemma BufferEchoes(s: Stereo, ls: seq<real>, rs: seq<real>, t: nat, right: bool)
    requires Valid(s) && Ready(s) && |ls| == |rs| && t < |ls|
    requires !s.pingPong && !s.midSideEnabled && t >= |Lane(s, right).slots|
    ensures var out := ProcessBuffer(s, ls, rs).value;
            Channel((out.1[t], out.2[t]), right)
            == BaseDelay.Mix(s.base.settings, Channel((ls[t], rs[t]), right),
                             Written(s, ls, rs, t - |Lane(s, right).slots|, right))
  {
    var a := After(s, ls, rs, t);
    BufferIsSamples(s, ls, rs, t);
    EchoLaw(s, ls, rs, t, right);
    assert Shaped(a) == Taps(a);
  }

  /** `process_mono_to_stereo`: the mono input fed to both channels; the
      first sample raises `ZeroDivisionError` when a buffer has no slot. */
  function ProcessMonoToStereo(s: Stereo, xs: seq<real>): (r: Outcome<(Stereo, seq<real>, seq<real>)>)
    requires Valid(s)
    ensures r.Raised? <==> |xs| > 0 && !Ready(s)
    ensures r.Raised? ==> r.error == "ZeroDivisionError"
    ensures r.Returned? ==> |r.value.1| == |xs| && |r.value.2| == |xs|
    ensures r.Returned? ==> Valid(r.value.0) && (Ready(r.value.0) <==> Ready(s))
  {
    if !Ready(s) then
      if |xs| == 0 then Returned((s, [], [])) else Raised("ZeroDivisionError")
    else
      var out := Outputs(s, xs, xs);
      Returned((After(s, xs, xs, |xs|), out.0, out.1))
  }

  /** Mono processing is stereo processing of two copies: the same
      outputs, and the same raise, never the length mismatch. */
  lemma MonoIsStereoOfCopies(s: Stereo, xs: seq<real>)
    requires Valid(s)
    ensures ProcessBuffer(s, xs, xs) == ProcessMonoToStereo(s, xs)
  {
  }

  /** Mono output sample `t` is `process_sample` on two copies of input
      sample `t`, in the state the samples before it reached. */
  lemma MonoIsSamples(s: Stereo, xs: seq<real>, t: nat)
    requires Valid(s) && Ready(s) && t < |xs|
    ensures ProcessMonoToStereo(s, xs).value.1[t] == Step(After(s, xs, xs, t), xs[t], xs[t]).left
    ensures ProcessMonoToStereo(s, xs).value.2[t] == Step(After(s, xs, xs, t), xs[t], xs[t]).right
  {
    MonoIsStereoOfCopies(s, xs);
    BufferIsSamples(s, xs, xs, t);
  }

  /** `reset`: the base delay reset, both buffers silent, both write
      positions at 0. */
  function Reset(s: Stereo): (r: Stereo)
    requires Valid(s)
    ensures Valid(r) && r.base == BaseDelay.Reset(s.base)
    ensures |r.left.slots| == |s.left.slots| && |r.right.slots| == |s.right.slots|
    ensures r.left.writeIndex == 0 && forall i :: 0 <= i < |r.left.slots| ==> r.left.slots[i] == 0.0
    ensures r.right.writeIndex == 0 && forall i :: 0 <= i < |r.right.slots| ==> r.right.slots[i] == 0.0
    ensures r == s.(base := r.base, left := r.left, right := r.right)
  {
    s.(base := BaseDelay.Reset(s.base), left := Cleared(|s.left.slots|), right := Cleared(|s.right.slots|))
  }
}

=== FILE: synth.dfy ===
/** The synth engine: per-note rendering (oscillator lookup, octave scaling,
    ADSR envelope) and the mixdown of an arpeggio's notes into one buffer.
    Oscillator waveforms use sin/arcsin and are not modelled: a rendered
    note takes its oscillator samples as an input. */
module Synth {
  import opened Base
  import Pitch
  import Arpeggio

  datatype Oscillator = Saw | Square | Sine | Triangle | Fm | Pluck | Pad | Lead | Bass

  /** The registered synth names, in table order. */
  const SynthNames: seq<string> := ["saw", "square", "sine", "triangle", "fm", "pluck", "pad", "lead", "bass"]

  function OscillatorName(o: Oscillator): string {
    match o
    case Saw => "saw"
    case Square => "square"
    case Sine => "sine"
    case Triangle => "triangle"
    case Fm => "fm"
    case Pluck => "pluck"
    case Pad => "pad"
    case Lead => "lead"
    case Bass => "bass"
  }

  /** The synth table lookup; `None` for an unregistered name. */
  function OscillatorOf(name: string): (r: Option<Oscillator>)
    ensures r.Some? <==> name in SynthNames
    ensures r.Some? ==> OscillatorName(r.value) == name
  {
    if name == "saw" then Some(Saw)
    else if name == "square" then Some(Square)
    else if name == "sine" then Some(Sine)
    else if name == "triangle" then Some(Triangle)
    else if name == "fm" then Some(Fm)
    else if name == "pluck" then Some(Pluck)
    else if name == "pad" then Some(Pad)
    else if name == "lead" then Some(Lead)
    else if name == "bass" then Some(Bass)
    else None
  }

  /** Exactly nine distinct synth names are registered, one per oscillator. */
  lemma NineSynths(o: Oscillator)
    ensures |SynthNames| == 9
    ensures forall i, j :: 0 <= i < j < |SynthNames| ==> SynthNames[i] != SynthNames[j]
    ensures OscillatorOf(OscillatorName(o)) == Some(o)
  {
  }

  /** The oscillator `render_note` uses: an unknown synth type plays sawtooth. */
  function OscillatorFor(synthType: string): (o: Oscillator)
    ensures synthType in SynthNames ==> OscillatorName(o) == synthType
    ensures synthType !in SynthNames ==> o == Saw
  {
    match OscillatorOf(synthType)
    case Some(o) => o
    case None => Saw
  }

  /** The octave-4 table value, 440 Hz for an unknown name. */
  function BaseFrequency(note: string): (f: real)
    ensures f > 0.0
    ensures note !in Pitch.Chromatic ==> f == 440.0
    ensures note in Pitch.Chromatic ==> Pitch.Octave4Frequency(note) == Some(f)
  {
    match Pitch.Octave4Frequency(note)
    case Some(b) => b
    case None => 440.0
  }

  /** The pitch of a note event: its octave-4 frequency shifted by whole octaves. */
  function NoteFrequency(note: string, octave: int): real
  {
    OctaveShift(BaseFrequency(note), octave)
  }

  /** A frequency `b` given for octave 4, moved to `octave`. */
  function OctaveShift(b: real, octave: int): real
  {
    b * Pow2(octave - 4)
  }

  lemma OctaveShiftLaws(b: real, octave: int)
    requires b > 0.0
    ensures OctaveShift(b, octave + 1) == 2.0 * OctaveShift(b, octave)
    ensures OctaveShift(b, octave) > 0.0
    ensures OctaveShift(b, 4) == b
  {
    Pow2Succ(octave - 4);
    assert octave + 1 - 4 == octave - 4 + 1;
    MulMonoStrict(0.0, b, Pow2(octave - 4));
  }

  /** Each octave up doubles the frequency, octave 4 sounds the table value
      (A at 440 Hz for an unknown name), and every pitch is positive. */
  lemma NoteFrequencyLaws(note: string, octave: int)
    ensures NoteFrequency(note, octave + 1) == 2.0 * NoteFrequency(note, octave)
    ensures NoteFrequency(note, 4) == BaseFrequency(note)
    ensures NoteFrequency(note, octave) > 0.0
  {
    OctaveShiftLaws(BaseFrequency(note), octave);
  }

  // ---------------------------------------------------------------- envelope

  /** numpy's `linspace(x, y, n)`: n evenly spaced values from x to y
      inclusive, as start + i * step; a single value is just x. */
  function Linspace(x: real, y: real, n: nat): (r: seq<real>)
    ensures |r| == n
    ensures n > 0 ==> r[0] == x
  {
    seq(n, i requires 0 <= i < n => if n == 1 then x else x + (i as real) * ((y - x) / ((n - 1) as real)))
  }

  lemma LinspaceEnds(x: real, y: real, n: nat)
    requires n > 1
    ensures Linspace(x, y, n)[n - 1] == y
  {
    DivMul(y - x, (n - 1) as real);
  }

  /** Every point of a linear ramp lies between its two ends. */
  lemma StepBetween(x: real, y: real, m: nat, i: nat)
    requires 0 < m && i <= m
    ensures Min(x, y) <= x + (i as real) * ((y - x) / (m as real)) <= Max(x, y)
  {
    var s := (y - x) / (m as real);
    DivMul(y - x, m as real);
    if s > 0.0 {
      MulNonneg(i as real, s);
      MulMono(i as real, m as real, s);
    } else if s < 0.0 {
      MulNonneg(i as real, -s);
      MulMono(i as real, m as real, -s);
    }
  }

  predicate Within(s: seq<real>, lo: real, hi: real) {
    forall i :: 0 <= i < |s| ==> lo <= s[i] <= hi
  }

  lemma LinspaceBetween(x: real, y: real, n: nat, lo: real, hi: real)
    requires lo <= x <= hi && lo <= y <= hi
    ensures Within(Linspace(x, y, n), lo, hi)
  {
    var r := Linspace(x, y, n);
    forall i | 0 <= i < n ensures lo <= r[i] <= hi {
      if n > 1 {
        StepBetween(x, y, n - 1, i);
      }
    }
  }

  lemma WithinConcat(a: seq<real>, b: seq<real>, lo: real, hi: real)
    requires Within(a, lo, hi) && Within(b, lo, hi)
    ensures Within(a + b, lo, hi)
  {
    forall i | 0 <= i < |a + b| ensures lo <= (a + b)[i] <= hi {
      if i >= |a| {
        assert (a + b)[i] == b[i - |a|];
      }
    }
  }

  /** Sample counts of the four phases: attack, decay, sustain, release. */
  datatype Phases = Phases(attack: int, decay: int, sustain: int, release: int)

  /** Each phase gets int(seconds * rate) samples; sustain takes what is
      left, and when nothing is left the release is cut to fit. */
  function PhaseLengths(samples: int, attack: int, decay: int, release: int): (p: Phases)
    requires attack >= 0 && decay >= 0 && release >= 0 && attack + decay <= samples
    ensures p.attack == attack && p.decay == decay
    ensures p.sustain >= 0 && p.release >= 0
    ensures p.attack + p.decay + p.sustain + p.release == samples
    ensures p.sustain > 0 ==> p.release == release
    ensures p.release <= release
  {
    var s := samples - attack - decay - release;
    if s < 0 then Phases(attack, decay, 0, Max((samples - attack - decay) as real, 0.0).Floor)
    else Phases(attack, decay, s, release)
  }

  /** Overwrite `buf[start .. start + |vals|]` with `vals` (a numpy slice assignment). */
  function Overwrite(buf: seq<real>, start: nat, vals: seq<real>): (r: seq<real>)
    requires start + |vals| <= |buf|
    ensures |r| == |buf|
    ensures forall i :: 0 <= i < |buf| ==> r[i] == (if start <= i < start + |vals| then vals[i - start] else buf[i])
  {
    buf[..start] + vals + buf[start + |vals|..]
  }

  function Constant(v: real, n: nat): (r: seq<real>)
    ensures |r| == n && forall i :: 0 <= i < n ==> r[i] == v
  {
    seq(n, i => v)
  }

  /** A numpy slice write that the engine only performs for a non-empty phase. */
  function WriteIfAny(buf: seq<real>, start: nat, vals: seq<real>): (r: seq<real>)
    requires start + |vals| <= |buf|
    ensures |r| == |buf|
  {
    if |vals| > 0 then Overwrite(buf, start, vals) else buf
  }

  /** The engine's four slice writes into a zero buffer of `samples`
      samples: attack at 0, decay after it, sustain after that and release
      ending at the last sample. */
  function PhaseWrites(samples: nat, A: seq<real>, D: seq<real>, C: seq<real>, R: seq<real>): seq<real>
    requires |A| + |D| + |C| + |R| == samples
  {
    var e1 := WriteIfAny(Constant(0.0, samples), 0, A);
    var e2 := WriteIfAny(e1, |A|, D);
    var e3 := WriteIfAny(e2, |A| + |D|, C);
    WriteIfAny(e3, samples - |R|, R)
  }

  /** Writing `vals` just after `prefix` into a zero tail keeps the rest zero. */
  lemma WriteAfterPrefix(prefix: seq<real>, m: nat, vals: seq<real>)
    requires |vals| <= m
    ensures WriteIfAny(prefix + Constant(0.0, m), |prefix|, vals) == prefix + vals + Constant(0.0, m - |vals|)
  {
    var b := prefix + Constant(0.0, m);
    if |vals| > 0 {
      assert b[..|prefix|] == prefix;
      assert b[|prefix| + |vals|..] == Constant(0.0, m - |vals|);
    } else {
      assert prefix + vals == prefix;
    }
  }

  /** Four writes that fit the buffer exactly tile it: the result is the
      four pieces laid end to end, with no zero left over. */
  lemma PhaseWritesTile(samples: nat, A: seq<real>, D: seq<real>, C: seq<real>, R: seq<real>)
    requires |A| + |D| + |C| + |R| == samples
    ensures PhaseWrites(samples, A, D, C, R) == A + D + C + R
  {
    var z := Constant(0.0, samples);
    assert z == [] + z;
    WriteAfterPrefix([], samples, A);
    var e1 := WriteIfAny(z, 0, A);
    assert e1 == A + Constant(0.0, samples - |A|);
    WriteAfterPrefix(A, samples - |A|, D);
    var e2 := WriteIfAny(e1, |A|, D);
    assert e2 == A + D + Constant(0.0, |C| + |R|);
    WriteAfterPrefix(A + D, |C| + |R|, C);
    var e3 := WriteIfAny(e2, |A| + |D|, C);
    assert e3 == A + D + C + Constant(0.0, |R|);
    WriteAfterPrefix(A + D + C, |R|, R);
    assert Constant(0.0, 0) == [];
  }

  /** Building the envelope raises: numpy's slice assignment of a ramp
      into a slice cut short by the end of the buffer raises `ValueError`,
      unless the ramp has a single value, which numpy broadcasts over the
      (then empty) slice. So the attack raises when it is longer than the
      note and has two or more samples, and the decay when the attack and
      decay overrun the note and the decay has two or more samples. */
  predicate EnvelopeRaises(samples: int, attack: int, decay: int)
  {
    (attack > samples && attack >= 2) || (decay >= 2 && attack + decay > samples)
  }

  /** The envelope as the engine builds it: each phase written as a slice of
      a zero buffer. `None` where a slice assignment raises. When the attack
      and decay overrun the note without raising, the overrunning ramp is a
      single value broadcast into an empty slice, the attack fills the whole
      note and nothing else is written. */
  function AdsrEnvelope(samples: int, attack: int, decay: int, release: int, velocity: real, sustain: real)
    : (r: Option<seq<real>>)
    requires attack >= 0 && decay >= 0 && release >= 0 && samples >= 0
    ensures r.None? <==> EnvelopeRaises(samples, attack, decay)
    ensures r.Some? ==> |r.value| == samples
  {
    if attack + decay <= samples then Some(FittedEnvelope(samples, attack, decay, release, velocity, sustain))
    else if EnvelopeRaises(samples, attack, decay) then None
    else Some(AttackOnly(samples, velocity))
  }

  /** An attack ramp stretched over the whole note. */
  function AttackOnly(samples: nat, velocity: real): (r: seq<real>)
    ensures |r| == samples
  {
    Linspace(0.0, velocity, samples)
  }

  /** The four phase writes of a note long enough for its attack and decay. */
  function FittedEnvelope(samples: int, attack: int, decay: int, release: int, velocity: real, sustain: real)
    : (r: seq<real>)
    requires attack >= 0 && decay >= 0 && release >= 0 && attack + decay <= samples
    ensures |r| == samples
  {
    var p := PhaseLengths(samples, attack, decay, release);
    PhaseWrites(samples, Linspace(0.0, velocity, p.attack), Linspace(velocity, velocity * sustain, p.decay),
                Constant(velocity * sustain, p.sustain), Linspace(velocity * sustain, 0.0, p.release))
  }

  /** When the attack and decay overrun the note without raising, the
      envelope is the attack ramp alone, stretched over the whole note. */
  lemma OverrunIsAttackOnly(samples: int, attack: int, decay: int, release: int, velocity: real, sustain: real)
    requires attack >= 0 && decay >= 0 && release >= 0 && samples >= 0
    requires attack + decay > samples && !EnvelopeRaises(samples, attack, decay)
    ensures decay <= 1
    ensures AdsrEnvelope(samples, attack, decay, release, velocity, sustain) == Some(Linspace(0.0, velocity, samples))
  {
  }

  /** The overrunning cases that do not raise: an attack filling a note of
      three samples with a one-sample decay, and a one-sample attack on an
      empty note. */
  lemma BroadcastRamps(velocity: real, sustain: real)
    ensures AdsrEnvelope(3, 3, 1, 0, velocity, sustain) == Some(Linspace(0.0, velocity, 3))
    ensures AdsrEnvelope(0, 1, 0, 0, velocity, sustain) == Some([])
    ensures AdsrEnvelope(3, 3, 2, 0, velocity, sustain).None?
  {
  }

  /** The envelope as four consecutive pieces. */
  function AdsrPieces(p: Phases, velocity: real, sustain: real): (r: seq<real>)
    requires p.attack >= 0 && p.decay >= 0 && p.sustain >= 0 && p.release >= 0
    ensures |r| == p.attack + p.decay + p.sustain + p.release
  {
    Linspace(0.0, velocity, p.attack) + Linspace(velocity, velocity * sustain, p.decay)
      + Constant(velocity * sustain, p.sustain) + Linspace(velocity * sustain, 0.0, p.release)
  }

  /** The phase writes tile the note exactly: the envelope is the attack
      ramp, the decay ramp, the sustain level and the release ramp laid end
      to end. */
  lemma EnvelopeTiles(samples: int, attack: int, decay: int, release: int, velocity: real, sustain: real)
    requires attack >= 0 && decay >= 0 && release >= 0 && samples >= 0
    requires attack + decay <= samples
    ensures AdsrEnvelope(samples, attack, decay, release, velocity, sustain)
              == Some(AdsrPieces(PhaseLengths(samples, attack, decay, release), velocity, sustain))
  {
    var p := PhaseLengths(samples, attack, decay, release);
    PhaseWritesTile(samples, Linspace(0.0, velocity, p.attack), Linspace(velocity, velocity * sustain, p.decay),
                    Constant(velocity * sustain, p.sustain), Linspace(velocity * sustain, 0.0, p.release));
  }

  /** With a non-negative velocity and a sustain level in [0, 1] every
      phase stays within [0, velocity]. */
  lemma PiecesWithin(p: Phases, velocity: real, sustain: real)
    requires p.attack >= 0 && p.decay >= 0 && p.sustain >= 0 && p.release >= 0
    requires velocity >= 0.0 && 0.0 <= sustain <= 1.0
    ensures Within(AdsrPieces(p, velocity, sustain), 0.0, velocity)
  {
    SustainLevel(velocity, sustain);
    RampsWithin(p, velocity, velocity * sustain);
  }

  /** Ramps from 0 up to `v`, down to `s`, holding `s` and back to 0 stay in [0, v]. */
  lemma RampsWithin(p: Phases, v: real, s: real)
    requires p.attack >= 0 && p.decay >= 0 && p.sustain >= 0 && p.release >= 0
    requires 0.0 <= s <= v
    ensures Within(Linspace(0.0, v, p.attack) + Linspace(v, s, p.decay) + Constant(s, p.sustain)
                   + Linspace(s, 0.0, p.release), 0.0, v)
  {
    LinspaceBetween(0.0, v, p.attack, 0.0, v);
    LinspaceBetween(v, s, p.decay, 0.0, v);
    ConstantWithin(s, p.sustain, 0.0, v);
    LinspaceBetween(s, 0.0, p.release, 0.0, v);
    FourWithin(Linspace(0.0, v, p.attack), Linspace(v, s, p.decay), Constant(s, p.sustain),
               Linspace(s, 0.0, p.release), 0.0, v);
  }

  /** The sustain level lies between silence and the velocity. */
  lemma SustainLevel(velocity: real, sustain: real)
    requires velocity >= 0.0 && 0.0 <= sustain <= 1.0
    ensures 0.0 <= velocity * sustain <= velocity
  {
    MulNonneg(velocity, sustain);
    MulNonneg(velocity, 1.0 - sustain);
  }

  lemma ConstantWithin(v: real, n: nat, lo: real, hi: real)
    requires lo <= v <= hi
    ensures Within(Constant(v, n), lo, hi)
  {
  }

  lemma FourWithin(A: seq<real>, D: seq<real>, C: seq<real>, R: seq<real>, lo: real, hi: real)
    requires Within(A, lo, hi) && Within(D, lo, hi) && Within(C, lo, hi) && Within(R, lo, hi)
    ensures Within(A + D + C + R, lo, hi)
  {
    WithinConcat(A, D, lo, hi);
    WithinConcat(A + D, C, lo, hi);
    WithinConcat(A + D + C, R, lo, hi);
  }

  /** For a non-negative velocity and a sustain level in [0, 1], every
      envelope sample lies in [0, velocity]. */
  lemma EnvelopeBounded(samples: int, attack: int, decay: int, release: int, velocity: real, sustain: real)
    requires attack >= 0 && decay >= 0 && release >= 0 && samples >= 0
    requires velocity >= 0.0 && 0.0 <= sustain <= 1.0
    ensures AdsrEnvelope(samples, attack, decay, release, velocity, sustain).Some? ==>
              Within(AdsrEnvelope(samples, attack, decay, release, velocity, sustain).value, 0.0, velocity)
  {
    if attack + decay <= samples {
      EnvelopeTiles(samples, attack, decay, release, velocity, sustain);
      PiecesWithin(PhaseLengths(samples, attack, decay, release), velocity, sustain);
    } else if !EnvelopeRaises(samples, attack, decay) {
      OverrunIsAttackOnly(samples, attack, decay, release, velocity, sustain);
      LinspaceBetween(0.0, velocity, samples, 0.0, velocity);
    }
  }

  /** The attack ramp begins at 0. */
  lemma PiecesStartSilent(p: Phases, velocity: real, sustain: real)
    requires p.attack > 0 && p.decay >= 0 && p.sustain >= 0 && p.release >= 0
    ensures AdsrPieces(p, velocity, sustain)[0] == 0.0
  {
    var A := Linspace(0.0, velocity, p.attack);
    var rest := Linspace(velocity, velocity * sustain, p.decay)
      + Constant(velocity * sustain, p.sustain) + Linspace(velocity * sustain, 0.0, p.release);
    assert AdsrPieces(p, velocity, sustain) == A + rest;
    assert (A + rest)[0] == A[0];
  }

  /** The attack rises from silence: a note with an attack phase starts at 0. */
  lemma EnvelopeStartsSilent(samples: int, attack: int, decay: int, release: int, velocity: real, sustain: real)
    requires attack >= 0 && decay >= 0 && release >= 0 && samples >= 0
    requires attack + decay <= samples && attack > 0
    ensures AdsrEnvelope(samples, attack, decay, release, velocity, sustain).value[0] == 0.0
  {
    EnvelopeTiles(samples, attack, decay, release, velocity, sustain);
    PiecesStartSilent(PhaseLengths(samples, attack, decay, release), velocity, sustain);
  }

  /** The release ramp ends at 0. */
  lemma PiecesEndSilent(p: Phases, velocity: real, sustain: real, last: int)
    requires p.attack >= 0 && p.decay >= 0 && p.sustain >= 0 && p.release >= 2
    requires last == p.attack + p.decay + p.sustain + p.release - 1
    ensures AdsrPieces(p, velocity, sustain)[last] == 0.0
  {
    var front := Linspace(0.0, velocity, p.attack) + Linspace(velocity, velocity * sustain, p.decay)
      + Constant(velocity * sustain, p.sustain);
    var R := Linspace(velocity * sustain, 0.0, p.release);
    LinspaceEnds(velocity * sustain, 0.0, p.release);
    assert AdsrPieces(p, velocity, sustain) == front + R;
    assert (front + R)[|front| + p.release - 1] == R[p.release - 1];
  }

  /** A release of two or more samples ends the note at exactly 0. */
  lemma EnvelopeEndsSilent(samples: int, attack: int, decay: int, release: int, velocity: real, sustain: real)
    requires attack >= 0 && decay >= 0 && release >= 0 && samples >= 0
    requires attack + decay <= samples
    requires PhaseLengths(samples, attack, decay, release).release >= 2
    ensures AdsrEnvelope(samples, attack, decay, release, velocity, sustain).value[samples - 1] == 0.0
  {
    var p := PhaseLengths(samples, attack, decay, release);
    EnvelopeAt(samples, attack, decay, release, velocity, sustain, samples - 1);
    PiecesEndSilent(p, velocity, sustain, samples - 1);
  }

  /** Sample `k` of a fitted envelope, read off its four pieces. */
  lemma EnvelopeAt(samples: int, attack: int, decay: int, release: int, velocity: real, sustain: real, k: int)
    requires attack >= 0 && decay >= 0 && release >= 0 && attack + decay <= samples && 0 <= k < samples
    ensures AdsrEnvelope(samples, attack, decay, release, velocity, sustain).value[k]
              == AdsrPieces(PhaseLengths(samples, attack, decay, release), velocity, sustain)[k]
  {
    EnvelopeTiles(samples, attack, decay, release, velocity, sustain);
  }

  /** Python's `int(seconds * rate)`: the whole number of samples in a
      non-negative stretch of time. */
  function SampleCount(seconds: real, rate: nat): (n: nat)
    requires seconds >= 0.0
    ensures n as real <= seconds * rate as real < n as real + 1.0
  {
    MulNonneg(seconds, rate as real);
    Trunc(seconds * rate as real)
  }

  /** The envelope of a note of `duration` seconds with the engine's
      default phase times (0.05 s, 0.1 s, 0.2 s) and sustain level 0.7. */
  function DefaultEnvelope(duration: real, velocity: real, sampleRate: nat): (r: Option<seq<real>>)
    requires duration >= 0.0
    ensures r.Some? ==> |r.value| == SampleCount(duration, sampleRate)
    ensures r.None? <==> EnvelopeRaises(SampleCount(duration, sampleRate), SampleCount(0.05, sampleRate), SampleCount(0.1, sampleRate))
    ensures sampleRate >= 20 ==>
              (r.None? <==> SampleCount(0.05, sampleRate) + SampleCount(0.1, sampleRate) > SampleCount(duration, sampleRate))
  {
    AdsrEnvelope(SampleCount(duration, sampleRate), SampleCount(0.05, sampleRate), SampleCount(0.1, sampleRate),
                 SampleCount(0.2, sampleRate), velocity, 0.7)
  }

  /** At the default 48 kHz an envelope shorter than the attack plus the
      decay (0.15 s) cannot be built: sixteenth notes at 120 bpm last 0.125 s. */
  lemma SixteenthsAt120CannotBeEnveloped()
    ensures DefaultEnvelope(60.0 / (120.0 * 4.0), 0.8, 48000).None?
  {
    assert 60.0 / (120.0 * 4.0) == 0.125;
    assert SampleCount(0.125, 48000) == 6000;
    assert SampleCount(0.05, 48000) == 2400;
    assert SampleCount(0.1, 48000) == 4800;
  }

  /** The pad, lead and bass oscillators shape their own samples with an
      envelope before `render_note` applies the default one: the pad with
      attack 0.1 s and release 0.3 s at level 0.7, the lead with attack
      0.01 s and release 0.1 s at level 0.9, the bass with attack 0.05 s and
      release 0.4 s at level 0.8 (decay 0.1 s and sustain 0.7 throughout).
      True where building that envelope raises. */
  predicate OscillatorRaises(o: Oscillator, duration: real, sampleRate: nat)
    requires duration >= 0.0
  {
    var n := SampleCount(duration, sampleRate);
    match o
    case Pad => AdsrEnvelope(n, SampleCount(0.1, sampleRate), SampleCount(0.1, sampleRate),
                             SampleCount(0.3, sampleRate), 0.7, 0.7).None?
    case Lead => AdsrEnvelope(n, SampleCount(0.01, sampleRate), SampleCount(0.1, sampleRate),
                              SampleCount(0.1, sampleRate), 0.9, 0.7).None?
    case Bass => AdsrEnvelope(n, SampleCount(0.05, sampleRate), SampleCount(0.1, sampleRate),
                              SampleCount(0.4, sampleRate), 0.8, 0.7).None?
    case _ => false
  }

  /** `render_note`: the oscillator's samples (one per envelope sample,
      produced by `o` at `NoteFrequency(e.note, e.octave)`) shaped by the
      default envelope. `None` where the oscillator's own envelope or the
      default one raises. */
  function RenderNote(e: Arpeggio.NoteEvent, sampleRate: nat, o: Oscillator, wave: seq<real>): (r: Option<seq<real>>)
    requires e.duration >= 0.0
    requires |wave| == SampleCount(e.duration, sampleRate)
    ensures r.None? <==> OscillatorRaises(o, e.duration, sampleRate) || DefaultEnvelope(e.duration, e.velocity, sampleRate).None?
    ensures r.Some? ==> |r.value| == |wave|
    ensures r.Some? ==> forall i :: 0 <= i < |wave| ==>
              r.value[i] == wave[i] * DefaultEnvelope(e.duration, e.velocity, sampleRate).value[i]
  {
    if OscillatorRaises(o, e.duration, sampleRate) then None
    else match DefaultEnvelope(e.duration, e.velocity, sampleRate)
      case None => None
      case Some(env) => Some(Shape(wave, env))
  }

  /** A count of samples taken from a longer stretch of time is no smaller. */
  lemma SampleCountMono(a: real, b: real, rate: nat)
    requires 0.0 <= a <= b
    ensures SampleCount(a, rate) <= SampleCount(b, rate)
  {
    var na, nb := SampleCount(a, rate), SampleCount(b, rate);
    if rate > 0 {
      MulMono(a, b, rate as real);
    }
    assert na as real < nb as real + 1.0;
  }

  /** A longer attack raises on every input a shorter one raises on. */
  lemma RaisesMono(samples: int, attack: int, attack': int, decay: int)
    requires attack <= attack'
    requires EnvelopeRaises(samples, attack, decay)
    ensures EnvelopeRaises(samples, attack', decay)
  {
  }

  /** At 20 Hz and above a note fails to render exactly when it is shorter
      than its envelopes' attack plus decay: 0.1 s + 0.1 s for the pad, and
      the default 0.05 s + 0.1 s for every other oscillator, whose own
      envelopes (lead, bass) are never longer than the default one. */
  lemma RenderNoteFails(e: Arpeggio.NoteEvent, sampleRate: nat, o: Oscillator, wave: seq<real>)
    requires e.duration >= 0.0 && |wave| == SampleCount(e.duration, sampleRate)
    requires sampleRate >= 20
    ensures RenderNote(e, sampleRate, o, wave).None? <==>
              SampleCount(e.duration, sampleRate) <
                (if o == Pad then SampleCount(0.1, sampleRate) + SampleCount(0.1, sampleRate)
                 else SampleCount(0.05, sampleRate) + SampleCount(0.1, sampleRate))
  {
    var n := SampleCount(e.duration, sampleRate);
    var a1 := SampleCount(0.01, sampleRate);
    var a5 := SampleCount(0.05, sampleRate);
    var d := SampleCount(0.1, sampleRate);
    assert d >= 2;
    SampleCountMono(0.01, 0.05, sampleRate);
    SampleCountMono(0.05, 0.1, sampleRate);
    if o == Lead && EnvelopeRaises(n, a1, d) {
      RaisesMono(n, a1, a5, d);
    }
  }

  /** Eighth notes at 160 bpm last 0.1875 s: long enough for the default
      envelope at 48 kHz, too short for the pad's own, so every pad note of
      such an arpeggio raises. */
  lemma PadEighthsAt160CannotBeRendered(e: Arpeggio.NoteEvent, wave: seq<real>)
    requires e.duration == 60.0 / (2.0 * 160.0) && |wave| == SampleCount(e.duration, 48000)
    ensures DefaultEnvelope(e.duration, e.velocity, 48000).Some?
    ensures RenderNote(e, 48000, Saw, wave).Some?
    ensures RenderNote(e, 48000, Pad, wave).None?
  {
    assert e.duration == 0.1875;
    assert SampleCount(0.1875, 48000) == 9000;
    assert SampleCount(0.05, 48000) == 2400;
    assert SampleCount(0.1, 48000) == 4800;
    RenderNoteFails(e, 48000, Saw, wave);
    RenderNoteFails(e, 48000, Pad, wave);
  }

  /** Sample-by-sample product of a waveform and an envelope of equal length. */
  function Shape(wave: seq<real>, env: seq<real>): (r: seq<real>)
    requires |wave| == |env|
    ensures |r| == |wave|
    ensures forall i :: 0 <= i < |wave| ==> r[i] == wave[i] * env[i]
  {
    seq(|wave|, i requires 0 <= i < |wave| => wave[i] * env[i])
  }

  // ----------------------------------------------------------------- mixdown

  /** What note `i` adds to output sample `j`: its sample `j - start`
      where the note covers `j`, nothing elsewhere. */
  function Contribution(start: int, clip: seq<real>, j: int): real {
    if start <= j < start + |clip| then clip[j - start] else 0.0
  }

  /** Output sample `j` of the mix of the first `n` notes. */
  function MixAt(starts: seq<int>, clips: seq<seq<real>>, n: nat, j: int): real
    requires n <= |starts| == |clips|
  {
    if n == 0 then 0.0 else MixAt(starts, clips, n - 1, j) + Contribution(starts[n - 1], clips[n - 1], j)
  }

  /** The first `total` samples of the mix of all notes. */
  function Mix(starts: seq<int>, clips: seq<seq<real>>, total: nat): (r: seq<real>)
    requires |starts| == |clips|
    ensures |r| == total
  {
    seq(total, j requires 0 <= j < total => MixAt(starts, clips, |clips|, j))
  }

  /** Where each note starts in the output: int(start_time * rate). */
  function StartSamples(notes: seq<Arpeggio.NoteEvent>, rate: nat): (r: seq<nat>)
    requires forall i :: 0 <= i < |notes| ==> notes[i].startTime >= 0.0
    ensures |r| == |notes|
    ensures forall i :: 0 <= i < |notes| ==> r[i] == SampleCount(notes[i].startTime, rate)
  {
    seq(|notes|, i requires 0 <= i < |notes| => SampleCount(notes[i].startTime, rate))
  }

  /** The mixing loop: each note is added into
      `[start, min(start + len, total))`, and skipped when it starts at or
      after the end of the buffer. */
  method MixDown(starts: seq<nat>, clips: seq<seq<real>>, total: nat) returns (out: seq<real>)
    requires |starts| == |clips|
    ensures out == Mix(starts, clips, total)
  {
    out := Constant(0.0, total);
    for i := 0 to |clips|
      invariant |out| == total
      invariant forall j :: 0 <= j < total ==> out[j] == MixAt(starts, clips, i, j)
    {
      var start := starts[i];
      if start < total {
        var end := Min((start + |clips[i]|) as real, total as real).Floor;
        var length := end - start;
        if length > 0 {
          for j := start to end
            invariant |out| == total
            invariant forall m :: 0 <= m < total ==>
                        out[m] == MixAt(starts, clips, i, m) + (if start <= m < j then clips[i][m - start] else 0.0)
          {
            out := out[j := out[j] + clips[i][j - start]];
          }
        }
      }
    }
  }

  /** The factor that takes a peak of `peak` to 0.8. */
  function Gain(peak: real): (g: real)
    requires peak > 0.0
    ensures g > 0.0 && peak * g == 0.8
  {
    0.8 / peak
  }

  /** Scale a non-silent buffer so its peak magnitude is 0.8; leave silence
      alone. The engine divides by the peak and then multiplies by 0.8; with
      exact arithmetic that is one multiplication by `Gain(peak)`
      (`NormalizeIsDivideThenScale`). */
  function Normalize(audio: seq<real>): (r: seq<real>)
    ensures |r| == |audio|
    ensures PeakAbs(audio) == 0.0 ==> r == audio
  {
    var peak := PeakAbs(audio);
    if peak > 0.0 then ScaleAll(audio, Gain(peak)) else audio
  }

  function ScaleAll(audio: seq<real>, g: real): (r: seq<real>)
    ensures |r| == |audio|
    ensures forall i :: 0 <= i < |audio| ==> r[i] == audio[i] * g
  {
    seq(|audio|, i requires 0 <= i < |audio| => audio[i] * g)
  }

  lemma NormalizeIsDivideThenScale(audio: seq<real>, i: nat)
    requires PeakAbs(audio) > 0.0 && i < |audio|
    ensures Normalize(audio)[i] == audio[i] / PeakAbs(audio) * 0.8
  {
    GainIsDivideThenScale(audio[i], PeakAbs(audio));
  }

  lemma GainIsDivideThenScale(a: real, p: real)
    requires p > 0.0
    ensures a * Gain(p) == a / p * 0.8
  {
    DivThenMul(a, p, 0.8);
  }

  /** Scaling a signal bounded by `p` by a positive gain `g` bounds it by `p * g`. */
  lemma ScaleAllBound(s: seq<real>, g: real, p: real, m: real)
    requires g > 0.0 && p * g == m
    requires forall j :: 0 <= j < |s| ==> Abs(s[j]) <= p
    ensures forall j :: 0 <= j < |s| ==> Abs(ScaleAll(s, g)[j]) <= m
  {
    forall j | 0 <= j < |s| ensures Abs(ScaleAll(s, g)[j]) <= m {
      ScaleAllBoundAt(s, g, p, j);
    }
  }

  lemma ScaleAllBoundAt(s: seq<real>, g: real, p: real, j: nat)
    requires g > 0.0 && j < |s| && Abs(s[j]) <= p
    ensures Abs(ScaleAll(s, g)[j]) <= p * g
  {
    ScaledBound(s[j], p, g);
  }

  /** A sample at magnitude `p` scales to magnitude `p * g`. */
  lemma ScaleAllAt(s: seq<real>, g: real, p: real, k: nat)
    requires g > 0.0 && k < |s| && Abs(s[k]) == p
    ensures Abs(ScaleAll(s, g)[k]) == p * g
  {
    AbsScale(s[k], g);
  }

  /** The peak is pinned by two facts: it bounds every sample and one
      sample reaches it. */
  lemma PeakIs(s: seq<real>, m: real, k: nat)
    requires k < |s| && Abs(s[k]) == m
    requires forall i :: 0 <= i < |s| ==> Abs(s[i]) <= m
    ensures PeakAbs(s) == m
  {
  }

  /** A non-silent buffer peaks at exactly 0.8 after normalisation, whatever
      its level was before: quiet mixes are boosted, not only loud ones cut. */
  lemma NormalizedPeak(audio: seq<real>)
    requires PeakAbs(audio) > 0.0
    ensures PeakAbs(Normalize(audio)) == 0.8
  {
    var p := PeakAbs(audio);
    var g := Gain(p);
    var k := LoudestIndex(audio);
    ScaleAllBound(audio, g, p, 0.8);
    ScaleAllAt(audio, g, p, k);
    PeakIs(ScaleAll(audio, g), 0.8, k);
  }

  /** `render_note` for every note in order: `None` as soon as one of
      them raises. `waves[i]` is the oscillator output for note `i`. */
  function RenderAll(notes: seq<Arpeggio.NoteEvent>, sampleRate: nat, o: Oscillator, waves: seq<seq<real>>)
    : (r: Option<seq<seq<real>>>)
    requires |waves| == |notes|
    requires forall i :: 0 <= i < |notes| ==>
               notes[i].duration >= 0.0 && |waves[i]| == SampleCount(notes[i].duration, sampleRate)
    ensures r.None? <==> exists i :: 0 <= i < |notes| && RenderNote(notes[i], sampleRate, o, waves[i]).None?
    ensures r.Some? ==> |r.value| == |notes|
    ensures r.Some? ==> forall i :: 0 <= i < |notes| ==> Some(r.value[i]) == RenderNote(notes[i], sampleRate, o, waves[i])
    decreases |notes|
  {
    if |notes| == 0 then Some([])
    else
      match RenderNote(notes[0], sampleRate, o, waves[0])
      case None => None
      case Some(first) =>
        var rest := RenderAll(notes[1..], sampleRate, o, waves[1..]);
        assert forall i :: 1 <= i < |notes| ==> notes[1..][i - 1] == notes[i] && waves[1..][i - 1] == waves[i];
        if rest.None? then None else Some([first] + rest.value)
  }

  /** `render_arpeggio`: nothing for a missing arpeggio or one without
      notes. Otherwise every note is rendered, and a note whose envelope
      (its oscillator's own or the default one) cannot be built raises
      `ValueError`; a buffer of int(duration * rate)
      samples with no sample at all raises `ValueError` at the peak search
      (`np.max` of an empty array); and otherwise the result is the
      normalised mix of the rendered notes, each from its start sample.
      `waves[i]` is the output of the oscillator `synthType` names for
      note `i`. */
  method RenderArpeggio(arp: Option<Arpeggio.Arpeggio>, synthType: string, waves: seq<seq<real>>, sampleRate: nat)
    returns (out: Outcome<seq<real>>)
    requires arp.Some? ==> |waves| == |arp.value.notes| && arp.value.duration >= 0.0
    requires arp.Some? ==> forall i :: 0 <= i < |arp.value.notes| ==>
               && arp.value.notes[i].startTime >= 0.0 && arp.value.notes[i].duration >= 0.0
               && |waves[i]| == SampleCount(arp.value.notes[i].duration, sampleRate)
    ensures arp.None? || |arp.value.notes| == 0 ==> out == Returned([])
    ensures arp.Some? && |arp.value.notes| > 0 ==>
              var notes := arp.value.notes;
              && (out.Raised? <==> RenderAll(notes, sampleRate, OscillatorFor(synthType), waves).None? || SampleCount(arp.value.duration, sampleRate) == 0)
              && (out.Raised? ==> out.error == "ValueError")
              && (out.Returned? ==>
                    && |out.value| == SampleCount(arp.value.duration, sampleRate)
                    && out.value == Normalize(Mix(StartSamples(notes, sampleRate), RenderAll(notes, sampleRate, OscillatorFor(synthType), waves).value,
                                                  |out.value|)))
  {
    if arp.None? || |arp.value.notes| == 0 {
      return Returned([]);
    }
    var a := arp.value;
    var rendered := RenderAll(a.notes, sampleRate, OscillatorFor(synthType), waves);
    if rendered.None? {
      return Raised("ValueError");
    }
    var total := SampleCount(a.duration, sampleRate);
    var starts := StartSamples(a.notes, sampleRate);
    var mixed := MixDown(starts, rendered.value, total);
    if total == 0 {
      return Raised("ValueError");
    }
    out := Returned(Normalize(mixed));
  }
}

=== FILE: tempo_synced.dfy ===
/** `TempoSyncedDelay`: a base delay of at most 4 s whose delay time follows
    a tempo and a note division, stretched by swing on straight and dotted
    notes; a tempo can also come from tapped times. Humanisation only
    advances a phase: the humanised delay is never used, so it never moves
    the read position. */
module TempoSynced {
  import opened Base
  import Sorting
  import BaseDelay

  const MaxDelay: real := 4.0

  /** The note divisions, in beats, in the order `get_available_divisions`
      lists them. */
  const DivisionNames: seq<string> :=
    ["1/32", "1/16", "1/8", "1/4", "1/2", "1/1", "3/4", "3/8", "1/16T", "1/8T", "1/4T", "1/8D", "1/4D", "1/2D"]

  function Division(name: string): (r: Option<real>)
    ensures r.Some? ==> r.value > 0.0
  {
    match name
    case "1/32" => Some(0.125)
    case "1/16" => Some(0.25)
    case "1/8" => Some(0.5)
    case "1/4" => Some(1.0)
    case "1/2" => Some(2.0)
    case "1/1" => Some(4.0)
    case "3/4" => Some(0.75)
    case "3/8" => Some(0.375)
    case "1/16T" => Some(0.167)
    case "1/8T" => Some(0.333)
    case "1/4T" => Some(0.667)
    case "1/8D" => Some(0.75)
    case "1/4D" => Some(1.5)
    case "1/2D" => Some(3.0)
    case _ => None
  }

  /** `get_available_divisions`: exactly the names the division map knows,
      fourteen of them, each once. */
  lemma AvailableDivisions(name: string)
    ensures name in DivisionNames <==> Division(name).Some?
    ensures |DivisionNames| == 14
    ensures forall i, j :: 0 <= i < j < |DivisionNames| ==> DivisionNames[i] != DivisionNames[j]
  {
  }

  datatype Tempo = Tempo(base: BaseDelay.Delay, bpm: real, division: string, swing: real,
                         humanize: real, humanizePhase: real, humanizeRate: real)

  predicate Valid(t: Tempo)
  {
    && BaseDelay.Valid(t.base)
    && t.base.settings.maxDelayTime == MaxDelay
    && 0.0 <= t.swing <= 1.0
    && 0.0 <= t.humanize <= 1.0
    && t.humanizeRate == 0.1
  }

  /** The factor swing stretches a delay by: none on triplets (names with
      a `T`) or without swing; otherwise 1 + 0.3 swing, or 1 + 0.45 swing on
      dotted notes (names with a `D`). */
  function SwingFactor(swing: real, name: string): (f: real)
    ensures swing <= 0.0 || 'T' in name ==> f == 1.0
    ensures 0.0 <= swing <= 1.0 ==> 1.0 <= f <= 1.45
  {
    if swing > 0.0 && 'T' !in name then
      var amount := swing * 0.3;
      1.0 + (if 'D' in name then amount * 1.5 else amount)
    else 1.0
  }

  /** The delay `_update_delay_time` computes for a known division: the
      beat `60 / bpm` times the division, times the swing factor. */
  function NoteDelay(bpm: real, multiplier: real, swingFactor: real): real
    requires bpm != 0.0
  {
    60.0 / bpm * multiplier * swingFactor
  }

  /** Doubling the tempo halves the note delay. */
  lemma DoubleTempoHalvesDelay(bpm: real, multiplier: real, swingFactor: real)
    requires bpm != 0.0
    ensures NoteDelay(2.0 * bpm, multiplier, swingFactor) * 2.0 == NoteDelay(bpm, multiplier, swingFactor)
  {
    assert 60.0 / (2.0 * bpm) * 2.0 == 60.0 / bpm;
  }

  /** `_update_delay_time`: for a known division the delay is set (and
      clamped to [0.001, 4]) from the tempo; an unknown one changes
      nothing. A tempo of 0 divides by zero, so the tempo is non-zero. */
  function UpdateDelay(t: Tempo): (r: Tempo)
    requires Valid(t) && t.bpm != 0.0
    ensures Valid(r) && r == t.(base := r.base)
    ensures Division(t.division).None? ==> r == t
    ensures Division(t.division).Some? ==>
              var want := NoteDelay(t.bpm, Division(t.division).value, SwingFactor(t.swing, t.division));
              && r.base == BaseDelay.SetDelayTime(t.base, want)
              && 0.001 <= r.base.settings.delayTime <= MaxDelay
              && (0.001 <= want <= MaxDelay ==> r.base.settings.delayTime == want)
  {
    match Division(t.division)
    case None => t
    case Some(k) => t.(base := BaseDelay.SetDelayTime(t.base, NoteDelay(t.bpm, k, SwingFactor(t.swing, t.division))))
  }

  /** The constructor: a base delay of 4 s, swing and humanise clamped, the
      delay computed from the tempo and division (an unknown division keeps
      the base delay's 0.5 s). The tempo is taken as given: a tempo of 0
      with a known division raises `ZeroDivisionError`. */
  function New(sampleRate: int, bpm: real, division: string, feedback: real, wetMix: real,
               swing: real, humanize: real): (r: Outcome<Tempo>)
    requires sampleRate > 0
    ensures r.Raised? <==> bpm == 0.0 && Division(division).Some?
    ensures r.Returned? ==> Valid(r.value) && r.value.bpm == bpm && r.value.division == division
    ensures r.Returned? ==> r.value.humanizePhase == 0.0
    ensures r.Returned? && Division(division).None? ==> r.value.base.settings.delayTime == 0.5
    ensures r.Returned? && 0.0 <= swing <= 1.0 ==> r.value.swing == swing
  {
    BaseDelay.WholeSeconds(4, sampleRate);
    var t := Tempo(BaseDelay.New(sampleRate, MaxDelay, feedback, wetMix), bpm, division,
                   Clip(swing, 0.0, 1.0), Clip(humanize, 0.0, 1.0), 0.0, 0.1);
    if Division(division).None? then Returned(t)
    else if bpm == 0.0 then Raised("ZeroDivisionError")
    else Returned(UpdateDelay(t))
  }

  /** `set_tempo`: the tempo clamped to [20, 300], then the delay
      recomputed. */
  function SetTempo(t: Tempo, bpm: real): (r: Tempo)
    requires Valid(t)
    ensures Valid(r) && 20.0 <= r.bpm <= 300.0
    ensures 20.0 <= bpm <= 300.0 ==> r.bpm == bpm
    ensures bpm < 20.0 ==> r.bpm == 20.0
    ensures bpm > 300.0 ==> r.bpm == 300.0
    ensures r == UpdateDelay(t.(bpm := r.bpm))
  {
    UpdateDelay(t.(bpm := Max(20.0, Min(300.0, bpm))))
  }

  /** Setting the same tempo twice is setting it once. */
  lemma SetTempoIdempotent(t: Tempo, bpm: real)
    requires Valid(t)
    ensures SetTempo(SetTempo(t, bpm), bpm) == SetTempo(t, bpm)
  {
    var once := SetTempo(t, bpm);
    var s := t.base.settings;
    var k := Division(t.division);
    if k.Some? {
      var want := NoteDelay(once.bpm, k.value, SwingFactor(t.swing, t.division));
      assert once.base == BaseDelay.SetDelayTime(t.base, want);
      assert SetTempo(once, bpm).base == BaseDelay.SetDelayTime(once.base, want);
    }
  }

  /** `set_note_division`: an unknown name changes nothing; a known one is
      taken and the delay recomputed. */
  function SetNoteDivision(t: Tempo, name: string): (r: Tempo)
    requires Valid(t) && t.bpm != 0.0
    ensures Valid(r)
    ensures Division(name).None? ==> r == t
    ensures Division(name).Some? ==> r == UpdateDelay(t.(division := name))
  {
    if Division(name).Some? then UpdateDelay(t.(division := name)) else t
  }

  /** `set_swing` and `set_humanize`: clamped to [0, 1]; neither recomputes
      the delay, so a new swing takes effect at the next tempo or division
      change. */
  function SetSwing(t: Tempo, swing: real): (r: Tempo)
    requires Valid(t)
    ensures Valid(r) && r == t.(swing := r.swing)
    ensures 0.0 <= swing <= 1.0 ==> r.swing == swing
  {
    t.(swing := Clip(swing, 0.0, 1.0))
  }

  function SetHumanize(t: Tempo, humanize: real): (r: Tempo)
    requires Valid(t)
    ensures Valid(r) && r == t.(humanize := r.humanize)
    ensures 0.0 <= humanize <= 1.0 ==> r.humanize == humanize
  {
    t.(humanize := Clip(humanize, 0.0, 1.0))
  }

  /** The identity key, to sort reals by value. */
  function Value(x: real): real
  {
    x
  }

  /** numpy's median: the middle of the sorted values, or the mean of the
      two middle ones for an even count. */
  function Median(s: seq<real>): real
    requires |s| > 0
  {
    var sorted := Sorting.SortBy(s, Value);
    var n := |sorted|;
    if n % 2 == 1 then sorted[n / 2] else (sorted[n / 2 - 1] + sorted[n / 2]) * 0.5
  }

  /** Every element of a sorted copy is one of the original values. */
  lemma SortedElement(s: seq<real>, i: nat)
    requires i < |s|
    ensures Sorting.SortBy(s, Value)[i] in s
  {
    var sorted := Sorting.SortBy(s, Value);
    assert sorted[i] in multiset(sorted);
  }

  /** The median lies within any open bounds all the values lie within. */
  lemma MedianWithin(s: seq<real>, lo: real, hi: real)
    requires |s| > 0 && forall x :: x in s ==> lo < x < hi
    ensures lo < Median(s) < hi
  {
    var n := |s|;
    SortedElement(s, n / 2);
    if n % 2 == 0 {
      SortedElement(s, n / 2 - 1);
    }
  }

  /** The median of values that are all `p` is `p`. */
  lemma MedianOfConstant(s: seq<real>, p: real)
    requires |s| > 0 && forall x :: x in s ==> x == p
    ensures Median(s) == p
  {
    var n := |s|;
    SortedElement(s, n / 2);
    if n % 2 == 0 {
      SortedElement(s, n / 2 - 1);
    }
  }

  /** The gaps between consecutive tap times. */
  function Gaps(times: seq<real>): (g: seq<real>)
    requires |times| >= 1
    ensures |g| == |times| - 1
    ensures forall i :: 0 <= i < |g| ==> g[i] == times[i + 1] - times[i]
  {
    seq(|times| - 1, i requires 0 <= i < |times| - 1 => times[i + 1] - times[i])
  }

  /** A gap `tap_tempo` keeps: strictly between 0.1 s and 4 s. */
  predicate Plausible(gap: real)
  {
    0.1 < gap < 4.0
  }

  /** The gaps `tap_tempo` keeps, in tap order. */
  function PlausibleGaps(times: seq<real>): (kept: seq<real>)
    requires |times| >= 1
    ensures forall x :: x in kept ==> Plausible(x)
  {
    Filter(Gaps(times), Plausible)
  }

  /** Some gap is kept exactly when some consecutive pair of taps is
      plausibly spaced. */
  lemma KeptIffPlausiblePair(times: seq<real>)
    requires |times| >= 1
    ensures |PlausibleGaps(times)| > 0 <==> exists i :: 0 <= i < |times| - 1 && Plausible(times[i + 1] - times[i])
  {
    if |PlausibleGaps(times)| > 0 {
      KeptGapHasPair(times);
    }
    if exists i :: 0 <= i < |times| - 1 && Plausible(times[i + 1] - times[i]) {
      var i :| 0 <= i < |times| - 1 && Plausible(times[i + 1] - times[i]);
      PairIsKept(times, i);
    }
  }

  lemma KeptGapHasPair(times: seq<real>)
    requires |times| >= 1 && |PlausibleGaps(times)| > 0
    ensures exists i :: 0 <= i < |times| - 1 && Plausible(times[i + 1] - times[i])
  {
    var g, kept := Gaps(times), PlausibleGaps(times);
    var x := kept[0];
    assert x in g;
    var i :| 0 <= i < |g| && g[i] == x;
    assert Plausible(times[i + 1] - times[i]);
  }

  lemma PairIsKept(times: seq<real>, i: nat)
    requires i < |times| - 1 && Plausible(times[i + 1] - times[i])
    ensures times[i + 1] - times[i] in PlausibleGaps(times)
  {
    var g := Gaps(times);
    assert g[i] in g;
  }

  /** `tap_tempo`: with fewer than two taps, or no plausible gap, nothing
      changes; otherwise the tempo is set to 60 over the median plausible
      gap, which lies between 0.1 s and 4 s (then clamped by `set_tempo`). */
  function TapTempo(t: Tempo, times: seq<real>): (r: Tempo)
    requires Valid(t)
    ensures Valid(r)
    ensures |times| < 2 || |PlausibleGaps(times)| == 0 ==> r == t
    ensures |times| >= 2 && |PlausibleGaps(times)| > 0 ==>
              && 0.1 < Median(PlausibleGaps(times)) < 4.0
              && r == SetTempo(t, 60.0 / Median(PlausibleGaps(times)))
  {
    if |times| < 2 then t
    else
      var kept := PlausibleGaps(times);
      if |kept| == 0 then t
      else
        MedianWithin(kept, 0.1, 4.0);
        SetTempo(t, 60.0 / Median(kept))
  }

  /** Taps evenly spaced by a plausible gap `p` set the tempo to 60 / p,
      clamped to [20, 300]. */
  lemma SteadyTapsGiveTheirTempo(t: Tempo, times: seq<real>, p: real)
    requires Valid(t) && |times| >= 2 && Plausible(p)
    requires forall i :: 0 <= i < |times| - 1 ==> times[i + 1] - times[i] == p
    ensures TapTempo(t, times) == SetTempo(t, 60.0 / p)
  {
    var g := Gaps(times);
    var kept := PlausibleGaps(times);
    assert g[0] in g;
    assert p in kept;
    forall x | x in kept ensures x == p {
      var i :| 0 <= i < |g| && g[i] == x;
    }
    MedianOfConstant(kept, p);
  }

  /** The humanisation phase: advanced by rate / sample rate while
      humanise is on, wrapping once past 1. */
  function NextHumanizePhase(t: Tempo): real
    requires Valid(t)
  {
    if t.humanize > 0.0 then
      var p := t.humanizePhase + t.humanizeRate / t.base.settings.sampleRate as real;
      if p >= 1.0 then p - 1.0 else p
    else t.humanizePhase
  }

  datatype Processed = Processed(state: Tempo, output: real)

  /** `process_sample`: the base delay's read (whatever its modulation),
      output dry*x + wet*delayed, x + feedback*delayed written; then the
      humanisation phase, not the modulation phase, advances. */
  function ProcessSample(t: Tempo, x: real, sine: real -> real): (r: Processed)
    requires Valid(t)
    ensures Valid(r.state)
    ensures r.state == t.(base := r.state.base, humanizePhase := r.state.humanizePhase)
    ensures r.state.base.settings == t.base.settings && r.state.base.modulationPhase == t.base.modulationPhase
  {
    var d := t.base;
    var e := BaseDelay.Delayed(d, sine);
    var ring := BaseDelay.ProcessSample(d, x, sine).state.ring;
    Processed(t.(base := d.(ring := ring), humanizePhase := NextHumanizePhase(t)),
              BaseDelay.Mix(d.settings, x, e))
  }

  /** The sample law is the base delay's: the same output and the same
      buffer write; with no modulation rate the base state is exactly the
      base delay's next state. */
  lemma FollowsBaseDelay(t: Tempo, x: real, sine: real -> real)
    requires Valid(t)
    ensures ProcessSample(t, x, sine).output == BaseDelay.ProcessSample(t.base, x, sine).left
    ensures ProcessSample(t, x, sine).state.base.ring == BaseDelay.ProcessSample(t.base, x, sine).state.ring
    ensures t.base.settings.modulationRate == 0.0 ==>
              ProcessSample(t, x, sine).state.base == BaseDelay.ProcessSample(t.base, x, sine).state
  {
  }

  /** `sync_to_external_clock`: a clock reading above the threshold resets
      the humanisation phase; anything else changes nothing. */
  function SyncToExternalClock(t: Tempo, clockSignal: real, clockThreshold: real): (r: Tempo)
    requires Valid(t)
    ensures Valid(r) && r == t.(humanizePhase := r.humanizePhase)
    ensures clockSignal > clockThreshold ==> r.humanizePhase == 0.0
    ensures clockSignal <= clockThreshold ==> r == t
  {
    if clockSignal > clockThreshold then t.(humanizePhase := 0.0) else t
  }

  /** A clock pulse is inaudible: the next output and buffer write are the
      same with or without it. */
  lemma ClockPulseIsInaudible(t: Tempo, clockSignal: real, clockThreshold: real, x: real, sine: real -> real)
    requires Valid(t)
    ensures var u := SyncToExternalClock(t, clockSignal, clockThreshold);
            && ProcessSample(u, x, sine).output == ProcessSample(t, x, sine).output
            && ProcessSample(u, x, sine).state.base == ProcessSample(t, x, sine).state.base
  {
  }

  /** Humanisation never changes what is heard or stored: only its phase
      differs. */
  lemma HumanizeIsInaudible(t: Tempo, x: real, sine: real -> real, humanize: real, phase: real)
    requires Valid(t) && 0.0 <= humanize <= 1.0
    ensures var u := t.(humanize := humanize, humanizePhase := phase);
            && ProcessSample(u, x, sine).output == ProcessSample(t, x, sine).output
            && ProcessSample(u, x, sine).state.base == ProcessSample(t, x, sine).state.base
  {
  }
}
